=== FILE: README.md ===
# ProxyCast core in Dafny

This project models the rule-bearing core of ProxyCast, a desktop API proxy that manages credentials for several AI providers. The model is written in Dafny, and properties of it are proved. It covers these parts of the system:

- **Plugin SDK.** The permission gate a credential plugin passes through, the SQL allow-list, the HTTP-method whitelist, the Base64 placeholder "crypto" (section 4 of RFC 4648), and the JSON-RPC 2.0 dispatcher that answers a plugin's calls.
- **OAuth plugin loader.** Discovery of plugin directories and manifests, the platform key and binary lookup, skip-on-failure loading, and the metadata and payload rules of the out-of-process plugin adapter.
- **Name codecs.** The standard protocols, the provider kinds and the stored credential statuses.
- **Plugin credential store.** Modelled as a map of rows instead of SQL.
- **Unified credential manager.** Selection with failover, success and failure reports, cooldown clearing and the orchestrator import. The load balancer and the risk controller are abstract collaborators.
- **Server middleware.** The idempotency store and the sliding-window rate limiter, each driven by an explicit clock.
- **Provider helpers.** Token-validity windows, URL construction, Qwen model fallback, the Gemini refresh and project-discovery early exits, and the OpenAI-to-Anthropic request and response conversion of the custom Claude provider.
- **General chat commands.** Sessions, messages, the stop flag, the simulated stream, and title generation and cleaning.
- **Voice input.** ASR credential list management, credential selection with cloud-to-local fallback, the PCM16 little-endian audio codec and the Whisper model files.
- **Smaller pieces.** The MCP tool-format converters, SKILL.md frontmatter parsing and skill loading, token masking and the loopback test, the legacy Qwen credential commands, and the agent's system-prompt builder.

Each source file is one Dafny module. Three modules are shared helpers:

- `Wrappers` provides `Option` and `Result`.
- `Text` provides the string operations of Rust's `str` that the source uses.
- `Json` models `serde_json::Value`.

`Clock`, `Decimal` and `Encoding` supply durations, decimal text, Base64 and UTF-8.

Stateful components are values threaded through pure functions. Time, identifiers, randomness, file contents and the answers of unseen collaborators are parameters.

## Model

| member | source | states |
|---|---|---|
| PluginSdk.ErrorText | src-tauri/src/credential/sdk.rs:29-41 | the text of every error ends with its message, after a prefix naming its kind |
| PluginSdk.NewContext | src-tauri/src/credential/sdk.rs:140-148 | a new context keeps the plugin id and permissions and has no database callback |
| PluginSdk.WithDatabase | src-tauri/src/credential/sdk.rs:150-153 | attaching a database callback keeps the plugin id and permissions |
| PluginSdk.CheckPermission | src-tauri/src/credential/sdk.rs:156-165 | a check passes exactly when the permission is in the plugin's list, and otherwise fails with a permission-denied error |
| PluginSdk.PluginPrefix | src-tauri/src/credential/sdk.rs:240-250 | the plugin's table prefix is "plugin_", the id with every hyphen turned into an underscore, and a dot; it contains no hyphen |
| PluginSdk.UppercaseIdNeverMatches | src-tauri/src/credential/sdk.rs:247-251 | a plugin id with an upper-case ASCII letter never matches its own prefix, whatever the SQL, because only the SQL is lower-cased |
| PluginSdk.PluginTableRecognised | src-tauri/src/credential/sdk.rs:247-251 | for an id without upper-case letters, SQL naming the plugin's prefix is recognised in whatever letter case it is written |
| PluginSdk.AllowListExamples | src-tauri/src/credential/sdk.rs:763-777 | the two public tables and the plugin's own prefix are allowed, while a query on `api_keys` and one on another plugin's `plugin_other.data` are refused |
| PluginSdk.OtherTableRefused | src-tauri/src/credential/sdk.rs:763-777 | for the plugin "kiro-provider", the query `SELECT * FROM api_keys`, which names no public table and not the plugin's own prefix, is refused (a fixed example, not a general statement) |
| PluginSdk.OtherPluginRefused | src-tauri/src/credential/sdk.rs:763-777 | for the plugin "kiro-provider", the query `SELECT * FROM plugin_other.data`, on another plugin's prefixed table, is refused (a fixed example, not a general statement) |
| PluginSdk.DatabaseQuery | src-tauri/src/credential/sdk.rs:172-200 | the permission is checked first and then the database; a statement that is not a SELECT and a SELECT on a table outside the allow-list are each refused as permission denied with their own message; a permitted query is the callback's answer |
| PluginSdk.QueryGate | src-tauri/src/credential/sdk.rs:180-199 | without a database the query fails with "Database not initialized"; a non-SELECT and a disallowed table are refused with their own messages; otherwise the result is what the callback returns |
| PluginSdk.DatabaseExecute | src-tauri/src/credential/sdk.rs:204-225 | a statement is accepted exactly with the write permission, a database and a plugin-owned table, and then reports zero rows; each missing condition gives its own error |
| PluginSdk.HttpRequestOp | src-tauri/src/credential/sdk.rs:258-320 | the permission is checked first, then the upper-cased method must be one of the six supported verbs; only then is the transport consulted |
| PluginSdk.CryptoEncryptOp | src-tauri/src/credential/sdk.rs:328-335 | encryption succeeds exactly with the permission, and its result decodes to the UTF-8 bytes of the text |
| PluginSdk.CryptoDecryptOp | src-tauri/src/credential/sdk.rs:338-349 | without the permission the call is denied; text that is not Base64, and Base64 whose bytes are not UTF-8, are crypto errors; a result is the text whose UTF-8 bytes the input encodes |
| PluginSdk.CryptoRoundTrip | src-tauri/src/credential/sdk.rs:328-349 | decrypting what was encrypted gives the original text |
| PluginSdk.DecryptedEncryptsBack | src-tauri/src/credential/sdk.rs:328-349 | whatever decrypts is exactly the encryption of its plaintext |
| PluginSdk.NotificationOp | src-tauri/src/credential/sdk.rs:356-380 | each notification level succeeds exactly with the notification permission |
| PluginSdk.EventEmitOp | src-tauri/src/credential/sdk.rs:384-398 | emitting an event succeeds exactly with the event permission |
| PluginSdk.StorageGetOp | src-tauri/src/credential/sdk.rs:401-407 | a read succeeds exactly with the database-read permission and finds nothing |
| PluginSdk.StorageSetOp | src-tauri/src/credential/sdk.rs:409-415 | a write succeeds exactly with the database-write permission |
| PluginSdk.StorageDeleteOp | src-tauri/src/credential/sdk.rs:417-423 | a deletion succeeds exactly with the database-write permission |
| SdkRpc.Success | src-tauri/src/credential/sdk.rs:467-475 | a success answer carries version "2.0", the request id and the result, and no error |
| SdkRpc.Failure | src-tauri/src/credential/sdk.rs:477-488 | an error answer carries version "2.0", the request id and the code and message, and no result |
| SdkRpc.FieldFromObject | src-tauri/src/credential/sdk.rs:540-735 | a field read by name is the member when present and well-typed, and absent only when the field has a default |
| SdkRpc.FromObject | src-tauri/src/credential/sdk.rs:540-735 | a parameter object decodes exactly when every field is present and well-typed or absent with a default, and each field then holds its member |
| SdkRpc.FromArray | src-tauri/src/credential/sdk.rs:540-735 | a parameter array decodes exactly when each element fits its field in order and every missing trailing field has a default |
| SdkRpc.DecodeFields | src-tauri/src/credential/sdk.rs:540-735 | every decoded field passed its type check, and every absent field has a default |
| SdkRpc.Perform | src-tauri/src/credential/sdk.rs:540-735 | a call whose permission is missing fails as permission denied; each call answers its operation's error unchanged or its value in that method's payload (rows, affected count, response, encrypted or decrypted text), and the notification, event and storage calls succeed exactly with the permission |
| SdkRpc.PerformData | src-tauri/src/credential/sdk.rs:540-642 | the database, HTTP and crypto handlers: a missing permission fails as permission denied, and otherwise each answers its operation's error unchanged or its value in that method's payload |
| SdkRpc.PerformHost | src-tauri/src/credential/sdk.rs:644-735 | the notification, event and storage handlers succeed exactly when the call's permission is granted, with an empty object, or a null value for `storage.get` |
| SdkRpc.PermittedQueryAnswersRows | src-tauri/src/credential/sdk.rs:172-200 | a permitted SELECT on an allowed table answers with the payload of exactly the rows the database returned |
| SdkRpc.RefusedQueryAnswersRefusal | src-tauri/src/credential/sdk.rs:180-199 | a statement that is not a SELECT, or that names a table outside the allow-list, is answered with a permission-denied error |
| SdkRpc.Dispatch | src-tauri/src/credential/sdk.rs:505-537 | every answer is well formed and echoes the id; an unknown method, undecodable parameters and a failing operation map to the three JSON-RPC error codes, and a result comes exactly from a decoded call that succeeded |
| SdkRpc.HandleAsWritten | src-tauri/src/credential/sdk.rs:589-606 | the handler as written answers every request with a well-formed response echoing its id |
| SdkRpc.Handle | src-tauri/src/credential/sdk.rs:50-72 | the corrected handler answers every request with a well-formed response echoing its id |
| SdkRpc.HandlersAgreeWithOptions | src-tauri/src/credential/sdk.rs:589-606 | the two handlers answer alike except for an http.request call without an options member |
| SdkRpc.BareUrlDecodes | src-tauri/src/credential/sdk.rs:591-595 | parameters holding only a URL decode, with the options absent |
| SdkRpc.DataDecodes | src-tauri/src/credential/sdk.rs:608-642 | the crypto parameters holding only the data decode |
| SdkRpc.DispatchOutcome | src-tauri/src/credential/sdk.rs:505-537 | a decoded call is answered with its result when it succeeds and with a server error carrying its error text when it fails |
| SdkRpc.EmptyMethodRejected | src-tauri/src/credential/sdk.rs:266-280 | a request whose method is empty is refused as unsupported |
| SdkRpc.BareUrlRejectedAsWritten | src-tauri/src/credential/sdk.rs:589-606 | as written, an http.request with only a URL is answered with an unsupported-method server error |
| SdkRpc.BareUrlSendsGet | src-tauri/src/credential/sdk.rs:50-72 | corrected, an http.request with only a URL sends a GET with the 30-second timeout and answers with the response or the HTTP error |
| SdkRpc.MissingPermissionDenied | src-tauri/src/credential/sdk.rs:505-735 | a known method whose permission is missing is answered with a server error saying permission was denied |
| SdkRpc.EncryptAnswer | src-tauri/src/credential/sdk.rs:608-624 | with the permission, crypto.encrypt answers with the encrypted text |
| SdkRpc.DecryptAnswer | src-tauri/src/credential/sdk.rs:626-642 | when decryption succeeds, crypto.decrypt answers with the decrypted text |
| SdkRpc.HandlerCryptoRoundTrip | src-tauri/src/credential/sdk.rs:608-642 | the answer of crypto.encrypt, sent back through crypto.decrypt, gives the original text |
| OAuthPluginLoader.ScanEntries | src-tauri/src/credential/oauth_plugin_loader.rs:168-187 | the accepted entries are exactly the listed paths that are directories holding a readable OAuth-provider manifest, and nothing else |
| OAuthPluginLoader.Scan | src-tauri/src/credential/oauth_plugin_loader.rs:160-190 | only a directory that cannot be listed is an I/O error; otherwise the result holds exactly the listed entries that are OAuth-provider plugin directories, other entries being skipped silently |
| OAuthPluginLoader.LoadManifest | src-tauri/src/credential/oauth_plugin_loader.rs:193-211 | a manifest loads exactly when it can be read, parses and declares the OAuth-provider type; the result is the parsed manifest; an initialisation error with a readable file means the file parsed but had the wrong type |
| OAuthPluginLoader.ScannedManifestLoads | src-tauri/src/credential/oauth_plugin_loader.rs:160-211 | every directory the scan returns has a manifest that loads |
| OAuthPluginLoader.PlatformKey | src-tauri/src/credential/oauth_plugin_loader.rs:319-328 | the five release platforms get their fixed keys, and every key starts with the operating system and a hyphen |
| OAuthPluginLoader.GenericPlatformKey | src-tauri/src/credential/oauth_plugin_loader.rs:319-328 | an architecture outside the release table gets the key "<os>-<arch>" |
| OAuthPluginLoader.BinaryName | src-tauri/src/credential/oauth_plugin_loader.rs:256-264 | the binary is the platform's entry of the binary section when there is one, and the manifest's entry otherwise |
| OAuthPluginLoader.BinaryCandidates | src-tauri/src/credential/oauth_plugin_loader.rs:267-271 | the binary is looked for in three places, in order: under bin/, in the plugin directory, and the manifest's entry under bin/; each is joined as `Path::join` joins, so an absolute binary name is itself the first two candidates and an absolute entry is itself the third |
| OAuthPluginLoader.JoinPathShape | src-tauri/src/credential/oauth_plugin_loader.rs:268-270 | an absolute name replaces the directory; otherwise the result starts with the directory and ends with the name, with one "/" between them when the directory does not already end in one |
| OAuthPluginLoader.FirstExisting | src-tauri/src/credential/oauth_plugin_loader.rs:273-277 | the result is the first path that exists, and none exactly when no path exists |
| OAuthPluginLoader.FindBinary | src-tauri/src/credential/oauth_plugin_loader.rs:246-283 | the binary found is the first existing candidate; when none exists the error names the binary and the platform |
| OAuthPluginLoader.AbsoluteBinaryFound | src-tauri/src/credential/oauth_plugin_loader.rs:266-277 | an absolute binary name that exists is found as it is, whatever the plugin directory |
| OAuthPluginLoader.RelativeBinaryUnderBin | src-tauri/src/credential/oauth_plugin_loader.rs:251-277 | a relative binary name present under the plugin's bin/ directory is found there first |
| OAuthPluginLoader.LoadConfig | src-tauri/src/credential/oauth_plugin_loader.rs:228-237 | when no `config.json` exists the configuration is the empty object; an unreadable file, or a directory of that name, is an I/O error; a readable file gives its parsed value, or JSON null when it does not parse |
| OAuthPluginLoader.ConfigDirectoryFails | src-tauri/src/credential/oauth_plugin_loader.rs:228-237 | a directory named `config.json` exists, so reading it is attempted and fails with an I/O error |
| OAuthPluginLoader.Load | src-tauri/src/credential/oauth_plugin_loader.rs:214-243 | a plugin loads exactly when its manifest, its binary and its configuration do, and then carries all three; a manifest failure is passed on as it is |
| OAuthPluginLoader.LoadedId | src-tauri/src/credential/oauth_plugin_loader.rs:295-297 | a directory has a loaded id exactly when its plugin loads |
| OAuthPluginLoader.RegisterEach | src-tauri/src/credential/oauth_plugin_loader.rs:294-306 | registration keeps the ids already loaded at the front and adds at most one id per outcome, each of them a successful load |
| OAuthPluginLoader.RegisterEachSnoc | src-tauri/src/credential/oauth_plugin_loader.rs:294-306 | one more directory pushes its id onto the list exactly when it loaded and the registry accepted it |
| OAuthPluginLoader.RegisterEachIsLoop | src-tauri/src/credential/oauth_plugin_loader.rs:294-306 | registering the outcomes front to back builds the same list as the loop, defined from its last iteration backwards |
| OAuthPluginLoader.AcceptedPrefix | src-tauri/src/credential/oauth_plugin_loader.rs:294-306 | the list after the first directories is a prefix of the final list, so later iterations never remove or reorder ids |
| OAuthPluginLoader.AcceptedKept | src-tauri/src/credential/oauth_plugin_loader.rs:294-306 | a directory that loaded and whose registration was accepted has its id in the final list |
| OAuthPluginLoader.LoadOutcomes | src-tauri/src/credential/oauth_plugin_loader.rs:294-306 | there is one load outcome per scanned directory, in order |
| OAuthPluginLoader.LoadAll | src-tauri/src/credential/oauth_plugin_loader.rs:286-310 | only a failing scan fails; otherwise the ids are exactly the list the loading loop builds over the scanned directories, no more than were scanned, each the id of a scanned directory that loaded |
| OAuthPluginLoader.LoadAllKeepsAccepted | src-tauri/src/credential/oauth_plugin_loader.rs:286-310 | every scanned directory that loads and whose registration is accepted has its id returned |
| OAuthPluginLoader.RegisterEachAllSucceed | src-tauri/src/credential/oauth_plugin_loader.rs:294-306 | when every load succeeds and every registration is accepted, every id comes back in order |
| OAuthPluginLoader.AcceptedAllSucceed | src-tauri/src/credential/oauth_plugin_loader.rs:294-306 | the loading loop over directories that all load, with a registry that accepts everything, pushes every id in scan order |
| OAuthPluginLoader.RegisteredWereLoaded | src-tauri/src/credential/oauth_plugin_loader.rs:294-306 | every registered id is the id of a scanned directory that loaded |
| OAuthPluginLoader.AsPlugin | src-tauri/src/credential/oauth_plugin_loader.rs:400-425 | the plugin view takes id, display name, version and description from the manifest, is always in the OAuth tab, uses the manifest's protocol or Anthropic when that name is unknown, and uses one protocol for every model |
| OAuthPluginLoader.CredentialSchemaForAuth | src-tauri/src/credential/oauth_plugin_loader.rs:456-463 | the schema is the manifest's entry for the authentication type, or JSON null when there is none |
| OAuthPluginLoader.SupportedAuthTypes | src-tauri/src/credential/oauth_plugin_loader.rs:427-454 | there is one entry per listed authentication type, in order, named by its id, in the OAuth tab, described by its schema's description string or the empty text |
| OAuthPluginLoader.ModelFamilies | src-tauri/src/credential/oauth_plugin_loader.rs:498-510 | there is one family per supported-model pattern, in order, named after the pattern, with no tier and no description |
| OAuthPluginLoader.LiteralMatch | src-tauri/src/credential/oauth_plugin_loader.rs:517-526 | a pattern without `*` matches exactly itself |
| OAuthPluginLoader.PrefixMatch | src-tauri/src/credential/oauth_plugin_loader.rs:517-526 | a pattern ending in `*` matches exactly the models starting with the rest of the pattern |
| OAuthPluginLoader.StarMatchesAll | src-tauri/src/credential/oauth_plugin_loader.rs:517-526 | the pattern `*` matches every model |
| OAuthPluginLoader.SupportsModel | src-tauri/src/credential/oauth_plugin_loader.rs:517-526 | a model is supported exactly when some supported-model pattern matches it |
| OAuthPluginLoader.CreateCredentialParams | src-tauri/src/credential/oauth_plugin_loader.rs:481-489 | the parameters carry the authentication type and the configuration |
| OAuthPluginLoader.CreateCredential | src-tauri/src/credential/oauth_plugin_loader.rs:476-496 | a failed call is passed on; otherwise the credential id is the reply's "credential_id" string, and its absence is the invalid-id configuration error |
| OAuthPluginLoader.ParseCredentialConfig | src-tauri/src/credential/oauth_plugin_loader.rs:465-474 | parsing a credential configuration always fails with a configuration error |
| OAuthPluginLoader.ReplaceIfPresent | src-tauri/src/credential/oauth_plugin_loader.rs:589-604 | a failed call is passed on; the payload is replaced by the reply's member when there is one and kept otherwise |
| OAuthPluginLoader.TransformRequest | src-tauri/src/credential/oauth_plugin_loader.rs:589-604 | the request afterwards is either the original or the reply's "request" member |
| OAuthPluginLoader.TransformResponse | src-tauri/src/credential/oauth_plugin_loader.rs:606-621 | the response afterwards is either the original or the reply's "response" member |
| OAuthPluginLoader.ApplyRiskControl | src-tauri/src/credential/oauth_plugin_loader.rs:623-643 | the request afterwards is either the original or the reply's "request" member |
| OAuthPluginLoader.SimulatedBridge | src-tauri/src/credential/oauth_plugin_loader.rs:365-397 | with the process bridge answering the empty object, the transforms leave the payload unchanged and no credential can be created |
| ProviderTypes.ProviderName | src-tauri/src/app/types.rs:16-63 | every display name is lower case and equals the serialised name |
| ProviderTypes.KindOfSpelling | src-tauri/src/app/types.rs:68-87 | a spelling names a kind exactly when it is one of that kind's accepted spellings |
| ProviderTypes.ParseProvider | src-tauri/src/app/types.rs:66-88 | after ASCII lower-casing, a name parses exactly when it is an accepted spelling of some kind, and otherwise the error quotes the input as given |
| ProviderTypes.SpellingsDisjoint | src-tauri/src/app/types.rs:68-87 | no spelling is accepted for two different kinds |
| ProviderTypes.ProviderNameInjective | src-tauri/src/app/types.rs:43-63 | distinct kinds display differently |
| ProviderTypes.ProviderRoundTrip | src-tauri/src/app/types.rs:43-88 | parsing the display name of a kind gives the kind back |
| ProviderTypes.ParseIgnoresCase | src-tauri/src/app/types.rs:68-69 | parsing ignores ASCII letter case |
| ProviderTypes.HyphenAliases | src-tauri/src/app/types.rs:82-83 | "azure-openai" and "aws-bedrock" parse to the Azure and Bedrock kinds |
| ProviderTypes.ParseByName | src-tauri/src/app/types.rs:66-88 | any input whose lower-casing is a display name parses to that kind |
| ProviderTypes.ParseExamples | src-tauri/src/app/types.rs:130-138 | "KIRO", "Gemini" and "VERTEX" parse to their kinds |
| ProviderTypes.ParseRejectsExample | src-tauri/src/app/types.rs:139 | "invalid" is rejected with an error quoting it |
| CredentialPlugin.ProtocolName | src-tauri/src/credential/plugin.rs:300-308 | every protocol's wire name is non-empty and lower case |
| CredentialPlugin.ParseProtocol | src-tauri/src/credential/plugin.rs:310-319 | after ASCII lower-casing, a name parses exactly when it is some protocol's wire name |
| CredentialPlugin.ProtocolNameInjective | src-tauri/src/credential/plugin.rs:300-308 | distinct protocols have distinct wire names |
| CredentialPlugin.ProtocolRoundTrip | src-tauri/src/credential/plugin.rs:300-319 | parsing a protocol's wire name gives the protocol back |
| CredentialPlugin.ParseIgnoresCase | src-tauri/src/credential/plugin.rs:310-311 | parsing ignores ASCII letter case |
| CredentialPlugin.ProtocolExamples | src-tauri/src/credential/plugin.rs:518-531 | "anthropic" and "OPENAI" parse and "unknown" does not |
| CredentialPlugin.Minimal | src-tauri/src/credential/plugin.rs:336-448 | a plugin that overrides nothing has no description, no per-model protocol, no category and no configuration of its own |
| CredentialPlugin.Description | src-tauri/src/credential/plugin.rs:347-349 | the description is empty unless the plugin gives one |
| CredentialPlugin.TargetProtocolForModel | src-tauri/src/credential/plugin.rs:355-357 | without an override, every model uses the plugin's target protocol |
| CredentialPlugin.UiCategory | src-tauri/src/credential/plugin.rs:360-362 | without an override, the category is the OAuth tab |
| CredentialPlugin.PluginConfigSchema | src-tauri/src/credential/plugin.rs:440-442 | without an override, the configuration schema is the empty object |
| CredentialPlugin.PluginConfig | src-tauri/src/credential/plugin.rs:445-447 | without an override, the configuration is the empty object |
| CredentialPlugin.DefaultProtocolIsFixed | src-tauri/src/credential/plugin.rs:355-357 | a plugin that keeps the default uses one protocol for every model |
| CredentialPlugin.InfoFromPlugin | src-tauri/src/credential/plugin.rs:497-510 | the summary copies the identity, category and authentication types, names the protocol by its lower-case wire name (`as_str`), which parses back to it, is enabled and counts no credentials |
| PluginCredentialStore.ParseStatus | src-tauri/src/database/dao/plugin_credential.rs:35-43 | a status name reads back as its status, and any text that names no status reads as active |
| PluginCredentialStore.StatusNames | src-tauri/src/database/dao/plugin_credential.rs:26-33 | the four statuses are written "active", "disabled", "expired" and "error" |
| PluginCredentialStore.StatusRoundTrip | src-tauri/src/database/dao/plugin_credential.rs:26-43 | reading a status's name gives the status back |
| PluginCredentialStore.StatusNameInjective | src-tauri/src/database/dao/plugin_credential.rs:26-33 | distinct statuses have distinct names |
| PluginCredentialStore.Get | src-tauri/src/database/dao/plugin_credential.rs:174-210 | a row is found exactly when some row has the id, and the row found has that id |
| PluginCredentialStore.Create | src-tauri/src/database/dao/plugin_credential.rs:148-171 | an id already present is a primary-key error; otherwise the new row is appended and unique ids stay unique |
| PluginCredentialStore.CreateThenGet | src-tauri/src/database/dao/plugin_credential.rs:455-466 | after creating a credential, reading its id gives the new row: active, never used, no errors, created and updated now |
| PluginCredentialStore.Apply | src-tauri/src/database/dao/plugin_credential.rs:296-368 | an update changes only its own columns and the update time; identity, display name and creation time never change |
| PluginCredentialStore.UpdateRow | src-tauri/src/database/dao/plugin_credential.rs:296-368 | the update is reported exactly when the id exists; only the rows with that id change and the ids stay unique |
| PluginCredentialStore.UpdateThenGet | src-tauri/src/database/dao/plugin_credential.rs:296-368 | after an update, reading the id gives the updated row and every other id reads as before |
| PluginCredentialStore.UpdateKeepsIds | src-tauri/src/database/dao/plugin_credential.rs:296-368 | an update keeps every position's id |
| PluginCredentialStore.UpdatedRowSeen | src-tauri/src/database/dao/plugin_credential.rs:296-368 | after an update, reading the updated id gives the updated row |
| PluginCredentialStore.OtherRowUnchanged | src-tauri/src/database/dao/plugin_credential.rs:296-368 | an update leaves every other id reading as before |
| PluginCredentialStore.UpdateSeenThroughGet | src-tauri/src/database/dao/plugin_credential.rs:296-368 | after an update, reading any id gives the updated row for the updated id and the old row for every other id |
| PluginCredentialStore.UpdateConfig | src-tauri/src/database/dao/plugin_credential.rs:296-308 | the report says whether the id exists; its row gets the new configuration and update time, and nothing else changes |
| PluginCredentialStore.UpdateStatus | src-tauri/src/database/dao/plugin_credential.rs:311-323 | the report says whether the id exists; its row gets the new status and update time, and nothing else changes |
| PluginCredentialStore.RecordUsage | src-tauri/src/database/dao/plugin_credential.rs:326-336 | the report says whether the id exists; its row counts one more use, used now, with errors and status unchanged; other rows are unchanged |
| PluginCredentialStore.RecordError | src-tauri/src/database/dao/plugin_credential.rs:339-354 | the report says whether the id exists; its row counts one more error with its time and message, with uses and status unchanged; other rows are unchanged |
| PluginCredentialStore.ResetErrorCount | src-tauri/src/database/dao/plugin_credential.rs:357-368 | the report says whether the id exists; its row has no errors and no last error and is active again, with uses unchanged; other rows are unchanged |
| PluginCredentialStore.TwoUsesCounted | src-tauri/src/database/dao/plugin_credential.rs:492-502 | two recorded uses after creation leave a usage count of 2 and the second use's time |
| PluginCredentialStore.Delete | src-tauri/src/database/dao/plugin_credential.rs:371-378 | the report says whether the id existed; afterwards the id is gone and exactly the other rows remain |
| PluginCredentialStore.DeleteKeepsOthers | src-tauri/src/database/dao/plugin_credential.rs:520-529 | deleting one id leaves every other id reading as before |
| PluginCredentialStore.CountByPlugin | src-tauri/src/database/dao/plugin_credential.rs:391-399 | the count is the number of the plugin's rows, never more than the table holds |
| PluginCredentialStore.CountActiveByPlugin | src-tauri/src/database/dao/plugin_credential.rs:402-413 | the count is the number of active rows in the plugin's listing, never more than the plugin's count, and it is zero exactly when none of the plugin's rows is active |
| PluginCredentialStore.DeleteByPlugin | src-tauri/src/database/dao/plugin_credential.rs:381-388 | the number deleted is the plugin's row count, exactly the other plugins' rows remain, and the plugin then has none |
| PluginCredentialStore.SortDesc | src-tauri/src/database/dao/plugin_credential.rs:222 | the result is ordered by descending key and is a permutation of the input |
| PluginCredentialStore.ListByPlugin | src-tauri/src/database/dao/plugin_credential.rs:213-253 | the listing is a permutation of the plugin's rows, newest first, as many as the plugin's count |
| PluginCredentialStore.ListActive | src-tauri/src/database/dao/plugin_credential.rs:256-293 | the listing is a permutation of the active rows, most used first |
| PluginCredentialStore.ListByPluginMembers | src-tauri/src/database/dao/plugin_credential.rs:469-478 | a row is listed for a plugin exactly when it is in the table and belongs to the plugin |
| UnifiedCredentials.NewManager | src-tauri/src/credential/unified.rs:36-41 | a new manager starts with risk control enabled |
| UnifiedCredentials.SetRiskControlEnabled | src-tauri/src/credential/unified.rs:64-72 | after setting the flag, reading it gives the value written |
| UnifiedCredentials.RiskToggle | src-tauri/src/credential/unified.rs:64-72 | of two writes to the flag the later one wins |
| UnifiedCredentials.SelectCredential | src-tauri/src/credential/unified.rs:87-119 | a balancer error is passed on; the balancer's choice stands unless risk control is on and that credential is cooling down, in which case the failover choice is returned instead |
| UnifiedCredentials.SelectionIgnoresCooldownWhenOff | src-tauri/src/credential/unified.rs:87-119 | with risk control off, which credentials are cooling down makes no difference and the balancer's choice is returned |
| UnifiedCredentials.ReportSuccess | src-tauri/src/credential/unified.rs:122-130 | a success is reported to the balancer with its latency, then recorded by the risk controller, for the same credential |
| UnifiedCredentials.RateLimitEventOf | src-tauri/src/credential/unified.rs:167-176 | the rate-limit event carries the credential, the status, the error body and the parsed retry delay as given |
| UnifiedCredentials.ReportFailure | src-tauri/src/credential/unified.rs:143-190 | a failure is always reported to the balancer with latency 0; a cooldown is returned exactly when a status is present and classified as a rate limit, and then the event is recorded and the balancer puts the credential into cooldown for exactly the returned seconds |
| UnifiedCredentials.ClearCooldown | src-tauri/src/credential/unified.rs:198-201 | the risk controller's cooldown is cleared first, then the balancer marks the credential active |
| UnifiedCredentials.MapOrchestratorProvider | src-tauri/src/credential/unified.rs:251-259 | ignoring letter case, "anthropic" maps to Claude OAuth, "openai" to Codex, "google" and "gemini" to Gemini, and every other name to Kiro |
| UnifiedCredentials.MapIgnoresCase | src-tauri/src/credential/unified.rs:252 | the mapping ignores ASCII letter case |
| UnifiedCredentials.SyncedCredential | src-tauri/src/credential/unified.rs:231-238 | the imported credential keeps the model's id and provider and has key "synced-" followed by that id and no base URL |
| UnifiedCredentials.SyncStep | src-tauri/src/credential/unified.rs:216-240 | one model's import registers its provider's pool; the credential is added exactly when its id is new and the pool accepts it, and it is then the placeholder; existing credentials are unchanged; the count of credentials grows by one exactly then |
| UnifiedCredentials.SyncKeys | src-tauri/src/credential/unified.rs:215-243 | the loop over the models' keys never drops a pool or a credential, never changes an existing credential, adds only accepted placeholders, and counts exactly the credentials added |
| UnifiedCredentials.SyncKeysCovers | src-tauri/src/credential/unified.rs:215-243 | after the loop every key's provider is registered and a key is pooled exactly when it was already pooled or the pool accepted it |
| UnifiedCredentials.SyncKeysAddsOnly | src-tauri/src/credential/unified.rs:215-243 | every credential the loop adds has one of the keys |
| UnifiedCredentials.SyncModels | src-tauri/src/credential/unified.rs:212-244 | every model's provider ends up with a pool; existing credentials are kept unchanged; a model's credential is present afterwards exactly when it was already there or the pool accepted it; every new credential is a placeholder the pool accepted; the count is the number of credentials added |
| UnifiedCredentials.SyncAddsOnlyModelKeys | src-tauri/src/credential/unified.rs:215-243 | every credential the import adds is the credential of one of the models |
| UnifiedCredentials.SyncFromOrchestrator | src-tauri/src/credential/unified.rs:206-248 | without an orchestrator the import fails with its fixed message; otherwise it keeps every existing credential and returns the number added |
| UnifiedCredentials.SyncKeysSettled | src-tauri/src/credential/unified.rs:215-243 | the loop over keys that are all registered and pooled or refused changes nothing and counts zero |
| UnifiedCredentials.SyncSettled | src-tauri/src/credential/unified.rs:215-243 | importing into pools that already hold or refuse every model's credential changes nothing and counts zero |
| UnifiedCredentials.SyncIdempotent | src-tauri/src/credential/unified.rs:206-248 | a second import of the same models adds nothing and leaves the pools as the first left them |
| Idempotency.DefaultConfig | src-tauri/crates/server/src/middleware/idempotency.rs:24-39 | the default configuration is disabled, keeps entries for a day (86400 seconds) and reads the "Idempotency-Key" header |
| Idempotency.NewStore | src-tauri/crates/server/src/middleware/idempotency.rs:72-77 | a new store keeps its configuration and holds no entries |
| Idempotency.Check | src-tauri/crates/server/src/middleware/idempotency.rs:80-128 | a disabled store answers New and keeps nothing; an unseen or expired key answers New and is recorded as in flight from now; a live key answers in-progress or replays its stored response without changing the store; no other key is touched |
| Idempotency.Complete | src-tauri/crates/server/src/middleware/idempotency.rs:131-144 | an enabled store records the response as completed now; a disabled store is unchanged; no other key is touched |
| Idempotency.Remove | src-tauri/crates/server/src/middleware/idempotency.rs:147-150 | the key is forgotten, even in a disabled store, and no other key is touched |
| Idempotency.Cleanup | src-tauri/crates/server/src/middleware/idempotency.rs:153-161 | exactly the entries younger than the time-to-live are kept, unchanged, so the store never grows |
| Idempotency.DisabledStaysEmpty | src-tauri/crates/server/src/middleware/idempotency.rs:187-192 | a disabled store answers New to every check and stays empty |
| Idempotency.CheckAll | src-tauri/crates/server/src/middleware/idempotency.rs:80-128 | checking several keys gives one verdict per key and keeps the configuration |
| Idempotency.SecondCheckInProgress | src-tauri/crates/server/src/middleware/idempotency.rs:202-207 | a second check of a new key within the time-to-live answers in-progress and changes nothing |
| Idempotency.CompleteThenCheck | src-tauri/crates/server/src/middleware/idempotency.rs:210-223 | after completion, a check within the time-to-live replays the stored status and body |
| Idempotency.CompletedExpires | src-tauri/crates/server/src/middleware/idempotency.rs:226-237 | after completion, a check past the time-to-live answers New and records the key in flight again |
| Idempotency.RemoveThenCheck | src-tauri/crates/server/src/middleware/idempotency.rs:253-261 | after removal, a check answers New, so the request can be retried |
| Idempotency.CleanupAgreesWithCheck | src-tauri/crates/server/src/middleware/idempotency.rs:153-161 | cleaning up never changes what a check answers, except for an entry whose age is exactly the time-to-live |
| Idempotency.CleanupBoundary | src-tauri/crates/server/src/middleware/idempotency.rs:153-161 | at an age of exactly the time-to-live a check still replays the response, while cleaning up first makes the same check answer New |
| RateLimit.DefaultConfig | src-tauri/crates/server/src/middleware/rate_limit.rs:26-43 | the default configuration is disabled and allows 60 requests per 60-second window |
| RateLimit.NewLimiter | src-tauri/crates/server/src/middleware/rate_limit.rs:54-59 | a new limiter keeps its configuration and has no records |
| RateLimit.Prune | src-tauri/crates/server/src/middleware/rate_limit.rs:73-74 | pruning keeps exactly the instants still inside the window, in order, never adds any, and changes nothing when all are inside |
| RateLimit.CheckRateLimit | src-tauri/crates/server/src/middleware/rate_limit.rs:62-87 | a disabled limiter admits everything and records nothing; otherwise a request is admitted exactly when fewer than the limit remain in the window and is then recorded, a refused request waits at most one window, and no other client's record changes |
| RateLimit.Cleanup | src-tauri/crates/server/src/middleware/rate_limit.rs:90-99 | every client keeps only its instants inside the window, and exactly the clients left with none are forgotten |
| RateLimit.CheckPreservesValid | src-tauri/crates/server/src/middleware/rate_limit.rs:62-87 | a check at a later instant keeps every record ordered, in the past, and no longer than the limit |
| RateLimit.CleanupPreservesValid | src-tauri/crates/server/src/middleware/rate_limit.rs:90-99 | cleaning up at a later instant keeps every record ordered, in the past, and no longer than the limit |
| RateLimit.RetryAfterPositive | src-tauri/crates/server/src/middleware/rate_limit.rs:76-82 | in a valid limiter a refused client is told to wait a positive time no longer than the window |
| RateLimit.AdmittedAfterWindow | src-tauri/crates/server/src/middleware/rate_limit.rs:178-207 | once every recorded instant of a client has left the window, the client is admitted again |
| RateLimit.FillsUpToLimit | src-tauri/crates/server/src/middleware/rate_limit.rs:137-150 | a limit of n admits n requests of a new client in a row at one instant |
| RateLimit.Repeat | src-tauri/crates/server/src/middleware/rate_limit.rs:137-175 | n checks in a row give n decisions and keep the configuration |
| RateLimit.RefusedWhenFull | src-tauri/crates/server/src/middleware/rate_limit.rs:153-175 | once a client has used its limit at one instant, its next request at that instant is refused |
| RateLimit.PruneAllOld | src-tauri/crates/server/src/middleware/rate_limit.rs:73-74 | nothing survives pruning when every instant has left the window |
| RateLimit.CleanupEmpties | src-tauri/crates/server/src/middleware/rate_limit.rs:210-229 | after the window has passed for every record, cleanup leaves the limiter empty |
| RateLimit.AdmitAtSameInstant | src-tauri/crates/server/src/middleware/rate_limit.rs:62-87 | a client whose record holds fewer than the limit, all at the current instant, is admitted and has the instant recorded once more |
| ProviderAuth.TokenValid | src-tauri/src/providers/qwen.rs:93-103 | no token is never valid, a token without an expiry always is, and otherwise the expiry must lie more than the margin ahead of now |
| ProviderAuth.WiderMarginStricter | src-tauri/src/providers/gemini.rs:180-190 | a wider safety margin never makes a token valid that a narrower one rejects |
| ProviderAuth.ValidityOnlyLapses | src-tauri/src/providers/qwen.rs:93-103 | a token valid at some instant was valid at every earlier instant |
| ProviderAuth.ReadTokenReply | src-tauri/src/providers/qwen.rs:140-158 | a transport failure, a non-2xx status, an unparsable body and a body without a string `access_token` each end the refresh with their own error; a parsed body with an access token always gives the parsed reply and that token |
| GeminiProvider.DefaultCredentials | src-tauri/src/providers/gemini.rs:43-53 | default credentials carry only the "Bearer" token type |
| GeminiProvider.IsTokenValid | src-tauri/src/providers/gemini.rs:180-190 | without an access token the credentials are invalid; without an expiry they are valid; otherwise the expiry must lie more than five minutes ahead |
| GeminiProvider.ApiUrl | src-tauri/src/providers/gemini.rs:8-9 | the URL is the Code Assist endpoint, the v1internal version, a colon and the action |
| GeminiProvider.ApiUrlInjective | src-tauri/src/providers/gemini.rs:242-244 | distinct actions get distinct URLs |
| GeminiProvider.RefreshToken | src-tauri/src/providers/gemini.rs:192-240 | a missing refresh token, client id or client secret ends the refresh with its own error before sending; a failed reply leaves the credentials untouched; a good reply installs the new access token |
| GeminiProvider.Poll | src-tauri/src/providers/gemini.rs:314-323 | polling makes at most the allowed number of calls, stops as soon as the operation is done, and returns an unfinished reply only when the calls ran out |
| GeminiProvider.DiscoverProject | src-tauri/src/providers/gemini.rs:278-336 | a cached project id is returned without any call; at most 32 calls are made; a discovered project id is non-empty and becomes the cached one; a failure leaves the cache as it was |
| GeminiProvider.DiscoveryCached | src-tauri/src/providers/gemini.rs:278-282 | once discovery succeeds, asking again makes no call and gives the same project |
| QwenProvider.DefaultCredentials | src-tauri/src/providers/qwen.rs:23-33 | default credentials carry only the "Bearer" token type |
| QwenProvider.IsTokenValid | src-tauri/src/providers/qwen.rs:93-103 | without an access token the credentials are invalid; without an expiry they are valid; otherwise the expiry must lie more than 30 seconds ahead |
| QwenProvider.NormalizeResourceUrl | src-tauri/src/providers/qwen.rs:109-120 | the result ends in "/v1" and starts with the URL made absolute (`https://` added unless it starts with "http"); it is that absolute URL itself when that already ends in "/v1", and otherwise that URL followed by "/v1" |
| QwenProvider.BaseUrl | src-tauri/src/providers/qwen.rs:105-122 | the normalised resource URL, or https://portal.qwen.ai/v1 when there is none; it always ends in "/v1" |
| QwenProvider.NormalizeIdempotent | src-tauri/src/providers/qwen.rs:109-120 | normalising an already normalised URL changes nothing |
| QwenProvider.BaseUrlExample | src-tauri/src/providers/qwen.rs:105-122 | a bare host gets both the scheme and the version suffix |
| QwenProvider.CheckModel | src-tauri/src/providers/qwen.rs:194-199 | a request whose model is a supported name, or not a string, is sent unchanged; an unsupported model name is replaced by the first supported model |
| QwenProvider.CheckedModelSupported | src-tauri/src/providers/qwen.rs:194-199 | after the check, a string model is always a supported one |
| QwenProvider.CheckModelIdempotent | src-tauri/src/providers/qwen.rs:194-199 | checking a checked request changes nothing |
| QwenProvider.ChatCompletions | src-tauri/src/providers/qwen.rs:181-213 | without an access token nothing is sent; otherwise the request goes to the base URL's completions path with the bearer token and the checked body |
| QwenProvider.RefreshToken | src-tauri/src/providers/qwen.rs:124-179 | without a refresh token nothing changes; a failed reply leaves the credentials alone; a good reply installs the new access token and, when given, the new refresh token, resource URL and expiry, even when saving then fails |
| QwenProvider.RefreshedTokenValid | src-tauri/src/providers/qwen.rs:124-179 | after a refresh whose reply carries an expiry, the token is valid until shortly before that expiry |
| CustomProvider.NewConfig | src-tauri/src/providers/claude_custom.rs:8-32 | a new provider has no key, no base URL and is disabled, so it is not configured |
| CustomProvider.WithConfig | src-tauri/src/providers/claude_custom.rs:35-44 | the key and base URL are kept and the provider is enabled, so it is configured |
| CustomProvider.BaseUrl | src-tauri/src/providers/openai_custom.rs:45-50 | the configured base URL wins; without one the provider's public endpoint is used |
| CustomProvider.ConfiguredIgnoresBaseUrl | src-tauri/src/providers/claude_custom.rs:53-55 | whether a provider is configured depends only on the key and the enabled flag, never on the base URL |
| ClaudeCustom.ClaudeBaseUrl | src-tauri/src/providers/claude_custom.rs:46-51 | the configured base URL, or https://api.anthropic.com when none is set |
| ClaudeCustom.Prepare | src-tauri/src/providers/claude_custom.rs:58-82 | without a key the call is refused with the not-configured error; otherwise the request carries the key, API version 2023-06-01, the body unchanged, and a URL that starts with the base URL and ends with the endpoint's path |
| ClaudeCustom.PartsText | src-tauri/src/providers/claude_custom.rs:97-114 | a multi-part message with no text parts contributes nothing; a single text part contributes its text |
| ClaudeCustom.PartsTextAppend | src-tauri/src/providers/claude_custom.rs:97-114 | the text of two part lists joined is the two texts joined |
| ClaudeCustom.ContentText | src-tauri/src/providers/claude_custom.rs:97-114 | a missing content gives the empty text, plain content gives its text, and parts give their joined text parts |
| ClaudeCustom.Convert | src-tauri/src/providers/claude_custom.rs:116-129 | the role is "assistant" exactly when the message's role is, and "user" otherwise; the content is the message's text |
| ClaudeCustom.Fold | src-tauri/src/providers/claude_custom.rs:116-129 | every converted message is a user or assistant message, and there is a system prompt exactly when some message has the system role |
| ClaudeCustom.Conversation | src-tauri/src/providers/claude_custom.rs:116-129 | the conversation holds only non-system messages taken from the request |
| ClaudeCustom.ConversationSnoc | src-tauri/src/providers/claude_custom.rs:116-129 | appending a message extends the conversation by that message exactly when it is not a system message |
| ClaudeCustom.FoldKeepsConversation | src-tauri/src/providers/claude_custom.rs:116-129 | the Anthropic messages are the non-system messages, in order, each converted |
| ClaudeCustom.LastSystemWins | src-tauri/src/providers/claude_custom.rs:116-129 | the system prompt is the text of the last system message |
| ClaudeCustom.AnthropicBody | src-tauri/src/providers/claude_custom.rs:131-139 | the body names the model, max_tokens (4096 when not given) and the converted messages, and has a system field exactly when some message was a system message, holding the last one's text |
| ClaudeCustom.FoldExample | src-tauri/src/providers/claude_custom.rs:116-129 | a system prompt is lifted out of the messages and a tool message becomes a user message |
| ClaudeCustom.ReplyText | src-tauri/src/providers/claude_custom.rs:169-174 | the reply text is the first content block's text when there is one |
| ClaudeCustom.UsageCount | src-tauri/src/providers/claude_custom.rs:190-191 | a usage count is the reported non-negative number, or 0 when the field is missing or not a number |
| ClaudeCustom.ReplyCarriedOver | src-tauri/src/providers/claude_custom.rs:169-196 | the converted completion carries the reply's text and its input and output counts, and reports the total as 0 |
| ClaudeCustom.EmptyReplyDefaults | src-tauri/src/providers/claude_custom.rs:169-196 | a reply without content or usage converts to empty text and zero counts |
| ClaudeCustom.CallOpenAI | src-tauri/src/providers/claude_custom.rs:85-197 | without a key the call fails before sending; a transport failure is passed on with its message; a non-success status is an API error carrying the status and body; a success body that is not JSON is an invalid-reply error; it succeeds exactly otherwise, and the completion's text is the reply's text |
| ClaudeCustom.ReadReply | src-tauri/src/providers/claude_custom.rs:157-197 | after the request is built: a transport failure is passed on with its message; a non-success status is an API error with that status and body; a success whose body is not JSON is an invalid reply; the result is a completion exactly when a success status carries JSON, and its message text is the reply's text |
| ClaudeCustom.CompletionCarriesText | src-tauri/src/providers/claude_custom.rs:169-188 | the completion's message content is the text of the reply's first content block, or empty |
| OpenAICustom.OpenAIBaseUrl | src-tauri/src/providers/openai_custom.rs:45-50 | the configured base URL, or https://api.openai.com/v1 when none is set |
| OpenAICustom.Prepare | src-tauri/src/providers/openai_custom.rs:57-132 | without a key nothing is sent and the not-configured error is returned; otherwise the request carries the bearer key, uses GET for the model list and POST for completions, and its URL is the base followed by the endpoint's path |
| OpenAICustom.EndpointsShareBase | src-tauri/src/providers/openai_custom.rs:82-132 | the completions and model-list URLs differ only in the path after the same base |
| OpenAICustom.DefaultCannotSend | src-tauri/src/providers/openai_custom.rs:19-43 | a default provider cannot send; one built with a key can |
| Encoding.Base64RoundTrip | src-tauri/src/credential/sdk.rs:328-349 | decoding the standard Base64 encoding of any bytes gives the bytes back |
| Encoding.Base64DecodeEncodes | src-tauri/src/credential/sdk.rs:338-349 | decoding accepts only canonical text: whatever decodes is exactly the encoding of its result |
| Encoding.Utf8RoundTrip | src-tauri/src/credential/sdk.rs:328-349 | decoding the UTF-8 bytes of a string gives the string back |
| Encoding.Utf8DecodeEncodes | src-tauri/src/credential/sdk.rs:338-349 | whatever bytes decode as UTF-8 are exactly the encoding of their decoded string |
| Encoding.Base64Encode | src-tauri/src/credential/sdk.rs:334 | the padded standard encoding has four characters for every started group of three bytes |
| GeneralChat.ParseRole | src-tauri/src/commands/general_chat_cmd.rs:185-190 | a role string is accepted exactly when it names one of the three roles, and every other string is an error quoting it |
| GeneralChat.RoleRoundTrip | src-tauri/src/commands/general_chat_cmd.rs:185-190 | parsing a role's name gives the role back |
| GeneralChat.CreateSession | src-tauri/src/commands/general_chat_cmd.rs:32-55 | the session gets the given id and metadata, is named "新对话" unless a name is given, is created and updated at the same instant, and is stored without touching the messages |
| GeneralChat.AddMessage | src-tauri/src/commands/general_chat_cmd.rs:175-222 | an invalid role is rejected first, then an unknown session; on success exactly the new message, with the given id, parsed role, content, blocks, metadata and creation time, is appended, and on failure nothing changes |
| GeneralChat.StopGeneration | src-tauri/src/commands/general_chat_cmd.rs:394-404 | a stop is accepted exactly when the session is generating, and then only that session's flag is set |
| GeneralChat.StopIsObserved | src-tauri/src/commands/general_chat_cmd.rs:333-340 | a stop request is seen by the streaming loop of its session and by no other session |
| GeneralChat.StopWithoutGeneration | src-tauri/src/commands/general_chat_cmd.rs:394-404 | stopping when nothing is generating reports false and changes nothing |
| GeneralChat.Chunks | src-tauri/src/commands/general_chat_cmd.rs:333 | the reply is cut into non-empty pieces of five characters, only the last one possibly shorter, and there are as many as five-character pieces needed to cover it |
| GeneralChat.ChunksConcat | src-tauri/src/commands/general_chat_cmd.rs:333 | the pieces put back together are exactly the reply |
| GeneralChat.MockResponse | src-tauri/src/commands/general_chat_cmd.rs:326-330 | the simulated reply starts with its fixed opening and is exactly as long as the user message plus the fixed opening and closing texts |
| GeneralChat.SendMessage | src-tauri/src/commands/general_chat_cmd.rs:276-387 | an unknown session is an error that emits nothing and changes nothing; otherwise exactly two messages are appended after the unchanged earlier ones, the user message and then the assistant message, with the given ids and the request's session; the sessions are untouched; the flags are the old flags without the session's own, so every other session's flag keeps its value; and the events open with the start event and close with the done event carrying the whole reply |
| GeneralChat.StreamedPrefix | src-tauri/src/commands/general_chat_cmd.rs:331-372 | the text streamed to the front end is always a prefix of the reply, and the whole reply when nobody stops the generation |
| GeneralChat.FramedText | src-tauri/src/commands/general_chat_cmd.rs:234-243 | the start and done events carry no delta text |
| GeneralChat.Shorten | src-tauri/src/commands/general_chat_cmd.rs:552-556 | a title of at most 20 characters is kept; a longer one keeps its first 17 characters and gains "...", so the result never exceeds 20 |
| GeneralChat.ShortenIdempotent | src-tauri/src/commands/general_chat_cmd.rs:552-556 | shortening a shortened title changes nothing |
| GeneralChat.FallbackTitle | src-tauri/src/commands/general_chat_cmd.rs:560-567 | the fallback is the trimmed message when it has at most 20 characters, and its first 17 characters followed by "..." otherwise |
| GeneralChat.FallbackIdempotent | src-tauri/src/commands/general_chat_cmd.rs:560-567 | a fallback title is its own fallback title |
| GeneralChat.StripWrapped | src-tauri/src/commands/general_chat_cmd.rs:540-545 | a text whose ends are not quote characters, wrapped in quote characters, is unwrapped back to itself by the quote stripping |
| GeneralChat.StripEachEmpty | src-tauri/src/commands/general_chat_cmd.rs:540-545 | stripping leaves nothing only when the text consisted of stripped characters |
| GeneralChat.CleanTitle | src-tauri/src/commands/general_chat_cmd.rs:537-557 | a cleaned title has at most 20 characters and no line break |
| GeneralChat.CleanTitleKeepsClean | src-tauri/src/commands/general_chat_cmd.rs:537-557 | a title that is already clean (at most 20 characters, one line, no whitespace or quote characters at its ends) is kept unchanged |
| GeneralChat.CleanTitleStripsQuotes | src-tauri/src/commands/general_chat_cmd.rs:537-557 | a clean title wrapped in one pair of quote characters is cleaned back to the title |
| GeneralChat.CleanTitleNotIdempotent | src-tauri/src/commands/general_chat_cmd.rs:539-541 | the double quotes are stripped before the single quotes, so a title in double quotes inside single quotes keeps its double quotes, and only a second cleaning removes them |
| GeneralChat.NoNewlineKept | src-tauri/src/commands/general_chat_cmd.rs:546-549 | taking the first line, or the original title when there is no line, and trimming it leaves no line break |
| GeneralChat.QuotesOnlyKept | src-tauri/src/commands/general_chat_cmd.rs:546-549 | a title made only of quote characters is kept as it is, because stripping leaves no line and the original title is used |
| GeneralChat.GenerateTitle | src-tauri/src/commands/general_chat_cmd.rs:428-475 | a generated title is cleaned and a failed generation falls back to the first message's fallback title; either way it has at most 20 characters |
| GeneralChat.TitlePrompt | src-tauri/src/commands/general_chat_cmd.rs:440-444 | the prompt is the fixed instruction followed by at most the first 500 characters of the message |
| GeneralChat.TitleProvider | src-tauri/src/commands/general_chat_cmd.rs:482-487 | the provider used for titles is configured, so it can send a completion request |
| GeneralChat.TitleFromReply | src-tauri/src/commands/general_chat_cmd.rs:512-534 | a non-success status and an unparsable body are each an error with their own text, and an empty or missing first choice text is the empty-content error; a returned title is the non-empty text of the first choice's message, and a success reply whose first choice carries non-empty text returns exactly that text |
| GeneralChat.TitleOfCompletion | src-tauri/src/commands/general_chat_cmd.rs:519-533 | a successful completion reply yields the first choice's text when it is non-empty, and a reply without choices yields the empty-content error |
| AsrCredentials.Add | src-tauri/src/commands/asr_cmd.rs:42-93 | the new entry is appended with the given id, provider, name, disabled flag and provider settings; its language is "zh" unless one is given; it is the default exactly when asked to be or when the pool was empty |
| AsrCredentials.AddPreserves | src-tauri/src/commands/asr_cmd.rs:63-93 | adding to a pool that has a default keeps a default, and a fresh id keeps ids unique |
| AsrCredentials.AddCanDoubleDefault | src-tauri/src/commands/asr_cmd.rs:63-93 | adding a default entry does not clear an existing default, so the pool then holds two defaults |
| AsrCredentials.Update | src-tauri/src/commands/asr_cmd.rs:96-111 | an unknown id is a not-found error; otherwise exactly one position holding that id is replaced by the new entry and the length is kept |
| AsrCredentials.UpdateKeepsIds | src-tauri/src/commands/asr_cmd.rs:96-111 | an update keeps every position's id, so unique ids stay unique |
| AsrCredentials.Delete | src-tauri/src/commands/asr_cmd.rs:114-136 | an error exactly when no entry has the id, and then a not-found error; otherwise the pool is the old one without the first entry with that id: the other entries keep their order and fields, only the entry now first may change its default flag, and it is the default exactly when the removed entry or that entry itself was |
| AsrCredentials.DeleteAt | src-tauri/src/commands/asr_cmd.rs:126-131 | removing the entry at a position keeps every other entry in order and unchanged except the entry now first, which becomes the default exactly when the removed entry was the default or it already was |
| AsrCredentials.DeletePreserves | src-tauri/src/commands/asr_cmd.rs:114-136 | deleting keeps a default when there was one, keeps at most one default, and keeps ids unique |
| AsrCredentials.DeleteKeepsDefault | src-tauri/src/commands/asr_cmd.rs:124-131 | removing the default promotes the entry now first, so a default survives, and it is the first entry |
| AsrCredentials.DeleteKeepsSingleDefault | src-tauri/src/commands/asr_cmd.rs:124-131 | the promotion never creates a second default |
| AsrCredentials.SetDefault | src-tauri/src/commands/asr_cmd.rs:139-157 | an unknown id is a not-found error; otherwise each entry is the default exactly when it has the id, and nothing else changes |
| AsrCredentials.SetDefaultExactlyOne | src-tauri/src/commands/asr_cmd.rs:139-157 | with unique ids, exactly one default remains afterwards |
| AsrCredentials.TestCredential | src-tauri/src/commands/asr_cmd.rs:160-223 | an unknown id is a not-found error; local Whisper always succeeds; a cloud entry succeeds exactly when its provider's configuration is present |
| AsrService.DefaultCredential | src-tauri/src/voice/asr_service.rs:39-47 | the result is an enabled default entry of the pool, and there is none exactly when no entry is both default and enabled |
| AsrService.Credential | src-tauri/src/voice/asr_service.rs:50-53 | the result has the id and is in the pool; none exactly when no entry has the id |
| AsrService.LocalCredential | src-tauri/src/voice/asr_service.rs:131-138 | the result is an enabled local Whisper entry; none exactly when there is no such entry |
| AsrService.DisabledDefaultSkipped | src-tauri/src/voice/asr_service.rs:39-47 | a disabled default is passed over in favour of a later enabled default |
| AsrService.DefaultIsFirst | src-tauri/src/voice/asr_service.rs:39-47 | the default found is the first enabled default in pool order |
| AsrService.BuildAudioData | src-tauri/src/voice/asr_service.rs:310-317 | fewer than two bytes is the empty-audio error; otherwise the audio is the mono little-endian 16-bit decoding of the bytes |
| AsrService.AudioKeepsBytes | src-tauri/src/voice/asr_service.rs:310-317 | for an even number of bytes, the audio re-encodes to exactly the bytes received |
| AsrService.XunfeiLanguage | src-tauri/src/voice/asr_service.rs:288-293 | "zh" becomes "zh_cn", "en" becomes "en_us", and every other code passes through unchanged |
| AsrService.XunfeiLanguageInjective | src-tauri/src/voice/asr_service.rs:288-293 | two codes that are not already "zh_cn" or "en_us" map to the same code only when they are equal |
| AsrService.CloudAttempt | src-tauri/src/voice/asr_service.rs:233-306 | each cloud provider's missing configuration gives its own error; too little audio gives the empty-audio error; a success has both and is the recogniser's answer for the client built from the entry and the decoded audio |
| AsrService.ClientOf | src-tauri/src/voice/asr_service.rs:233-306 | the client is the entry's provider, built with that provider's keys (and the OpenAI host) from the entry's configuration, and given the entry's language as ClientLanguage says |
| AsrService.ClientLanguage | src-tauri/src/voice/asr_service.rs:233-306 | Baidu gets no language, Xunfei gets the mapped code, and OpenAI gets none exactly when the language is empty |
| AsrService.Transcribe | src-tauri/src/voice/asr_service.rs:58-128 | a local entry goes straight to the local recogniser; a cloud success is returned as is; a success after a cloud failure comes from local Whisper; every error carries the cloud-failure prefix |
| AsrService.NoFallbackWithoutLocal | src-tauri/src/voice/asr_service.rs:88-128 | without an enabled local Whisper entry, a failed cloud attempt is the final answer |
| AsrService.FallbackRecovers | src-tauri/src/voice/asr_service.rs:88-128 | when local Whisper succeeds after a cloud failure, its text is the answer |
| VoiceTypes.SampleOfBytes | src-tauri/crates/voice-core/src/types.rs:41 | a sample read from a low and a high byte is the signed 16-bit value whose two's complement is low + 256 * high |
| VoiceTypes.BytesOfSample | src-tauri/crates/voice-core/src/types.rs:51 | a sample is written as two bytes, low first, whose value low + 256 * high is the sample's two's complement |
| VoiceTypes.SampleBytesRoundTrip | src-tauri/crates/voice-core/src/types.rs:41-51 | reading back the two bytes written for a sample gives the sample |
| VoiceTypes.BytesSampleRoundTrip | src-tauri/crates/voice-core/src/types.rs:41-51 | writing the sample read from two bytes gives the two bytes back |
| VoiceTypes.FromPcm16le | src-tauri/crates/voice-core/src/types.rs:38-45 | the audio has one sample per whole pair of bytes, each read little-endian from its pair, and keeps the given rate and channel count |
| VoiceTypes.ToPcm16le | src-tauri/crates/voice-core/src/types.rs:48-53 | the bytes are twice as many as the samples, each sample's two little-endian bytes in sample order |
| VoiceTypes.DecodeEncode | src-tauri/crates/voice-core/src/types.rs:38-53 | reading the bytes written for an audio gives the same audio |
| VoiceTypes.EncodeDecode | src-tauri/crates/voice-core/src/types.rs:38-53 | writing the audio read from an even number of bytes gives the bytes back |
| VoiceTypes.OddByteDropped | src-tauri/crates/voice-core/src/types.rs:39-41 | a trailing odd byte does not change the audio read |
| VoiceTypes.ModelFilename | src-tauri/crates/voice-core/src/types.rs:131-140 | a model's file is "ggml-", the model's serialised size name, ".bin" |
| VoiceTypes.FilenameInjective | src-tauri/crates/voice-core/src/types.rs:131-140 | distinct model sizes have distinct files |
| ToolConverter.ToOpenAI | src-tauri/crates/mcp/src/tool_converter.rs:100-112 | one function tool per definition, in the same order, carrying the definition's name, description and input schema as parameters |
| ToolConverter.ToAnthropic | src-tauri/crates/mcp/src/tool_converter.rs:115-124 | one tool per definition, in the same order, with name, description and input schema copied |
| ToolConverter.Strings | src-tauri/crates/mcp/src/tool_converter.rs:143-145 | the names kept are exactly the string elements of the array, never more of them than elements |
| ToolConverter.StringsAppend | src-tauri/crates/mcp/src/tool_converter.rs:143-145 | the string elements are kept in array order |
| ToolConverter.SchemaProperties | src-tauri/crates/mcp/src/tool_converter.rs:132-136 | the schema's properties when it has them, otherwise the empty object |
| ToolConverter.SchemaRequired | src-tauri/crates/mcp/src/tool_converter.rs:138-147 | the string elements of the schema's required array; none when it is absent or not an array |
| ToolConverter.ToGemini | src-tauri/crates/mcp/src/tool_converter.rs:127-160 | one declaration per definition, in order, with name and description copied and an object parameter block holding the schema's properties and required names |
| ToolConverter.FromOpenAICall | src-tauri/crates/mcp/src/tool_converter.rs:163-171 | the call keeps the function's name and takes the parsed arguments, or the empty object when they do not parse |
| ToolConverter.FromAnthropicUse | src-tauri/crates/mcp/src/tool_converter.rs:174-179 | the call keeps the tool use's name and input |
| ToolConverter.OpenAIAgreesWithAnthropic | src-tauri/crates/mcp/src/tool_converter.rs:100-124 | the OpenAI and Anthropic forms of a tool list list the same tools with the same names, descriptions and schemas |
| ToolConverter.CallsComeBack | src-tauri/crates/mcp/src/tool_converter.rs:100-179 | a tool use naming a listed tool converts back to a call of that tool with the same input, and so does an OpenAI call whose arguments parse to that input |
| ToolConverter.GeminiExample | src-tauri/crates/mcp/src/tool_converter.rs:127-160 | a schema with properties and a required array of mixed elements gives those properties and only the string names, in order |
| SkillLoader.SetField | src-tauri/crates/skills/src/skill_loader.rs:68-79 | setting a field gives it the value and leaves every other field as it was |
| SkillLoader.CleanValue | src-tauri/crates/skills/src/skill_loader.rs:59-65 | the cleaned value is never longer than the raw one and never ends in a single quote |
| SkillLoader.LineSetting | src-tauri/crates/skills/src/skill_loader.rs:57-81 | a line without a colon sets nothing; a line that sets a field names it by the trimmed text before its first colon and gives it the cleaned text after that colon |
| SkillLoader.LastLineWins | src-tauri/crates/skills/src/skill_loader.rs:56-83 | after all the lines are applied, each field holds the value of the last line that sets it, or its earlier value if none does |
| SkillLoader.FirstColonAfterKey | src-tauri/crates/skills/src/skill_loader.rs:57 | in "key:value" with a key free of colons the split is right after the key |
| SkillLoader.KeyLine | src-tauri/crates/skills/src/skill_loader.rs:57-81 | a "key:value" line with a clean key sets the key's field to the cleaned value, and an unknown key sets nothing |
| SkillLoader.WhenToUseSpellings | src-tauri/crates/skills/src/skill_loader.rs:72 | "when-to-use" and "when_to_use" set the same field |
| SkillLoader.FindBlock | src-tauri/crates/skills/src/skill_loader.rs:47-51 | a block is found only in text starting with "---"; its captured text begins after the last newline of the whitespace following the opening dashes, ends at the first later "---", and the match swallows the whitespace after the closing dashes |
| SkillLoader.UnclosedIsNoBlock | src-tauri/crates/skills/src/skill_loader.rs:47-49 | opening dashes with no closing dashes after them give no block |
| SkillLoader.ParseFrontmatter | src-tauri/crates/skills/src/skill_loader.rs:46-89 | without a block, the empty frontmatter and the whole text; with one, each field holds its last setting among the block's lines and the body is the text after the match |
| SkillLoader.ParseExample | src-tauri/crates/skills/src/skill_loader.rs:46-89 | in a small document the body is the text after the closing dashes and their newline |
| SkillLoader.ParseAllowedTools | src-tauri/crates/skills/src/skill_loader.rs:92-108 | absent or empty gives no list; with a comma, the trimmed non-empty pieces; otherwise the single trimmed value |
| SkillLoader.NonEmptyTrimmed | src-tauri/crates/skills/src/skill_loader.rs:99-102 | the pieces kept are exactly the non-empty trimmed pieces |
| SkillLoader.BlankToolsExample | src-tauri/crates/skills/src/skill_loader.rs:104-105 | a value of blanks without a comma gives the one empty piece |
| SkillLoader.ParseBoolean | src-tauri/crates/skills/src/skill_loader.rs:111-118 | an absent value gives the default; a present one is true exactly when, lower-cased, it is "true", "1" or "yes" |
| SkillLoader.BooleanIgnoresDefaultWhenPresent | src-tauri/crates/skills/src/skill_loader.rs:111-118 | a present value decides regardless of the default; "YES" is true and "no" false |
| SkillLoader.LoadSkill | src-tauri/crates/skills/src/skill_loader.rs:121-156 | an unreadable file fails with the fixed prefix and the reason; otherwise the skill keeps its name, the body is the text after the frontmatter, and name, description, invocation flag and execution mode default to the skill name, "", enabled and "prompt" |
| SkillLoader.PlainFileDefaults | src-tauri/crates/skills/src/skill_loader.rs:121-156 | a file not starting with dashes loads with every default and its whole text as the body |
| AppUtils.MaskToken | src-tauri/src/app/utils.rs:24-33 | a token of at most 12 characters is shown only as "****"; a longer one is shown as 14 characters: its first 6, "****", and its last 4 |
| AppUtils.MaskRevealsOnlyEnds | src-tauri/src/app/utils.rs:24-33 | two long tokens that agree on their first 6 and last 4 characters mask identically |
| AppUtils.ShortTokensIndistinguishable | src-tauri/src/app/utils.rs:24-28 | all tokens of at most 12 characters mask identically |
| AppUtils.MaskExamples | src-tauri/src/app/utils.rs:49-52 | "short" masks to "****" and "abcdefghijklmnop" to "abcdef****mnop" |
| AppUtils.IsLoopbackHost | src-tauri/src/app/utils.rs:13-21 | "localhost" is loopback; any other host is loopback exactly when it parses as an IP address that is a loopback address |
| AppUtils.NonAddressNotLoopback | src-tauri/src/app/utils.rs:17-20 | a host other than "localhost" that does not parse as an address is never loopback |
| QwenCommands.CredentialStatus | src-tauri/src/app/commands/qwen.rs:24-39 | the status reports each token's presence, counts as loaded exactly when some token is present, copies the expiry and path, and is valid exactly when the provider deems the token valid, which needs an access token |
| QwenCommands.EnvVariables | src-tauri/src/app/commands/qwen.rs:82-120 | there is one variable per present field, each under one of the four keys, in the order access token, refresh token, resource URL, expiry, the two tokens masked and the resource URL and expiry shown unmasked |
| QwenCommands.EnvVariablesRecoverCredentials | src-tauri/src/app/commands/qwen.rs:82-120 | looking up each key in the variables gives back that field of the credentials, the expiry as its decimal text |
| QwenCommands.ExpiryText | src-tauri/src/app/commands/qwen.rs:110-111 | the expiry text is present exactly when the expiry is, and it is decimal text that reads back as the expiry |
| QwenCommands.TokenFileHash | src-tauri/src/app/commands/qwen.rs:124-133 | a missing file hashes to "", an unreadable one fails with the read error, and a present one gives the hash of its bytes |
| QwenCommands.CheckAndReload | src-tauri/src/app/commands/qwen.rs:137-190 | a missing file reports nothing; a read error is passed on; otherwise the new hash is the file's, a change is reported exactly when there was a previous hash and it differs, the credentials are replaced exactly when the change was reported and the load succeeded, and are kept otherwise |
| QwenCommands.SecondCheckQuiet | src-tauri/src/app/commands/qwen.rs:137-190 | checking again with the hash just returned reports no change and keeps the credentials |
| QwenCommands.FirstCheckRecordsOnly | src-tauri/src/app/commands/qwen.rs:155 | the first check, without a previous hash, only records the file's hash |
| PromptBuilder.DefaultAll | src-tauri/crates/agent/src/prompt/builder.rs:32-43 | every section is chosen and there is no working directory and no extra instruction |
| PromptBuilder.WithWorkingDir | src-tauri/crates/agent/src/prompt/builder.rs:71-74 | the directory is recorded and every other option is kept |
| PromptBuilder.WithCustomInstructions | src-tauri/crates/agent/src/prompt/builder.rs:77-80 | the instructions are recorded and every other option is kept |
| PromptBuilder.Sections | src-tauri/crates/agent/src/prompt/builder.rs:84-114 | the parts are exactly the chosen sections' templates in the fixed order identity, tool usage, coding guidelines, task management, git guidelines, output style, with every unchosen section left out; there is one part per chosen section |
| PromptBuilder.PickedMembers | src-tauri/crates/agent/src/prompt/builder.rs:87-114 | a text is picked exactly when some position with its flag set holds that text |
| PromptBuilder.SectionChosenIff | src-tauri/crates/agent/src/prompt/builder.rs:87-114 | a chosen section's text is among the parts, and a text among the parts belongs to some chosen section |
| PromptBuilder.EnvironmentInfo | src-tauri/crates/agent/src/prompt/builder.rs:135-151 | the environment block opens with its heading and ends with the working-directory line when there is a directory, otherwise with the operating-system line |
| PromptBuilder.Build | src-tauri/crates/agent/src/prompt/builder.rs:83-132 | the prompt starts with the chosen sections joined by blank lines, then a blank line and the environment block; without instructions it is exactly that, and with instructions it ends with them under their heading |
| PromptBuilder.ChosenSectionsAppear | src-tauri/crates/agent/src/prompt/builder.rs:84-116 | every chosen section's text appears in the prompt |
| PromptBuilder.DefaultAllSections | src-tauri/crates/agent/src/prompt/builder.rs:59-63 | the new builder's prompt lists all six sections in the fixed order, opening with identity then tool guidelines |
| PromptBuilder.WorkingDirAppears | src-tauri/crates/agent/src/prompt/builder.rs:174-178 | a working directory set on the builder appears in the prompt |
| PromptBuilder.CustomInstructionsAppear | src-tauri/crates/agent/src/prompt/builder.rs:166-172 | instructions set on the builder appear in the prompt |
| PromptBuilder.NoSectionsLeadingBlank | src-tauri/crates/agent/src/prompt/builder.rs:116-123 | with no section chosen the prompt opens with a blank line before the environment heading |

## Left out

- Letter case: only ASCII letters are mapped by the model's lower- and upper-casing, while Rust's `to_lowercase` and `to_uppercase` map all of Unicode. Names that matter here are ASCII.
- Whitespace is the Unicode White_Space set, which is what `char::is_whitespace` and the regex class `\s` use.
- Fixed-width integers: the `u64`, `i64`, `u32` and `u16` casts, and the `i64` overflow of an expiry plus a margin, are not modelled. Integers are unbounded.
- Timestamps (RFC 3339 text in the source) are integers. The current time is a parameter.
- The chrono date format and the operating-system name used by the prompt builder are parameters.
- UUIDs, clocks and randomness are parameters.
- `IpAddr` parsing is a parameter: a function from the host text to whether it is a loopback address, if it is one.
- md5 is a parameter, and so is the Qwen credentials loader (`load_credentials`, `default_creds_path`). The `reload_qwen_credentials` command is only that loader call.
- JSON text parsing (`serde_json::from_str`) is a parameter. serde's error texts are not modelled, and the "Invalid params" detail is a fixed text.
- `to_string_lossy` on paths is not modelled. Paths are strings, joined as `Path::join` joins Unix paths; Windows prefixes and separators are not modelled.
- `ContentPart` (models/openai.rs) is not part of this model. Only its text parts matter, and those are modelled.
- Network I/O is not modelled: the reqwest sends of the SDK and of every provider, the token refresh and project-discovery round trips, and AI title generation. Their responses are parameters.
- Locking: the mutexes and `RwLock`s, the global stop-flag map's interleavings and the `OnceCell` singletons. The model is single-threaded.
- Processes: the out-of-process plugin's command call is the simulated empty reply of the source, modelled as `SimulatedBridge`. Spawning a process and `shutdown`'s kill are not modelled.
- Files: directory listings and file contents are abstract snapshots. The credentials-file I/O, the plugin directory creation (`ensure_plugins_dir`) and the skill directory scanning are not modelled. The ASR commands' configuration load and save, and their failures, are not modelled: the commands take and return the credential list.
- The SQLite engine: the DAO is a map of rows. The database-lock error, row-parse errors (`into_record`) and the thin DAO wrappers of the general chat commands (list, get, delete and rename session) are not modelled.
- Event emission failures and all logging are not modelled.
- Plugin loader: the `from_value` decoding of the acquire, release, validate and refresh-token replies is not modelled. `list_models`, `init`, `shutdown`, `parse_error`, `update_plugin_config` and the manifest fields no rule reads are not modelled either.
- Plugin loader: glob matching of model patterns is modelled only for literal patterns, prefixes ending in `*`, and `*` alone.
- General chat: the 50 ms pause between stream chunks, the database rename inside title generation, and the temperature and token limit of the AI title request are not modelled.
- Unified credentials: `get_risk_level` and `register_pool` only forward to the collaborators and are not modelled. Retry-After parsing, cooldown lengths and round-robin choice belong to those collaborators and are parameters.
- Voice: `to_wav_bytes` (the hound WAV writer), the floating-point duration and `is_valid`, and the local Whisper transcriber are not modelled. Transcription results are parameters.
- The prompt builder's section texts are parameters, because the template file is not part of this model.
- The frontmatter regular expression `^---\s*\n([\s\S]*?)---\s*\n?` is modelled by hand rather than by a regex engine.
- UnifiedCredentials.ReportFailure: the retry delay in the recorded event is stated only for an absent header, because parsing the header belongs to the risk controller.
- SkillLoader.CleanValue: the contract states only that the value does not grow and does not end in a single quote. The exact stripping order is visible in its definition and is exercised through `LineSetting` and `KeyLine`.
- Json numbers are integers only. Floating-point numbers in replies and parameters are not modelled, and neither is `as_i64` returning nothing for a float.
- PluginSdk.CryptoDecryptOp: the crypto error texts are fixed, where the source formats the decoder's own error message.
- GeneralChat.TitleFromReply: the error texts are the fixed prefixes; the status, body and parser message the source appends are not modelled.
- GeneralChat.MockResponse: the contract states the reply's opening and length, not the fixed texts themselves.

## Findings

| source | as written | input that shows it | evidently intended | confidence | as-written member | corrected member |
|---|---|---|---|---|---|---|
| src-tauri/src/credential/sdk.rs:589-606 | the `options` member of http.request parameters defaults through the derived `Default` of the options record, so a request without `options` has the empty method and is refused with "Unsupported HTTP method: " | `{"method":"http.request","params":{"url":"https://example.com"}}` | a bare URL sends a GET with the 30-second timeout, as the field-level defaults at sdk.rs:50-72 say | not executed | SdkRpc.HandleAsWritten, SdkRpc.BareUrlRejectedAsWritten | SdkRpc.Handle, SdkRpc.BareUrlSendsGet |

=== FILE: asr_credentials.dfy ===
/**
 * The speech-recognition credentials of the credential pool and the commands
 * that add, update, delete, choose as default and test them. The pool is the
 * list kept in the application configuration; loading and saving that
 * configuration are left to the caller.
 */
module AsrCredentials {
  import opened Wrappers

  datatype AsrProviderType = WhisperLocal | Xunfei | Baidu | OpenAI

  datatype WhisperModelSize = Tiny | Base | Small | Medium

  datatype WhisperLocalConfig = WhisperLocalConfig(model: WhisperModelSize)
  datatype XunfeiConfig = XunfeiConfig(appId: string, apiKey: string, apiSecret: string)
  datatype BaiduConfig = BaiduConfig(apiKey: string, secretKey: string)
  datatype OpenAIAsrConfig = OpenAIAsrConfig(apiKey: string, baseUrl: Option<string>)

  datatype Entry = Entry(
    id: string,
    provider: AsrProviderType,
    name: Option<string>,
    isDefault: bool,
    disabled: bool,
    language: string,
    whisper: Option<WhisperLocalConfig>,
    xunfei: Option<XunfeiConfig>,
    baidu: Option<BaiduConfig>,
    openai: Option<OpenAIAsrConfig>)

  /** The language of a request that names none. */
  const DefaultLanguage := "zh"

  /** An add request: everything of an entry except its id, which is generated. */
  datatype AddRequest = AddRequest(
    provider: AsrProviderType,
    name: Option<string>,
    isDefault: bool,
    disabled: bool,
    language: Option<string>,
    whisper: Option<WhisperLocalConfig>,
    xunfei: Option<XunfeiConfig>,
    baidu: Option<BaiduConfig>,
    openai: Option<OpenAIAsrConfig>)

  type Pool = seq<Entry>

  predicate UniqueIds(p: Pool)
  {
    forall i, j :: 0 <= i < j < |p| ==> p[i].id != p[j].id
  }

  /** Every non-empty pool has a default entry. */
  predicate HasDefault(p: Pool)
  {
    |p| > 0 ==> exists i :: 0 <= i < |p| && p[i].isDefault
  }

  /** At most one entry is the default. */
  predicate AtMostOneDefault(p: Pool)
  {
    forall i, j :: 0 <= i < |p| && 0 <= j < |p| && p[i].isDefault && p[j].isDefault ==> i == j
  }

  function NotFound(id: string): string
  {
    "凭证不存在: " + id
  }

  /** The position of the first entry with the id. */
  function Position(p: Pool, id: string): (r: Option<nat>)
    ensures r.Some? ==> r.value < |p| && p[r.value].id == id
    ensures r.Some? ==> forall j :: 0 <= j < r.value ==> p[j].id != id
    ensures r.None? <==> forall j :: 0 <= j < |p| ==> p[j].id != id
  {
    if |p| == 0 then None
    else if p[0].id == id then Some(0)
    else match Position(p[1..], id)
      case None => None
      case Some(k) => Some(k + 1)
  }

  /**
   * `add_asr_credential`: the new entry (language "zh" unless given) is
   * appended; it is the default when asked to be or when it is the first.
   */
  function Add(p: Pool, req: AddRequest, id: string): (r: (Entry, Pool))
    ensures r.1 == p + [r.0]
    ensures r.0.id == id && r.0.provider == req.provider && r.0.disabled == req.disabled
    ensures r.0.language == req.language.UnwrapOr("zh")
    ensures r.0.isDefault <==> req.isDefault || |p| == 0
    ensures r.0.name == req.name
    ensures r.0.whisper == req.whisper && r.0.xunfei == req.xunfei
    ensures r.0.baidu == req.baidu && r.0.openai == req.openai
  {
    var e := Entry(id, req.provider, req.name, req.isDefault || |p| == 0, req.disabled,
                   req.language.UnwrapOr(DefaultLanguage), req.whisper, req.xunfei, req.baidu, req.openai);
    (e, p + [e])
  }

  /** Adding keeps a default in the pool, and keeps ids unique when the new id is fresh. */
  lemma AddPreserves(p: Pool, req: AddRequest, id: string)
    requires HasDefault(p) && UniqueIds(p)
    requires forall j :: 0 <= j < |p| ==> p[j].id != id
    ensures HasDefault(Add(p, req, id).1) && UniqueIds(Add(p, req, id).1)
  {
    var q := Add(p, req, id).1;
    if |p| > 0 {
      var i :| 0 <= i < |p| && p[i].isDefault;
      assert q[i].isDefault;
    } else {
      assert q[0].isDefault;
    }
  }

  /** Adding a second default does not clear the first: the pool then has two. */
  lemma AddCanDoubleDefault(p: Pool, req: AddRequest, id: string)
    requires |p| > 0 && p[0].isDefault && req.isDefault
    ensures !AtMostOneDefault(Add(p, req, id).1)
  {
    var q := Add(p, req, id).1;
    assert q[0].isDefault && q[|p|].isDefault;
  }

  /** `update_asr_credential`: replaces the first entry with the same id. */
  function Update(p: Pool, e: Entry): (r: Result<Pool, string>)
    ensures r.Err? <==> forall j :: 0 <= j < |p| ==> p[j].id != e.id
    ensures r.Err? ==> r.error == NotFound(e.id)
    ensures r.Ok? ==> |r.value| == |p|
    ensures r.Ok? ==> exists k :: 0 <= k < |p| && p[k].id == e.id && r.value == p[k := e]
  {
    match Position(p, e.id)
    case None => Err(NotFound(e.id))
    case Some(k) => Ok(p[k := e])
  }

  /** An update keeps the ids of the pool. */
  lemma UpdateKeepsIds(p: Pool, e: Entry)
    requires UniqueIds(p) && Update(p, e).Ok?
    ensures UniqueIds(Update(p, e).value)
    ensures forall j :: 0 <= j < |p| ==> Update(p, e).value[j].id == p[j].id
  {
  }

  /** Removes position k. */
  function RemoveAt(p: Pool, k: nat): (r: Pool)
    requires k < |p|
    ensures |r| == |p| - 1
    ensures forall j :: 0 <= j < k ==> r[j] == p[j]
    ensures forall j :: k <= j < |r| ==> r[j] == p[j + 1]
  {
    p[..k] + p[k + 1..]
  }

  /**
   * `q` is `p` without its entry at `k`: every other entry keeps its order
   * and fields, and only the entry now first may have changed its
   * default flag, becoming the default when the removed entry was.
   */
  predicate DeletedAt(p: Pool, k: nat, q: Pool)
  {
    && k < |p|
    && |q| == |p| - 1
    && (forall j :: 0 <= j < |q| ==> q[j] == (if j < k then p[j] else p[j + 1]).(isDefault := q[j].isDefault))
    && (forall j :: 0 < j < |q| ==> q[j].isDefault == (if j < k then p[j] else p[j + 1]).isDefault)
    && (|q| > 0 ==> q[0].isDefault == (p[k].isDefault || (if 0 < k then p[0] else p[1]).isDefault))
  }

  /**
   * `delete_asr_credential`: removes the first entry with the id; when it was
   * the default, the entry now first becomes the default.
   */
  function Delete(p: Pool, id: string): (r: Result<Pool, string>)
    ensures r.Err? <==> forall j :: 0 <= j < |p| ==> p[j].id != id
    ensures r.Err? ==> r.error == NotFound(id)
    ensures r.Ok? ==> Position(p, id).Some? && DeletedAt(p, Position(p, id).value, r.value)
  {
    match Position(p, id)
    case None => Err(NotFound(id))
    case Some(k) => Ok(DeleteAt(p, k))
  }

  /** Removes the entry at `k`; when it was the default, the entry now first becomes the default. */
  function DeleteAt(p: Pool, k: nat): (r: Pool)
    requires k < |p|
    ensures DeletedAt(p, k, r)
  {
    if p[k].isDefault && |p| > 1 then
      PromotedIsDeleted(p, k);
      PromoteFirst(RemoveAt(p, k))
    else
      RemovedIsDeleted(p, k);
      RemoveAt(p, k)
  }

  /** Removing an entry that was not the default, or the only entry, changes nothing else. */
  lemma RemovedIsDeleted(p: Pool, k: nat)
    requires k < |p| && !(p[k].isDefault && |p| > 1)
    ensures DeletedAt(p, k, RemoveAt(p, k))
  {
  }

  /** Removing the default from a longer pool and promoting the entry now first. */
  lemma PromotedIsDeleted(p: Pool, k: nat)
    requires k < |p| && p[k].isDefault && |p| > 1
    ensures DeletedAt(p, k, PromoteFirst(RemoveAt(p, k)))
  {
  }

  /** The pool with its first entry made the default and every other entry as it was. */
  function PromoteFirst(q: Pool): (r: Pool)
    requires |q| > 0
    ensures |r| == |q|
    ensures r[0] == q[0].(isDefault := true)
    ensures forall j :: 0 < j < |q| ==> r[j] == q[j]
  {
    q[0 := q[0].(isDefault := true)]
  }

  /** Deleting keeps a default, keeps at most one default, and keeps ids unique. */
  lemma DeletePreserves(p: Pool, id: string)
    requires Delete(p, id).Ok?
    ensures HasDefault(p) ==> HasDefault(Delete(p, id).value)
    ensures AtMostOneDefault(p) ==> AtMostOneDefault(Delete(p, id).value)
    ensures UniqueIds(p) ==> UniqueIds(Delete(p, id).value)
  {
    if HasDefault(p) { DeleteKeepsDefault(p, id); }
    if AtMostOneDefault(p) { DeleteKeepsSingleDefault(p, id); }
    if UniqueIds(p) {
      var k := Position(p, id).value;
      var r := Delete(p, id).value;
      forall i, j | 0 <= i < j < |r| ensures r[i].id != r[j].id {
        var pi := if i < k then i else i + 1;
        var pj := if j < k then j else j + 1;
        assert r[i].id == p[pi].id && r[j].id == p[pj].id;
      }
    }
  }

  /** Deleting the default promotes the entry now first; any other deletion keeps the default where it was. */
  lemma DeleteKeepsDefault(p: Pool, id: string)
    requires Delete(p, id).Ok? && HasDefault(p)
    ensures HasDefault(Delete(p, id).value)
    ensures p[Position(p, id).value].isDefault && |p| > 1 ==> Delete(p, id).value[0].isDefault
  {
    var k := Position(p, id).value;
    var r := Delete(p, id).value;
    if |r| > 0 {
      if p[k].isDefault {
        assert r[0].isDefault;
      } else {
        var i :| 0 <= i < |p| && p[i].isDefault;
        if i < k { assert r[i].isDefault; } else { assert r[i - 1].isDefault; }
      }
    }
  }

  lemma DeleteKeepsSingleDefault(p: Pool, id: string)
    requires Delete(p, id).Ok? && AtMostOneDefault(p)
    ensures AtMostOneDefault(Delete(p, id).value)
  {
    var k := Position(p, id).value;
    var q := RemoveAt(p, k);
    var r := Delete(p, id).value;
    if p[k].isDefault {
      forall m | 0 <= m < |q| ensures !q[m].isDefault {
        var pm := if m < k then m else m + 1;
        assert q[m] == p[pm] && pm != k;
      }
    } else {
      forall i, j | 0 <= i < |r| && 0 <= j < |r| && r[i].isDefault && r[j].isDefault ensures i == j {
        var pi := if i < k then i else i + 1;
        var pj := if j < k then j else j + 1;
        assert r[i] == p[pi] && r[j] == p[pj];
      }
    }
  }

  /** `set_default_asr_credential`: the entries with the id become default, every other entry stops being it. */
  function SetDefault(p: Pool, id: string): (r: Result<Pool, string>)
    ensures r.Err? <==> forall j :: 0 <= j < |p| ==> p[j].id != id
    ensures r.Err? ==> r.error == NotFound(id)
    ensures r.Ok? ==> |r.value| == |p|
    ensures r.Ok? ==> forall j :: 0 <= j < |p| ==> r.value[j] == p[j].(isDefault := p[j].id == id)
  {
    if Position(p, id).None? then Err(NotFound(id))
    else Ok(seq(|p|, j requires 0 <= j < |p| => p[j].(isDefault := p[j].id == id)))
  }

  /** With unique ids, setting a default leaves exactly that entry as the default. */
  lemma SetDefaultExactlyOne(p: Pool, id: string)
    requires UniqueIds(p) && SetDefault(p, id).Ok?
    ensures HasDefault(SetDefault(p, id).value) && AtMostOneDefault(SetDefault(p, id).value)
    ensures UniqueIds(SetDefault(p, id).value)
  {
    var k := Position(p, id).value;
    assert SetDefault(p, id).value[k].isDefault;
  }

  /** The outcome of testing a credential. */
  datatype TestResult = TestResult(success: bool, message: string)

  /**
   * `test_asr_credential`: local Whisper is always ready; a cloud provider
   * passes when its configuration is present (no request is made).
   */
  function TestCredential(p: Pool, id: string): (r: Result<TestResult, string>)
    ensures r.Err? <==> forall j :: 0 <= j < |p| ==> p[j].id != id
    ensures r.Err? ==> r.error == NotFound(id)
    ensures r.Ok? ==> var e := p[Position(p, id).value];
                      r.value.success <==> ConfigPresent(e)
  {
    match Position(p, id)
    case None => Err(NotFound(id))
    case Some(k) =>
      var e := p[k];
      match e.provider
      case WhisperLocal => Ok(TestResult(true, "本地 Whisper 已就绪"))
      case Xunfei =>
        if e.xunfei.Some? then Ok(TestResult(true, "讯飞配置已设置（实际测试待实现）"))
        else Ok(TestResult(false, "讯飞配置缺失"))
      case Baidu =>
        if e.baidu.Some? then Ok(TestResult(true, "百度配置已设置（实际测试待实现）"))
        else Ok(TestResult(false, "百度配置缺失"))
      case OpenAI =>
        if e.openai.Some? then Ok(TestResult(true, "OpenAI 配置已设置（实际测试待实现）"))
        else Ok(TestResult(false, "OpenAI 配置缺失"))
  }

  /** The configuration a provider needs is present; local Whisper needs none to pass the test. */
  predicate ConfigPresent(e: Entry)
  {
    match e.provider
    case WhisperLocal => true
    case Xunfei => e.xunfei.Some?
    case Baidu => e.baidu.Some?
    case OpenAI => e.openai.Some?
  }
}

=== FILE: asr_service.dfy ===
/**
 * The speech-recognition service: which credential to use, how the audio is
 * prepared, and the fallback to local Whisper when a cloud service fails.
 *
 * The recognisers themselves (the cloud clients and the local Whisper
 * transcriber) are parameters: each maps its input to a text or an error.
 */
module AsrService {
  import opened Wrappers
  import opened Encoding
  import VoiceTypes
  import opened AsrCredentials

  // ------------------------------------------------------------ selection

  /** The position of the first entry satisfying a condition. */
  function FindIndex(p: Pool, ok: Entry -> bool): (r: Option<nat>)
    ensures r.Some? ==> r.value < |p| && ok(p[r.value])
    ensures r.Some? ==> forall j :: 0 <= j < r.value ==> !ok(p[j])
    ensures r.None? <==> forall j :: 0 <= j < |p| ==> !ok(p[j])
  {
    if |p| == 0 then None
    else if ok(p[0]) then Some(0)
    else match FindIndex(p[1..], ok)
      case None => None
      case Some(k) => Some(k + 1)
  }

  /** The first entry satisfying a condition. */
  function Find(p: Pool, ok: Entry -> bool): (r: Option<Entry>)
    ensures r.Some? ==> ok(r.value) && r.value in p
    ensures r.None? <==> forall j :: 0 <= j < |p| ==> !ok(p[j])
  {
    match FindIndex(p, ok)
    case None => None
    case Some(k) => Some(p[k])
  }

  predicate UsableDefault(e: Entry) { e.isDefault && !e.disabled }
  predicate UsableLocal(e: Entry) { e.provider == WhisperLocal && !e.disabled }
  predicate HasId(id: string, e: Entry) { e.id == id }

  /** `get_default_credential`: the first enabled default entry. */
  function DefaultCredential(p: Pool): (r: Option<Entry>)
    ensures r.Some? ==> r.value in p && r.value.isDefault && !r.value.disabled
    ensures r.None? <==> forall j :: 0 <= j < |p| ==> !p[j].isDefault || p[j].disabled
  {
    Find(p, UsableDefault)
  }

  /** `get_credential`: the first entry with the id, enabled or not. */
  function Credential(p: Pool, id: string): (r: Option<Entry>)
    ensures r.Some? ==> r.value.id == id && r.value in p
    ensures r.None? <==> forall j :: 0 <= j < |p| ==> p[j].id != id
  {
    Find(p, e => HasId(id, e))
  }

  /** The credential the fallback uses: the first enabled local Whisper entry. */
  function LocalCredential(p: Pool): (r: Option<Entry>)
    ensures r.Some? ==> r.value in p && r.value.provider == WhisperLocal && !r.value.disabled
    ensures r.None? <==> forall j :: 0 <= j < |p| ==> p[j].provider != WhisperLocal || p[j].disabled
  {
    Find(p, UsableLocal)
  }

  /** A disabled default is skipped in favour of a later enabled one. */
  lemma DisabledDefaultSkipped(d: Entry, e: Entry)
    requires d.isDefault && d.disabled && e.isDefault && !e.disabled
    ensures DefaultCredential([d, e]) == Some(e)
  {
    assert FindIndex([d, e], UsableDefault) == Some(1);
  }

  /** The default credential is the first enabled default of the pool. */
  lemma DefaultIsFirst(p: Pool, k: nat)
    requires k < |p| && p[k].isDefault && !p[k].disabled
    requires forall j :: 0 <= j < k ==> !p[j].isDefault || p[j].disabled
    ensures DefaultCredential(p) == Some(p[k])
  {
    assert UsableDefault(p[k]);
    assert forall j :: 0 <= j < k ==> !UsableDefault(p[j]);
  }

  // ------------------------------------------------------------ audio

  /** `build_audio_data`: mono little-endian 16-bit samples; no sample at all is an error. */
  function BuildAudioData(bytes: seq<byte>, sampleRate: nat): (r: Result<VoiceTypes.AudioData, string>)
    ensures r.Err? <==> |bytes| < 2
    ensures r.Err? ==> r.error == "音频数据为空"
    ensures r.Ok? ==> r.value == VoiceTypes.FromPcm16le(bytes, sampleRate, 1) && r.value.channels == 1
  {
    var a := VoiceTypes.FromPcm16le(bytes, sampleRate, 1);
    if |a.samples| == 0 then Err("音频数据为空") else Ok(a)
  }

  /** The audio handed to a recogniser encodes back to the bytes received, without an odd trailing byte. */
  lemma AudioKeepsBytes(bytes: seq<byte>, sampleRate: nat)
    requires |bytes| >= 2 && |bytes| % 2 == 0
    ensures VoiceTypes.ToPcm16le(BuildAudioData(bytes, sampleRate).value) == bytes
  {
    VoiceTypes.EncodeDecode(bytes, sampleRate, 1);
  }

  // ------------------------------------------------------------ recognition

  /** The language code the Xunfei service expects. */
  function XunfeiLanguage(language: string): (r: string)
    ensures language == "zh" ==> r == "zh_cn"
    ensures language == "en" ==> r == "en_us"
    ensures language != "zh" && language != "en" ==> r == language
  {
    if language == "zh" then "zh_cn" else if language == "en" then "en_us" else language
  }

  /** The mapping is one-to-one except where a code already names a mapped one. */
  lemma XunfeiLanguageInjective(a: string, b: string)
    requires XunfeiLanguage(a) == XunfeiLanguage(b)
    requires a !in {"zh_cn", "en_us"} && b !in {"zh_cn", "en_us"}
    ensures a == b
  {
  }

  /**
   * A cloud client as the service builds it from an entry: OpenAI Whisper
   * with its key, optional host and optional language; Baidu with its key
   * and secret; Xunfei with its app id, key, secret and language.
   */
  datatype CloudClient =
    | OpenAIClient(apiKey: string, host: Option<string>, language: Option<string>)
    | BaiduClient(apiKey: string, secretKey: string)
    | XunfeiClient(appId: string, apiKey: string, apiSecret: string, languageCode: string)

  /** A cloud recogniser: the client and the audio it is given. */
  type CloudRecognizer = (CloudClient, VoiceTypes.AudioData) -> Result<string, string>

  /** The client built for a cloud entry whose configuration is present. */
  function ClientOf(e: Entry): (r: CloudClient)
    requires e.provider != WhisperLocal && ConfigPresent(e)
    ensures r.OpenAIClient? <==> e.provider == OpenAI
    ensures r.BaiduClient? <==> e.provider == Baidu
    ensures r.XunfeiClient? <==> e.provider == Xunfei
    ensures r.OpenAIClient? ==> r.apiKey == e.openai.value.apiKey && r.host == e.openai.value.baseUrl
                                && r.language == ClientLanguage(e)
    ensures r.BaiduClient? ==> r.apiKey == e.baidu.value.apiKey && r.secretKey == e.baidu.value.secretKey
    ensures r.XunfeiClient? ==> r.appId == e.xunfei.value.appId && r.apiKey == e.xunfei.value.apiKey
                                && r.apiSecret == e.xunfei.value.apiSecret
                                && Some(r.languageCode) == ClientLanguage(e)
  {
    match e.provider
    case OpenAI =>
      var cfg := e.openai.value;
      OpenAIClient(cfg.apiKey, cfg.baseUrl, if e.language == "" then None else Some(e.language))
    case Baidu =>
      var cfg := e.baidu.value;
      BaiduClient(cfg.apiKey, cfg.secretKey)
    case Xunfei =>
      var cfg := e.xunfei.value;
      XunfeiClient(cfg.appId, cfg.apiKey, cfg.apiSecret, XunfeiLanguage(e.language))
  }

  /**
   * One cloud attempt: the provider's configuration must be present, the
   * audio must hold a sample, and the client's error is prefixed with the
   * provider's name. The client carries the entry's keys; OpenAI gets the
   * entry's language unless it is empty, Xunfei gets it mapped to its own
   * codes, Baidu gets none.
   */
  function CloudAttempt(e: Entry, bytes: seq<byte>, sampleRate: nat, recognize: CloudRecognizer): (r: Result<string, string>)
    requires e.provider != WhisperLocal
    ensures e.provider == OpenAI && e.openai.None? ==> r == Err("OpenAI 配置缺失")
    ensures e.provider == Baidu && e.baidu.None? ==> r == Err("百度配置缺失")
    ensures e.provider == Xunfei && e.xunfei.None? ==> r == Err("讯飞配置缺失")
    ensures ConfigPresent(e) && |bytes| < 2 ==> r == Err("音频数据为空")
    ensures r.Ok? ==> ConfigPresent(e) && |bytes| >= 2
    ensures r.Ok? ==> r == recognize(ClientOf(e), VoiceTypes.FromPcm16le(bytes, sampleRate, 1))
  {
    match e.provider
    case OpenAI =>
      if e.openai.None? then Err("OpenAI 配置缺失")
      else
        var audio :- BuildAudioData(bytes, sampleRate);
        Prefixed(recognize(ClientOf(e), audio), "OpenAI Whisper 识别失败: ")
    case Baidu =>
      if e.baidu.None? then Err("百度配置缺失")
      else
        var audio :- BuildAudioData(bytes, sampleRate);
        Prefixed(recognize(ClientOf(e), audio), "百度识别失败: ")
    case Xunfei =>
      if e.xunfei.None? then Err("讯飞配置缺失")
      else
        var audio :- BuildAudioData(bytes, sampleRate);
        Prefixed(recognize(ClientOf(e), audio), "讯飞识别失败: ")
  }

  /** The language a cloud client is given. */
  function ClientLanguage(e: Entry): (r: Option<string>)
    ensures e.provider == Baidu ==> r.None?
    ensures e.provider == Xunfei ==> r == Some(XunfeiLanguage(e.language))
    ensures e.provider == OpenAI ==> (r.None? <==> e.language == "")
  {
    match e.provider
    case OpenAI => if e.language == "" then None else Some(e.language)
    case Xunfei => Some(XunfeiLanguage(e.language))
    case _ => None
  }

  function Prefixed(r: Result<string, string>, prefix: string): (q: Result<string, string>)
    ensures r.Ok? ==> q == r
    ensures r.Err? ==> q == Err(prefix + r.error)
  {
    match r
    case Ok(t) => Ok(t)
    case Err(e) => Err(prefix + e)
  }

  const CloudFailed := "云端服务失败: "

  /**
   * `transcribe`: a local Whisper entry goes straight to the local recogniser.
   * A cloud entry is tried first; when it fails, the first enabled local
   * Whisper entry of the pool (read only then) is tried, and if that is
   * missing or fails too the error names both failures.
   */
  function Transcribe(e: Entry, bytes: seq<byte>, sampleRate: nat, recognize: CloudRecognizer,
                      local: Entry -> Result<string, string>, pool: Result<Pool, string>): (r: Result<string, string>)
    ensures e.provider == WhisperLocal ==> r == local(e)
    ensures e.provider != WhisperLocal && CloudAttempt(e, bytes, sampleRate, recognize).Ok?
            ==> r == CloudAttempt(e, bytes, sampleRate, recognize)
    ensures e.provider != WhisperLocal && r.Ok? && CloudAttempt(e, bytes, sampleRate, recognize).Err?
            ==> pool.Ok? && LocalCredential(pool.value).Some? && r == local(LocalCredential(pool.value).value)
    ensures e.provider != WhisperLocal && r.Err? ==> StartsWithCloudFailure(r.error)
  {
    if e.provider == WhisperLocal then local(e)
    else
      var cloud := CloudAttempt(e, bytes, sampleRate, recognize);
      if cloud.Ok? then cloud
      else
        var c := cloud.error;
        match pool
        case Err(le) => Err(CloudFailed + c + "；获取本地 Whisper 凭证失败: " + le)
        case Ok(p) =>
          match LocalCredential(p)
          case None => Err(CloudFailed + c + "；未配置本地 Whisper，无法回退")
          case Some(w) =>
            match local(w)
            case Ok(t) => Ok(t)
            case Err(we) => Err(CloudFailed + c + "；本地 Whisper 回退也失败: " + we)
  }

  predicate StartsWithCloudFailure(msg: string)
  {
    |msg| >= |CloudFailed| && msg[..|CloudFailed|] == CloudFailed
  }

  /** Without an enabled local Whisper entry, a failed cloud attempt is final. */
  lemma NoFallbackWithoutLocal(e: Entry, bytes: seq<byte>, sampleRate: nat, recognize: CloudRecognizer,
                               local: Entry -> Result<string, string>, p: Pool)
    requires e.provider != WhisperLocal && CloudAttempt(e, bytes, sampleRate, recognize).Err?
    requires forall j :: 0 <= j < |p| ==> p[j].provider != WhisperLocal || p[j].disabled
    ensures Transcribe(e, bytes, sampleRate, recognize, local, Ok(p))
         == Err(CloudFailed + CloudAttempt(e, bytes, sampleRate, recognize).error + "；未配置本地 Whisper，无法回退")
  {
  }

  /** A cloud failure recovered by local Whisper returns the local text. */
  lemma FallbackRecovers(e: Entry, bytes: seq<byte>, sampleRate: nat, recognize: CloudRecognizer,
                         local: Entry -> Result<string, string>, p: Pool, w: Entry)
    requires e.provider != WhisperLocal && CloudAttempt(e, bytes, sampleRate, recognize).Err?
    requires LocalCredential(p) == Some(w) && local(w).Ok?
    ensures Transcribe(e, bytes, sampleRate, recognize, local, Ok(p)) == local(w)
  {
  }
}

=== FILE: claude_custom.dfy ===
/**
 * The custom Claude provider: where its requests go, and the conversion of an
 * OpenAI chat request into an Anthropic messages request and of the
 * Anthropic reply back into an OpenAI chat completion.
 */
module ClaudeCustom {
  import opened Wrappers
  import opened Text
  import opened Json
  import opened CustomProvider

  const AnthropicEndpoint := "https://api.anthropic.com"
  const AnthropicVersion := "2023-06-01"
  const DefaultMaxTokens: nat := 4096
  const NotConfigured := "Claude API key not configured"

  /** `get_base_url` of this provider. */
  function ClaudeBaseUrl(c: Config): (r: string)
    ensures c.baseUrl.None? ==> r == "https://api.anthropic.com"
    ensures c.baseUrl.Some? ==> r == c.baseUrl.value
  {
    BaseUrl(c, AnthropicEndpoint)
  }

  // ------------------------------------------------------------ requests

  /** `call_api` and `messages` post to /v1/messages; `count_tokens` to its sub-path. */
  datatype Endpoint = Messages | CountTokens

  function Path(e: Endpoint): string
  {
    match e
    case Messages => "/v1/messages"
    case CountTokens => "/v1/messages/count_tokens"
  }

  /** A POST ready to send: URL, the `x-api-key` and `anthropic-version` headers, the body. */
  datatype Post = Post(url: string, apiKey: string, version: string, body: Json)

  /** Every endpoint of this provider refuses to send without a key. */
  function Prepare(c: Config, e: Endpoint, body: Json): (r: Result<Post, string>)
    ensures c.apiKey.None? <==> r == Err(NotConfigured)
    ensures r.Ok? ==> r.value.apiKey == c.apiKey.value && r.value.body == body
    ensures r.Ok? ==> r.value.version == "2023-06-01"
    ensures r.Ok? ==> StartsWith(r.value.url, ClaudeBaseUrl(c)) && EndsWith(r.value.url, Path(e))
                      && |r.value.url| == |ClaudeBaseUrl(c)| + |Path(e)|
  {
    match c.apiKey
    case None => Err(NotConfigured)
    case Some(key) =>
      var url := ClaudeBaseUrl(c) + Path(e);
      assert url[..|ClaudeBaseUrl(c)|] == ClaudeBaseUrl(c);
      assert url[|url| - |Path(e)|..] == Path(e);
      Ok(Post(url, key, AnthropicVersion, body))
  }

  // ------------------------------------------------------------ OpenAI request

  /** A part of a multi-part message; only text parts carry text to Anthropic. */
  datatype ContentPart = TextPart(text: string) | ImagePart(url: string)

  datatype MessageContent = Plain(text: string) | Parts(parts: seq<ContentPart>)

  datatype ChatMessage = ChatMessage(role: string, content: Option<MessageContent>)

  datatype ChatRequest = ChatRequest(model: string, messages: seq<ChatMessage>, maxTokens: Option<nat>)

  /** The text parts of a multi-part message, joined without separator. */
  function PartsText(parts: seq<ContentPart>): (r: string)
    ensures (forall i :: 0 <= i < |parts| ==> !parts[i].TextPart?) ==> r == ""
    ensures |parts| == 1 && parts[0].TextPart? ==> r == parts[0].text
  {
    if |parts| == 0 then ""
    else (if parts[0].TextPart? then parts[0].text else "") + PartsText(parts[1..])
  }

  /** Joining distributes over concatenation of part lists. */
  lemma {:induction false} PartsTextAppend(a: seq<ContentPart>, b: seq<ContentPart>)
    ensures PartsText(a + b) == PartsText(a) + PartsText(b)
    decreases |a|
  {
    if |a| == 0 {
      assert a + b == b;
    } else {
      assert (a + b)[1..] == a[1..] + b;
      PartsTextAppend(a[1..], b);
    }
  }

  /** The text a message contributes: its text, its joined text parts, or nothing. */
  function ContentText(c: Option<MessageContent>): (r: string)
    ensures c.None? ==> r == ""
    ensures c.Some? && c.value.Plain? ==> r == c.value.text
    ensures c.Some? && c.value.Parts? ==> r == PartsText(c.value.parts)
  {
    match c
    case None => ""
    case Some(Plain(t)) => t
    case Some(Parts(ps)) => PartsText(ps)
  }

  /** A message of an Anthropic request. */
  datatype AnthropicMessage = AnthropicMessage(role: string, content: string)

  function IsSystem(m: ChatMessage): bool
  {
    m.role == "system"
  }

  /** The Anthropic form of a non-system message: "assistant" stays, any other role becomes "user". */
  function Convert(m: ChatMessage): (r: AnthropicMessage)
    ensures r.role == "assistant" <==> m.role == "assistant"
    ensures r.role == "assistant" || r.role == "user"
    ensures r.content == ContentText(m.content)
  {
    AnthropicMessage(if m.role == "assistant" then "assistant" else "user", ContentText(m.content))
  }

  /**
   * The messages loop: system messages set the system prompt (a later one
   * replacing an earlier one), every other message is converted in order.
   */
  function Fold(msgs: seq<ChatMessage>): (r: (seq<AnthropicMessage>, Option<string>))
    ensures |r.0| <= |msgs|
    ensures forall k :: 0 <= k < |r.0| ==> r.0[k].role == "user" || r.0[k].role == "assistant"
    ensures r.1.None? <==> forall i :: 0 <= i < |msgs| ==> !IsSystem(msgs[i])
  {
    if |msgs| == 0 then ([], None)
    else
      var prev := Fold(msgs[..|msgs| - 1]);
      var m := msgs[|msgs| - 1];
      assert forall i :: 0 <= i < |msgs| - 1 ==> msgs[..|msgs| - 1][i] == msgs[i];
      if IsSystem(m) then (prev.0, Some(ContentText(m.content)))
      else (prev.0 + [Convert(m)], prev.1)
  }

  /** The non-system messages, in order. */
  function Conversation(msgs: seq<ChatMessage>): (r: seq<ChatMessage>)
    ensures forall k :: 0 <= k < |r| ==> !IsSystem(r[k]) && r[k] in msgs
  {
    if |msgs| == 0 then []
    else (if IsSystem(msgs[0]) then [] else [msgs[0]]) + Conversation(msgs[1..])
  }

  lemma {:induction false} ConversationSnoc(msgs: seq<ChatMessage>, m: ChatMessage)
    ensures Conversation(msgs + [m]) == Conversation(msgs) + (if IsSystem(m) then [] else [m])
    decreases |msgs|
  {
    if |msgs| == 0 {
      assert msgs + [m] == [m];
      assert Conversation([m]) == (if IsSystem(m) then [] else [m]) + Conversation([]);
    } else {
      var h := if IsSystem(msgs[0]) then [] else [msgs[0]];
      var t := if IsSystem(m) then [] else [m];
      assert (msgs + [m])[0] == msgs[0] && (msgs + [m])[1..] == msgs[1..] + [m];
      assert Conversation(msgs + [m]) == h + Conversation(msgs[1..] + [m]);
      ConversationSnoc(msgs[1..], m);
      assert h + (Conversation(msgs[1..]) + t) == (h + Conversation(msgs[1..])) + t;
    }
  }

  /** The Anthropic messages are exactly the conversation (the non-system messages) converted one by one. */
  lemma {:induction false} FoldKeepsConversation(msgs: seq<ChatMessage>)
    ensures |Fold(msgs).0| == |Conversation(msgs)|
    ensures forall k :: 0 <= k < |Fold(msgs).0| ==> Fold(msgs).0[k] == Convert(Conversation(msgs)[k])
    decreases |msgs|
  {
    if |msgs| > 0 {
      var init := msgs[..|msgs| - 1];
      var m := msgs[|msgs| - 1];
      assert msgs == init + [m];
      FoldKeepsConversation(init);
      ConversationSnoc(init, m);
    }
  }

  /** The system prompt is the content of the last system message. */
  lemma {:induction false} LastSystemWins(msgs: seq<ChatMessage>, i: nat)
    requires i < |msgs| && IsSystem(msgs[i])
    requires forall j :: i < j < |msgs| ==> !IsSystem(msgs[j])
    ensures Fold(msgs).1 == Some(ContentText(msgs[i].content))
    decreases |msgs|
  {
    var init := msgs[..|msgs| - 1];
    if i < |msgs| - 1 {
      LastSystemWins(init, i);
    }
  }

  /** The Anthropic request body: model, max_tokens (4096 by default), messages, and system when one was given. */
  function AnthropicBody(req: ChatRequest): (r: Json)
    ensures r.Obj?
    ensures Get(r, "model") == Some(Str(req.model))
    ensures Get(r, "max_tokens") == Some(Num(req.maxTokens.UnwrapOr(DefaultMaxTokens)))
    ensures Get(r, "system").Some? <==> exists i :: 0 <= i < |req.messages| && IsSystem(req.messages[i])
    ensures Get(r, "system").Some? ==> Get(r, "system") == Some(Str(Fold(req.messages).1.value))
    ensures Get(r, "messages").Some? && Get(r, "messages").value.Arr?
    ensures |Get(r, "messages").value.items| == |Conversation(req.messages)|
  {
    var folded := Fold(req.messages);
    FoldKeepsConversation(req.messages);
    var msgs := seq(|folded.0|, k requires 0 <= k < |folded.0| => MessageJson(folded.0[k]));
    var base := map["model" := Str(req.model),
                     "max_tokens" := Num(req.maxTokens.UnwrapOr(DefaultMaxTokens)),
                     "messages" := Arr(msgs)];
    match folded.1
    case None => Obj(base)
    case Some(sys) => Obj(base["system" := Str(sys)])
  }

  function MessageJson(m: AnthropicMessage): Json
  {
    Obj(map["role" := Str(m.role), "content" := Str(m.content)])
  }

  /** An example: the system prompt is lifted out and a tool role becomes "user". */
  lemma FoldExample()
    ensures Fold([ChatMessage("system", Some(Plain("a"))),
                  ChatMessage("tool", Some(Parts([TextPart("b"), ImagePart("u"), TextPart("c")]))),
                  ChatMessage("system", None)])
         == ([AnthropicMessage("user", "bc")], Some(""))
  {
    var ms := [ChatMessage("system", Some(Plain("a"))),
               ChatMessage("tool", Some(Parts([TextPart("b"), ImagePart("u"), TextPart("c")]))),
               ChatMessage("system", None)];
    assert ms[..1][..0] == [];
    assert Fold(ms[..1]) == ([], Some("a"));
    assert ms[..2][..1] == ms[..1];
    assert PartsText([TextPart("b"), ImagePart("u"), TextPart("c")]) == "bc";
    assert ms[..2][|ms[..2]| - 1] == ms[1];
    assert ContentText(ms[1].content) == "bc";
    assert Convert(ms[1]) == AnthropicMessage("user", "bc");
    assert Fold(ms[..2]) == ([] + [Convert(ms[1])], Some("a"));
    assert ms[..|ms| - 1] == ms[..2];
    assert IsSystem(ms[|ms| - 1]) && ContentText(ms[2].content) == "";
    assert Fold(ms) == (Fold(ms[..2]).0, Some(""));
    assert [] + [Convert(ms[1])] == [AnthropicMessage("user", "bc")];
  }

  // ------------------------------------------------------------ Anthropic reply

  /**
   * Why a converted call did not produce a completion: no key, a non-success
   * status, the request not going through, or a success body that is not JSON.
   */
  datatype CallError = KeyNotConfigured | ApiError(status: nat, body: string) | Transport(msg: string) | InvalidReply

  /** What sending the request gave: a transport failure, or a status and the body text. */
  datatype Exchange = SendFailed(msg: string) | Answered(status: nat, body: string)

  /** The text of the reply: the first content block's text, or empty. */
  function ReplyText(resp: Json): (r: string)
    ensures (Index(resp, "content").Arr? && |Index(resp, "content").items| > 0
             && Index(Index(resp, "content").items[0], "text").Str?)
            ==> r == Index(Index(resp, "content").items[0], "text").s
  {
    match AsArray(Index(resp, "content"))
    case Some(blocks) =>
      if |blocks| > 0 then AsStr(Index(blocks[0], "text")).UnwrapOr("") else ""
    case None => ""
  }

  /** A usage count: the value when it is a non-negative integer, otherwise 0. */
  function UsageCount(resp: Json, field: string): (r: nat)
    ensures Index(Index(resp, "usage"), field).Num? && Index(Index(resp, "usage"), field).n >= 0
            ==> r == Index(Index(resp, "usage"), field).n
    ensures !Index(Index(resp, "usage"), field).Num? ==> r == 0
  {
    AsNat(Index(Index(resp, "usage"), field)).UnwrapOr(0)
  }

  /** The OpenAI chat completion built from an Anthropic reply; `id` and `created` are supplied by the caller. */
  function ToCompletion(resp: Json, model: string, id: string, created: nat): (r: Json)
  {
    Obj(map[
      "id" := Str(id),
      "object" := Str("chat.completion"),
      "created" := Num(created),
      "model" := Str(model),
      "choices" := Arr([Obj(map[
        "index" := Num(0),
        "message" := Obj(map["role" := Str("assistant"), "content" := Str(ReplyText(resp))]),
        "finish_reason" := Str("stop")])]),
      "usage" := Obj(map[
        "prompt_tokens" := Num(UsageCount(resp, "input_tokens")),
        "completion_tokens" := Num(UsageCount(resp, "output_tokens")),
        "total_tokens" := Num(0)])])
  }

  /** The completion's message text. */
  function CompletionText(j: Json): Option<string>
  {
    var choices := Index(j, "choices");
    if choices.Arr? && |choices.items| > 0 then AsStr(Index(Index(choices.items[0], "message"), "content"))
    else None
  }

  /** An Anthropic reply carrying one text block and usage counts. */
  function AnthropicReply(text: string, input: nat, output: nat): Json
  {
    Obj(map[
      "content" := Arr([Obj(map["type" := Str("text"), "text" := Str(text)])]),
      "usage" := Obj(map["input_tokens" := Num(input), "output_tokens" := Num(output)])])
  }

  /** The text and usage of a reply survive the conversion; the total is always reported as 0. */
  lemma ReplyCarriedOver(text: string, input: nat, output: nat, model: string, id: string, created: nat)
    ensures CompletionText(ToCompletion(AnthropicReply(text, input, output), model, id, created)) == Some(text)
    ensures Index(Index(ToCompletion(AnthropicReply(text, input, output), model, id, created), "usage"), "prompt_tokens") == Num(input)
    ensures Index(Index(ToCompletion(AnthropicReply(text, input, output), model, id, created), "usage"), "completion_tokens") == Num(output)
    ensures Index(Index(ToCompletion(AnthropicReply(text, input, output), model, id, created), "usage"), "total_tokens") == Num(0)
  {
  }

  /** A reply without content blocks or usage converts to empty text and zero counts. */
  lemma EmptyReplyDefaults(model: string, id: string, created: nat)
    ensures CompletionText(ToCompletion(EmptyObject, model, id, created)) == Some("")
    ensures Index(Index(ToCompletion(EmptyObject, model, id, created), "usage"), "prompt_tokens") == Num(0)
  {
  }

  /**
   * `call_openai_api` without the network: build the body, refuse without a
   * key, pass on a transport failure, fail on a non-success status or a body
   * that is not JSON, otherwise convert the reply. The exchange and the JSON
   * parser are parameters.
   */
  function CallOpenAI(c: Config, req: ChatRequest, ex: Exchange, parse: string -> Option<Json>,
                      id: string, created: nat): (r: Result<Json, CallError>)
    ensures c.apiKey.None? ==> r == Err(KeyNotConfigured)
    ensures c.apiKey.Some? && ex.SendFailed? ==> r == Err(Transport(ex.msg))
    ensures c.apiKey.Some? && ex.Answered? && !(200 <= ex.status < 300) ==> r == Err(ApiError(ex.status, ex.body))
    ensures c.apiKey.Some? && ex.Answered? && 200 <= ex.status < 300 && parse(ex.body).None? ==> r == Err(InvalidReply)
    ensures r.Ok? <==> c.apiKey.Some? && ex.Answered? && 200 <= ex.status < 300 && parse(ex.body).Some?
    ensures r.Ok? ==> CompletionText(r.value) == Some(ReplyText(parse(ex.body).value))
  {
    match Prepare(c, Messages, AnthropicBody(req))
    case Err(_) => Err(KeyNotConfigured)
    case Ok(_) => ReadReply(req, ex, parse, id, created)
  }

  /**
   * The part of `call_openai_api` after the request is built: the transport
   * outcome, the status check, the JSON parse and the conversion.
   */
  function ReadReply(req: ChatRequest, ex: Exchange, parse: string -> Option<Json>,
                     id: string, created: nat): (r: Result<Json, CallError>)
    ensures ex.SendFailed? ==> r == Err(Transport(ex.msg))
    ensures ex.Answered? && !(200 <= ex.status < 300) ==> r == Err(ApiError(ex.status, ex.body))
    ensures ex.Answered? && 200 <= ex.status < 300 && parse(ex.body).None? ==> r == Err(InvalidReply)
    ensures r.Ok? <==> ex.Answered? && 200 <= ex.status < 300 && parse(ex.body).Some?
    ensures r.Ok? ==> CompletionText(r.value) == Some(ReplyText(parse(ex.body).value))
  {
    match ex
    case SendFailed(msg) => Err(Transport(msg))
    case Answered(status, body) =>
      if !(200 <= status < 300) then Err(ApiError(status, body))
      else match parse(body)
        case None => Err(InvalidReply)
        case Some(resp) =>
          CompletionCarriesText(resp, req.model, id, created);
          Ok(ToCompletion(resp, req.model, id, created))
  }

  /** The completion's message text is the reply's text. */
  lemma CompletionCarriesText(resp: Json, model: string, id: string, created: nat)
    ensures CompletionText(ToCompletion(resp, model, id, created)) == Some(ReplyText(resp))
  {
  }
}

=== FILE: clock.dfy ===
/**
 * Monotonic instants and durations, counted in nanoseconds. The stateful
 * components take the current instant as an input instead of reading a
 * clock.
 */
module Clock {
  /** A point on the monotonic clock, in nanoseconds. */
  type Instant = nat

  const NanosPerSec: nat := 1_000_000_000

  /** `Duration::from_secs`. */
  function Secs(s: nat): (r: nat)
    ensures s > 0 ==> r >= NanosPerSec
    ensures s == 0 ==> r == 0
  {
    s * NanosPerSec
  }

  /**
   * `now.duration_since(earlier)`: the elapsed time, saturating at zero when
   * `earlier` lies after `now`.
   */
  function Since(now: Instant, earlier: Instant): (r: nat)
    ensures earlier <= now ==> earlier + r == now
    ensures now < earlier ==> r == 0
  {
    if earlier <= now then now - earlier else 0
  }

  /** `Duration::saturating_sub`. */
  function SaturatingSub(a: nat, b: nat): (r: nat)
    ensures r <= a
    ensures b <= a ==> r + b == a
    ensures a < b ==> r == 0
  {
    if b <= a then a - b else 0
  }
}

=== FILE: custom_provider.dfy ===
/**
 * The configuration shared by the custom (user-supplied key) providers:
 * an optional API key, an optional base URL and an enabled flag.
 */
module CustomProvider {
  import opened Wrappers

  datatype Config = Config(apiKey: Option<string>, baseUrl: Option<string>, enabled: bool)

  /** `new()` / `default()`: no key, no base URL, disabled. */
  function NewConfig(): (r: Config)
    ensures r.apiKey.None? && r.baseUrl.None? && !r.enabled
    ensures !IsConfigured(r)
  {
    Config(None, None, false)
  }

  /** `with_config`: the key, the given base URL, enabled. */
  function WithConfig(apiKey: string, baseUrl: Option<string>): (r: Config)
    ensures r.apiKey == Some(apiKey) && r.baseUrl == baseUrl && r.enabled
    ensures IsConfigured(r)
  {
    Config(Some(apiKey), baseUrl, true)
  }

  /** `is_configured`: a key is present and the provider is enabled. */
  predicate IsConfigured(c: Config)
  {
    c.apiKey.Some? && c.enabled
  }

  /** `get_base_url`: the configured base URL, or the provider's public endpoint. */
  function BaseUrl(c: Config, publicEndpoint: string): (r: string)
    ensures c.baseUrl.Some? ==> r == c.baseUrl.value
    ensures c.baseUrl.None? ==> r == publicEndpoint
  {
    c.baseUrl.UnwrapOr(publicEndpoint)
  }

  /** Only a key and the enabled flag decide whether a provider is configured. */
  lemma ConfiguredIgnoresBaseUrl(c: Config, url: Option<string>)
    ensures IsConfigured(c.(baseUrl := url)) == IsConfigured(c)
  {
  }
}

=== FILE: decimal.dfy ===
/** Decimal text of integers, as Rust's `to_string` writes them, and its reading. */
module Decimal {
  predicate IsDigit(c: char)
  {
    '0' <= c <= '9'
  }

  function DigitChar(d: nat): (c: char)
    requires d < 10
    ensures IsDigit(c) && DigitValue(c) == d
  {
    ('0' as int + d) as char
  }

  function DigitValue(c: char): nat
    requires IsDigit(c)
  {
    c as int - '0' as int
  }

  predicate AllDigits(s: string)
  {
    forall i :: 0 <= i < |s| ==> IsDigit(s[i])
  }

  /** The decimal digits of `n`, without leading zeros. */
  function NatToString(n: nat): (r: string)
    ensures |r| > 0 && AllDigits(r)
    ensures r[0] == '0' ==> n == 0 && r == "0"
    decreases n
  {
    if n < 10 then [DigitChar(n)] else NatToString(n / 10) + [DigitChar(n % 10)]
  }

  /** The value of a string of digits. */
  function ParseNat(s: string): nat
    requires AllDigits(s)
    decreases |s|
  {
    if |s| == 0 then 0 else ParseNat(s[..|s| - 1]) * 10 + DigitValue(s[|s| - 1])
  }

  lemma {:induction false} NatRoundTrip(n: nat)
    ensures ParseNat(NatToString(n)) == n
    decreases n
  {
    if n >= 10 {
      var s := NatToString(n);
      assert s[..|s| - 1] == NatToString(n / 10);
      NatRoundTrip(n / 10);
    } else {
      assert NatToString(n)[..0] == [];
    }
  }

  /** Digits, optionally after a minus sign. */
  predicate IsIntText(s: string)
  {
    |s| > 0 && (if s[0] == '-' then AllDigits(s[1..]) else AllDigits(s))
  }

  /** `i64::to_string`: a minus sign before the digits of a negative number. */
  function IntToString(i: int): (r: string)
    ensures IsIntText(r)
    ensures i >= 0 ==> AllDigits(r)
    ensures i < 0 ==> r[0] == '-' && AllDigits(r[1..])
  {
    if i < 0 then "-" + NatToString(-i) else NatToString(i)
  }

  /** Reads an optionally negative decimal. */
  function ParseInt(s: string): (r: int)
    requires IsIntText(s)
  {
    if s[0] == '-' then 0 - ParseNat(s[1..]) as int else ParseNat(s)
  }

  lemma IntRoundTrip(i: int)
    ensures ParseInt(IntToString(i)) == i
  {
    if i < 0 {
      assert IntToString(i)[1..] == NatToString(-i);
      NatRoundTrip(-i);
    } else {
      NatRoundTrip(i);
    }
  }

  /** Distinct numbers have distinct decimal text. */
  lemma IntToStringInjective(i: int, j: int)
    requires IntToString(i) == IntToString(j)
    ensures i == j
  {
    IntRoundTrip(i);
    IntRoundTrip(j);
  }
}

=== FILE: encoding.dfy ===
/**
 * Byte encodings used by the plugin SDK's placeholder "crypto": UTF-8
 * (`str::as_bytes` / `String::from_utf8`) and Base64 with the standard
 * alphabet and canonical `=` padding (section 4 of RFC 4648, the
 * `general_purpose::STANDARD` engine of the `base64` crate, which also
 * rejects non-zero trailing bits).
 */
module Encoding {
  import opened Wrappers

  newtype byte = x: int | 0 <= x < 256

  // ---------------------------------------------------------------- UTF-8

  predicate IsCont(b: byte) { 0x80 <= b < 0xC0 }

  function Utf8Char(c: char): (r: seq<byte>)
    ensures 1 <= |r| <= 4
  {
    var cp := c as int;
    if cp < 0x80 then [cp as byte]
    else if cp < 0x800 then [(0xC0 + cp / 64) as byte, (0x80 + cp % 64) as byte]
    else if cp < 0x10000 then
      [(0xE0 + cp / 64 / 64) as byte, (0x80 + cp / 64 % 64) as byte, (0x80 + cp % 64) as byte]
    else
      [(0xF0 + cp / 64 / 64 / 64) as byte, (0x80 + cp / 64 / 64 % 64) as byte,
       (0x80 + cp / 64 % 64) as byte, (0x80 + cp % 64) as byte]
  }

  /** `s.as_bytes()`: the UTF-8 encoding of a string. */
  function Utf8Encode(s: string): seq<byte>
    decreases |s|
  {
    if s == [] then [] else Utf8Char(s[0]) + Utf8Encode(s[1..])
  }

  predicate IsScalar(cp: int)
  {
    (0 <= cp < 0xD800) || (0xE000 <= cp <= 0x10FFFF)
  }

  /**
   * The first character of a byte sequence and the number of bytes it takes,
   * accepting only the shortest form, no surrogates and nothing above U+10FFFF.
   */
  function Utf8First(b: seq<byte>): (r: Option<(char, nat)>)
    ensures r.Some? ==> 1 <= r.value.1 <= |b| && r.value.1 <= 4
  {
    if |b| == 0 then None
    else if b[0] < 0x80 then Some((b[0] as int as char, 1))
    else if 0xC2 <= b[0] <= 0xDF then
      if |b| < 2 || !IsCont(b[1]) then None
      else Some((((b[0] as int - 0xC0) * 64 + (b[1] as int - 0x80)) as char, 2))
    else if 0xE0 <= b[0] <= 0xEF then
      if |b| < 3 || !IsCont(b[1]) || !IsCont(b[2]) then None
      else
        var cp := ((b[0] as int - 0xE0) * 64 + (b[1] as int - 0x80)) * 64 + (b[2] as int - 0x80);
        if cp < 0x800 || !IsScalar(cp) then None else Some((cp as char, 3))
    else if 0xF0 <= b[0] <= 0xF4 then
      if |b| < 4 || !IsCont(b[1]) || !IsCont(b[2]) || !IsCont(b[3]) then None
      else
        var cp := (((b[0] as int - 0xF0) * 64 + (b[1] as int - 0x80)) * 64 + (b[2] as int - 0x80)) * 64 + (b[3] as int - 0x80);
        if cp < 0x10000 || !IsScalar(cp) then None else Some((cp as char, 4))
    else None
  }

  /** `String::from_utf8`: `None` exactly when the bytes are not well-formed UTF-8. */
  function Utf8Decode(b: seq<byte>): Option<string>
    decreases |b|
  {
    if b == [] then Some([])
    else
      match Utf8First(b)
      case None => None
      case Some((c, n)) =>
        match Utf8Decode(b[n..])
        case None => None
        case Some(rest) => Some([c] + rest)
  }

  lemma Utf8CharFirst(c: char, tail: seq<byte>)
    ensures Utf8First(Utf8Char(c) + tail) == Some((c, |Utf8Char(c)|))
  {
    if c as int < 0x80 {
    } else if c as int < 0x800 {
      TwoByteFirst(c, tail);
    } else if c as int < 0x10000 {
      ThreeByteFirst(c, tail);
    } else {
      FourByteFirst(c, tail);
    }
  }

  lemma TwoByteFirst(c: char, tail: seq<byte>)
    requires 0x80 <= c as int < 0x800
    ensures Utf8First(Utf8Char(c) + tail) == Some((c, 2))
  {
    var cp := c as int;
    var b := Utf8Char(c) + tail;
    assert b[0] as int - 0xC0 == cp / 64 && b[1] as int - 0x80 == cp % 64;
  }

  lemma ThreeByteFirst(c: char, tail: seq<byte>)
    requires 0x800 <= c as int < 0x10000
    ensures Utf8First(Utf8Char(c) + tail) == Some((c, 3))
  {
    var cp := c as int;
    var b := Utf8Char(c) + tail;
    assert b[0] as int - 0xE0 == cp / 64 / 64;
    assert b[1] as int - 0x80 == cp / 64 % 64;
    assert b[2] as int - 0x80 == cp % 64;
    assert (cp / 64 / 64 * 64 + cp / 64 % 64) * 64 + cp % 64 == cp;
  }

  lemma FourByteFirst(c: char, tail: seq<byte>)
    requires 0x10000 <= c as int
    ensures Utf8First(Utf8Char(c) + tail) == Some((c, 4))
  {
    var cp := c as int;
    var b := Utf8Char(c) + tail;
    assert b[0] as int - 0xF0 == cp / 64 / 64 / 64;
    assert b[1] as int - 0x80 == cp / 64 / 64 % 64;
    assert b[2] as int - 0x80 == cp / 64 % 64;
    assert b[3] as int - 0x80 == cp % 64;
    assert ((cp / 64 / 64 / 64 * 64 + cp / 64 / 64 % 64) * 64 + cp / 64 % 64) * 64 + cp % 64 == cp;
  }

  lemma Utf8FirstChar(b: seq<byte>)
    requires Utf8First(b).Some?
    ensures Utf8Char(Utf8First(b).value.0) == b[..Utf8First(b).value.1]
  {
    if b[0] < 0x80 {
    } else if 0xC2 <= b[0] <= 0xDF {
      FirstOfTwo(b);
    } else if 0xE0 <= b[0] <= 0xEF {
      FirstOfThree(b);
    } else {
      FirstOfFour(b);
    }
  }

  lemma FirstOfTwo(b: seq<byte>)
    requires Utf8First(b).Some? && 0xC2 <= b[0] <= 0xDF
    ensures Utf8Char(Utf8First(b).value.0) == b[..Utf8First(b).value.1]
  {
    var x0, x1 := b[0] as int - 0xC0, b[1] as int - 0x80;
    var cp := x0 * 64 + x1;
    assert Utf8First(b).value == (cp as char, 2);
    DivMod(x0, x1, 64);
    assert Utf8Char(cp as char) == [(0xC0 + x0) as byte, (0x80 + x1) as byte];
  }

  lemma FirstOfThree(b: seq<byte>)
    requires Utf8First(b).Some? && 0xE0 <= b[0] <= 0xEF
    ensures Utf8Char(Utf8First(b).value.0) == b[..Utf8First(b).value.1]
  {
    var x0, x1, x2 := b[0] as int - 0xE0, b[1] as int - 0x80, b[2] as int - 0x80;
    var cp := (x0 * 64 + x1) * 64 + x2;
    assert Utf8First(b).value == (cp as char, 3);
    DivMod(x0 * 64 + x1, x2, 64);
    DivMod(x0, x1, 64);
    assert Utf8Char(cp as char) == [(0xE0 + x0) as byte, (0x80 + x1) as byte, (0x80 + x2) as byte];
  }

  lemma FirstOfFour(b: seq<byte>)
    requires Utf8First(b).Some? && 0xF0 <= b[0]
    ensures Utf8Char(Utf8First(b).value.0) == b[..Utf8First(b).value.1]
  {
    var x0, x1, x2, x3 := b[0] as int - 0xF0, b[1] as int - 0x80, b[2] as int - 0x80, b[3] as int - 0x80;
    var cp := ((x0 * 64 + x1) * 64 + x2) * 64 + x3;
    assert Utf8First(b).value == (cp as char, 4);
    DivMod((x0 * 64 + x1) * 64 + x2, x3, 64);
    DivMod(x0 * 64 + x1, x2, 64);
    DivMod(x0, x1, 64);
    assert Utf8Char(cp as char)
        == [(0xF0 + x0) as byte, (0x80 + x1) as byte, (0x80 + x2) as byte, (0x80 + x3) as byte];
  }

  /** Decoding the UTF-8 encoding of a string gives the string back. */
  lemma {:induction false} Utf8RoundTrip(s: string)
    ensures Utf8Decode(Utf8Encode(s)) == Some(s)
    decreases |s|
  {
    if s != [] {
      var b := Utf8Encode(s);
      Utf8CharFirst(s[0], Utf8Encode(s[1..]));
      assert b[|Utf8Char(s[0])|..] == Utf8Encode(s[1..]);
      Utf8RoundTrip(s[1..]);
      assert b != [];
      assert Utf8Decode(b) == Some([s[0]] + s[1..]);
      assert [s[0]] + s[1..] == s;
    }
  }

  /** Every byte sequence that decodes is the encoding of what it decodes to. */
  lemma {:induction false} Utf8DecodeEncodes(b: seq<byte>)
    requires Utf8Decode(b).Some?
    ensures Utf8Encode(Utf8Decode(b).value) == b
    decreases |b|
  {
    if b != [] {
      DecodeStep(b);
      var (c, n) := Utf8First(b).value;
      Utf8FirstChar(b);
      Utf8DecodeEncodes(b[n..]);
      EncodeCons(c, Utf8Decode(b[n..]).value);
      assert b == b[..n] + b[n..];
    }
  }

  /** A well-formed non-empty sequence decodes to its first character and the decoding of the rest. */
  lemma DecodeStep(b: seq<byte>)
    requires b != [] && Utf8Decode(b).Some?
    ensures Utf8First(b).Some? && Utf8Decode(b[Utf8First(b).value.1..]).Some?
    ensures Utf8Decode(b).value == [Utf8First(b).value.0] + Utf8Decode(b[Utf8First(b).value.1..]).value
  {
  }

  lemma EncodeCons(c: char, rest: string)
    ensures Utf8Encode([c] + rest) == Utf8Char(c) + Utf8Encode(rest)
  {
    assert ([c] + rest)[1..] == rest;
  }

  // --------------------------------------------------------------- Base64

  /** The standard alphabet: `A`-`Z`, `a`-`z`, `0`-`9`, `+`, `/`. */
  function Sym(v: int): char
    requires 0 <= v < 64
  {
    if v < 26 then ('A' as int + v) as char
    else if v < 52 then ('a' as int + v - 26) as char
    else if v < 62 then ('0' as int + v - 52) as char
    else if v == 62 then '+'
    else '/'
  }

  function SymVal(c: char): (r: Option<int>)
    ensures r.Some? ==> 0 <= r.value < 64 && Sym(r.value) == c
  {
    if 'A' <= c <= 'Z' then Some(c as int - 'A' as int)
    else if 'a' <= c <= 'z' then Some(c as int - 'a' as int + 26)
    else if '0' <= c <= '9' then Some(c as int - '0' as int + 52)
    else if c == '+' then Some(62)
    else if c == '/' then Some(63)
    else None
  }

  /** Division by a positive constant undoes multiplication (Euclidean division). */
  lemma DivMod(q: int, r: int, k: int)
    requires k == 4 || k == 16 || k == 64
    requires 0 <= r < k
    ensures (q * k + r) / k == q && (q * k + r) % k == r
  {
    if k == 4 {
      assert (q * 4 + r) / 4 == q;
    } else if k == 16 {
      assert (q * 16 + r) / 16 == q;
    } else {
      assert (q * 64 + r) / 64 == q;
    }
  }

  lemma SymRoundTrip(v: int)
    requires 0 <= v < 64
    ensures SymVal(Sym(v)) == Some(v)
  {
  }

  /** `STANDARD.encode(bytes)`: four symbols per three bytes, the last group padded with `=`. */
  function Base64Encode(b: seq<byte>): (r: string)
    ensures |r| == 4 * ((|b| + 2) / 3)
    decreases |b|
  {
    if |b| == 0 then []
    else if |b| == 1 then
      var x0 := b[0] as int;
      [Sym(x0 / 4), Sym(x0 % 4 * 16), '=', '=']
    else if |b| == 2 then
      var x0, x1 := b[0] as int, b[1] as int;
      [Sym(x0 / 4), Sym(x0 % 4 * 16 + x1 / 16), Sym(x1 % 16 * 4), '=']
    else
      EncodeGroup(b[0], b[1], b[2]) + Base64Encode(b[3..])
  }

  function EncodeGroup(b0: byte, b1: byte, b2: byte): (r: string)
    ensures |r| == 4 && '=' !in r
  {
    var x0, x1, x2 := b0 as int, b1 as int, b2 as int;
    [Sym(x0 / 4), Sym(x0 % 4 * 16 + x1 / 16), Sym(x1 % 16 * 4 + x2 / 64), Sym(x2 % 64)]
  }

  /** Four symbols without padding: three bytes. */
  function DecodeGroup(q: string): Option<seq<byte>>
    requires |q| == 4
  {
    match (SymVal(q[0]), SymVal(q[1]), SymVal(q[2]), SymVal(q[3]))
    case (Some(v0), Some(v1), Some(v2), Some(v3)) =>
      Some([(v0 * 4 + v1 / 16) as byte, (v1 % 16 * 16 + v2 / 4) as byte, (v2 % 4 * 64 + v3) as byte])
    case _ => None
  }

  /** The last group: `xx==` is one byte, `xxx=` two, otherwise a full group; unused bits must be zero. */
  function DecodeLast(q: string): Option<seq<byte>>
    requires |q| == 4
  {
    if q[3] == '=' then
      if q[2] == '=' then
        match (SymVal(q[0]), SymVal(q[1]))
        case (Some(v0), Some(v1)) =>
          if v1 % 16 != 0 then None else Some([(v0 * 4 + v1 / 16) as byte])
        case _ => None
      else
        match (SymVal(q[0]), SymVal(q[1]), SymVal(q[2]))
        case (Some(v0), Some(v1), Some(v2)) =>
          if v2 % 4 != 0 then None else Some([(v0 * 4 + v1 / 16) as byte, (v1 % 16 * 16 + v2 / 4) as byte])
        case _ => None
    else DecodeGroup(q)
  }

  /**
   * `STANDARD.decode(s)`: `None` for a length that is not a multiple of four,
   * a character outside the alphabet, padding anywhere but the end, or
   * non-zero trailing bits.
   */
  function Base64Decode(s: string): Option<seq<byte>>
    decreases |s|
  {
    if |s| == 0 then Some([])
    else if |s| < 4 then None
    else if |s| == 4 then DecodeLast(s)
    else
      match DecodeGroup(s[..4])
      case None => None
      case Some(g) =>
        match Base64Decode(s[4..])
        case None => None
        case Some(rest) => Some(g + rest)
  }

  /** The six-bit values of three bytes recombine into the bytes. */
  lemma GroupArith(x0: int, x1: int, x2: int)
    requires 0 <= x0 < 256 && 0 <= x1 < 256 && 0 <= x2 < 256
    ensures x0 / 4 * 4 + (x0 % 4 * 16 + x1 / 16) / 16 == x0
    ensures (x0 % 4 * 16 + x1 / 16) % 16 * 16 + (x1 % 16 * 4 + x2 / 64) / 4 == x1
    ensures (x1 % 16 * 4 + x2 / 64) % 4 * 64 + x2 % 64 == x2
  {
    DivMod(x0 % 4, x1 / 16, 16);
    DivMod(x1 % 16, x2 / 64, 4);
  }

  lemma GroupRoundTrip(b0: byte, b1: byte, b2: byte)
    ensures DecodeGroup(EncodeGroup(b0, b1, b2)) == Some([b0, b1, b2])
  {
    var x0, x1, x2 := b0 as int, b1 as int, b2 as int;
    var v0, v1, v2, v3 := x0 / 4, x0 % 4 * 16 + x1 / 16, x1 % 16 * 4 + x2 / 64, x2 % 64;
    GroupArith(x0, x1, x2);
    SymRoundTrip(v0);
    SymRoundTrip(v1);
    SymRoundTrip(v2);
    SymRoundTrip(v3);
    var q := EncodeGroup(b0, b1, b2);
    assert q == [Sym(v0), Sym(v1), Sym(v2), Sym(v3)];
    assert SymVal(q[0]) == Some(v0) && SymVal(q[1]) == Some(v1);
    assert SymVal(q[2]) == Some(v2) && SymVal(q[3]) == Some(v3);
  }

  lemma GroupDecodeEncodes(q: string)
    requires |q| == 4 && DecodeGroup(q).Some?
    ensures |DecodeGroup(q).value| == 3
    ensures EncodeGroup(DecodeGroup(q).value[0], DecodeGroup(q).value[1], DecodeGroup(q).value[2]) == q
  {
    var v0, v1, v2, v3 := GroupValues(q);
    var g := [(v0 * 4 + v1 / 16) as byte, (v1 % 16 * 16 + v2 / 4) as byte, (v2 % 4 * 64 + v3) as byte];
    SymbolsReencode(v0, v1, v2, v3);
    assert EncodeGroup(g[0], g[1], g[2]) == [Sym(v0), Sym(v1), Sym(v2), Sym(v3)];
  }

  /** The six-bit values of a group that decodes, and the bytes it decodes to. */
  lemma GroupValues(q: string) returns (v0: int, v1: int, v2: int, v3: int)
    requires |q| == 4 && DecodeGroup(q).Some?
    ensures 0 <= v0 < 64 && 0 <= v1 < 64 && 0 <= v2 < 64 && 0 <= v3 < 64
    ensures q == [Sym(v0), Sym(v1), Sym(v2), Sym(v3)]
    ensures DecodeGroup(q).value
         == [(v0 * 4 + v1 / 16) as byte, (v1 % 16 * 16 + v2 / 4) as byte, (v2 % 4 * 64 + v3) as byte]
  {
    v0, v1, v2, v3 := SymVal(q[0]).value, SymVal(q[1]).value, SymVal(q[2]).value, SymVal(q[3]).value;
    assert q == [q[0], q[1], q[2], q[3]];
  }

  /** Three bytes rebuilt from four six-bit values encode back to those values' symbols. */
  lemma SymbolsReencode(v0: int, v1: int, v2: int, v3: int)
    requires 0 <= v0 < 64 && 0 <= v1 < 64 && 0 <= v2 < 64 && 0 <= v3 < 64
    ensures EncodeGroup((v0 * 4 + v1 / 16) as byte, (v1 % 16 * 16 + v2 / 4) as byte, (v2 % 4 * 64 + v3) as byte)
         == [Sym(v0), Sym(v1), Sym(v2), Sym(v3)]
  {
    RecombineArith(v0, v1, v2, v3);
  }

  /** The bytes rebuilt from four six-bit values split back into those values. */
  lemma RecombineArith(v0: int, v1: int, v2: int, v3: int)
    requires 0 <= v0 < 64 && 0 <= v1 < 64 && 0 <= v2 < 64 && 0 <= v3 < 64
    ensures 0 <= v0 * 4 + v1 / 16 < 256 && 0 <= v1 % 16 * 16 + v2 / 4 < 256 && 0 <= v2 % 4 * 64 + v3 < 256
    ensures (v0 * 4 + v1 / 16) / 4 == v0
    ensures (v0 * 4 + v1 / 16) % 4 * 16 + (v1 % 16 * 16 + v2 / 4) / 16 == v1
    ensures (v1 % 16 * 16 + v2 / 4) % 16 * 4 + (v2 % 4 * 64 + v3) / 64 == v2
    ensures (v2 % 4 * 64 + v3) % 64 == v3
  {
    DivMod(v0, v1 / 16, 4);
    DivMod(v1 % 16, v2 / 4, 16);
    DivMod(v2 % 4, v3, 64);
  }

  /** The six-bit values of a final single byte recombine into it, with zero trailing bits. */
  lemma OneArith(x0: int)
    requires 0 <= x0 < 256
    ensures (x0 % 4 * 16) % 16 == 0
    ensures x0 / 4 * 4 + (x0 % 4 * 16) / 16 == x0
  {
    DivMod(x0 % 4, 0, 16);
  }

  /** A final group carrying one byte. */
  lemma DecodeLastOne(v0: int, v1: int)
    requires 0 <= v0 < 64 && 0 <= v1 < 64 && v1 % 16 == 0
    ensures Base64Decode([Sym(v0), Sym(v1), '=', '=']) == Some([(v0 * 4 + v1 / 16) as byte])
  {
    SymRoundTrip(v0);
    SymRoundTrip(v1);
  }

  lemma OneByteRoundTrip(b: seq<byte>)
    requires |b| == 1
    ensures Base64Decode(Base64Encode(b)) == Some(b)
  {
    var x0 := b[0] as int;
    var v0, v1 := x0 / 4, x0 % 4 * 16;
    OneArith(x0);
    assert Base64Encode(b) == [Sym(v0), Sym(v1), '=', '='];
    DecodeLastOne(v0, v1);
    assert (v0 * 4 + v1 / 16) as byte == b[0];
    assert b == [b[0]];
  }

  /** The six-bit values of a final pair of bytes recombine into them, with zero trailing bits. */
  lemma PairArith(x0: int, x1: int)
    requires 0 <= x0 < 256 && 0 <= x1 < 256
    ensures (x1 % 16 * 4) % 4 == 0
    ensures x0 / 4 * 4 + (x0 % 4 * 16 + x1 / 16) / 16 == x0
    ensures (x0 % 4 * 16 + x1 / 16) % 16 * 16 + (x1 % 16 * 4) / 4 == x1
  {
    DivMod(x0 % 4, x1 / 16, 16);
    DivMod(x1 % 16, 0, 4);
  }

  /** A final group carrying two bytes. */
  lemma DecodeLastTwo(v0: int, v1: int, v2: int)
    requires 0 <= v0 < 64 && 0 <= v1 < 64 && 0 <= v2 < 64 && v2 % 4 == 0
    ensures Base64Decode([Sym(v0), Sym(v1), Sym(v2), '='])
         == Some([(v0 * 4 + v1 / 16) as byte, (v1 % 16 * 16 + v2 / 4) as byte])
  {
    SymRoundTrip(v0);
    SymRoundTrip(v1);
    SymRoundTrip(v2);
    var q := [Sym(v0), Sym(v1), Sym(v2), '='];
    assert q[2] != '=';
  }

  lemma TwoBytesRoundTrip(b: seq<byte>)
    requires |b| == 2
    ensures Base64Decode(Base64Encode(b)) == Some(b)
  {
    var x0, x1 := b[0] as int, b[1] as int;
    var v0, v1, v2 := x0 / 4, x0 % 4 * 16 + x1 / 16, x1 % 16 * 4;
    PairArith(x0, x1);
    assert Base64Encode(b) == [Sym(v0), Sym(v1), Sym(v2), '='];
    DecodeLastTwo(v0, v1, v2);
    assert (v0 * 4 + v1 / 16) as byte == b[0];
    assert (v1 % 16 * 16 + v2 / 4) as byte == b[1];
    assert b == [b[0], b[1]];
  }

  /** A full group followed by more groups decodes group by group. */
  lemma DecodeCons(g: string, t: string, x: seq<byte>, y: seq<byte>)
    requires |g| == 4 && |t| >= 4
    requires DecodeGroup(g) == Some(x) && Base64Decode(t) == Some(y)
    ensures Base64Decode(g + t) == Some(x + y)
  {
    assert (g + t)[..4] == g && (g + t)[4..] == t;
  }

  /** A last group without padding decodes as a full group. */
  lemma LastUnpadded(q: string)
    requires |q| == 4 && q[3] != '='
    ensures Base64Decode(q) == DecodeGroup(q)
  {
  }

  /** Decoding an encoding gives the bytes back. */
  lemma {:induction false} Base64RoundTrip(b: seq<byte>)
    ensures Base64Decode(Base64Encode(b)) == Some(b)
    decreases |b|
  {
    if |b| == 1 {
      OneByteRoundTrip(b);
    } else if |b| == 2 {
      TwoBytesRoundTrip(b);
    } else if |b| == 3 {
      ThreeBytesRoundTrip(b);
    } else if |b| > 3 {
      Base64RoundTrip(b[3..]);
      GroupsRoundTrip(b);
    }
  }

  lemma ThreeBytesRoundTrip(b: seq<byte>)
    requires |b| == 3
    ensures Base64Decode(Base64Encode(b)) == Some(b)
  {
    var g := EncodeGroup(b[0], b[1], b[2]);
    GroupRoundTrip(b[0], b[1], b[2]);
    assert Base64Encode(b[3..]) == [];
    assert Base64Encode(b) == g;
    LastUnpadded(g);
    assert b == [b[0], b[1], b[2]];
  }

  lemma GroupsRoundTrip(b: seq<byte>)
    requires |b| > 3 && Base64Decode(Base64Encode(b[3..])) == Some(b[3..])
    ensures Base64Decode(Base64Encode(b)) == Some(b)
  {
    var g := EncodeGroup(b[0], b[1], b[2]);
    var t := Base64Encode(b[3..]);
    GroupRoundTrip(b[0], b[1], b[2]);
    assert Base64Encode(b) == g + t;
    DecodeCons(g, t, [b[0], b[1], b[2]], b[3..]);
    SplitThree(b);
  }

  lemma SplitThree(b: seq<byte>)
    requires |b| >= 3
    ensures [b[0], b[1], b[2]] + b[3..] == b
  {
    assert b == b[..3] + b[3..];
    assert b[..3] == [b[0], b[1], b[2]];
  }

  lemma LastDecodeEncodes(q: string)
    requires |q| == 4 && DecodeLast(q).Some?
    ensures Base64Encode(DecodeLast(q).value) == q
  {
    if q[3] == '=' {
      if q[2] == '=' {
        LastOneReencodes(q);
      } else {
        LastTwoReencodes(q);
      }
    } else {
      GroupDecodeEncodes(q);
      var g := DecodeGroup(q).value;
      assert Base64Encode(g) == EncodeGroup(g[0], g[1], g[2]) + Base64Encode(g[3..]);
    }
  }

  /** A final `xx==` group that decodes encodes back to itself. */
  lemma LastOneReencodes(q: string)
    requires |q| == 4 && q[3] == '=' && q[2] == '=' && DecodeLast(q).Some?
    ensures Base64Encode(DecodeLast(q).value) == q
  {
    var v0, v1 := SymVal(q[0]).value, SymVal(q[1]).value;
    OneSplit(v0, v1);
    assert q == [Sym(v0), Sym(v1), '=', '='];
  }

  /** A final `xxx=` group that decodes encodes back to itself. */
  lemma LastTwoReencodes(q: string)
    requires |q| == 4 && q[3] == '=' && q[2] != '=' && DecodeLast(q).Some?
    ensures Base64Encode(DecodeLast(q).value) == q
  {
    var v0, v1, v2 := SymVal(q[0]).value, SymVal(q[1]).value, SymVal(q[2]).value;
    PairSplit(v0, v1, v2);
    assert q == [Sym(v0), Sym(v1), Sym(v2), '='];
  }

  /** A byte rebuilt from two six-bit values with zero trailing bits splits back into them. */
  lemma OneSplit(v0: int, v1: int)
    requires 0 <= v0 < 64 && 0 <= v1 < 64 && v1 % 16 == 0
    ensures 0 <= v0 * 4 + v1 / 16 < 256
    ensures (v0 * 4 + v1 / 16) / 4 == v0 && (v0 * 4 + v1 / 16) % 4 * 16 == v1
  {
    DivMod(v0, v1 / 16, 4);
  }

  /** Two bytes rebuilt from three six-bit values with zero trailing bits split back into them. */
  lemma PairSplit(v0: int, v1: int, v2: int)
    requires 0 <= v0 < 64 && 0 <= v1 < 64 && 0 <= v2 < 64 && v2 % 4 == 0
    ensures 0 <= v0 * 4 + v1 / 16 < 256 && 0 <= v1 % 16 * 16 + v2 / 4 < 256
    ensures (v0 * 4 + v1 / 16) / 4 == v0
    ensures (v0 * 4 + v1 / 16) % 4 * 16 + (v1 % 16 * 16 + v2 / 4) / 16 == v1
    ensures (v1 % 16 * 16 + v2 / 4) % 16 * 4 == v2
  {
    DivMod(v0, v1 / 16, 4);
    DivMod(v1 % 16, v2 / 4, 16);
  }

  lemma GroupThenRest(g: seq<byte>, rest: seq<byte>)
    requires |g| == 3 && |rest| > 0
    ensures Base64Encode(g + rest) == EncodeGroup(g[0], g[1], g[2]) + Base64Encode(rest)
  {
    assert (g + rest)[3..] == rest;
  }

  /** Decoding accepts only canonical encodings: whatever decodes is the encoding of its result. */
  lemma {:induction false} Base64DecodeEncodes(s: string)
    requires Base64Decode(s).Some?
    ensures Base64Encode(Base64Decode(s).value) == s
    decreases |s|
  {
    if |s| == 4 {
      LastDecodeEncodes(s);
    } else if |s| > 4 {
      var g := DecodeGroup(s[..4]).value;
      var rest := Base64Decode(s[4..]).value;
      GroupDecodeEncodes(s[..4]);
      Base64DecodeEncodes(s[4..]);
      assert |rest| > 0 by {
        assert |Base64Encode(rest)| == |s| - 4 > 0;
      }
      GroupThenRest(g, rest);
      assert Base64Decode(s).value == g + rest;
      assert s == s[..4] + s[4..];
    }
  }
}

=== FILE: gemini.dfy ===
/**
 * The Gemini CLI OAuth provider: stored credentials, token validity, the
 * Code Assist endpoint URLs, token refresh, and project discovery with its
 * onboarding poll. Replies of the Code Assist API are inputs: `reply(k)` is
 * the outcome of the k-th call the discovery makes.
 */
module GeminiProvider {
  import opened Wrappers
  import opened Text
  import opened Json
  import opened ProviderAuth

  const CodeAssistEndpoint := "https://cloudcode-pa.googleapis.com"
  const CodeAssistApiVersion := "v1internal"
  /** The margin a token must have left: 5 minutes. */
  const ValidityMarginMs: nat := 300000
  /** How many times discovery re-polls an unfinished onboarding. */
  const OnboardPolls: nat := 30

  datatype Credentials = Credentials(
    accessToken: Option<string>,
    refreshToken: Option<string>,
    tokenType: Option<string>,
    expiryDate: Option<int>,
    scope: Option<string>)

  /** `GeminiCredentials::default()`: a bearer token type and nothing else. */
  function DefaultCredentials(): (r: Credentials)
    ensures r.tokenType == Some("Bearer")
    ensures r.accessToken.None? && r.refreshToken.None? && r.expiryDate.None? && r.scope.None?
  {
    Credentials(None, None, Some("Bearer"), None, None)
  }

  /** `is_token_valid` at instant `nowMs`. */
  function IsTokenValid(c: Credentials, nowMs: int): (r: bool)
    ensures c.accessToken.None? ==> !r
    ensures c.accessToken.Some? && c.expiryDate.None? ==> r
    ensures c.accessToken.Some? && c.expiryDate.Some? ==> (r <==> c.expiryDate.value > nowMs + 300000)
  {
    TokenValid(c.accessToken, c.expiryDate, nowMs, ValidityMarginMs)
  }

  /** `get_api_url`: the Code Assist endpoint, its API version, a colon and the action. */
  function ApiUrl(action: string): (r: string)
    ensures r == "https://cloudcode-pa.googleapis.com/v1internal:" + action
  {
    CodeAssistEndpoint + "/" + CodeAssistApiVersion + ":" + action
  }

  /** Distinct actions have distinct URLs. */
  lemma ApiUrlInjective(a: string, b: string)
    requires ApiUrl(a) == ApiUrl(b)
    ensures a == b
  {
    var p := "https://cloudcode-pa.googleapis.com/v1internal:";
    assert ApiUrl(a)[|p|..] == a;
    assert ApiUrl(b)[|p|..] == b;
  }

  /**
   * `refresh_token`, with the OAuth client id and secret from the
   * environment, the token endpoint's reply, the parser, the clock and the
   * outcome of saving as inputs. A missing refresh token, client id or
   * client secret ends it before anything is sent; a failed reply ends it
   * without touching the credentials; a good reply installs the new access
   * token and, when given, the new expiry.
   */
  function RefreshToken(c: Credentials, clientId: Option<string>, clientSecret: Option<string>,
                        reply: Result<HttpReply, string>, parse: string -> Option<Json>,
                        nowMs: int, saved: Result<(), string>): (r: (Result<string, RefreshError>, Credentials))
    ensures c.refreshToken.None? ==> r == (Err(NoRefreshToken), c)
    ensures c.refreshToken.Some? && clientId.None? ==> r == (Err(MissingSetting("GEMINI_OAUTH_CLIENT_ID")), c)
    ensures c.refreshToken.Some? && clientId.Some? && clientSecret.None? ==>
              r == (Err(MissingSetting("GEMINI_OAUTH_CLIENT_SECRET")), c)
    ensures r.0.Err? && !r.0.error.SaveFailed? ==> r.1 == c
    ensures c.refreshToken.Some? && clientId.Some? && clientSecret.Some? && ReadTokenReply(reply, parse).Ok? ==>
              var (data, token) := ReadTokenReply(reply, parse).value;
              r.1 == c.(accessToken := Some(token),
                        expiryDate := match AsInt(Index(data, "expires_in"))
                                      case Some(secs) => Some(ExpiryAfter(nowMs, secs))
                                      case None => c.expiryDate)
              && r.0 == (if saved.Ok? then Ok(token) else Err(SaveFailed(saved.error)))
  {
    if c.refreshToken.None? then (Err(NoRefreshToken), c)
    else if clientId.None? then (Err(MissingSetting("GEMINI_OAUTH_CLIENT_ID")), c)
    else if clientSecret.None? then (Err(MissingSetting("GEMINI_OAUTH_CLIENT_SECRET")), c)
    else match ReadTokenReply(reply, parse)
      case Err(e) => (Err(e), c)
      case Ok((data, token)) =>
        var c1 := c.(accessToken := Some(token));
        var c2 := match AsInt(Index(data, "expires_in"))
                  case Some(secs) => c1.(expiryDate := Some(ExpiryAfter(nowMs, secs)))
                  case None => c1;
        (if saved.Ok? then Ok(token) else Err(SaveFailed(saved.error)), c2)
  }

  // ------------------------------------------------------------ project discovery

  /** The outcome of the k-th Code Assist call (already past `call_api`'s own checks). */
  type Replies = nat -> Result<Json, string>

  /** A finished long-running operation (`done` is true). */
  predicate Done(lro: Json)
  {
    AsBool(Index(lro, "done")) == Some(true)
  }

  /**
   * The polling loop: up to `left` more calls while the operation is not
   * done; `next` is the index of the next call. Returns the last reply (or
   * the first failure) and the number of calls made so far.
   */
  function Poll(reply: Replies, lro: Json, left: nat, next: nat): (r: (Result<Json, string>, nat))
    ensures next <= r.1 <= next + left
    ensures r.0.Ok? ==> Done(r.0.value) || r.1 == next + left
    ensures Done(lro) ==> r == (Ok(lro), next)
    decreases left
  {
    if Done(lro) || left == 0 then (Ok(lro), next)
    else match reply(next)
      case Err(e) => (Err(e), next + 1)
      case Ok(lro2) => Poll(reply, lro2, left - 1, next + 1)
  }

  /** The project id in a finished onboarding reply, or "". */
  function OnboardedProject(lro: Json): string
  {
    AsStr(Index(Index(Index(lro, "response"), "cloudaicompanionProject"), "id")).UnwrapOr("")
  }

  /**
   * `discover_project`: a cached project id is returned without any call.
   * Otherwise the first call asks for the offered project; a non-empty one
   * is cached and returned. Otherwise onboarding starts and is polled up to
   * 30 more times until done; its project id, when non-empty, is cached and
   * returned. Returns the result, the cached id afterwards and the number of
   * calls made.
   */
  function DiscoverProject(projectId: Option<string>, reply: Replies): (r: (Result<string, string>, Option<string>, nat))
    ensures projectId.Some? ==> r == (Ok(projectId.value), projectId, 0)
    ensures r.2 <= 2 + OnboardPolls
    ensures r.0.Ok? ==> r.1 == Some(r.0.value)
    ensures projectId.None? && r.0.Ok? ==> r.0.value != ""
    ensures r.0.Err? ==> r.1 == projectId
    ensures projectId.None? && reply(0).Err? ==> r == (Err(reply(0).error), None, 1)
  {
    if projectId.Some? then (Ok(projectId.value), projectId, 0)
    else match reply(0)
      case Err(e) => (Err(e), None, 1)
      case Ok(load) =>
        var offered := AsStr(Index(load, "cloudaicompanionProject"));
        if offered.Some? && offered.value != "" then (Ok(offered.value), offered, 1)
        else match reply(1)
          case Err(e) => (Err(e), None, 2)
          case Ok(first) =>
            var (last, calls) := Poll(reply, first, OnboardPolls, 2);
            match last
            case Err(e) => (Err(e), None, calls)
            case Ok(lro) =>
              var id := OnboardedProject(lro);
              if id == "" then (Err("Failed to discover project ID"), None, calls)
              else (Ok(id), Some(id), calls)
  }

  /** Discovery is cached: once it succeeds, asking again makes no call and gives the same project. */
  lemma DiscoveryCached(projectId: Option<string>, reply: Replies, again: Replies)
    requires DiscoverProject(projectId, reply).0.Ok?
    ensures var (res, cached, _) := DiscoverProject(projectId, reply);
            DiscoverProject(cached, again) == (res, cached, 0)
  {
  }
}

=== FILE: general_chat.dfy ===
/**
 * The general-chat commands: sessions and messages, the simulated streaming
 * reply with its per-session stop flags, and the session title generated
 * from the first message (or derived from it when generation fails).
 *
 * The database is a map of sessions and a list of messages; identifiers and
 * timestamps are supplied by the caller.
 */
module GeneralChat {
  import opened Wrappers
  import opened Text
  import opened Json
  import CustomProvider
  import OpenAICustom

  // ------------------------------------------------------------ roles

  datatype MessageRole = User | Assistant | System

  function RoleName(r: MessageRole): string
  {
    match r
    case User => "user"
    case Assistant => "assistant"
    case System => "system"
  }

  /** The role named by a message's role string; any other string is an error quoting it. */
  function ParseRole(role: string): (r: Result<MessageRole, string>)
    ensures r.Ok? ==> RoleName(r.value) == role
    ensures r.Err? <==> forall m: MessageRole :: RoleName(m) != role
    ensures r.Err? ==> r.error == "无效的消息角色: " + role
  {
    if role == "user" then Ok(User)
    else if role == "assistant" then Ok(Assistant)
    else if role == "system" then Ok(System)
    else Err("无效的消息角色: " + role)
  }

  lemma RoleRoundTrip(m: MessageRole)
    ensures ParseRole(RoleName(m)) == Ok(m)
  {
  }

  // ------------------------------------------------------------ store

  const DefaultSessionName := "新对话"
  const MissingSession := "会话不存在"

  datatype Session = Session(id: string, name: string, createdAt: int, updatedAt: int, metadata: Option<Json>)

  /** A stored message; its content blocks are kept in their serialised JSON form. */
  datatype Message = Message(
    id: string, sessionId: string, role: MessageRole, content: string, blocks: Option<seq<Json>>,
    status: string, createdAt: int, metadata: Option<Json>)

  datatype Store = Store(sessions: map<string, Session>, messages: seq<Message>)

  /** `general_chat_create_session`: named "新对话" unless a name is given; created and updated at the same instant. */
  function CreateSession(db: Store, id: string, name: Option<string>, metadata: Option<Json>, now: int): (r: (Session, Store))
    ensures r.0.id == id && r.0.metadata == metadata
    ensures name.Some? ==> r.0.name == name.value
    ensures name.None? ==> r.0.name == "新对话"
    ensures r.0.createdAt == r.0.updatedAt == now
    ensures r.1.sessions == db.sessions[id := r.0] && r.1.messages == db.messages
  {
    var s := Session(id, name.UnwrapOr(DefaultSessionName), now, now, metadata);
    (s, db.(sessions := db.sessions[id := s]))
  }

  /**
   * `general_chat_add_message`: the role is checked first, then the session;
   * a stored message is complete and carries the given content, blocks and metadata.
   */
  function AddMessage(db: Store, id: string, sessionId: string, role: string, content: string,
                      blocks: Option<seq<Json>>, metadata: Option<Json>, now: int): (r: (Result<Message, string>, Store))
    ensures ParseRole(role).Err? ==> r.0 == Err(ParseRole(role).error)
    ensures ParseRole(role).Ok? && sessionId !in db.sessions ==> r.0 == Err("会话不存在")
    ensures r.0.Ok? <==> ParseRole(role).Ok? && sessionId in db.sessions
    ensures r.0.Err? ==> r.1 == db
    ensures r.0.Ok? ==> r.1 == db.(messages := db.messages + [r.0.value])
    ensures r.0.Ok? ==> r.0.value.role == ParseRole(role).value && r.0.value.content == content
                        && r.0.value.sessionId == sessionId && r.0.value.status == "complete"
    ensures r.0.Ok? ==> r.0.value.id == id && r.0.value.blocks == blocks
                        && r.0.value.metadata == metadata && r.0.value.createdAt == now
  {
    match ParseRole(role)
    case Err(e) => (Err(e), db)
    case Ok(m) =>
      if sessionId !in db.sessions then (Err(MissingSession), db)
      else
        var msg := Message(id, sessionId, m, content, blocks, "complete", now, metadata);
        (Ok(msg), db.(messages := db.messages + [msg]))
  }

  // ------------------------------------------------------------ stop flags

  /** The stop flags of the sessions currently generating. */
  type StopFlags = map<string, bool>

  /** `general_chat_stop_generation`: only a session that is generating can be stopped. */
  function StopGeneration(flags: StopFlags, sessionId: string): (r: (bool, StopFlags))
    ensures r.0 <==> sessionId in flags
    ensures r.0 ==> r.1 == flags[sessionId := true]
    ensures !r.0 ==> r.1 == flags
  {
    if sessionId in flags then (true, flags[sessionId := true]) else (false, flags)
  }

  /** The streaming loop's check: stop when the flag is set; a missing flag means go on. */
  predicate ShouldStop(flags: StopFlags, sessionId: string)
  {
    sessionId in flags && flags[sessionId]
  }

  /** A stop request is seen by the streaming loop of that session and of no other. */
  lemma StopIsObserved(flags: StopFlags, sessionId: string, other: string)
    requires sessionId in flags
    ensures ShouldStop(StopGeneration(flags, sessionId).1, sessionId)
    ensures other != sessionId ==> (ShouldStop(StopGeneration(flags, sessionId).1, other) <==> ShouldStop(flags, other))
  {
  }

  /** A stop request for a session that is not generating changes nothing and reports false. */
  lemma StopWithoutGeneration(sessionId: string)
    ensures StopGeneration(map[], sessionId) == (false, map[])
  {
  }

  // ------------------------------------------------------------ streaming

  const ChunkSize: nat := 5

  /** `chars().chunks(5)`: consecutive pieces of five characters, the last one possibly shorter. */
  function Chunks(s: string): (r: seq<string>)
    ensures forall k :: 0 <= k < |r| ==> 0 < |r[k]| <= ChunkSize
    ensures forall k :: 0 <= k < |r| - 1 ==> |r[k]| == ChunkSize
    ensures |r| == (|s| + ChunkSize - 1) / ChunkSize
    decreases |s|
  {
    if |s| == 0 then []
    else if |s| <= ChunkSize then [s]
    else [s[..ChunkSize]] + Chunks(s[ChunkSize..])
  }

  function Concat(parts: seq<string>): string
  {
    if |parts| == 0 then "" else parts[0] + Concat(parts[1..])
  }

  /** The chunks put back together are the text. */
  lemma {:induction false} ChunksConcat(s: string)
    ensures Concat(Chunks(s)) == s
    decreases |s|
  {
    if |s| > ChunkSize {
      ChunksConcat(s[ChunkSize..]);
      assert Chunks(s)[1..] == Chunks(s[ChunkSize..]);
      assert s == s[..ChunkSize] + s[ChunkSize..];
    } else if |s| > 0 {
      assert Concat(Chunks(s)) == s + Concat([]);
    }
  }

  lemma {:induction false} ConcatPrefix(parts: seq<string>, n: nat)
    requires n <= |parts|
    ensures StartsWith(Concat(parts), Concat(parts[..n]))
    decreases n
  {
    if n > 0 {
      ConcatPrefix(parts[1..], n - 1);
      assert parts[..n][1..] == parts[1..][..n - 1];
      var tail := Concat(parts[1..]);
      var pre := Concat(parts[1..][..n - 1]);
      assert tail[..|pre|] == pre;
      assert (parts[0] + tail)[..|parts[0]| + |pre|] == parts[0] + pre;
    }
  }

  /** The simulated reply to a user message. */
  function MockResponse(content: string): (r: string)
    ensures StartsWith(r, "这是对「") && |r| == |content| + |"这是对「"| + |"」的模拟响应。实际实现需要集成 Provider 系统。"|
  {
    var r := "这是对「" + content + "」的模拟响应。实际实现需要集成 Provider 系统。";
    assert r[..|"这是对「"|] == "这是对「";
    r
  }

  /** The events sent to the front end while a reply is produced. */
  datatype StreamEvent =
    | Start(messageId: string)
    | Delta(content: string)
    | Done(messageId: string, content: string)
    | Failed(message: string)

  datatype SendRequest = SendRequest(sessionId: string, content: string)

  /** What a send produced: the assistant message id, the events in order, the new store and flags. */
  datatype SendOutcome = SendOutcome(reply: Result<string, string>, events: seq<StreamEvent>, db: Store, flags: StopFlags)

  /**
   * `general_chat_send_message` with the provider replaced by the simulated
   * reply. The user message is stored, the session's flag is cleared, the
   * reply is streamed in chunks of five characters until the loop sees the
   * flag set (`stopAfter`: the number of chunks sent before a stop request
   * arrives, `None` when none does), the whole reply is stored as the
   * assistant message, and the flag is removed.
   */
  function SendMessage(db: Store, flags: StopFlags, req: SendRequest, userId: string, assistantId: string,
                       now: int, later: int, stopAfter: Option<nat>): (r: SendOutcome)
    ensures req.sessionId !in db.sessions <==> r.reply == Err("会话不存在")
    ensures r.reply.Err? ==> r.events == [] && r.db == db && r.flags == flags
    ensures r.reply.Ok? ==> r.reply.value == assistantId && req.sessionId !in r.flags
    ensures r.reply.Ok? ==> forall other :: other != req.sessionId ==> (other in r.flags <==> other in flags)
    ensures r.reply.Ok? ==> r.flags == flags - {req.sessionId}
    ensures r.reply.Ok? ==> r.db == db.(messages := r.db.messages)
    ensures r.reply.Ok? ==> |r.db.messages| == |db.messages| + 2 && r.db.messages[..|db.messages|] == db.messages
    ensures r.reply.Ok? ==> r.db.messages[|db.messages|].id == userId
                            && r.db.messages[|db.messages| + 1].id == assistantId
    ensures r.reply.Ok? ==> r.db.messages[|db.messages|].sessionId == req.sessionId
                            && r.db.messages[|db.messages| + 1].sessionId == req.sessionId
    ensures r.reply.Ok? ==> r.db.messages[|db.messages|].role == User
                            && r.db.messages[|db.messages|].content == req.content
    ensures r.reply.Ok? ==> r.db.messages[|db.messages| + 1].role == Assistant
                            && r.db.messages[|db.messages| + 1].content == MockResponse(req.content)
    ensures r.reply.Ok? ==> |r.events| >= 2 && r.events[0] == Start(assistantId)
                            && r.events[|r.events| - 1] == Done(assistantId, MockResponse(req.content))
  {
    if req.sessionId !in db.sessions then SendOutcome(Err(MissingSession), [], db, flags)
    else
      var user := Message(userId, req.sessionId, User, req.content, None, "complete", now, None);
      var running := flags[req.sessionId := false];
      var reply := MockResponse(req.content);
      var chunks := Chunks(reply);
      var deltas := DeltaEvents(chunks, SentCount(stopAfter, |chunks|));
      var assistant := Message(assistantId, req.sessionId, Assistant, reply, None, "complete", later, None);
      SendOutcome(Ok(assistantId),
                  [Start(assistantId)] + deltas + [Done(assistantId, reply)],
                  db.(messages := db.messages + [user, assistant]),
                  running - {req.sessionId})
  }

  /** The text of the delta events. */
  function StreamedText(events: seq<StreamEvent>): string
  {
    if |events| == 0 then ""
    else (if events[0].Delta? then events[0].content else "") + StreamedText(events[1..])
  }

  lemma {:induction false} StreamedTextAppend(a: seq<StreamEvent>, b: seq<StreamEvent>)
    ensures StreamedText(a + b) == StreamedText(a) + StreamedText(b)
    decreases |a|
  {
    if |a| == 0 {
      assert a + b == b;
    } else {
      assert (a + b)[1..] == a[1..] + b;
      StreamedTextAppend(a[1..], b);
    }
  }

  lemma {:induction false} DeltasText(chunks: seq<string>, n: nat)
    requires n <= |chunks|
    ensures StreamedText(DeltaEvents(chunks, n)) == Concat(chunks[..n])
    decreases n
  {
    if n > 0 {
      var ds := DeltaEvents(chunks, n);
      var init := DeltaEvents(chunks, n - 1);
      assert ds == init + [Delta(chunks[n - 1])];
      StreamedTextAppend(init, [Delta(chunks[n - 1])]);
      DeltasText(chunks, n - 1);
      assert StreamedText([Delta(chunks[n - 1])]) == chunks[n - 1] + StreamedText([]);
      ConcatSnoc(chunks[..n - 1], chunks[n - 1]);
      assert chunks[..n] == chunks[..n - 1] + [chunks[n - 1]];
    }
  }

  lemma {:induction false} ConcatSnoc(parts: seq<string>, p: string)
    ensures Concat(parts + [p]) == Concat(parts) + p
    decreases |parts|
  {
    if |parts| == 0 {
      assert parts + [p] == [p];
      assert Concat([p]) == p + Concat([]);
    } else {
      assert (parts + [p])[1..] == parts[1..] + [p];
      ConcatSnoc(parts[1..], p);
    }
  }

  /**
   * What the front end receives as deltas is a prefix of the reply, and the
   * whole reply when nobody stops the generation; the stored assistant
   * message is the whole reply either way.
   */
  lemma StreamedPrefix(db: Store, flags: StopFlags, req: SendRequest, userId: string, assistantId: string,
                       now: int, later: int, stopAfter: Option<nat>)
    requires req.sessionId in db.sessions
    ensures StartsWith(MockResponse(req.content),
                       StreamedText(SendMessage(db, flags, req, userId, assistantId, now, later, stopAfter).events))
    ensures stopAfter.None? ==>
              StreamedText(SendMessage(db, flags, req, userId, assistantId, now, later, stopAfter).events)
              == MockResponse(req.content)
  {
    var reply := MockResponse(req.content);
    var sent := SentCount(stopAfter, |Chunks(reply)|);
    SentEvents(db, flags, req, userId, assistantId, now, later, stopAfter);
    StreamOfReply(reply, assistantId, sent);
  }

  /** How many chunks are sent: all of them, or as many as were sent before the stop. */
  function SentCount(stopAfter: Option<nat>, total: nat): (r: nat)
    ensures r <= total
    ensures stopAfter.None? ==> r == total
  {
    match stopAfter
    case Some(n) => if n < total then n else total
    case None => total
  }

  /** One delta event per chunk, for the first `n` chunks. */
  function DeltaEvents(chunks: seq<string>, n: nat): (r: seq<StreamEvent>)
    requires n <= |chunks|
    ensures |r| == n
    ensures forall k :: 0 <= k < n ==> r[k] == Delta(chunks[k])
  {
    seq(n, k requires 0 <= k < n => Delta(chunks[k]))
  }

  /** The events of a sent message: the start, the sent chunks, and the done event with the whole reply. */
  lemma SentEvents(db: Store, flags: StopFlags, req: SendRequest, userId: string, assistantId: string,
                   now: int, later: int, stopAfter: Option<nat>)
    requires req.sessionId in db.sessions
    ensures var reply := MockResponse(req.content);
            var chunks := Chunks(reply);
            SendMessage(db, flags, req, userId, assistantId, now, later, stopAfter).events
            == [Start(assistantId)] + DeltaEvents(chunks, SentCount(stopAfter, |chunks|)) + [Done(assistantId, reply)]
  {
  }

  /** The text of a framed stream of the first `sent` chunks of a reply is a prefix of it, and all of it when every chunk is sent. */
  lemma StreamOfReply(reply: string, id: string, sent: nat)
    requires sent <= |Chunks(reply)|
    ensures var events := [Start(id)] + DeltaEvents(Chunks(reply), sent) + [Done(id, reply)];
            StartsWith(reply, StreamedText(events))
            && (sent == |Chunks(reply)| ==> StreamedText(events) == reply)
  {
    var chunks := Chunks(reply);
    FramedText(id, DeltaEvents(chunks, sent), reply);
    DeltasText(chunks, sent);
    ChunksConcat(reply);
    ConcatPrefix(chunks, sent);
    if sent == |chunks| {
      assert chunks[..sent] == chunks;
    }
  }

  /** The start and done events around the deltas carry no delta text. */
  lemma FramedText(id: string, deltas: seq<StreamEvent>, reply: string)
    ensures StreamedText([Start(id)] + deltas + [Done(id, reply)]) == StreamedText(deltas)
  {
    StreamedTextAppend([Start(id)] + deltas, [Done(id, reply)]);
    StreamedTextAppend([Start(id)], deltas);
    assert StreamedText([Start(id)]) == "" + StreamedText([]);
    assert StreamedText([Done(id, reply)]) == "" + StreamedText([]);
  }

  // ------------------------------------------------------------ titles

  const MaxTitle: nat := 20
  const TitleKeep: nat := 17

  /** The length limit of a title: longer text keeps 17 characters and gains "...". */
  function Shorten(s: string): (r: string)
    ensures |r| <= MaxTitle
    ensures |s| <= MaxTitle ==> r == s
    ensures |s| > MaxTitle ==> r == s[..TitleKeep] + "..."
  {
    if |s| > MaxTitle then Take(s, TitleKeep) + "..." else s
  }

  lemma ShortenIdempotent(s: string)
    ensures Shorten(Shorten(s)) == Shorten(s)
  {
  }

  /** `generate_fallback_title`: the trimmed message within the length limit. */
  function FallbackTitle(message: string): (r: string)
    ensures |r| <= MaxTitle
    ensures |Trim(message)| <= MaxTitle ==> r == Trim(message)
    ensures |Trim(message)| > MaxTitle ==> r == Trim(message)[..TitleKeep] + "..."
  {
    Shorten(Trim(message))
  }

  /** A fallback title is its own fallback title. */
  lemma FallbackIdempotent(message: string)
    ensures FallbackTitle(FallbackTitle(message)) == FallbackTitle(message)
  {
    var t := Trim(message);
    ShortenKeepsEnds(t);
    TrimUntouched(Shorten(t));
  }

  /** Shortening text without white space at its ends leaves none there. */
  lemma ShortenKeepsEnds(t: string)
    requires t == [] || (!IsWhitespace(t[0]) && !IsWhitespace(t[|t| - 1]))
    ensures var r := Shorten(t); r == [] || (!IsWhitespace(r[0]) && !IsWhitespace(r[|r| - 1]))
  {
    var r := Shorten(t);
    if |t| > MaxTitle {
      assert r[0] == t[0] && r[|r| - 1] == '.';
    }
  }

  /** The characters `clean_title` strips from the ends, in the order it strips them. */
  const QuoteChars: seq<char> := ['"', '\'', '「', '」', '《', '》']

  /** Strips each character of `cs` from both ends, one character after the other. */
  function StripEach(s: string, cs: seq<char>): (r: string)
    decreases |cs|
  {
    if |cs| == 0 then s else StripEach(TrimMatches(s, cs[0]), cs[1..])
  }

  /** Stripping leaves nothing only when the text consisted of stripped characters. */
  lemma {:induction false} StripEachEmpty(s: string, cs: seq<char>)
    requires StripEach(s, cs) == []
    ensures forall ch :: ch in s ==> ch in cs
    decreases |cs|
  {
    if |cs| > 0 {
      var a := TrimMatches(s, cs[0]);
      StripEachEmpty(a, cs[1..]);
      TrimMatchesKeeps(s, cs[0]);
      forall ch | ch in s ensures ch in cs {
        var i :| 0 <= i < |s| && s[i] == ch;
        if s[i] != cs[0] {
          assert s[i] in a;
        }
      }
    }
  }

  /**
   * `clean_title`: trim, strip the quote characters, keep the first line
   * trimmed, and apply the length limit. When stripping leaves nothing, the
   * whole title is used instead of a line.
   */
  function CleanTitle(title: string): (r: string)
    ensures |r| <= MaxTitle
    ensures '\n' !in r
  {
    var stripped := StripEach(Trim(title), QuoteChars);
    var lines := Lines(stripped);
    var first := if |lines| > 0 then lines[0] else title;
    var cleaned := Trim(first);
    QuoteCharsNoNewline();
    NoNewlineKept(title, QuoteChars, lines, cleaned);
    Shorten(cleaned)
  }

  lemma QuoteCharsNoNewline()
    ensures '\n' !in QuoteChars
  {
  }

  lemma NoNewlineKept(title: string, cs: seq<char>, lines: seq<string>, cleaned: string)
    requires '\n' !in cs
    requires lines == Lines(StripEach(Trim(title), cs))
    requires cleaned == Trim(if |lines| > 0 then lines[0] else title)
    ensures '\n' !in Shorten(cleaned)
  {
    if |lines| == 0 {
      StrippedAwayHasNo(Trim(title), cs, '\n');
    } else {
      TrimKeepsChars(lines[0]);
    }
    ShortenKeepsChars(cleaned);
  }

  lemma StrippedAwayHasNo(t: string, cs: seq<char>, c: char)
    requires StripEach(t, cs) == [] && c !in cs
    ensures c !in t
  {
    StripEachEmpty(t, cs);
  }

  lemma ShortenKeepsChars(s: string)
    ensures forall ch :: ch in Shorten(s) ==> ch in s || ch == '.'
  {
    if |s| > MaxTitle {
      assert forall ch :: ch in s[..TitleKeep] ==> ch in s;
    }
  }

  lemma {:induction false} StripEachOfEmpty(cs: seq<char>)
    ensures StripEach([], cs) == []
    decreases |cs|
  {
    if |cs| > 0 {
      assert TrimMatches([], cs[0]) == [];
      StripEachOfEmpty(cs[1..]);
    }
  }

  /** A title made only of quote characters is kept as it is, since stripping left no line to take. */
  lemma QuotesOnlyKept()
    ensures CleanTitle("\"\"") == "\"\""
  {
    var t := "\"\"";
    TrimUntouched(t);
    assert TrimStartMatches(t, '"') == TrimStartMatches(t[1..], '"');
    assert TrimStartMatches(t[1..][1..], '"') == "";
    assert TrimMatches(t, QuoteChars[0]) == [];
    StripEachOfEmpty(QuoteChars[1..]);
    assert StripEach(t, QuoteChars) == StripEach([], QuoteChars[1..]);
  }

  /**
   * A title `clean_title` has nothing to do to: at most 20 characters, no line
   * break, and neither White_Space nor a quote character at either end.
   */
  predicate IsCleanTitle(t: string)
  {
    && |t| <= MaxTitle
    && '\n' !in t
    && (t == [] || (!IsWhitespace(t[0]) && !IsWhitespace(t[|t| - 1])
                    && t[0] !in QuoteChars && t[|t| - 1] !in QuoteChars))
  }

  /** A wrapping of at most one character, with the character `c` taken off. */
  function Unwrap(x: string, c: char): string
  {
    if x == [c] then [] else x
  }

  /** One stripping step on a wrapped text takes off the wrapping characters that match. */
  lemma StripWrappedStep(pre: string, t: string, post: string, cs: seq<char>)
    requires |cs| > 0 && t != [] && t[0] != cs[0] && t[|t| - 1] != cs[0] && |pre| <= 1 && |post| <= 1
    ensures StripEach(pre + t + post, cs) == StripEach(Unwrap(pre, cs[0]) + t + Unwrap(post, cs[0]), cs[1..])
  {
    var s, a := pre + t + post, Unwrap(pre, cs[0]) + t + Unwrap(post, cs[0]);
    TrimMatchesWrapped(pre, t, post, cs[0]);
    assert TrimMatches(s, cs[0]) == a;
    StripThrough(s, a, cs);
  }

  /** One stripping step, named by the text the first character's trim leaves. */
  lemma StripThrough(s: string, a: string, cs: seq<char>)
    requires |cs| > 0 && TrimMatches(s, cs[0]) == a
    ensures StripEach(s, cs) == StripEach(a, cs[1..])
  {
    StripStep(s, cs);
  }

  /** What is left of the wrapping after one step is made of the remaining characters. */
  lemma UnwrapRest(x: string, cs: seq<char>)
    requires |cs| > 0 && |x| <= 1 && (x == [] || x[0] in cs)
    ensures Unwrap(x, cs[0]) == [] || Unwrap(x, cs[0])[0] in cs[1..]
  {
    assert cs == [cs[0]] + cs[1..];
  }

  lemma NotInRest(ch: char, cs: seq<char>)
    requires |cs| > 0 && ch !in cs
    ensures ch !in cs[1..]
  {
    assert cs == [cs[0]] + cs[1..];
  }

  /** The quote stripping removes a single wrapping quote character from each side and nothing of a text that is clean at its ends. */
  lemma {:induction false} StripWrapped(pre: string, t: string, post: string, cs: seq<char>)
    requires t != [] && t[0] !in cs && t[|t| - 1] !in cs && |pre| <= 1 && |post| <= 1
    requires pre == [] || pre[0] in cs
    requires post == [] || post[0] in cs
    ensures StripEach(pre + t + post, cs) == t
    decreases |cs|
  {
    if |cs| == 0 {
      assert pre == [] && post == [];
      assert pre + t + post == t;
    } else {
      StripWrappedStep(pre, t, post, cs);
      UnwrapRest(pre, cs);
      UnwrapRest(post, cs);
      NotInRest(t[0], cs);
      NotInRest(t[|t| - 1], cs);
      StripWrapped(Unwrap(pre, cs[0]), t, Unwrap(post, cs[0]), cs[1..]);
    }
  }

  /** The value of `clean_title` on a title whose stripping left a single line, trimmed and within the limit. */
  lemma CleanOfStripped(title: string, t: string)
    requires t != [] && |t| <= MaxTitle && '\n' !in t && !IsWhitespace(t[0]) && !IsWhitespace(t[|t| - 1])
    requires StripEach(Trim(title), QuoteChars) == t
    ensures CleanTitle(title) == t
  {
    assert IndexOf(t, '\n').None?;
    assert Lines(t) == [t];
    TrimUntouched(t);
  }

  lemma Unwrapped(t: string)
    ensures [] + t + [] == t
  {
  }

  /** A clean title is returned unchanged. */
  lemma CleanTitleKeepsClean(t: string)
    requires IsCleanTitle(t)
    ensures CleanTitle(t) == t
  {
    TrimUntouched(t);
    if t == [] {
      StripEachOfEmpty(QuoteChars);
    } else {
      Unwrapped(t);
      StripWrapped([], t, [], QuoteChars);
      CleanOfStripped(t, t);
    }
  }

  /** A non-empty clean title wrapped in quote characters, such as `"…"` or `「…」`, comes back without them. */
  lemma CleanTitleStripsQuotes(a: char, t: string, b: char)
    requires IsCleanTitle(t) && t != [] && a in QuoteChars && b in QuoteChars
    ensures CleanTitle([a] + t + [b]) == t
  {
    var w := [a] + t + [b];
    assert w[0] == a && w[|w| - 1] == b;
    QuoteNotWhitespace(a);
    QuoteNotWhitespace(b);
    TrimUntouched(w);
    StripWrapped([a], t, [b], QuoteChars);
    CleanOfStripped(w, t);
  }

  /**
   * Cleaning is not idempotent: the quote characters are stripped one kind
   * after the other, so a double-quoted title inside single quotes keeps its
   * double quotes on the first pass and loses them on the second.
   */
  lemma CleanTitleNotIdempotent(t: string)
    requires IsCleanTitle(t) && t != [] && |t| + 2 <= MaxTitle
    ensures CleanTitle(['\''] + (['"'] + t + ['"']) + ['\'']) == ['"'] + t + ['"']
    ensures CleanTitle(CleanTitle(['\''] + (['"'] + t + ['"']) + ['\''])) == t
  {
    FirstPassKeepsDoubleQuotes(t, ['"'] + t + ['"'], ['\''] + (['"'] + t + ['"']) + ['\'']);
    CleanTitleStripsQuotes('"', t, '"');
  }

  lemma FirstPassKeepsDoubleQuotes(t: string, q: string, s: string)
    requires IsCleanTitle(t) && t != [] && |t| + 2 <= MaxTitle
    requires q == ['"'] + t + ['"'] && s == ['\''] + q + ['\'']
    ensures CleanTitle(s) == q
  {
    assert s[0] == '\'' && s[|s| - 1] == '\'';
    TrimUntouched(s);
    SingleQuotedStrip(t, q, s);
    QuotedLine(t, q);
    CleanOfStripped(s, q);
  }

  lemma QuotedLine(t: string, q: string)
    requires IsCleanTitle(t) && t != [] && |t| + 2 <= MaxTitle && q == ['"'] + t + ['"']
    ensures q != [] && |q| <= MaxTitle && '\n' !in q && !IsWhitespace(q[0]) && !IsWhitespace(q[|q| - 1])
  {
  }

  /** The double quotes go first, so single quotes around a double-quoted text leave the double quotes. */
  lemma SingleQuotedStrip(t: string, q: string, s: string)
    requires t != [] && q == ['"'] + t + ['"'] && s == ['\''] + q + ['\'']
    ensures StripEach(s, QuoteChars) == q
  {
    assert s[0] == '\'' && s[|s| - 1] == '\'' && q[0] == '"' && q[|q| - 1] == '"';
    DoubleQuotesFirst(s);
    QuoteTail();
    StripWrapped(['\''], q, ['\''], QuoteChars[1..]);
  }

  /** A text without a double quote at either end is untouched by the first stripping step. */
  lemma DoubleQuotesFirst(s: string)
    requires s != [] && s[0] != '"' && s[|s| - 1] != '"'
    ensures StripEach(s, QuoteChars) == StripEach(s, QuoteChars[1..])
  {
    StripStep(s, QuoteChars);
    TrimMatchesUntouched(s, '"');
  }

  /** One stripping step. */
  lemma StripStep(s: string, cs: seq<char>)
    requires |cs| > 0
    ensures StripEach(s, cs) == StripEach(TrimMatches(s, cs[0]), cs[1..])
  {
  }

  /** None of the quote characters is White_Space. */
  lemma QuoteNotWhitespace(c: char)
    requires c in QuoteChars
    ensures !IsWhitespace(c)
  {
  }

  lemma QuoteTail()
    ensures '"' !in QuoteChars[1..] && '\'' in QuoteChars[1..]
  {
    assert QuoteChars[1..] == ['\'', '「', '」', '《', '》'];
  }

  /** `general_chat_generate_title`: the cleaned generated title, or the fallback when generation failed. */
  function GenerateTitle(firstMessage: string, generated: Result<string, string>): (r: string)
    ensures |r| <= MaxTitle
    ensures generated.Ok? ==> r == CleanTitle(generated.value)
    ensures generated.Err? ==> r == FallbackTitle(firstMessage)
  {
    match generated
    case Ok(t) => CleanTitle(t)
    case Err(_) => FallbackTitle(firstMessage)
  }

  const TitleInstruction := "请根据以下用户消息，生成一个简短的对话标题（不超过15个字符，不要使用引号，直接输出标题）：\n\n"

  /** The prompt quotes at most the first 500 characters of the message. */
  function TitlePrompt(firstMessage: string): (r: string)
    ensures StartsWith(r, TitleInstruction)
    ensures |r| == |TitleInstruction| + (if |firstMessage| <= 500 then |firstMessage| else 500)
    ensures StartsWith(firstMessage, r[|TitleInstruction|..])
  {
    var r := TitleInstruction + Take(firstMessage, 500);
    assert r[..|TitleInstruction|] == TitleInstruction;
    assert r[|TitleInstruction|..] == Take(firstMessage, 500);
    r
  }

  /** Titles are generated through the local proxy with the key "local". */
  function TitleProvider(): (r: CustomProvider.Config)
    ensures CustomProvider.IsConfigured(r)
    ensures OpenAICustom.Prepare(r, OpenAICustom.ChatCompletions).Ok?
  {
    CustomProvider.WithConfig("local", Some("http://127.0.0.1:5678"))
  }

  /** The generated title: the first choice's message text, which must not be empty. */
  function TitleFromReply(status: nat, body: string, parse: string -> Option<Json>): (r: Result<string, string>)
    ensures !(200 <= status < 300) ==> r == Err("API 返回错误")
    ensures 200 <= status < 300 && parse(body).None? ==> r == Err("解析响应失败")
    ensures r.Ok? ==> r.value != "" && parse(body).Some?
    ensures r.Ok? ==> var choices := Index(parse(body).value, "choices");
                      choices.Arr? && |choices.items| > 0
                      && Index(Index(choices.items[0], "message"), "content") == Str(r.value)
    ensures r.Err? && 200 <= status < 300 && parse(body).Some? ==> r == Err("AI 返回空内容")
    ensures 200 <= status < 300 && parse(body).Some? ==>
              forall s :: FirstContentIs(parse(body).value, s) && s != "" ==> r == Ok(s)
  {
    if !(200 <= status < 300) then Err("API 返回错误")
    else match parse(body)
      case None => Err("解析响应失败")
      case Some(j) =>
        var choices := Index(j, "choices");
        var content :=
          if choices.Arr? && |choices.items| > 0
          then AsStr(Index(Index(choices.items[0], "message"), "content")).UnwrapOr("")
          else "";
        if content == "" then Err("AI 返回空内容") else Ok(content)
  }

  /** The reply's first choice carries a message whose content is the string `s`. */
  predicate FirstContentIs(reply: Json, s: string)
  {
    var choices := Index(reply, "choices");
    choices.Arr? && |choices.items| > 0 && Index(Index(choices.items[0], "message"), "content") == Str(s)
  }

  /** The reply body of a chat completion whose choices are the given message texts. */
  function CompletionReply(contents: seq<string>): (r: Json)
    ensures Get(r, "choices").Some?
  {
    Single("choices", Arr(seq(|contents|, i requires 0 <= i < |contents| =>
      Single("message", Single("content", Str(contents[i]))))))
  }

  /** A successful reply yields the text of its first choice, and a reply without choices fails as empty. */
  lemma TitleOfCompletion(status: nat, body: string, parse: string -> Option<Json>, contents: seq<string>)
    requires 200 <= status < 300 && parse(body) == Some(CompletionReply(contents))
    ensures |contents| > 0 && contents[0] != "" ==> TitleFromReply(status, body, parse) == Ok(contents[0])
    ensures |contents| == 0 ==> TitleFromReply(status, body, parse) == Err("AI 返回空内容")
  {
  }
}

=== FILE: idempotency.dfy ===
/**
 * The idempotency store of the HTTP server: a map from idempotency key to
 * the state of the request that first used it. A key is in flight from its
 * first check until the request completes; a completed key replays the
 * cached response; an entry older than the time-to-live counts as absent.
 */
module Idempotency {
  import opened Clock

  datatype Config = Config(enabled: bool, ttlSecs: nat, headerName: string)

  const DefaultTtlSecs: nat := 86400
  const DefaultHeaderName: string := "Idempotency-Key"

  /** `IdempotencyConfig::default()`: disabled, a day's time-to-live, the standard header. */
  function DefaultConfig(): (r: Config)
    ensures !r.enabled
    ensures r.ttlSecs == 86400 && r.ttlSecs == DefaultTtlSecs
    ensures r.headerName == "Idempotency-Key"
  {
    Config(false, DefaultTtlSecs, DefaultHeaderName)
  }

  /** The answer of a check (the status is a `u16` in the source). */
  datatype Verdict = New | InProgress | Completed(status: nat, body: string)

  datatype RequestState =
    | InFlight(startedAt: Instant)
    | Done(status: nat, body: string, completedAt: Instant)

  /** The instant an entry's age is measured from. */
  function Stamp(e: RequestState): Instant
  {
    match e
    case InFlight(t) => t
    case Done(_, _, t) => t
  }

  datatype Store = Store(config: Config, entries: map<string, RequestState>)

  function NewStore(config: Config): (r: Store)
    ensures r.config == config && |r.entries| == 0
  {
    Store(config, map[])
  }

  /** `len`. */
  function Len(s: Store): nat
  {
    |s.entries|
  }

  /** The time-to-live as a duration. */
  function Ttl(s: Store): nat
  {
    Secs(s.config.ttlSecs)
  }

  /** An entry `check` still honours: its age does not exceed the time-to-live. */
  predicate Live(s: Store, e: RequestState, now: Instant)
  {
    Since(now, Stamp(e)) <= Ttl(s)
  }

  /**
   * `check`: a disabled store answers New and keeps nothing. Otherwise an
   * unseen or expired key answers New and is recorded in flight from `now`;
   * a live in-flight key answers InProgress and a live completed key replays
   * its response, both leaving the store as it was.
   */
  function Check(s: Store, key: string, now: Instant): (r: (Verdict, Store))
    ensures r.1.config == s.config
    ensures !s.config.enabled ==> r == (New, s)
    ensures s.config.enabled && key !in s.entries ==>
              r.0 == New && r.1.entries == s.entries[key := InFlight(now)]
    ensures s.config.enabled && key in s.entries && !Live(s, s.entries[key], now) ==>
              r.0 == New && r.1.entries == s.entries[key := InFlight(now)]
    ensures s.config.enabled && key in s.entries && Live(s, s.entries[key], now) ==>
              r.1 == s
              && (s.entries[key].InFlight? ==> r.0 == InProgress)
              && (s.entries[key].Done? ==> r.0 == Completed(s.entries[key].status, s.entries[key].body))
    ensures r.0 == New <==> !s.config.enabled || key !in s.entries || !Live(s, s.entries[key], now)
    ensures forall k :: k != key ==> (k in r.1.entries <==> k in s.entries)
    ensures forall k :: k != key && k in s.entries ==> r.1.entries[k] == s.entries[k]
  {
    if !s.config.enabled then (New, s)
    else if key !in s.entries then
      (New, s.(entries := s.entries[key := InFlight(now)]))
    else
      match s.entries[key]
      case InFlight(startedAt) =>
        if Since(now, startedAt) > Ttl(s) then
          (New, s.(entries := s.entries[key := InFlight(now)]))
        else (InProgress, s)
      case Done(status, body, completedAt) =>
        if Since(now, completedAt) > Ttl(s) then
          (New, s.(entries := s.entries[key := InFlight(now)]))
        else (Completed(status, body), s)
  }

  /** `complete`: records the response, completed now; a disabled store is unchanged. */
  function Complete(s: Store, key: string, status: nat, body: string, now: Instant): (r: Store)
    ensures r.config == s.config
    ensures !s.config.enabled ==> r == s
    ensures s.config.enabled ==> key in r.entries && r.entries[key] == Done(status, body, now)
    ensures forall k :: k != key ==> (k in r.entries <==> k in s.entries)
    ensures forall k :: k != key && k in s.entries ==> r.entries[k] == s.entries[k]
  {
    if !s.config.enabled then s
    else s.(entries := s.entries[key := Done(status, body, now)])
  }

  /** `remove`: forgets a key, whether or not the store is enabled. */
  function Remove(s: Store, key: string): (r: Store)
    ensures r.config == s.config
    ensures key !in r.entries
    ensures forall k :: k != key ==> (k in r.entries <==> k in s.entries)
    ensures forall k :: k != key && k in s.entries ==> r.entries[k] == s.entries[k]
  {
    s.(entries := s.entries - {key})
  }

  /** `cleanup`: keeps exactly the entries younger than the time-to-live. */
  function Cleanup(s: Store, now: Instant): (r: Store)
    ensures r.config == s.config
    ensures forall k :: k in r.entries <==> k in s.entries && Since(now, Stamp(s.entries[k])) < Ttl(s)
    ensures forall k :: k in r.entries ==> r.entries[k] == s.entries[k]
    ensures Len(r) <= Len(s)
  {
    var kept := map k | k in s.entries && Since(now, Stamp(s.entries[k])) < Ttl(s) :: s.entries[k];
    assert kept.Keys <= s.entries.Keys;
    CardinalityOfSubset(kept.Keys, s.entries.Keys);
    s.(entries := kept)
  }

  lemma CardinalityOfSubset<T>(a: set<T>, b: set<T>)
    requires a <= b
    ensures |a| <= |b|
  {
    assert b == a + (b - a);
  }

  // ------------------------------------------------------------ properties

  /** A disabled store answers New to every check and never stores anything. */
  lemma {:induction false} DisabledStaysEmpty(config: Config, keys: seq<string>, now: Instant)
    requires !config.enabled
    ensures Len(CheckAll(NewStore(config), keys, now).1) == 0
    ensures forall i :: 0 <= i < |keys| ==> CheckAll(NewStore(config), keys, now).0[i] == New
  {
    if |keys| > 0 {
      DisabledStaysEmpty(config, keys[..|keys| - 1], now);
    }
  }

  /** Checks of several keys in a row at one instant, with their verdicts. */
  function CheckAll(s: Store, keys: seq<string>, now: Instant): (r: (seq<Verdict>, Store))
    ensures |r.0| == |keys|
    ensures r.1.config == s.config
  {
    if |keys| == 0 then ([], s)
    else
      var (vs, s1) := CheckAll(s, keys[..|keys| - 1], now);
      var (v, s2) := Check(s1, keys[|keys| - 1], now);
      (vs + [v], s2)
  }

  /** A second check of a new key before the time-to-live elapses sees it in flight. */
  lemma SecondCheckInProgress(s: Store, key: string, t0: Instant, t1: Instant)
    requires s.config.enabled
    requires Check(s, key, t0).0 == New
    requires t0 <= t1 <= t0 + Ttl(s)
    ensures Check(Check(s, key, t0).1, key, t1) == (InProgress, Check(s, key, t0).1)
  {
  }

  /** After completion, a check within the time-to-live replays the response. */
  lemma CompleteThenCheck(s: Store, key: string, status: nat, body: string, t0: Instant, t1: Instant)
    requires s.config.enabled
    requires t0 <= t1 <= t0 + Ttl(s)
    ensures Check(Complete(s, key, status, body, t0), key, t1).0 == Completed(status, body)
  {
  }

  /** After completion, a check past the time-to-live starts the request afresh. */
  lemma CompletedExpires(s: Store, key: string, status: nat, body: string, t0: Instant, t1: Instant)
    requires s.config.enabled
    requires t1 > t0 + Ttl(s)
    ensures Check(Complete(s, key, status, body, t0), key, t1).0 == New
    ensures Check(Complete(s, key, status, body, t0), key, t1).1.entries[key] == InFlight(t1)
  {
  }

  /** After removal, a check starts the request afresh. */
  lemma RemoveThenCheck(s: Store, key: string, now: Instant)
    requires s.config.enabled
    ensures Check(Remove(s, key), key, now).0 == New
  {
  }

  /**
   * Cleaning up does not change what a check answers, except for an entry
   * whose age is exactly the time-to-live.
   */
  lemma CleanupAgreesWithCheck(s: Store, key: string, now: Instant)
    requires key in s.entries ==> Since(now, Stamp(s.entries[key])) != Ttl(s)
    ensures Check(Cleanup(s, now), key, now).0 == Check(s, key, now).0
  {
  }

  /**
   * At age exactly the time-to-live, a check still replays a completed
   * response, but cleaning up first makes the same check answer New.
   */
  lemma CleanupBoundary()
    ensures var s := Complete(NewStore(Config(true, 1, DefaultHeaderName)), "k", 200, "ok", 0);
            var now := NanosPerSec;
            Check(s, "k", now).0 == Completed(200, "ok")
            && Check(Cleanup(s, now), "k", now).0 == New
  {
    var s := Complete(NewStore(Config(true, 1, DefaultHeaderName)), "k", 200, "ok", 0);
    assert "k" !in Cleanup(s, NanosPerSec).entries;
  }
}

=== FILE: json.dfy ===
/**
 * A JSON value in the shape of `serde_json::Value`. Objects are keyed maps
 * (serde_json's default `Map` keeps one value per key). Numbers are integers;
 * floating-point numbers are not modelled.
 */
module Json {
  import opened Wrappers

  datatype Json =
    | Null
    | Bool(b: bool)
    | Num(n: int)
    | Str(s: string)
    | Arr(items: seq<Json>)
    | Obj(fields: map<string, Json>)

  /** `value.get(key)`: the member of an object; `None` for a missing key and for any non-object. */
  function Get(j: Json, key: string): (r: Option<Json>)
    ensures r.Some? <==> j.Obj? && key in j.fields
    ensures r.Some? ==> r.value == j.fields[key]
  {
    if j.Obj? && key in j.fields then Some(j.fields[key]) else None
  }

  /** `value.as_str()`. */
  function AsStr(j: Json): (r: Option<string>)
    ensures r.Some? <==> j.Str?
    ensures r.Some? ==> j == Str(r.value)
  {
    if j.Str? then Some(j.s) else None
  }

  /** `value.get(key).and_then(|v| v.as_str())`. */
  function GetStr(j: Json, key: string): (r: Option<string>)
    ensures r.Some? <==> j.Obj? && key in j.fields && j.fields[key].Str?
    ensures r.Some? ==> j.fields[key] == Str(r.value)
  {
    match Get(j, key)
    case Some(v) => AsStr(v)
    case None => None
  }

  /** `value[key]`: the member of an object, `Null` when missing or not an object. */
  function Index(j: Json, key: string): (r: Json)
    ensures Get(j, key).Some? ==> r == Get(j, key).value
    ensures Get(j, key).None? ==> r == Null
  {
    Get(j, key).UnwrapOr(Null)
  }

  /** `value.as_i64()` over the integers this model has. */
  function AsInt(j: Json): (r: Option<int>)
    ensures r.Some? <==> j.Num?
    ensures r.Some? ==> j == Num(r.value)
  {
    if j.Num? then Some(j.n) else None
  }

  /** `value.as_u64()`: non-negative integers only. */
  function AsNat(j: Json): (r: Option<nat>)
    ensures r.Some? <==> j.Num? && j.n >= 0
    ensures r.Some? ==> j == Num(r.value)
  {
    if j.Num? && j.n >= 0 then Some(j.n) else None
  }

  /** `value.as_bool()`. */
  function AsBool(j: Json): (r: Option<bool>)
    ensures r.Some? <==> j.Bool?
    ensures r.Some? ==> j == Bool(r.value)
  {
    if j.Bool? then Some(j.b) else None
  }

  /** `value.as_array()`. */
  function AsArray(j: Json): (r: Option<seq<Json>>)
    ensures r.Some? <==> j.Arr?
    ensures r.Some? ==> j == Arr(r.value)
  {
    if j.Arr? then Some(j.items) else None
  }

  /** `serde_json::json!({})`. */
  const EmptyObject: Json := Obj(map[])

  /** `serde_json::json!({ key: v })`. */
  function Single(key: string, v: Json): (r: Json)
    ensures Get(r, key) == Some(v)
    ensures r.Obj? && r.fields.Keys == {key}
  {
    Obj(map[key := v])
  }
}

=== FILE: oauth_plugin_loader.dfy ===
/**
 * Discovery and loading of out-of-process OAuth provider plugins, and the
 * adapter that presents such a plugin through the plugin interface.
 *
 * The filesystem is a snapshot: which directories exist, which files exist
 * and what reading each of them yields. Paths are Unix paths, joined as
 * `Path::join` joins them. Parsing text as JSON or as a manifest is a parameter, and a call into
 * the plugin's process is represented by its outcome.
 */
module OAuthPluginLoader {
  import opened Wrappers
  import opened Text
  import opened Json
  import opened CredentialPlugin

  // ------------------------------------------------------------ manifest

  datatype ProviderManifest = ProviderManifest(
    id: string,
    displayName: string,
    targetProtocol: string,
    supportedModels: seq<string>,
    authTypes: seq<string>,
    credentialSchemas: map<string, Json>)

  datatype BinaryManifest = BinaryManifest(
    binaryName: string,
    platformBinaries: map<string, string>)

  /** The fields of `plugin.json` that loading reads. */
  datatype Manifest = Manifest(
    name: string,
    version: string,
    description: string,
    pluginType: string,
    entry: string,
    provider: ProviderManifest,
    binary: Option<BinaryManifest>)

  const OAuthProviderType: string := "oauth_provider"
  const ManifestFile: string := "plugin.json"
  const ConfigFile: string := "config.json"
  const BinDir: string := "bin"

  // ------------------------------------------------------------ filesystem snapshot

  /**
   * `listing` is the directory listing of the plugins directory (entry names,
   * in the order the listing yields them), or `None` when the directory cannot
   * be created or listed. `files` maps each existing file to the outcome of
   * reading it as text: the content, or the reason the read failed.
   */
  datatype Fs = Fs(
    listing: Option<seq<string>>,
    dirs: set<string>,
    files: map<string, Result<string, string>>)

  /** A Unix path is absolute when it starts with "/". */
  predicate IsAbsolute(p: string)
  {
    |p| > 0 && p[0] == '/'
  }

  /**
   * `Path::join` on Unix: an absolute `name` replaces `dir`; otherwise `name`
   * follows `dir`, with a "/" between them unless `dir` is empty or already
   * ends with one.
   */
  function JoinPath(dir: string, name: string): string
  {
    if IsAbsolute(name) || |dir| == 0 then name
    else if dir[|dir| - 1] == '/' then dir + name
    else dir + "/" + name
  }

  /** Joining keeps a relative name after the directory, and an absolute name alone. */
  lemma JoinPathShape(dir: string, name: string)
    ensures IsAbsolute(name) ==> JoinPath(dir, name) == name
    ensures !IsAbsolute(name) ==> StartsWith(JoinPath(dir, name), dir) && EndsWith(JoinPath(dir, name), name)
    ensures !IsAbsolute(name) && |dir| > 0 && dir[|dir| - 1] != '/' ==> JoinPath(dir, name) == dir + "/" + name
  {
  }

  predicate PathExists(fs: Fs, p: string)
  {
    p in fs.dirs || p in fs.files
  }

  type ManifestParser = string -> Option<Manifest>
  type JsonParser = string -> Option<Json>

  /** A directory the scan accepts: it holds a readable, parseable OAuth-provider manifest. */
  predicate IsOAuthPluginDir(fs: Fs, parse: ManifestParser, path: string)
  {
    var mp := JoinPath(path, ManifestFile);
    && path in fs.dirs
    && mp in fs.files
    && fs.files[mp].Ok?
    && parse(fs.files[mp].value).Some?
    && parse(fs.files[mp].value).value.pluginType == OAuthProviderType
  }

  /** The accepted entries of a listing, in listing order. */
  function ScanEntries(fs: Fs, parse: ManifestParser, pluginsDir: string, names: seq<string>): (r: seq<string>)
    ensures |r| <= |names|
    ensures forall p :: p in r ==> IsOAuthPluginDir(fs, parse, p)
    ensures forall i :: 0 <= i < |names| && IsOAuthPluginDir(fs, parse, JoinPath(pluginsDir, names[i]))
              ==> JoinPath(pluginsDir, names[i]) in r
    ensures forall p :: p in r ==> exists i :: 0 <= i < |names| && p == JoinPath(pluginsDir, names[i])
  {
    if |names| == 0 then []
    else
      var path := JoinPath(pluginsDir, names[0]);
      var rest := ScanEntries(fs, parse, pluginsDir, names[1..]);
      assert forall i :: 1 <= i < |names| ==> names[i] == names[1..][i - 1];
      if IsOAuthPluginDir(fs, parse, path) then [path] + rest else rest
  }

  /**
   * Scans the plugins directory: the entry paths that are directories holding
   * an OAuth-provider manifest. Unreadable or unparseable manifests and other
   * plugin types are skipped; only a failure to list the directory is an error.
   */
  function Scan(fs: Fs, parse: ManifestParser, pluginsDir: string): (r: Result<seq<string>, PluginError>)
    ensures r.Err? <==> fs.listing.None?
    ensures r.Err? ==> r.error.IoError?
    ensures r.Ok? ==> forall p :: p in r.value <==>
              (exists i :: 0 <= i < |fs.listing.value| && p == JoinPath(pluginsDir, fs.listing.value[i]))
              && IsOAuthPluginDir(fs, parse, p)
  {
    match fs.listing
    case None => Err(IoError("cannot list the plugins directory"))
    case Some(names) => Ok(ScanEntries(fs, parse, pluginsDir, names))
  }

  /** The error for a manifest of another plugin type. */
  function WrongTypeError(pluginType: string): PluginError
  {
    InitError("无效的插件类型: " + pluginType + " (期望 oauth_provider)")
  }

  /**
   * Reads and validates `<dir>/plugin.json`: a read failure is an
   * initialisation error, a parse failure a JSON error, and a plugin type
   * other than "oauth_provider" an initialisation error naming it.
   */
  function LoadManifest(fs: Fs, parse: ManifestParser, dir: string): (r: Result<Manifest, PluginError>)
    ensures r.Ok? <==> IsReadableOAuthManifest(fs, parse, dir)
    ensures IsOAuthPluginDir(fs, parse, dir) ==> r.Ok?
    ensures r.Ok? ==> r.value.pluginType == OAuthProviderType
    ensures r.Ok? ==> Some(r.value) == parse(fs.files[JoinPath(dir, ManifestFile)].value)
    ensures r.Err? && r.error.InitError? && JoinPath(dir, ManifestFile) in fs.files
            && fs.files[JoinPath(dir, ManifestFile)].Ok?
            ==> parse(fs.files[JoinPath(dir, ManifestFile)].value).Some?
  {
    var mp := JoinPath(dir, ManifestFile);
    if mp !in fs.files || fs.files[mp].Err? then
      Err(InitError("无法读取 plugin.json: " + (if mp in fs.files then fs.files[mp].error else "not found")))
    else
      match parse(fs.files[mp].value)
      case None => Err(JsonError("plugin.json does not match the manifest layout"))
      case Some(m) =>
        if m.pluginType != OAuthProviderType then Err(WrongTypeError(m.pluginType))
        else Ok(m)
  }

  /** The manifest conditions of a scanned directory, without requiring the path to be a directory. */
  predicate IsReadableOAuthManifest(fs: Fs, parse: ManifestParser, dir: string)
  {
    var mp := JoinPath(dir, ManifestFile);
    && mp in fs.files
    && fs.files[mp].Ok?
    && parse(fs.files[mp].value).Some?
    && parse(fs.files[mp].value).value.pluginType == OAuthProviderType
  }

  /** Every directory the scan returns has a manifest that loads. */
  lemma ScannedManifestLoads(fs: Fs, parse: ManifestParser, pluginsDir: string, p: string)
    requires Scan(fs, parse, pluginsDir).Ok? && p in Scan(fs, parse, pluginsDir).value
    ensures LoadManifest(fs, parse, p).Ok?
  {
  }

  // ------------------------------------------------------------ platform and binary

  /**
   * The platform key of an (architecture, operating system) pair: the five
   * release platforms have fixed keys, every other pair is "<os>-<arch>".
   * Either way the key starts with the operating system's name and a dash.
   */
  function PlatformKey(arch: string, os: string): (r: string)
    ensures StartsWith(r, os + "-")
    ensures arch == "aarch64" && os == "macos" ==> r == "macos-arm64"
    ensures arch == "x86_64" && os == "macos" ==> r == "macos-x64"
    ensures arch == "x86_64" && os == "linux" ==> r == "linux-x64"
    ensures arch == "aarch64" && os == "linux" ==> r == "linux-arm64"
    ensures arch == "x86_64" && os == "windows" ==> r == "windows-x64"
  {
    if arch == "aarch64" && os == "macos" then "macos-arm64"
    else if arch == "x86_64" && os == "macos" then "macos-x64"
    else if arch == "x86_64" && os == "linux" then "linux-x64"
    else if arch == "aarch64" && os == "linux" then "linux-arm64"
    else if arch == "x86_64" && os == "windows" then "windows-x64"
    else os + "-" + arch
  }

  /** A pair outside the release table gets the generic key. */
  lemma GenericPlatformKey(arch: string, os: string)
    requires arch != "aarch64" && arch != "x86_64"
    ensures PlatformKey(arch, os) == os + "-" + arch
  {
  }

  /** The binary to look for: the platform's entry of the binary section, else the manifest's entry. */
  function BinaryName(m: Manifest, platformKey: string): (r: string)
    ensures m.binary.Some? && platformKey in m.binary.value.platformBinaries
            ==> r == m.binary.value.platformBinaries[platformKey]
    ensures !(m.binary.Some? && platformKey in m.binary.value.platformBinaries) ==> r == m.entry
  {
    match m.binary
    case Some(b) => if platformKey in b.platformBinaries then b.platformBinaries[platformKey] else m.entry
    case None => m.entry
  }

  /** The places a binary is looked for, in order. */
  function BinaryCandidates(dir: string, m: Manifest, platformKey: string): (r: seq<string>)
    ensures |r| == 3
    ensures r[0] == JoinPath(JoinPath(dir, BinDir), BinaryName(m, platformKey))
    ensures r[1] == JoinPath(dir, BinaryName(m, platformKey))
    ensures r[2] == JoinPath(JoinPath(dir, BinDir), m.entry)
    ensures IsAbsolute(BinaryName(m, platformKey)) ==> r[0] == r[1] == BinaryName(m, platformKey)
    ensures IsAbsolute(m.entry) ==> r[2] == m.entry
  {
    var name := BinaryName(m, platformKey);
    [JoinPath(JoinPath(dir, BinDir), name), JoinPath(dir, name), JoinPath(JoinPath(dir, BinDir), m.entry)]
  }

  /** An existing absolute binary name is found as it is, wherever the plugin lives. */
  lemma AbsoluteBinaryFound(fs: Fs, dir: string, m: Manifest, platformKey: string)
    requires IsAbsolute(BinaryName(m, platformKey)) && PathExists(fs, BinaryName(m, platformKey))
    ensures FindBinary(fs, dir, m, platformKey) == Ok(BinaryName(m, platformKey))
  {
    var c := BinaryCandidates(dir, m, platformKey);
    assert c[0] == BinaryName(m, platformKey);
  }

  /** A relative binary name is first looked for under the plugin's bin/ directory. */
  lemma RelativeBinaryUnderBin(fs: Fs, dir: string, m: Manifest, platformKey: string)
    requires |dir| > 0 && dir[|dir| - 1] != '/' && !IsAbsolute(BinaryName(m, platformKey))
    requires PathExists(fs, dir + "/bin/" + BinaryName(m, platformKey))
    ensures FindBinary(fs, dir, m, platformKey) == Ok(dir + "/bin/" + BinaryName(m, platformKey))
  {
    var c := BinaryCandidates(dir, m, platformKey);
    assert JoinPath(dir, BinDir) == dir + "/bin";
    assert c[0] == dir + "/bin" + "/" + BinaryName(m, platformKey);
    assert dir + "/bin" + "/" + BinaryName(m, platformKey) == dir + "/bin/" + BinaryName(m, platformKey);
  }

  /** The first existing path of a list. */
  function FirstExisting(fs: Fs, paths: seq<string>): (r: Option<nat>)
    ensures r.Some? ==> r.value < |paths| && PathExists(fs, paths[r.value])
    ensures r.Some? ==> forall j :: 0 <= j < r.value ==> !PathExists(fs, paths[j])
    ensures r.None? <==> forall j :: 0 <= j < |paths| ==> !PathExists(fs, paths[j])
  {
    if |paths| == 0 then None
    else if PathExists(fs, paths[0]) then Some(0)
    else
      match FirstExisting(fs, paths[1..])
      case None => None
      case Some(k) => Some(k + 1)
  }

  /**
   * Finds the plugin binary: the first existing candidate, or an
   * initialisation error naming the binary and the platform.
   */
  function FindBinary(fs: Fs, dir: string, m: Manifest, platformKey: string): (r: Result<string, PluginError>)
    ensures var c := BinaryCandidates(dir, m, platformKey);
            && (r.Ok? ==> (exists k :: 0 <= k < 3 && r.value == c[k] && PathExists(fs, c[k])
                                     && forall j :: 0 <= j < k ==> !PathExists(fs, c[j])))
            && (r.Err? <==> forall j :: 0 <= j < 3 ==> !PathExists(fs, c[j]))
    ensures r.Err? ==> r.error == InitError("找不到二进制文件: " + BinaryName(m, platformKey) + " (平台: " + platformKey + ")")
  {
    var c := BinaryCandidates(dir, m, platformKey);
    match FirstExisting(fs, c)
    case Some(k) => Ok(c[k])
    case None => Err(InitError("找不到二进制文件: " + BinaryName(m, platformKey) + " (平台: " + platformKey + ")"))
  }

  // ------------------------------------------------------------ loading

  /** A loaded out-of-process plugin. */
  datatype ExternalPlugin = ExternalPlugin(manifest: Manifest, binaryPath: string, config: Json)

  /** What reading a directory as a text file fails with on Linux. */
  const DirectoryReadFailure: string := "Is a directory (os error 21)"

  /**
   * The plugin configuration: `{}` when no `config.json` exists, the parsed
   * file when it parses, and JSON null (the value type's default) when it
   * does not. Existence is tested first, so a directory of that name exists
   * and then fails to be read.
   */
  function LoadConfig(fs: Fs, parseJson: JsonParser, dir: string): (r: Result<Json, PluginError>)
    ensures !PathExists(fs, JoinPath(dir, ConfigFile)) ==> r == Ok(EmptyObject)
    ensures r.Err? <==> PathExists(fs, JoinPath(dir, ConfigFile))
                        && (JoinPath(dir, ConfigFile) in fs.files ==> fs.files[JoinPath(dir, ConfigFile)].Err?)
    ensures r.Err? ==> r.error.IoError?
    ensures JoinPath(dir, ConfigFile) !in fs.files && JoinPath(dir, ConfigFile) in fs.dirs
            ==> r == Err(IoError(DirectoryReadFailure))
    ensures r.Ok? && JoinPath(dir, ConfigFile) in fs.files
            ==> r.value == parseJson(fs.files[JoinPath(dir, ConfigFile)].value).UnwrapOr(Null)
  {
    var cp := JoinPath(dir, ConfigFile);
    if !PathExists(fs, cp) then Ok(EmptyObject)
    else if cp !in fs.files then Err(IoError(DirectoryReadFailure))
    else match fs.files[cp]
      case Err(reason) => Err(IoError(reason))
      case Ok(text) => Ok(parseJson(text).UnwrapOr(Null))
  }

  /** A directory named `config.json` makes the load fail, as reading it does. */
  lemma ConfigDirectoryFails(fs: Fs, parseJson: JsonParser, dir: string)
    requires JoinPath(dir, ConfigFile) in fs.dirs && JoinPath(dir, ConfigFile) !in fs.files
    ensures LoadConfig(fs, parseJson, dir) == Err(IoError(DirectoryReadFailure))
  {
  }

  /** Loads one plugin directory: manifest, then binary, then configuration. */
  function Load(fs: Fs, parse: ManifestParser, parseJson: JsonParser, platformKey: string, dir: string)
    : (r: Result<ExternalPlugin, PluginError>)
    ensures r.Ok? <==> LoadManifest(fs, parse, dir).Ok?
                       && FindBinary(fs, dir, LoadManifest(fs, parse, dir).value, platformKey).Ok?
                       && LoadConfig(fs, parseJson, dir).Ok?
    ensures r.Ok? ==> (&& r.value.manifest == LoadManifest(fs, parse, dir).value
                       && r.value.binaryPath == FindBinary(fs, dir, r.value.manifest, platformKey).value
                       && r.value.config == LoadConfig(fs, parseJson, dir).value)
    ensures LoadManifest(fs, parse, dir).Err? ==> r == Err(LoadManifest(fs, parse, dir).error)
  {
    var m :- LoadManifest(fs, parse, dir);
    var bin :- FindBinary(fs, dir, m, platformKey);
    var config :- LoadConfig(fs, parseJson, dir);
    Ok(ExternalPlugin(m, bin, config))
  }

  /** What loading a directory depends on besides the directory itself. */
  datatype Env = Env(fs: Fs, parse: ManifestParser, parseJson: JsonParser, platformKey: string)

  /** The provider id of the plugin in a directory, when it loads. */
  function LoadedId(env: Env, dir: string): (r: Option<string>)
    ensures r.Some? <==> Load(env.fs, env.parse, env.parseJson, env.platformKey, dir).Ok?
  {
    match Load(env.fs, env.parse, env.parseJson, env.platformKey, dir)
    case Ok(plugin) => Some(plugin.manifest.provider.id)
    case Err(_) => None
  }

  /**
   * The plugin registry, which is not part of this model: given the ids
   * registered so far and a new plugin's id, whether registration succeeds.
   */
  type Registrar = (seq<string>, string) -> bool

  /**
   * Registers the outcome of each load in turn (`None` for a directory that
   * failed to load), skipping failed loads and refused registrations.
   */
  function RegisterEach(register: Registrar, outcomes: seq<Option<string>>, loaded: seq<string>): (r: seq<string>)
    ensures |loaded| <= |r| <= |loaded| + |outcomes|
    ensures r[..|loaded|] == loaded
    ensures forall k :: |loaded| <= k < |r| ==> Some(r[k]) in outcomes
    decreases |outcomes|
  {
    if |outcomes| == 0 then loaded
    else
      var next := RegisterStep(register, loaded, outcomes[0]);
      var r := RegisterEach(register, outcomes[1..], next);
      assert r[..|loaded|] == r[..|next|][..|loaded|];
      assert forall k :: |loaded| <= k < |r| ==> Some(r[k]) in outcomes by {
        forall k | |loaded| <= k < |r| ensures Some(r[k]) in outcomes {
          if k < |next| {
            assert next == loaded + [outcomes[0].value] && r[k] == r[..|next|][k];
          } else {
            assert Some(r[k]) in outcomes[1..];
          }
        }
      }
      r
  }

  /** One iteration of the loading loop: a loaded plugin whose registration is accepted is pushed. */
  function RegisterStep(register: Registrar, before: seq<string>, outcome: Option<string>): seq<string>
  {
    match outcome
    case Some(id) => if register(before, id) then before + [id] else before
    case None => before
  }

  /**
   * The list the loading loop has built after the given outcomes, defined
   * from the last iteration backwards: the list after all but the last
   * outcome, then the last iteration.
   */
  function Accepted(register: Registrar, outcomes: seq<Option<string>>, loaded: seq<string>): seq<string>
    decreases |outcomes|
  {
    if |outcomes| == 0 then loaded
    else RegisterStep(register, Accepted(register, outcomes[..|outcomes| - 1], loaded), outcomes[|outcomes| - 1])
  }

  /** One more directory pushes its id exactly when it loaded and the registry accepted it. */
  lemma {:induction false} RegisterEachSnoc(register: Registrar, outcomes: seq<Option<string>>, o: Option<string>, loaded: seq<string>)
    ensures RegisterEach(register, outcomes + [o], loaded) == RegisterStep(register, RegisterEach(register, outcomes, loaded), o)
    decreases |outcomes|
  {
    if |outcomes| > 0 {
      assert (outcomes + [o])[0] == outcomes[0];
      assert (outcomes + [o])[1..] == outcomes[1..] + [o];
      RegisterEachSnoc(register, outcomes[1..], o, RegisterStep(register, loaded, outcomes[0]));
    } else {
      assert outcomes + [o] == [o];
    }
  }

  /** Registering the outcomes front to back builds the loop's list. */
  lemma {:induction false} RegisterEachIsLoop(register: Registrar, outcomes: seq<Option<string>>, loaded: seq<string>)
    ensures RegisterEach(register, outcomes, loaded) == Accepted(register, outcomes, loaded)
    decreases |outcomes|
  {
    if |outcomes| > 0 {
      var init := outcomes[..|outcomes| - 1];
      var o := outcomes[|outcomes| - 1];
      assert outcomes == init + [o];
      RegisterEachIsLoop(register, init, loaded);
      RegisterEachSnoc(register, init, o, loaded);
    }
  }

  /** The list after the first `n` outcomes is a prefix of the final list: nothing is removed or reordered. */
  lemma {:induction false} AcceptedPrefix(register: Registrar, outcomes: seq<Option<string>>, loaded: seq<string>, n: nat)
    requires n <= |outcomes|
    ensures |Accepted(register, outcomes[..n], loaded)| <= |Accepted(register, outcomes, loaded)|
    ensures Accepted(register, outcomes, loaded)[..|Accepted(register, outcomes[..n], loaded)|]
            == Accepted(register, outcomes[..n], loaded)
    decreases |outcomes| - n
  {
    if n < |outcomes| {
      var init := outcomes[..|outcomes| - 1];
      assert init[..n] == outcomes[..n];
      AcceptedPrefix(register, init, loaded, n);
      assert outcomes[..|outcomes|] == outcomes;
    } else {
      assert outcomes[..n] == outcomes;
    }
  }

  /** A directory that loaded and whose registration was accepted has its id in the final list. */
  lemma AcceptedKept(register: Registrar, outcomes: seq<Option<string>>, loaded: seq<string>, i: nat)
    requires i < |outcomes| && outcomes[i].Some?
    requires register(Accepted(register, outcomes[..i], loaded), outcomes[i].value)
    ensures outcomes[i].value in Accepted(register, outcomes, loaded)
  {
    var upTo := outcomes[..i + 1];
    assert upTo[..i] == outcomes[..i];
    var a := Accepted(register, upTo, loaded);
    assert a[|a| - 1] == outcomes[i].value;
    AcceptedPrefix(register, outcomes, loaded, i + 1);
    assert Accepted(register, outcomes, loaded)[|a| - 1] == a[|a| - 1];
  }

  /** The load outcome of each directory, in order. */
  function LoadOutcomes(env: Env, dirs: seq<string>): (r: seq<Option<string>>)
    ensures |r| == |dirs|
    ensures forall i :: 0 <= i < |dirs| ==> r[i] == LoadedId(env, dirs[i])
  {
    seq(|dirs|, i requires 0 <= i < |dirs| => LoadedId(env, dirs[i]))
  }

  /**
   * Loads every scanned plugin into the registry and returns the ids that
   * both loaded and registered, in scan order; a failing plugin is skipped.
   * Only a failing scan is an error.
   */
  function LoadAll(env: Env, register: Registrar, pluginsDir: string): (r: Result<seq<string>, PluginError>)
    ensures r.Err? <==> Scan(env.fs, env.parse, pluginsDir).Err?
    ensures r.Ok? ==> r.value == Accepted(register, LoadOutcomes(env, Scan(env.fs, env.parse, pluginsDir).value), [])
    ensures r.Ok? ==> |r.value| <= |Scan(env.fs, env.parse, pluginsDir).value|
    ensures r.Ok? ==> forall k :: 0 <= k < |r.value| ==>
              exists d :: d in Scan(env.fs, env.parse, pluginsDir).value && LoadedId(env, d) == Some(r.value[k])
  {
    var dirs :- Scan(env.fs, env.parse, pluginsDir);
    var outcomes := LoadOutcomes(env, dirs);
    var r := RegisterEach(register, outcomes, []);
    RegisteredWereLoaded(env, register, dirs);
    RegisterEachIsLoop(register, outcomes, []);
    Ok(r)
  }

  /** Every id the loop registers is the id of one of the directories that loaded. */
  lemma RegisteredWereLoaded(env: Env, register: Registrar, dirs: seq<string>)
    ensures var r := RegisterEach(register, LoadOutcomes(env, dirs), []);
            forall k :: 0 <= k < |r| ==> exists d :: d in dirs && LoadedId(env, d) == Some(r[k])
  {
    var outcomes := LoadOutcomes(env, dirs);
    var r := RegisterEach(register, outcomes, []);
    forall k | 0 <= k < |r| ensures exists d :: d in dirs && LoadedId(env, d) == Some(r[k]) {
      assert Some(r[k]) in outcomes;
      var i :| 0 <= i < |outcomes| && outcomes[i] == Some(r[k]);
      assert dirs[i] in dirs && LoadedId(env, dirs[i]) == Some(r[k]);
    }
  }

  /** A scanned directory that loads and whose registration is accepted has its id returned. */
  lemma LoadAllKeepsAccepted(env: Env, register: Registrar, pluginsDir: string, i: nat)
    requires Scan(env.fs, env.parse, pluginsDir).Ok? && i < |Scan(env.fs, env.parse, pluginsDir).value|
    requires var outcomes := LoadOutcomes(env, Scan(env.fs, env.parse, pluginsDir).value);
             outcomes[i].Some? && register(Accepted(register, outcomes[..i], []), outcomes[i].value)
    ensures LoadedId(env, Scan(env.fs, env.parse, pluginsDir).value[i]).value in LoadAll(env, register, pluginsDir).value
  {
    AcceptedKept(register, LoadOutcomes(env, Scan(env.fs, env.parse, pluginsDir).value), [], i);
  }

  /** The outcomes of directories that all loaded, with the given ids. */
  function AllLoaded(ids: seq<string>): (r: seq<Option<string>>)
    ensures |r| == |ids|
    ensures forall i :: 0 <= i < |ids| ==> r[i] == Some(ids[i])
  {
    seq(|ids|, i requires 0 <= i < |ids| => Some(ids[i]))
  }

  lemma AllLoadedInit(ids: seq<string>)
    requires |ids| > 0
    ensures AllLoaded(ids)[|ids| - 1] == Some(ids[|ids| - 1])
    ensures AllLoaded(ids)[..|ids| - 1] == AllLoaded(ids[..|ids| - 1])
  {
  }

  /** The loop over directories that all load, with a registry that accepts everything, pushes every id in order. */
  lemma {:induction false} AcceptedAllSucceed(register: Registrar, ids: seq<string>, loaded: seq<string>)
    requires forall done, id :: register(done, id)
    ensures Accepted(register, AllLoaded(ids), loaded) == loaded + ids
    decreases |ids|
  {
    if |ids| > 0 {
      var init := ids[..|ids| - 1];
      AllLoadedInit(ids);
      AcceptedAllSucceed(register, init, loaded);
      assert register(loaded + init, ids[|ids| - 1]);
      assert loaded + init + [ids[|ids| - 1]] == loaded + ids by {
        assert ids == init + [ids[|ids| - 1]];
      }
    }
  }

  /** When every load succeeds and the registry accepts everything, every id comes back, in order. */
  lemma RegisterEachAllSucceed(register: Registrar, ids: seq<string>, loaded: seq<string>)
    requires forall done, id :: register(done, id)
    ensures RegisterEach(register, AllLoaded(ids), loaded) == loaded + ids
  {
    RegisterEachIsLoop(register, AllLoaded(ids), loaded);
    AcceptedAllSucceed(register, ids, loaded);
  }

  // ------------------------------------------------------------ the adapter

  /** The plugin interface view of a loaded external plugin. */
  function AsPlugin(e: ExternalPlugin): (r: Plugin)
    ensures r.id == e.manifest.provider.id
    ensures r.displayName == e.manifest.provider.displayName
    ensures r.version == e.manifest.version
    ensures Description(r) == e.manifest.description
    ensures UiCategory(r) == OAuth
    ensures PluginConfig(r) == e.config
    ensures r.authTypes == SupportedAuthTypes(e.manifest)
    ensures ParseProtocol(e.manifest.provider.targetProtocol).Some?
            ==> r.targetProtocol == ParseProtocol(e.manifest.provider.targetProtocol).value
    ensures ParseProtocol(e.manifest.provider.targetProtocol).None? ==> r.targetProtocol == Anthropic
    ensures forall model :: TargetProtocolForModel(r, model) == r.targetProtocol
  {
    Plugin(e.manifest.provider.id, e.manifest.provider.displayName, e.manifest.version,
           Some(e.manifest.description),
           ParseProtocol(e.manifest.provider.targetProtocol).UnwrapOr(Anthropic),
           None, Some(OAuth), SupportedAuthTypes(e.manifest), None, Some(e.config))
  }

  /** The credential schema of an authentication type, JSON null when the manifest has none. */
  function CredentialSchemaForAuth(m: Manifest, authType: string): (r: Json)
    ensures authType in m.provider.credentialSchemas ==> r == m.provider.credentialSchemas[authType]
    ensures authType !in m.provider.credentialSchemas ==> r == Null
  {
    if authType in m.provider.credentialSchemas then m.provider.credentialSchemas[authType] else Null
  }

  /**
   * One entry per listed authentication type, in order: named by its id,
   * in the OAuth tab, described by its schema's "description" string or "".
   */
  function SupportedAuthTypes(m: Manifest): (r: seq<AuthTypeInfo>)
    ensures |r| == |m.provider.authTypes|
    ensures forall i :: 0 <= i < |r| ==>
              && r[i].id == m.provider.authTypes[i]
              && r[i].displayName == m.provider.authTypes[i]
              && r[i].category == OAuth
              && r[i].icon.None?
              && (GetStr(CredentialSchemaForAuth(m, r[i].id), "description").Some? ==>
                    r[i].description == GetStr(CredentialSchemaForAuth(m, r[i].id), "description").value)
              && (GetStr(CredentialSchemaForAuth(m, r[i].id), "description").None? ==> r[i].description == "")
  {
    seq(|m.provider.authTypes|, i requires 0 <= i < |m.provider.authTypes| =>
      var id := m.provider.authTypes[i];
      AuthTypeInfo(id, id, GetStr(CredentialSchemaForAuth(m, id), "description").UnwrapOr(""), OAuth, None))
  }

  /** One family per supported-model pattern, named after the pattern. */
  function ModelFamilies(m: Manifest): (r: seq<ModelFamily>)
    ensures |r| == |m.provider.supportedModels|
    ensures forall i :: 0 <= i < |r| ==>
              r[i].name == r[i].pattern == m.provider.supportedModels[i]
              && r[i].tier.None? && r[i].description.None?
  {
    seq(|m.provider.supportedModels|, i requires 0 <= i < |m.provider.supportedModels| =>
      ModelFamily(m.provider.supportedModels[i], m.provider.supportedModels[i], None, None))
  }

  /** Glob matching restricted to `*`, which matches any run of characters. */
  function StarMatch(pattern: string, s: string): bool
    decreases |pattern| + |s|
  {
    if |pattern| == 0 then |s| == 0
    else if pattern[0] == '*' then StarMatch(pattern[1..], s) || (|s| > 0 && StarMatch(pattern, s[1..]))
    else |s| > 0 && s[0] == pattern[0] && StarMatch(pattern[1..], s[1..])
  }

  /** A pattern without `*` matches exactly itself. */
  lemma {:induction false} LiteralMatch(pattern: string, s: string)
    requires '*' !in pattern
    ensures StarMatch(pattern, s) <==> s == pattern
    decreases |pattern|
  {
    if |pattern| > 0 && |s| > 0 {
      LiteralMatch(pattern[1..], s[1..]);
      if s[1..] == pattern[1..] && s[0] == pattern[0] {
        assert s == [s[0]] + s[1..];
        assert pattern == [pattern[0]] + pattern[1..];
      }
    }
  }

  /** A trailing `*` matches every string of which the rest of the pattern is a prefix. */
  lemma {:induction false} PrefixMatch(prefix: string, s: string)
    requires '*' !in prefix
    ensures StarMatch(prefix + "*", s) <==> StartsWith(s, prefix)
    decreases |prefix|
  {
    if |prefix| == 0 {
      assert prefix + "*" == "*";
      StarMatchesAll(s);
    } else {
      assert (prefix + "*")[1..] == prefix[1..] + "*";
      if |s| > 0 {
        PrefixMatch(prefix[1..], s[1..]);
        if StartsWith(s[1..], prefix[1..]) && s[0] == prefix[0] {
          assert s[..|prefix|] == [s[0]] + s[1..][..|prefix| - 1];
        }
        if StartsWith(s, prefix) {
          assert s[1..][..|prefix| - 1] == s[..|prefix|][1..];
        }
      }
    }
  }

  /** `*` alone matches everything. */
  lemma {:induction false} StarMatchesAll(s: string)
    ensures StarMatch("*", s)
    decreases |s|
  {
    if |s| > 0 {
      StarMatchesAll(s[1..]);
    }
  }

  /** Whether some supported-model pattern matches the model. */
  function SupportsModel(m: Manifest, model: string): (r: bool)
    ensures r <==> exists i :: 0 <= i < |m.provider.supportedModels| && StarMatch(m.provider.supportedModels[i], model)
  {
    exists i :: 0 <= i < |m.provider.supportedModels| && StarMatch(m.provider.supportedModels[i], model)
  }

  /** The outcome of one call into the plugin process. */
  type CallOutcome = Result<Json, PluginError>

  /** The outcome the current process bridge produces when the process starts: an empty object. */
  const SimulatedReply: CallOutcome := Ok(EmptyObject)

  /** The parameters `create_credential` sends to the plugin process. */
  function CreateCredentialParams(authType: string, config: Json): (r: Json)
    ensures GetStr(r, "auth_type") == Some(authType)
    ensures Get(r, "config") == Some(config)
  {
    Obj(map["auth_type" := Str(authType), "config" := config])
  }

  /** The credential id of the reply's "credential_id" string, else a configuration error. */
  function CreateCredential(reply: CallOutcome): (r: Result<string, PluginError>)
    ensures reply.Err? ==> r == Err(reply.error)
    ensures reply.Ok? ==> (r.Ok? <==> GetStr(reply.value, "credential_id").Some?)
    ensures r.Ok? ==> reply.Ok? && GetStr(reply.value, "credential_id") == Some(r.value)
    ensures reply.Ok? && r.Err? ==> r.error == ConfigParseError("无效的凭证 ID")
  {
    var result :- reply;
    match GetStr(result, "credential_id")
    case Some(id) => Ok(id)
    case None => Err(ConfigParseError("无效的凭证 ID"))
  }

  /** Parsing a credential configuration is not implemented for external plugins. */
  function ParseCredentialConfig(authType: string, config: Json): (r: Result<Json, PluginError>)
    ensures r.Err? && r.error.ConfigParseError?
  {
    Err(ConfigParseError("外部插件配置解析未实现"))
  }

  /**
   * The payload after a transform call: replaced by the reply's `field`
   * member when there is one, unchanged otherwise; a failed call fails.
   * This is the rule of `transform_request` ("request"), `transform_response`
   * ("response") and `apply_risk_control` ("request").
   */
  function ReplaceIfPresent(payload: Json, reply: CallOutcome, field: string): (r: Result<Json, PluginError>)
    ensures reply.Err? ==> r == Err(reply.error)
    ensures reply.Ok? && Get(reply.value, field).Some? ==> r == Ok(Get(reply.value, field).value)
    ensures reply.Ok? && Get(reply.value, field).None? ==> r == Ok(payload)
  {
    var result :- reply;
    match Get(result, field)
    case Some(v) => Ok(v)
    case None => Ok(payload)
  }

  function TransformRequest(request: Json, reply: CallOutcome): (r: Result<Json, PluginError>)
    ensures r.Ok? ==> r.value == request || (reply.Ok? && Get(reply.value, "request") == Some(r.value))
  {
    ReplaceIfPresent(request, reply, "request")
  }

  function TransformResponse(response: Json, reply: CallOutcome): (r: Result<Json, PluginError>)
    ensures r.Ok? ==> r.value == response || (reply.Ok? && Get(reply.value, "response") == Some(r.value))
  {
    ReplaceIfPresent(response, reply, "response")
  }

  function ApplyRiskControl(request: Json, credentialId: string, reply: CallOutcome): (r: Result<Json, PluginError>)
    ensures r.Ok? ==> r.value == request || (reply.Ok? && Get(reply.value, "request") == Some(r.value))
  {
    ReplaceIfPresent(request, reply, "request")
  }

  /** With the current process bridge the transforms leave the payload as it was and create no credential. */
  lemma SimulatedBridge(payload: Json, credentialId: string)
    ensures TransformRequest(payload, SimulatedReply) == Ok(payload)
    ensures TransformResponse(payload, SimulatedReply) == Ok(payload)
    ensures ApplyRiskControl(payload, credentialId, SimulatedReply) == Ok(payload)
    ensures CreateCredential(SimulatedReply).Err?
  {
  }
}

=== FILE: openai_custom.dfy ===
/** The custom OpenAI-compatible provider: where its requests go and with which key. */
module OpenAICustom {
  import opened Wrappers
  import opened Text
  import opened CustomProvider

  const OpenAIEndpoint := "https://api.openai.com/v1"

  /** `get_base_url` of this provider. */
  function OpenAIBaseUrl(c: Config): (r: string)
    ensures c.baseUrl.None? ==> r == "https://api.openai.com/v1"
    ensures c.baseUrl.Some? ==> r == c.baseUrl.value
  {
    BaseUrl(c, OpenAIEndpoint)
  }

  /** A request ready to send: method, URL and bearer header value. */
  datatype Request = Request(httpMethod: string, url: string, authorization: string)

  datatype Endpoint = ChatCompletions | ListModels

  function Path(e: Endpoint): string
  {
    match e
    case ChatCompletions => "/chat/completions"
    case ListModels => "/models"
  }

  /**
   * `call_api` / `chat_completions` (POST /chat/completions) and
   * `list_models` (GET /models): without a key nothing is sent.
   */
  function Prepare(c: Config, e: Endpoint): (r: Result<Request, string>)
    ensures c.apiKey.None? ==> r == Err("OpenAI API key not configured")
    ensures c.apiKey.Some? ==> r.Ok?
    ensures r.Ok? ==> StartsWith(r.value.url, OpenAIBaseUrl(c)) && EndsWith(r.value.url, Path(e))
                      && |r.value.url| == |OpenAIBaseUrl(c)| + |Path(e)|
    ensures r.Ok? ==> r.value.authorization == "Bearer " + c.apiKey.value
    ensures r.Ok? ==> r.value.httpMethod == (if e == ListModels then "GET" else "POST")
  {
    match c.apiKey
    case None => Err("OpenAI API key not configured")
    case Some(key) =>
      var url := OpenAIBaseUrl(c) + Path(e);
      assert url[..|OpenAIBaseUrl(c)|] == OpenAIBaseUrl(c);
      assert url[|url| - |Path(e)|..] == Path(e);
      Ok(Request(if e == ListModels then "GET" else "POST", url, "Bearer " + key))
  }

  /** The two endpoints differ only in their path after the same base. */
  lemma EndpointsShareBase(c: Config)
    requires c.apiKey.Some?
    ensures Prepare(c, ChatCompletions).value.url == OpenAIBaseUrl(c) + "/chat/completions"
    ensures Prepare(c, ListModels).value.url == OpenAIBaseUrl(c) + "/models"
  {
    var b := OpenAIBaseUrl(c);
    var u1 := Prepare(c, ChatCompletions).value.url;
    var u2 := Prepare(c, ListModels).value.url;
    assert u1 == u1[..|b|] + u1[|b|..];
    assert u2 == u2[..|b|] + u2[|b|..];
  }

  /** The default provider cannot send anything; one built with a key can. */
  lemma DefaultCannotSend(key: string, url: Option<string>)
    ensures Prepare(NewConfig(), ChatCompletions).Err?
    ensures Prepare(WithConfig(key, url), ChatCompletions).Ok?
  {
  }
}

=== FILE: plugin.dfy ===
/**
 * The credential-provider plugin interface: the standard output protocols a
 * plugin can target, the defaults the interface supplies for optional
 * capabilities, and the summary record shown to the UI.
 *
 * A plugin is represented by the facts the host reads from it; an optional
 * capability the plugin does not override is `None` and takes the
 * interface's default.
 */
module CredentialPlugin {
  import opened Wrappers
  import opened Text
  import opened Json

  /** Errors a plugin operation may return. */
  datatype PluginError =
    | AcquireError(msg: string)
    | ReleaseError(msg: string)
    | TokenRefreshError(msg: string)
    | ValidationError(msg: string)
    | ConfigParseError(msg: string)
    | TransformError(msg: string)
    | RiskControlError(msg: string)
    | UnsupportedModel(msg: string)
    | InitError(msg: string)
    | IoError(msg: string)
    | JsonError(msg: string)

  /** The UI tab a credential kind is shown under. */
  datatype CredentialCategory = OAuth | ApiKey | Other

  /** `CredentialCategory::default()`. */
  const DefaultCategory: CredentialCategory := OAuth

  /** One way of authenticating with a provider. */
  datatype AuthTypeInfo = AuthTypeInfo(
    id: string,
    displayName: string,
    description: string,
    category: CredentialCategory,
    icon: Option<string>)

  /** A model family used for tiering (`tier` is a `u8` in the source). */
  datatype ModelFamily = ModelFamily(
    name: string,
    pattern: string,
    tier: Option<nat>,
    description: Option<string>)

  // ------------------------------------------------------------ protocols

  datatype StandardProtocol = Anthropic | OpenAI | Gemini | Qwen | OpenAICompat

  /** The wire name of a protocol; always lower case. */
  function ProtocolName(p: StandardProtocol): (r: string)
    ensures Lower(r) == r
    ensures |r| > 0
  {
    match p
    case Anthropic => "anthropic"
    case OpenAI => "openai"
    case Gemini => "gemini"
    case Qwen => "qwen"
    case OpenAICompat => "openai_compat"
  }

  /** Parses a protocol name after ASCII lower-casing; `None` for anything else. */
  function ParseProtocol(s: string): (r: Option<StandardProtocol>)
    ensures r.Some? ==> Lower(s) == ProtocolName(r.value)
    ensures r.None? <==> forall p: StandardProtocol :: Lower(s) != ProtocolName(p)
  {
    var l := Lower(s);
    if l == "anthropic" then Some(Anthropic)
    else if l == "openai" then Some(OpenAI)
    else if l == "gemini" then Some(Gemini)
    else if l == "qwen" then Some(Qwen)
    else if l == "openai_compat" then Some(OpenAICompat)
    else None
  }

  /** Distinct protocols have distinct names. */
  lemma ProtocolNameInjective(p: StandardProtocol, q: StandardProtocol)
    requires ProtocolName(p) == ProtocolName(q)
    ensures p == q
  {
  }

  /** Parsing the name of a protocol gives that protocol back. */
  lemma ProtocolRoundTrip(p: StandardProtocol)
    ensures ParseProtocol(ProtocolName(p)) == Some(p)
  {
    if ParseProtocol(ProtocolName(p)).Some? {
      ProtocolNameInjective(ParseProtocol(ProtocolName(p)).value, p);
    }
  }

  /** Parsing ignores ASCII letter case. */
  lemma ParseIgnoresCase(s: string)
    ensures ParseProtocol(s) == ParseProtocol(Lower(s))
  {
    LowerIdempotent(s);
  }

  /** The examples of the source's unit test. */
  lemma ProtocolExamples()
    ensures ParseProtocol("anthropic") == Some(Anthropic)
    ensures ParseProtocol("OPENAI") == Some(OpenAI)
    ensures ParseProtocol("unknown") == None
  {
    assert Lower("OPENAI") == "openai";
    var u := Lower("unknown");
    assert u == "unknown";
    forall p: StandardProtocol ensures u != ProtocolName(p) {
      assert u[0] != ProtocolName(p)[0] || u[1] != ProtocolName(p)[1] || |u| != |ProtocolName(p)|;
    }
  }

  // ------------------------------------------------------------ plugin interface

  /**
   * What the host reads from a plugin. The optional capabilities are `None`
   * when the plugin keeps the interface's default.
   */
  datatype Plugin = Plugin(
    id: string,
    displayName: string,
    version: string,
    description: Option<string>,
    targetProtocol: StandardProtocol,
    protocolForModel: Option<string -> StandardProtocol>,
    uiCategory: Option<CredentialCategory>,
    authTypes: seq<AuthTypeInfo>,
    configSchema: Option<Json>,
    config: Option<Json>)

  /** A plugin that overrides none of the optional capabilities. */
  function Minimal(id: string, displayName: string, version: string,
                   protocol: StandardProtocol, authTypes: seq<AuthTypeInfo>): (r: Plugin)
    ensures r.id == id && r.displayName == displayName && r.version == version
    ensures r.targetProtocol == protocol && r.authTypes == authTypes
    ensures r.description.None? && r.protocolForModel.None? && r.uiCategory.None?
    ensures r.configSchema.None? && r.config.None?
  {
    Plugin(id, displayName, version, None, protocol, None, None, authTypes, None, None)
  }

  function Description(p: Plugin): (r: string)
    ensures p.description.None? ==> r == ""
    ensures p.description.Some? ==> r == p.description.value
  {
    p.description.UnwrapOr("")
  }

  /** The protocol for a model: by default the plugin's fixed target protocol. */
  function TargetProtocolForModel(p: Plugin, model: string): (r: StandardProtocol)
    ensures p.protocolForModel.None? ==> r == p.targetProtocol
  {
    match p.protocolForModel
    case None => p.targetProtocol
    case Some(f) => f(model)
  }

  /** The UI tab: by default OAuth. */
  function UiCategory(p: Plugin): (r: CredentialCategory)
    ensures p.uiCategory.None? ==> r == DefaultCategory && r == OAuth
    ensures p.uiCategory.Some? ==> r == p.uiCategory.value
  {
    p.uiCategory.UnwrapOr(DefaultCategory)
  }

  /** The plugin-configuration schema: by default the empty object. */
  function PluginConfigSchema(p: Plugin): (r: Json)
    ensures p.configSchema.None? ==> r == EmptyObject
    ensures p.configSchema.Some? ==> r == p.configSchema.value
  {
    p.configSchema.UnwrapOr(EmptyObject)
  }

  /** The plugin configuration: by default the empty object. */
  function PluginConfig(p: Plugin): (r: Json)
    ensures p.config.None? ==> r == EmptyObject
    ensures p.config.Some? ==> r == p.config.value
  {
    p.config.UnwrapOr(EmptyObject)
  }

  /** A plugin that keeps the defaults uses one protocol for every model. */
  lemma DefaultProtocolIsFixed(p: Plugin, m1: string, m2: string)
    requires p.protocolForModel.None?
    ensures TargetProtocolForModel(p, m1) == TargetProtocolForModel(p, m2) == p.targetProtocol
  {
  }

  // ------------------------------------------------------------ UI summary

  /** The summary of a plugin shown by the UI (the counts are `u32`). */
  datatype PluginInfo = PluginInfo(
    id: string,
    displayName: string,
    version: string,
    description: string,
    targetProtocol: string,
    category: CredentialCategory,
    authTypes: seq<AuthTypeInfo>,
    enabled: bool,
    credentialCount: nat,
    healthyCredentialCount: nat)

  /**
   * The summary of a freshly listed plugin: identity copied, the protocol by
   * its wire name (which parses back to the plugin's protocol), enabled, and
   * no credentials yet.
   */
  function InfoFromPlugin(p: Plugin): (r: PluginInfo)
    ensures r.id == p.id && r.displayName == p.displayName && r.version == p.version
    ensures r.description == Description(p)
    ensures r.targetProtocol == ProtocolName(p.targetProtocol)
    ensures ParseProtocol(r.targetProtocol) == Some(p.targetProtocol)
    ensures r.category == UiCategory(p)
    ensures r.authTypes == p.authTypes
    ensures r.enabled
    ensures r.credentialCount == 0 && r.healthyCredentialCount == 0
  {
    ProtocolRoundTrip(p.targetProtocol);
    PluginInfo(p.id, p.displayName, p.version, Description(p),
               ProtocolName(p.targetProtocol), UiCategory(p), p.authTypes, true, 0, 0)
  }
}

=== FILE: plugin_credential.dfy ===
/**
 * The plugin credential store. The `plugin_credentials` table is a sequence
 * of rows with distinct ids (the primary key); each operation is a function
 * from the table before to the table after, with the current instant `now`
 * as an input. Timestamps are instants (integers) rather than RFC 3339 text.
 */
module PluginCredentialStore {
  import opened Wrappers

  // ------------------------------------------------------------ status codec

  datatype CredentialStatus = Active | Disabled | Expired | Error

  /** The column text of a status. */
  function StatusName(s: CredentialStatus): string
  {
    match s
    case Active => "active"
    case Disabled => "disabled"
    case Expired => "expired"
    case Error => "error"
  }

  /** Reads a status column; any unknown text reads as active. */
  function ParseStatus(text: string): (r: CredentialStatus)
    ensures (forall s: CredentialStatus :: text != StatusName(s)) ==> r == Active
    ensures r != Active ==> text == StatusName(r)
  {
    StatusNames();
    if text == "active" then Active
    else if text == "disabled" then Disabled
    else if text == "expired" then Expired
    else if text == "error" then Error
    else Active
  }

  lemma StatusNames()
    ensures StatusName(Active) == "active" && StatusName(Disabled) == "disabled"
    ensures StatusName(Expired) == "expired" && StatusName(Error) == "error"
  {
  }

  /** Reading the column text of a status gives the status back. */
  lemma StatusRoundTrip(s: CredentialStatus)
    ensures ParseStatus(StatusName(s)) == s
  {
  }

  /** Distinct statuses have distinct column texts. */
  lemma StatusNameInjective(a: CredentialStatus, b: CredentialStatus)
    requires StatusName(a) == StatusName(b)
    ensures a == b
  {
    StatusRoundTrip(a);
    StatusRoundTrip(b);
  }

  // ------------------------------------------------------------ rows

  datatype Record = Record(
    id: string,
    pluginId: string,
    authType: string,
    displayName: Option<string>,
    status: CredentialStatus,
    configEncrypted: string,
    usageCount: nat,
    errorCount: nat,
    lastUsedAt: Option<int>,
    lastErrorAt: Option<int>,
    lastErrorMessage: Option<string>,
    createdAt: int,
    updatedAt: int)

  datatype NewCredential = NewCredential(
    id: string,
    pluginId: string,
    authType: string,
    displayName: Option<string>,
    configEncrypted: string)

  type Table = seq<Record>

  predicate UniqueIds(t: Table)
  {
    forall i, j :: 0 <= i < j < |t| ==> t[i].id != t[j].id
  }

  /** The position of the row with an id. */
  function IndexOf(t: Table, id: string): (r: Option<nat>)
    ensures r.Some? ==> r.value < |t| && t[r.value].id == id
    ensures r.Some? ==> forall j :: 0 <= j < r.value ==> t[j].id != id
    ensures r.None? <==> forall j :: 0 <= j < |t| ==> t[j].id != id
  {
    if |t| == 0 then None
    else if t[0].id == id then Some(0)
    else
      match IndexOf(t[1..], id)
      case None => None
      case Some(k) => Some(k + 1)
  }

  /** `get`: the row with an id, if any. */
  function Get(t: Table, id: string): (r: Option<Record>)
    ensures r.Some? <==> exists j :: 0 <= j < |t| && t[j].id == id
    ensures r.Some? ==> r.value in t && r.value.id == id
  {
    match IndexOf(t, id)
    case Some(i) => Some(t[i])
    case None => None
  }

  /** In a table with distinct ids, the row at a position is the one `Get` finds. */
  lemma GetAt(t: Table, i: nat)
    requires UniqueIds(t) && i < |t|
    ensures Get(t, t[i].id) == Some(t[i])
  {
  }

  // ------------------------------------------------------------ insert

  /** The row `create` inserts: active, unused, error-free, created and updated now. */
  function NewRow(c: NewCredential, now: int): (r: Record)
    ensures r.id == c.id && r.pluginId == c.pluginId && r.authType == c.authType
    ensures r.displayName == c.displayName && r.configEncrypted == c.configEncrypted
    ensures r.status == Active && r.usageCount == 0 && r.errorCount == 0
    ensures r.lastUsedAt.None? && r.lastErrorAt.None? && r.lastErrorMessage.None?
    ensures r.createdAt == now && r.updatedAt == now
  {
    Record(c.id, c.pluginId, c.authType, c.displayName, Active, c.configEncrypted,
           0, 0, None, None, None, now, now)
  }

  /** `create`: appends the new row; an id already present violates the primary key. */
  function Create(t: Table, c: NewCredential, now: int): (r: Result<Table, string>)
    ensures r.Err? <==> Get(t, c.id).Some?
    ensures r.Ok? ==> r.value == t + [NewRow(c, now)]
    ensures r.Ok? && UniqueIds(t) ==> UniqueIds(r.value)
  {
    if IndexOf(t, c.id).Some? then Err("UNIQUE constraint failed: plugin_credentials.id")
    else Ok(t + [NewRow(c, now)])
  }

  /** After `create`, `get` finds the new row. */
  lemma CreateThenGet(t: Table, c: NewCredential, now: int)
    requires UniqueIds(t) && Create(t, c, now).Ok?
    ensures Get(Create(t, c, now).value, c.id) == Some(NewRow(c, now))
  {
    var t2 := Create(t, c, now).value;
    GetAt(t2, |t|);
  }

  // ------------------------------------------------------------ updates

  /** The kinds of single-row update the store performs. */
  datatype Update =
    | SetConfig(config: string)
    | SetStatus(status: CredentialStatus)
    | UsedOnce
    | Failed(message: string)
    | ResetErrors

  /** The row after an update at `now`: only the update's columns and `updatedAt` change. */
  function Apply(u: Update, r: Record, now: int): (r2: Record)
    ensures r2.id == r.id && r2.pluginId == r.pluginId && r2.authType == r.authType
    ensures r2.displayName == r.displayName && r2.createdAt == r.createdAt
    ensures r2.updatedAt == now
    ensures r2.configEncrypted == (if u.SetConfig? then u.config else r.configEncrypted)
    ensures r2.status == (if u.SetStatus? then u.status else if u.ResetErrors? then Active else r.status)
    ensures r2.usageCount == (if u.UsedOnce? then r.usageCount + 1 else r.usageCount)
    ensures r2.lastUsedAt == (if u.UsedOnce? then Some(now) else r.lastUsedAt)
    ensures r2.errorCount == (if u.Failed? then r.errorCount + 1 else if u.ResetErrors? then 0 else r.errorCount)
    ensures r2.lastErrorAt == (if u.Failed? then Some(now) else if u.ResetErrors? then None else r.lastErrorAt)
    ensures r2.lastErrorMessage
            == (if u.Failed? then Some(u.message) else if u.ResetErrors? then None else r.lastErrorMessage)
  {
    match u
    case SetConfig(config) => r.(configEncrypted := config, updatedAt := now)
    case SetStatus(status) => r.(status := status, updatedAt := now)
    case UsedOnce => r.(usageCount := r.usageCount + 1, lastUsedAt := Some(now), updatedAt := now)
    case Failed(message) =>
      r.(errorCount := r.errorCount + 1, lastErrorAt := Some(now), lastErrorMessage := Some(message), updatedAt := now)
    case ResetErrors =>
      r.(errorCount := 0, lastErrorAt := None, lastErrorMessage := None, status := Active, updatedAt := now)
  }

  /**
   * `UPDATE … WHERE id = ?`: applies the update to the row with that id and
   * reports whether a row was affected. Every other row is unchanged.
   */
  function UpdateRow(t: Table, id: string, u: Update, now: int): (r: (Table, bool))
    ensures r.1 <==> Get(t, id).Some?
    ensures |r.0| == |t|
    ensures forall i :: 0 <= i < |t| ==> r.0[i] == (if t[i].id == id then Apply(u, t[i], now) else t[i])
    ensures UniqueIds(t) ==> UniqueIds(r.0)
  {
    (seq(|t|, i requires 0 <= i < |t| => if t[i].id == id then Apply(u, t[i], now) else t[i]), IndexOf(t, id).Some?)
  }

  /** After an update, `get` of that id sees the updated row, and of every other id the same row as before. */
  lemma UpdateThenGet(t: Table, id: string, u: Update, now: int, other: string)
    requires UniqueIds(t)
    ensures Get(UpdateRow(t, id, u, now).0, id)
            == (match Get(t, id) case Some(row) => Some(Apply(u, row, now)) case None => None)
    ensures other != id ==> Get(UpdateRow(t, id, u, now).0, other) == Get(t, other)
  {
    UpdatedRowSeen(t, id, u, now);
    if other != id {
      OtherRowUnchanged(t, id, u, now, other);
    }
  }

  lemma UpdateKeepsIds(t: Table, id: string, u: Update, now: int)
    ensures forall j :: 0 <= j < |t| ==> UpdateRow(t, id, u, now).0[j].id == t[j].id
  {
  }

  lemma UpdatedRowSeen(t: Table, id: string, u: Update, now: int)
    requires UniqueIds(t)
    ensures Get(UpdateRow(t, id, u, now).0, id)
            == (match Get(t, id) case Some(row) => Some(Apply(u, row, now)) case None => None)
  {
    var t2 := UpdateRow(t, id, u, now).0;
    UpdateKeepsIds(t, id, u, now);
    match IndexOf(t, id)
    case Some(i) =>
      assert t2[i] == Apply(u, t[i], now);
      GetAt(t2, i);
    case None =>
      assert forall j :: 0 <= j < |t2| ==> t2[j].id != id;
  }

  lemma OtherRowUnchanged(t: Table, id: string, u: Update, now: int, other: string)
    requires UniqueIds(t) && other != id
    ensures Get(UpdateRow(t, id, u, now).0, other) == Get(t, other)
  {
    var t2 := UpdateRow(t, id, u, now).0;
    UpdateKeepsIds(t, id, u, now);
    match IndexOf(t, other)
    case Some(j) =>
      assert t2[j] == t[j];
      GetAt(t2, j);
      GetAt(t, j);
    case None =>
      assert forall k :: 0 <= k < |t2| ==> t2[k].id != other;
  }

  /** An update through `get`: the row with the id as updated, and every other id's row as before. */
  lemma UpdateSeenThroughGet(t: Table, id: string, u: Update, now: int)
    requires UniqueIds(t)
    ensures Get(UpdateRow(t, id, u, now).0, id)
            == (match Get(t, id) case Some(row) => Some(Apply(u, row, now)) case None => None)
    ensures forall other :: other != id ==> Get(UpdateRow(t, id, u, now).0, other) == Get(t, other)
  {
    UpdateThenGet(t, id, u, now, id);
    forall other | other != id
      ensures Get(UpdateRow(t, id, u, now).0, other) == Get(t, other)
    {
      UpdateThenGet(t, id, u, now, other);
    }
  }

  /** `update_config`: replaces the configuration and the update time of one row. */
  function UpdateConfig(t: Table, id: string, config: string, now: int): (r: (Table, bool))
    requires UniqueIds(t)
    ensures UniqueIds(r.0)
    ensures r.1 <==> Get(t, id).Some?
    ensures r.1 ==> Get(r.0, id) == Some(Get(t, id).value.(configEncrypted := config, updatedAt := now))
    ensures forall other :: other != id ==> Get(r.0, other) == Get(t, other)
  {
    UpdateSeenThroughGet(t, id, SetConfig(config), now);
    UpdateRow(t, id, SetConfig(config), now)
  }

  /** `update_status`: replaces the status and the update time of one row. */
  function UpdateStatus(t: Table, id: string, status: CredentialStatus, now: int): (r: (Table, bool))
    requires UniqueIds(t)
    ensures UniqueIds(r.0)
    ensures r.1 <==> Get(t, id).Some?
    ensures r.1 ==> Get(r.0, id) == Some(Get(t, id).value.(status := status, updatedAt := now))
    ensures forall other :: other != id ==> Get(r.0, other) == Get(t, other)
  {
    UpdateSeenThroughGet(t, id, SetStatus(status), now);
    UpdateRow(t, id, SetStatus(status), now)
  }

  /** `record_usage`: one more use, used and updated now. */
  function RecordUsage(t: Table, id: string, now: int): (r: (Table, bool))
    requires UniqueIds(t)
    ensures UniqueIds(r.0)
    ensures r.1 <==> Get(t, id).Some?
    ensures r.1 ==> Get(r.0, id).Some?
                    && Get(r.0, id).value.usageCount == Get(t, id).value.usageCount + 1
                    && Get(r.0, id).value.lastUsedAt == Some(now)
                    && Get(r.0, id).value.errorCount == Get(t, id).value.errorCount
                    && Get(r.0, id).value.status == Get(t, id).value.status
    ensures forall other :: other != id ==> Get(r.0, other) == Get(t, other)
  {
    UpdateSeenThroughGet(t, id, UsedOnce, now);
    UpdateRow(t, id, UsedOnce, now)
  }

  /** `record_error`: one more error, with its time and message. */
  function RecordError(t: Table, id: string, message: string, now: int): (r: (Table, bool))
    requires UniqueIds(t)
    ensures UniqueIds(r.0)
    ensures r.1 <==> Get(t, id).Some?
    ensures r.1 ==> Get(r.0, id).Some?
                    && Get(r.0, id).value.errorCount == Get(t, id).value.errorCount + 1
                    && Get(r.0, id).value.lastErrorAt == Some(now)
                    && Get(r.0, id).value.lastErrorMessage == Some(message)
                    && Get(r.0, id).value.usageCount == Get(t, id).value.usageCount
                    && Get(r.0, id).value.status == Get(t, id).value.status
    ensures forall other :: other != id ==> Get(r.0, other) == Get(t, other)
  {
    UpdateSeenThroughGet(t, id, Failed(message), now);
    UpdateRow(t, id, Failed(message), now)
  }

  /** `reset_errors`: no errors, no last error, active again. */
  function ResetErrorCount(t: Table, id: string, now: int): (r: (Table, bool))
    requires UniqueIds(t)
    ensures UniqueIds(r.0)
    ensures r.1 <==> Get(t, id).Some?
    ensures r.1 ==> Get(r.0, id).Some?
                    && Get(r.0, id).value.errorCount == 0
                    && Get(r.0, id).value.lastErrorAt.None?
                    && Get(r.0, id).value.lastErrorMessage.None?
                    && Get(r.0, id).value.status == Active
                    && Get(r.0, id).value.usageCount == Get(t, id).value.usageCount
    ensures forall other :: other != id ==> Get(r.0, other) == Get(t, other)
  {
    UpdateSeenThroughGet(t, id, ResetErrors, now);
    UpdateRow(t, id, ResetErrors, now)
  }

  /** Two recorded uses after creation leave a usage count of 2 and a last-use time (the unit test's scenario). */
  lemma TwoUsesCounted(t: Table, c: NewCredential, t0: int, t1: int, t2: int)
    requires UniqueIds(t) && Create(t, c, t0).Ok?
    ensures var a := Create(t, c, t0).value;
            var b := RecordUsage(a, c.id, t1).0;
            var d := RecordUsage(b, c.id, t2).0;
            Get(d, c.id).Some? && Get(d, c.id).value.usageCount == 2 && Get(d, c.id).value.lastUsedAt == Some(t2)
  {
    CreateThenGet(t, c, t0);
  }

  // ------------------------------------------------------------ deletes and queries

  /** The rows a predicate keeps, in table order. */
  function Filter(t: Table, keep: Record -> bool): (r: Table)
    ensures |r| <= |t|
    ensures forall x :: x in r <==> x in t && keep(x)
    ensures multiset(r) <= multiset(t)
  {
    if |t| == 0 then []
    else
      var rest := Filter(t[1..], keep);
      assert t == [t[0]] + t[1..];
      if keep(t[0]) then [t[0]] + rest else rest
  }

  /** Filtering keeps distinct ids distinct. */
  lemma {:induction false} FilterUnique(t: Table, keep: Record -> bool)
    requires UniqueIds(t)
    ensures UniqueIds(Filter(t, keep))
  {
    if |t| > 0 {
      FilterUnique(t[1..], keep);
      assert forall x :: x in t[1..] ==> x.id != t[0].id;
      assert forall x :: x in Filter(t[1..], keep) ==> x.id != t[0].id;
    }
  }

  /** `delete`: removes the row with the id and reports whether there was one. */
  function Delete(t: Table, id: string): (r: (Table, bool))
    ensures r.1 <==> Get(t, id).Some?
    ensures Get(r.0, id).None?
    ensures forall x :: x in r.0 <==> x in t && x.id != id
  {
    (Filter(t, NotId(id)), IndexOf(t, id).Some?)
  }

  /** Deleting one id leaves every other id's row as it was. */
  lemma DeleteKeepsOthers(t: Table, id: string, other: string)
    requires UniqueIds(t) && other != id
    ensures Get(Delete(t, id).0, other) == Get(t, other)
  {
    var t2 := Delete(t, id).0;
    FilterUnique(t, NotId(id));
    match Get(t, other)
    case Some(row) =>
      var j :| 0 <= j < |t| && t[j].id == other;
      GetAt(t, j);
      assert t[j] in t2;
      var k :| 0 <= k < |t2| && t2[k] == t[j];
      GetAt(t2, k);
    case None =>
  }

  function OfPlugin(pluginId: string): Record -> bool
  {
    (x: Record) => x.pluginId == pluginId
  }

  function NotOfPlugin(pluginId: string): Record -> bool
  {
    (x: Record) => x.pluginId != pluginId
  }

  function ActiveOfPlugin(pluginId: string): Record -> bool
  {
    (x: Record) => x.pluginId == pluginId && x.status == Active
  }

  function IsActive(): Record -> bool
  {
    (x: Record) => x.status == Active
  }

  function NotId(id: string): Record -> bool
  {
    (x: Record) => x.id != id
  }

  function CreatedAt(): Record -> int
  {
    (x: Record) => x.createdAt
  }

  function UsageCount(): Record -> int
  {
    (x: Record) => x.usageCount
  }

  /** `count_by_plugin`: the number of the plugin's rows. */
  function CountByPlugin(t: Table, pluginId: string): (n: nat)
    ensures n <= |t|
    ensures n == |Filter(t, OfPlugin(pluginId))|
  {
    |Filter(t, OfPlugin(pluginId))|
  }

  /** `count_active_by_plugin`: the number of the plugin's active rows. */
  function CountActiveByPlugin(t: Table, pluginId: string): (n: nat)
    ensures n <= CountByPlugin(t, pluginId)
    ensures n == |Filter(ListByPlugin(t, pluginId), IsActive())|
    ensures n == 0 <==> forall x :: x in t && x.pluginId == pluginId ==> x.status != Active
  {
    FilterSubset(t, OfPlugin(pluginId), ActiveOfPlugin(pluginId));
    ActiveOfListing(t, pluginId);
    NoActiveRows(t, pluginId);
    |Filter(t, ActiveOfPlugin(pluginId))|
  }

  lemma NoActiveRows(t: Table, pluginId: string)
    ensures |Filter(t, ActiveOfPlugin(pluginId))| == 0
            <==> forall x :: x in t && x.pluginId == pluginId ==> x.status != Active
  {
    var r := Filter(t, ActiveOfPlugin(pluginId));
    if |r| > 0 {
      assert r[0] in r;
    }
  }

  /** The plugin's active rows are the active rows of its listing, whatever their order. */
  lemma ActiveOfListing(t: Table, pluginId: string)
    ensures |Filter(t, ActiveOfPlugin(pluginId))| == |Filter(ListByPlugin(t, pluginId), IsActive())|
  {
    FilterTwice(t, pluginId);
    FilterSameRows(Filter(t, OfPlugin(pluginId)), ListByPlugin(t, pluginId), IsActive());
  }

  /** Tables holding the same rows, in any order, keep the same number of rows under a filter. */
  lemma FilterSameRows(a: Table, b: Table, keep: Record -> bool)
    requires multiset(a) == multiset(b)
    ensures |Filter(a, keep)| == |Filter(b, keep)|
  {
    forall x ensures multiset(Filter(a, keep))[x] == multiset(Filter(b, keep))[x] {
      FilterCounts(a, keep, x);
      FilterCounts(b, keep, x);
    }
    assert multiset(Filter(a, keep)) == multiset(Filter(b, keep));
    assert |multiset(Filter(a, keep))| == |Filter(a, keep)|;
    assert |multiset(Filter(b, keep))| == |Filter(b, keep)|;
  }

  /** Filtering keeps every copy of a row it accepts and none of a row it refuses. */
  lemma {:induction false} FilterCounts(t: Table, keep: Record -> bool, x: Record)
    ensures multiset(Filter(t, keep))[x] == if keep(x) then multiset(t)[x] else 0
  {
    if |t| > 0 {
      FilterCounts(t[1..], keep, x);
      var rest := Filter(t[1..], keep);
      CountFirst(t, x);
      if keep(t[0]) {
        assert Filter(t, keep) == [t[0]] + rest;
        CountCons(t[0], rest, x);
      } else {
        assert Filter(t, keep) == rest;
      }
    }
  }

  /** The copies of `x` in a non-empty table: its first row and the rest. */
  lemma CountFirst(t: Table, x: Record)
    requires |t| > 0
    ensures multiset(t)[x] == (if t[0] == x then 1 else 0) + multiset(t[1..])[x]
  {
    assert t == [t[0]] + t[1..];
    CountCons(t[0], t[1..], x);
  }

  /** The copies of `x` in a table with `h` in front. */
  lemma CountCons(h: Record, t: Table, x: Record)
    ensures multiset([h] + t)[x] == (if h == x then 1 else 0) + multiset(t)[x]
  {
  }

  /** Keeping the plugin's rows and then the active ones keeps the plugin's active rows. */
  lemma {:induction false} FilterTwice(t: Table, pluginId: string)
    ensures Filter(Filter(t, OfPlugin(pluginId)), IsActive()) == Filter(t, ActiveOfPlugin(pluginId))
  {
    if |t| > 0 {
      FilterTwice(t[1..], pluginId);
      var rest := Filter(t[1..], OfPlugin(pluginId));
      if t[0].pluginId == pluginId {
        assert ([t[0]] + rest)[1..] == rest;
      }
    }
  }

  /** A stricter predicate keeps no more rows. */
  lemma {:induction false} FilterSubset(t: Table, weak: Record -> bool, strong: Record -> bool)
    requires forall x :: strong(x) ==> weak(x)
    ensures |Filter(t, strong)| <= |Filter(t, weak)|
  {
    if |t| > 0 {
      FilterSubset(t[1..], weak, strong);
    }
  }

  /** `delete_by_plugin`: removes the plugin's rows and returns how many there were. */
  function DeleteByPlugin(t: Table, pluginId: string): (r: (Table, nat))
    ensures r.1 == CountByPlugin(t, pluginId)
    ensures r.1 + |r.0| == |t|
    ensures forall x :: x in r.0 <==> x in t && x.pluginId != pluginId
    ensures CountByPlugin(r.0, pluginId) == 0
  {
    var kept := Filter(t, NotOfPlugin(pluginId));
    FilterSplit(t, OfPlugin(pluginId), NotOfPlugin(pluginId));
    FilterNone(kept, OfPlugin(pluginId));
    (kept, CountByPlugin(t, pluginId))
  }

  /** Every row is kept by a predicate or by its negation, never both. */
  lemma {:induction false} FilterSplit(t: Table, keep: Record -> bool, drop: Record -> bool)
    requires forall x :: drop(x) <==> !keep(x)
    ensures |Filter(t, keep)| + |Filter(t, drop)| == |t|
  {
    if |t| > 0 {
      FilterSplit(t[1..], keep, drop);
    }
  }

  /** A predicate no row satisfies keeps nothing. */
  lemma FilterNone(t: Table, keep: Record -> bool)
    requires forall x :: x in t ==> !keep(x)
    ensures Filter(t, keep) == []
  {
  }

  // ------------------------------------------------------------ ordered listings

  predicate SortedDesc(t: Table, key: Record -> int)
  {
    forall i, j :: 0 <= i < j < |t| ==> key(t[i]) >= key(t[j])
  }

  /** Inserts a row into a list sorted by descending key, after the rows with a greater or equal key. */
  function Insert(x: Record, t: Table, key: Record -> int): (r: Table)
    requires SortedDesc(t, key)
    ensures SortedDesc(r, key)
    ensures forall y :: y in r ==> y in t || y == x
    ensures multiset(r) == multiset(t) + multiset{x}
  {
    if |t| == 0 then [x]
    else
      HeadBounds(t, key);
      if key(x) > key(t[0]) then
        ConsSorted(x, t, key);
        [x] + t
      else
        var rest := Insert(x, t[1..], key);
        ConsSorted(t[0], rest, key);
        assert t == [t[0]] + t[1..];
        [t[0]] + rest
  }

  /** The head of a sorted list bounds the rest, and the rest is sorted. */
  lemma HeadBounds(t: Table, key: Record -> int)
    requires SortedDesc(t, key) && |t| > 0
    ensures forall y :: y in t ==> key(y) <= key(t[0])
    ensures SortedDesc(t[1..], key)
  {
    forall y | y in t ensures key(y) <= key(t[0]) {
      var j :| 0 <= j < |t| && t[j] == y;
    }
    forall i, j | 0 <= i < j < |t[1..]| ensures key(t[1..][i]) >= key(t[1..][j]) {
      assert t[1..][i] == t[i + 1] && t[1..][j] == t[j + 1];
    }
  }

  /** A row no smaller than any row of a sorted list may go in front of it. */
  lemma ConsSorted(h: Record, rest: Table, key: Record -> int)
    requires SortedDesc(rest, key) && forall y :: y in rest ==> key(y) <= key(h)
    ensures SortedDesc([h] + rest, key)
  {
    var l := [h] + rest;
    forall i, j | 0 <= i < j < |l| ensures key(l[i]) >= key(l[j]) {
      assert l[j] == rest[j - 1];
      assert rest[j - 1] in rest;
      if i > 0 {
        assert l[i] == rest[i - 1];
      }
    }
  }

  /** Orders rows by descending key (rows with equal keys keep no particular order in the source). */
  function SortDesc(t: Table, key: Record -> int): (r: Table)
    ensures SortedDesc(r, key)
    ensures multiset(r) == multiset(t)
  {
    if |t| == 0 then []
    else
      assert t == [t[0]] + t[1..];
      Insert(t[0], SortDesc(t[1..], key), key)
  }

  /** `list_by_plugin`: exactly the plugin's rows, newest first. */
  function ListByPlugin(t: Table, pluginId: string): (r: Table)
    ensures SortedDesc(r, CreatedAt())
    ensures multiset(r) == multiset(Filter(t, OfPlugin(pluginId)))
    ensures |r| == CountByPlugin(t, pluginId)
  {
    SortDesc(Filter(t, OfPlugin(pluginId)), CreatedAt())
  }

  /** `list_active`: exactly the active rows, most used first. */
  function ListActive(t: Table): (r: Table)
    ensures SortedDesc(r, UsageCount())
    ensures multiset(r) == multiset(Filter(t, IsActive()))
  {
    SortDesc(Filter(t, IsActive()), UsageCount())
  }

  /** A listed row is one of the plugin's rows, and every one of them is listed. */
  lemma ListByPluginMembers(t: Table, pluginId: string, x: Record)
    ensures x in ListByPlugin(t, pluginId) <==> x in t && x.pluginId == pluginId
  {
    var r := ListByPlugin(t, pluginId);
    assert x in r <==> x in multiset(r);
    assert x in Filter(t, OfPlugin(pluginId)) <==> x in multiset(Filter(t, OfPlugin(pluginId)));
  }
}

=== FILE: plugin_sdk.dfy ===
/**
 * The plugin SDK context: permission-gated operations a credential-provider
 * plugin may invoke, and the JSON-RPC 2.0 method handler that decodes a
 * plugin's request, runs the operation and builds the response.
 *
 * The database callback and the HTTP transport are collaborators supplied
 * as functions; the placeholder "crypto" is Base64 over UTF-8.
 */
module PluginSdk {
  import opened Wrappers
  import opened Text
  import opened Json
  import Encoding

  // ------------------------------------------------------------ data model

  datatype SdkError =
    | DatabaseError(msg: string)
    | HttpError(msg: string)
    | CryptoError(msg: string)
    | PermissionDenied(msg: string)
    | NotFound(msg: string)
    | InvalidArgument(msg: string)
    | InternalError(msg: string)

  /** The `Display` text of an error: a fixed prefix per kind followed by the message. */
  function ErrorText(e: SdkError): (r: string)
    ensures EndsWith(r, e.msg)
  {
    match e
    case DatabaseError(m) => "Database error: " + m
    case HttpError(m) => "HTTP error: " + m
    case CryptoError(m) => "Crypto error: " + m
    case PermissionDenied(m) => "Permission denied: " + m
    case NotFound(m) => "Not found: " + m
    case InvalidArgument(m) => "Invalid argument: " + m
    case InternalError(m) => "Internal error: " + m
  }

  /** The text of an invalid-argument error. */
  lemma InvalidArgumentText(m: string)
    ensures ErrorText(InvalidArgument(m)) == "Invalid argument: " + m
  {
  }

  datatype Permission =
    | DatabaseRead | DatabaseWrite | HttpRequest | CryptoEncrypt | CryptoDecrypt
    | Notification | EventEmit | EventSubscribe | FileSystemRead | FileSystemWrite

  /** The `Debug` name of a permission, as it appears in denial messages. */
  function PermissionName(p: Permission): string
  {
    match p
    case DatabaseRead => "DatabaseRead"
    case DatabaseWrite => "DatabaseWrite"
    case HttpRequest => "HttpRequest"
    case CryptoEncrypt => "CryptoEncrypt"
    case CryptoDecrypt => "CryptoDecrypt"
    case Notification => "Notification"
    case EventEmit => "EventEmit"
    case EventSubscribe => "EventSubscribe"
    case FileSystemRead => "FileSystemRead"
    case FileSystemWrite => "FileSystemWrite"
  }

  datatype HttpRequestOptions = HttpRequestOptions(
    httpMethod: string,
    headers: map<string, string>,
    body: Option<string>,
    timeoutMs: nat)

  const DefaultMethod: string := "GET"
  const DefaultTimeoutMs: nat := 30000

  /** The per-field serde defaults: what an `options` object with no members decodes to. */
  const FieldDefaultOptions: HttpRequestOptions := HttpRequestOptions(DefaultMethod, map[], None, DefaultTimeoutMs)

  /** `HttpRequestOptions::default()` from `#[derive(Default)]`: empty method and zero timeout. */
  const DerivedDefaultOptions: HttpRequestOptions := HttpRequestOptions("", map[], None, 0)

  datatype HttpResponse = HttpResponse(status: nat, headers: map<string, string>, body: string)

  datatype QueryResult = QueryResult(columns: seq<string>, rows: seq<seq<Json>>)

  /** The request handed to the HTTP client once the method has been accepted. */
  datatype HttpCall = HttpCall(httpMethod: string, url: string, headers: map<string, string>, body: Option<string>, timeoutMs: nat)

  /** The host's database callback: SQL text and parameters to rows, or an error text. */
  type DatabaseCallback = (string, seq<Json>) -> Result<QueryResult, string>

  /** The HTTP client: sends a call and yields the response or a transport error text. */
  type Transport = HttpCall -> Result<HttpResponse, string>

  datatype Context = Context(pluginId: string, permissions: seq<Permission>, database: Option<DatabaseCallback>)

  /** A context as `PluginSdkContext::new` builds it: no database callback yet. */
  function NewContext(pluginId: string, permissions: seq<Permission>): (c: Context)
    ensures c.pluginId == pluginId && c.permissions == permissions && c.database.None?
  {
    Context(pluginId, permissions, None)
  }

  function WithDatabase(c: Context, db: DatabaseCallback): (r: Context)
    ensures r.database == Some(db)
    ensures r.pluginId == c.pluginId && r.permissions == c.permissions
  {
    c.(database := Some(db))
  }

  // ----------------------------------------------------------- permissions

  function DenialMessage(c: Context, p: Permission): string
  {
    "Plugin '" + c.pluginId + "' does not have " + PermissionName(p) + " permission"
  }

  /** Granted exactly when the permission is in the plugin's list. */
  function CheckPermission(c: Context, p: Permission): (r: Result<(), SdkError>)
    ensures r.Ok? <==> p in c.permissions
    ensures r.Err? ==> r.error == PermissionDenied(DenialMessage(c, p))
  {
    if p in c.permissions then Ok(()) else Err(PermissionDenied(DenialMessage(c, p)))
  }

  // ------------------------------------------------------------- database

  const PublicTables: seq<string> := ["credential_provider_plugins", "plugin_credentials"]

  /** `plugin_<id>.` with every `-` of the id turned into `_`. */
  function PluginPrefix(pluginId: string): (r: string)
    ensures |r| == |pluginId| + 8
    ensures StartsWith(r, "plugin_") && EndsWith(r, ".")
    ensures '-' !in r
  {
    var r := "plugin_" + ReplaceChar(pluginId, '-', '_') + ".";
    assert forall i :: 0 <= i < |r| ==> r[i] != '-';
    r
  }

  /**
   * The lower-cased SQL mentions the plugin's own table prefix. Only the SQL
   * is lower-cased, not the prefix built from the id.
   */
  predicate IsPluginTable(c: Context, sql: string)
  {
    Contains(Lower(sql), PluginPrefix(c.pluginId))
  }

  predicate HasUpperAscii(s: string)
  {
    exists i :: 0 <= i < |s| && 'A' <= s[i] <= 'Z'
  }

  /** A plugin id with an upper-case ASCII letter never matches its own prefix, whatever the SQL. */
  lemma UppercaseIdNeverMatches(c: Context, sql: string)
    requires HasUpperAscii(c.pluginId)
    ensures !IsPluginTable(c, sql)
  {
    var i :| 0 <= i < |c.pluginId| && 'A' <= c.pluginId[i] <= 'Z';
    var p := PluginPrefix(c.pluginId);
    var low := Lower(sql);
    assert p[7 + i] == c.pluginId[i];
    forall k | 0 <= k <= |low| - |p|
      ensures !OccursAt(low, p, k)
    {
      assert low[k..k + |p|][7 + i] != p[7 + i];
    }
  }

  /**
   * For an id without upper-case ASCII letters, SQL that names the plugin's
   * prefix is recognised, in whatever letter case the SQL spells it.
   */
  lemma {:induction false} PluginTableRecognised(c: Context, sql: string, k: nat)
    requires !HasUpperAscii(c.pluginId)
    requires OccursAt(Lower(sql), Lower(PluginPrefix(c.pluginId)), k) || OccursAt(sql, PluginPrefix(c.pluginId), k)
    ensures IsPluginTable(c, sql)
  {
    var p := PluginPrefix(c.pluginId);
    var low := Lower(sql);
    assert Lower(p) == p by {
      forall j | 0 <= j < |p|
        ensures Lower(p)[j] == p[j]
      {
        if 7 <= j < |p| - 1 {
          assert p[j] == ReplaceChar(c.pluginId, '-', '_')[j - 7];
        }
      }
    }
    if OccursAt(sql, p, k) {
      assert low[k..k + |p|] == Lower(p) by {
        forall j | 0 <= j < |p|
          ensures low[k..k + |p|][j] == Lower(p)[j]
        {
          assert sql[k + j] == sql[k..k + |p|][j] == p[j];
        }
      }
    }
    assert OccursAt(low, p, k);
  }

  /** The examples of the source's unit test for the allow-list. */
  lemma AllowListExamples()
    ensures var c := NewContext("kiro-provider", []);
            IsAllowedTable(c, "SELECT * FROM " + "credential_provider_plugins")
            && IsAllowedTable(c, "SELECT * FROM " + "plugin_credentials")
            && IsAllowedTable(c, "SELECT * FROM " + "plugin_kiro_provider.accounts")
    ensures var c := NewContext("kiro-provider", []);
            !IsAllowedTable(c, "SELECT * FROM " + "api_keys")
            && !IsAllowedTable(c, "SELECT * FROM " + "plugin_other.data")
  {
    var c := NewContext("kiro-provider", []);
    var head := "SELECT * FROM ";
    PublicTablesAllowed(c, head);
    OwnPrefixAllowed(c, head);
    OtherTableRefused(c, head);
    OtherPluginRefused(c, head);
  }

  /** The public tables are allowed. */
  lemma PublicTablesAllowed(c: Context, head: string)
    requires c == NewContext("kiro-provider", []) && head == "SELECT * FROM "
    ensures IsAllowedTable(c, head + "credential_provider_plugins")
    ensures IsAllowedTable(c, head + "plugin_credentials")
  {
    var q1 := head + PublicTables[0];
    LowerKeeps(q1, 14, |q1|);
    assert q1[14..] == PublicTables[0];
    assert OccursAt(Lower(q1), PublicTables[0], 14);
    var q2 := head + PublicTables[1];
    LowerKeeps(q2, 14, |q2|);
    assert q2[14..] == PublicTables[1];
    assert OccursAt(Lower(q2), PublicTables[1], 14);
  }

  /** The plugin's own prefix is allowed. */
  lemma OwnPrefixAllowed(c: Context, head: string)
    requires c == NewContext("kiro-provider", []) && head == "SELECT * FROM "
    ensures IsAllowedTable(c, head + "plugin_kiro_provider.accounts")
  {
    KiroPrefixText(c);
    var p := PluginPrefix(c.pluginId);
    OccursInMiddle(head, p, "accounts");
    PluginTableRecognised(c, head + p + "accounts", |head|);
    assert p + "accounts" == "plugin_kiro_provider.accounts";
    assert head + p + "accounts" == head + "plugin_kiro_provider.accounts";
  }

  /** The prefix of the plugin `kiro-provider`, whose id has no upper-case letter. */
  lemma KiroPrefixText(c: Context)
    requires c == NewContext("kiro-provider", [])
    ensures PluginPrefix(c.pluginId) == "plugin_kiro_provider."
    ensures !HasUpperAscii(c.pluginId)
  {
    KiroPrefixLiteral();
    KiroLowerCase();
  }

  lemma KiroPrefixLiteral()
    ensures PluginPrefix("kiro-provider") == "plugin_kiro_provider."
  {
    KiroReplaced();
    assert "plugin_" + "kiro_provider" + "." == "plugin_kiro_provider.";
  }

  lemma KiroReplaced()
    ensures ReplaceChar("kiro-provider", '-', '_') == "kiro_provider"
  {
  }

  lemma KiroLowerCase()
    ensures !HasUpperAscii("kiro-provider")
  {
  }

  /** Another table is refused. */
  lemma OtherTableRefused(c: Context, head: string)
    requires c == NewContext("kiro-provider", []) && head == "SELECT * FROM "
    ensures !IsAllowedTable(c, head + "api_keys")
  {
    var q := head + "api_keys";
    KiroPrefix(c);
    ApiKeysLacks(head, q);
    NoTableLetters(c, Lower(q), 'v', 'g');
  }

  /** Another plugin's prefix is refused. */
  lemma OtherPluginRefused(c: Context, head: string)
    requires c == NewContext("kiro-provider", []) && head == "SELECT * FROM "
    ensures !IsAllowedTable(c, head + "plugin_other.data")
  {
    var tail := "plugin_other.data";
    var q := head + tail;
    KiroPrefix(c);
    OtherDataLacks(head, q);
    HeadLacksP(head, tail);
    NoPrefixLetter(c, Lower(q), 'v');
  }

  /** SQL lacking the public tables' and the prefix's letters is refused. */
  lemma NoTableLetters(c: Context, low: string, v: char, g: char)
    requires |PluginPrefix(c.pluginId)| > 15 && PluginPrefix(c.pluginId)[15] == v
    requires PublicTables[0][14] == v && PublicTables[1][3] == g
    requires v !in low && g !in low
    ensures !Contains(low, PublicTables[0]) && !Contains(low, PublicTables[1]) && !Contains(low, PluginPrefix(c.pluginId))
  {
    AbsentCharNotContained(low, PublicTables[0], 14);
    AbsentCharNotContained(low, PublicTables[1], 3);
    AbsentCharNotContained(low, PluginPrefix(c.pluginId), 15);
  }

  /** SQL lacking a letter of the first public table and of the prefix mentions neither. */
  lemma NoPrefixLetter(c: Context, low: string, v: char)
    requires |PluginPrefix(c.pluginId)| > 15 && PluginPrefix(c.pluginId)[15] == v
    requires PublicTables[0][14] == v && v !in low
    ensures !Contains(low, PublicTables[0]) && !Contains(low, PluginPrefix(c.pluginId))
  {
    AbsentCharNotContained(low, PublicTables[0], 14);
    AbsentCharNotContained(low, PluginPrefix(c.pluginId), 15);
  }

  lemma KiroPrefix(c: Context)
    requires c == NewContext("kiro-provider", [])
    ensures |PluginPrefix(c.pluginId)| > 15 && PluginPrefix(c.pluginId)[15] == 'v'
    ensures PublicTables[0][14] == 'v' && PublicTables[1][3] == 'g'
  {
    KiroPrefixText(c);
  }

  lemma ApiKeysLacks(head: string, q: string)
    requires head == "SELECT * FROM " && q == head + "api_keys"
    ensures 'v' !in Lower(q) && 'g' !in Lower(q)
  {
    ApiKeysLacksV(head, q);
    ApiKeysLacksG(head, q);
  }

  lemma ApiKeysLacksV(head: string, q: string)
    requires head == "SELECT * FROM " && q == head + "api_keys"
    ensures 'v' !in Lower(q)
  {
    LowerAvoids(q, 'v');
  }

  lemma ApiKeysLacksG(head: string, q: string)
    requires head == "SELECT * FROM " && q == head + "api_keys"
    ensures 'g' !in Lower(q)
  {
    LowerAvoids(q, 'g');
  }

  lemma OtherDataLacks(head: string, q: string)
    requires head == "SELECT * FROM " && q == head + "plugin_other.data"
    ensures 'v' !in Lower(q)
  {
    LowerAvoids(q, 'v');
  }

  lemma HeadLacksP(head: string, tail: string)
    requires head == "SELECT * FROM " && tail == "plugin_other.data"
    ensures !Contains(Lower(head + tail), PublicTables[1])
  {
    LowerAvoids(head, 'p');
    LowerAppend(head, tail);
    NotContainedPastHead(Lower(head), Lower(tail), PublicTables[1]);
  }

  /** The lower-cased SQL mentions a public table or the plugin's own prefix. */
  predicate IsAllowedTable(c: Context, sql: string)
  {
    Contains(Lower(sql), PublicTables[0]) || Contains(Lower(sql), PublicTables[1]) || IsPluginTable(c, sql)
  }

  predicate IsSelect(sql: string)
  {
    StartsWith(Upper(Trim(sql)), "SELECT")
  }

  /**
   * `database_query`: permission, then a configured database, then a SELECT
   * statement, then an allowed table; only then is the callback consulted.
   */
  function DatabaseQuery(c: Context, sql: string, params: seq<Json>): (r: Result<QueryResult, SdkError>)
    ensures DatabaseRead !in c.permissions ==> r == Err(PermissionDenied(DenialMessage(c, DatabaseRead)))
    ensures DatabaseRead in c.permissions && c.database.None? ==> r == Err(DatabaseError("Database not initialized"))
    ensures DatabaseRead in c.permissions && c.database.Some? && !IsSelect(sql)
            ==> r == Err(PermissionDenied("Only SELECT queries are allowed for database_query"))
    ensures DatabaseRead in c.permissions && c.database.Some? && IsSelect(sql) && !IsAllowedTable(c, sql)
            ==> r == Err(PermissionDenied("Access to this table is not allowed"))
    ensures r.Ok? ==> DatabaseRead in c.permissions && c.database.Some? && IsSelect(sql) && IsAllowedTable(c, sql)
                      && c.database.value(sql, params) == Ok(r.value)
    ensures DatabaseRead in c.permissions && c.database.Some? && IsSelect(sql) && IsAllowedTable(c, sql)
            ==> r == (match c.database.value(sql, params)
                      case Ok(q) => Ok(q)
                      case Err(e) => Err(DatabaseError(e)))
  {
    var _ :- CheckPermission(c, DatabaseRead);
    QueryGate(c.database, IsSelect(sql), IsAllowedTable(c, sql), sql, params)
  }

  /** The checks of `database_query` after the permission, with the two SQL tests already decided. */
  function QueryGate(database: Option<DatabaseCallback>, select: bool, allowed: bool, sql: string, params: seq<Json>)
    : (r: Result<QueryResult, SdkError>)
    ensures database.None? ==> r == Err(DatabaseError("Database not initialized"))
    ensures database.Some? && !select ==> r == Err(PermissionDenied("Only SELECT queries are allowed for database_query"))
    ensures database.Some? && select && !allowed ==> r == Err(PermissionDenied("Access to this table is not allowed"))
    ensures r.Ok? ==> database.Some? && select && allowed && database.value(sql, params) == Ok(r.value)
    ensures database.Some? && select && allowed
            ==> r == (match database.value(sql, params)
                      case Ok(q) => Ok(q)
                      case Err(e) => Err(DatabaseError(e)))
  {
    if database.None? then Err(DatabaseError("Database not initialized"))
    else if !select then Err(PermissionDenied("Only SELECT queries are allowed for database_query"))
    else if !allowed then Err(PermissionDenied("Access to this table is not allowed"))
    else
      match database.value(sql, params)
      case Ok(q) => Ok(q)
      case Err(e) => Err(DatabaseError(e))
  }

  /**
   * `database_execute`: permission, configured database and a plugin-owned
   * table are required; no statement is actually run and zero rows are reported.
   */
  function DatabaseExecute(c: Context, sql: string, params: seq<Json>): (r: Result<nat, SdkError>)
    ensures r.Ok? <==> DatabaseWrite in c.permissions && c.database.Some? && IsPluginTable(c, sql)
    ensures r.Ok? ==> r.value == 0
    ensures DatabaseWrite !in c.permissions ==> r == Err(PermissionDenied(DenialMessage(c, DatabaseWrite)))
    ensures DatabaseWrite in c.permissions && c.database.None? ==> r == Err(DatabaseError("Database not initialized"))
    ensures DatabaseWrite in c.permissions && c.database.Some? && !IsPluginTable(c, sql)
            ==> r == Err(PermissionDenied("Can only modify plugin-owned tables"))
  {
    var _ :- CheckPermission(c, DatabaseWrite);
    if c.database.None? then Err(DatabaseError("Database not initialized"))
    else if !IsPluginTable(c, sql) then Err(PermissionDenied("Can only modify plugin-owned tables"))
    else Ok(0)
  }

  // ----------------------------------------------------------------- HTTP

  const SupportedMethods: seq<string> := ["GET", "POST", "PUT", "DELETE", "PATCH", "HEAD"]

  /**
   * `http_request`: permission, then the upper-cased method must be one of the
   * six supported verbs; the transport is consulted only after both checks.
   */
  function HttpRequestOp(c: Context, url: string, options: HttpRequestOptions, send: Transport): (r: Result<HttpResponse, SdkError>)
    ensures HttpRequest !in c.permissions ==> r == Err(PermissionDenied(DenialMessage(c, HttpRequest)))
    ensures HttpRequest in c.permissions && Upper(options.httpMethod) !in SupportedMethods
            ==> r == Err(InvalidArgument("Unsupported HTTP method: " + Upper(options.httpMethod)))
    ensures r.Ok? ==> HttpRequest in c.permissions && Upper(options.httpMethod) in SupportedMethods
    ensures HttpRequest in c.permissions && Upper(options.httpMethod) in SupportedMethods
            ==> var call := HttpCall(Upper(options.httpMethod), url, options.headers, options.body, options.timeoutMs);
                r == (match send(call) case Ok(resp) => Ok(resp) case Err(e) => Err(HttpError(e)))
  {
    var _ :- CheckPermission(c, HttpRequest);
    var verb := Upper(options.httpMethod);
    if verb !in SupportedMethods then Err(InvalidArgument("Unsupported HTTP method: " + verb))
    else
      match send(HttpCall(verb, url, options.headers, options.body, options.timeoutMs))
      case Ok(resp) => Ok(resp)
      case Err(e) => Err(HttpError(e))
  }

  // --------------------------------------------------------------- crypto

  const DecodeFailure: string := "invalid base64 input"
  const Utf8Failure: string := "invalid utf-8 sequence"

  /** `crypto_encrypt`: Base64 of the UTF-8 bytes, once the permission is granted. */
  function CryptoEncryptOp(c: Context, data: string): (r: Result<string, SdkError>)
    ensures r.Ok? <==> CryptoEncrypt in c.permissions
    ensures r.Ok? ==> Encoding.Base64Decode(r.value) == Some(Encoding.Utf8Encode(data))
  {
    var _ :- CheckPermission(c, CryptoEncrypt);
    var bytes := Encoding.Utf8Encode(data);
    Encoding.Base64RoundTrip(bytes);
    Ok(Encoding.Base64Encode(bytes))
  }

  /** `crypto_decrypt`: Base64 decoding, then UTF-8 decoding; either failure is a crypto error. */
  function CryptoDecryptOp(c: Context, data: string): (r: Result<string, SdkError>)
    ensures CryptoDecrypt !in c.permissions ==> r.Err? && r.error.PermissionDenied?
    ensures CryptoDecrypt in c.permissions && Encoding.Base64Decode(data).None? ==> r.Err? && r.error.CryptoError?
    ensures CryptoDecrypt in c.permissions && Encoding.Base64Decode(data).Some?
              && Encoding.Utf8Decode(Encoding.Base64Decode(data).value).None?
            ==> r.Err? && r.error.CryptoError?
    ensures r.Ok? ==> CryptoDecrypt in c.permissions && Encoding.Base64Decode(data) == Some(Encoding.Utf8Encode(r.value))
  {
    var _ :- CheckPermission(c, CryptoDecrypt);
    match Encoding.Base64Decode(data)
    case None => Err(CryptoError(DecodeFailure))
    case Some(bytes) =>
      match Encoding.Utf8Decode(bytes)
      case None => Err(CryptoError(Utf8Failure))
      case Some(s) =>
        Encoding.Utf8DecodeEncodes(bytes);
        Ok(s)
  }

  /** Decrypting what was encrypted gives the original text back. */
  lemma CryptoRoundTrip(c: Context, data: string)
    requires CryptoEncrypt in c.permissions && CryptoDecrypt in c.permissions
    ensures CryptoDecryptOp(c, CryptoEncryptOp(c, data).value) == Ok(data)
  {
    Encoding.Base64RoundTrip(Encoding.Utf8Encode(data));
    Encoding.Utf8RoundTrip(data);
  }

  /** Whatever decrypts is exactly the encryption of its plaintext (the encoding is canonical). */
  lemma DecryptedEncryptsBack(c: Context, data: string)
    requires CryptoEncrypt in c.permissions
    requires CryptoDecryptOp(c, data).Ok?
    ensures CryptoEncryptOp(c, CryptoDecryptOp(c, data).value) == Ok(data)
  {
    var bytes := Encoding.Base64Decode(data).value;
    Encoding.Base64DecodeEncodes(data);
  }

  // ------------------------------------------ notifications, events, storage

  /** The three notification calls differ only in the log level: each needs `Notification`. */
  function NotificationOp(c: Context, message: string): (r: Result<(), SdkError>)
    ensures r.Ok? <==> Notification in c.permissions
  {
    CheckPermission(c, Notification)
  }

  function EventEmitOp(c: Context, event: string, data: Json): (r: Result<(), SdkError>)
    ensures r.Ok? <==> EventEmit in c.permissions
  {
    CheckPermission(c, EventEmit)
  }

  /** Storage is not backed yet: a read with permission finds nothing. */
  function StorageGetOp(c: Context, key: string): (r: Result<Option<string>, SdkError>)
    ensures r.Ok? <==> DatabaseRead in c.permissions
    ensures r.Ok? ==> r.value.None?
  {
    var _ :- CheckPermission(c, DatabaseRead);
    Ok(None)
  }

  function StorageSetOp(c: Context, key: string, value: string): (r: Result<(), SdkError>)
    ensures r.Ok? <==> DatabaseWrite in c.permissions
  {
    CheckPermission(c, DatabaseWrite)
  }

  function StorageDeleteOp(c: Context, key: string): (r: Result<(), SdkError>)
    ensures r.Ok? <==> DatabaseWrite in c.permissions
  {
    CheckPermission(c, DatabaseWrite)
  }
}

=== FILE: prompt_builder.dfy ===
/**
 * The agent's system-prompt builder: the guideline sections chosen by the
 * options, in a fixed order, followed by the environment block and the
 * caller's own instructions. The section texts, the current date and the
 * operating-system name are parameters.
 */
module PromptBuilder {
  import opened Wrappers
  import opened Text

  datatype Options = Options(
    includeIdentity: bool,
    includeToolGuidelines: bool,
    includeCodingGuidelines: bool,
    includeTaskManagement: bool,
    includeGitGuidelines: bool,
    includeOutputStyle: bool,
    workingDir: Option<string>,
    customInstructions: Option<string>)

  /** The six section texts, in prompt order. */
  datatype Templates = Templates(
    identity: string, toolGuidelines: string, codingGuidelines: string,
    taskManagement: string, gitGuidelines: string, outputStyle: string)

  /** `SystemPromptOptions::default()`: nothing included. */
  function DefaultOptions(): Options
  {
    Options(false, false, false, false, false, false, None, None)
  }

  /** `default_all` (and the builder's `new`): every section, no directory, no instructions. */
  function DefaultAll(): (r: Options)
    ensures r.includeIdentity && r.includeToolGuidelines && r.includeCodingGuidelines
    ensures r.includeTaskManagement && r.includeGitGuidelines && r.includeOutputStyle
    ensures r.workingDir.None? && r.customInstructions.None?
  {
    Options(true, true, true, true, true, true, None, None)
  }

  /** The builder's `working_dir`: records the directory and nothing else. */
  function WithWorkingDir(o: Options, dir: string): (r: Options)
    ensures r.workingDir == Some(dir)
    ensures r.(workingDir := o.workingDir) == o
  {
    o.(workingDir := Some(dir))
  }

  /** The builder's `custom_instructions`: records the instructions and nothing else. */
  function WithCustomInstructions(o: Options, text: string): (r: Options)
    ensures r.customInstructions == Some(text)
    ensures r.(customInstructions := o.customInstructions) == o
  {
    o.(customInstructions := Some(text))
  }

  function Count(b: bool): nat
  {
    if b then 1 else 0
  }

  function If(b: bool, s: string): seq<string>
  {
    if b then [s] else []
  }

  /** The texts whose flag is set, in their original order. */
  function Picked(flags: seq<bool>, texts: seq<string>): seq<string>
    requires |flags| == |texts|
    decreases |flags|
  {
    if |flags| == 0 then []
    else if flags[0] then [texts[0]] + Picked(flags[1..], texts[1..])
    else Picked(flags[1..], texts[1..])
  }

  /** A picked text is one whose flag is set, and every text whose flag is set is picked. */
  lemma {:induction false} PickedMembers(flags: seq<bool>, texts: seq<string>, x: string)
    requires |flags| == |texts|
    ensures x in Picked(flags, texts) <==> exists i :: 0 <= i < |flags| && flags[i] && texts[i] == x
    decreases |flags|
  {
    if |flags| > 0 {
      PickedMembers(flags[1..], texts[1..], x);
      if x in Picked(flags, texts) && !(flags[0] && texts[0] == x) {
        var i :| 0 <= i < |flags| - 1 && flags[1..][i] && texts[1..][i] == x;
        assert flags[i + 1] && texts[i + 1] == x;
      }
      if exists i :: 0 <= i < |flags| && flags[i] && texts[i] == x {
        var i :| 0 <= i < |flags| && flags[i] && texts[i] == x;
        if i > 0 {
          assert flags[1..][i - 1] && texts[1..][i - 1] == x;
        }
      }
    }
  }

  /** The six inclusion flags, in prompt order. */
  function Flags(o: Options): seq<bool>
  {
    [o.includeIdentity, o.includeToolGuidelines, o.includeCodingGuidelines,
     o.includeTaskManagement, o.includeGitGuidelines, o.includeOutputStyle]
  }

  /** The six section texts, in prompt order. */
  function Texts(t: Templates): seq<string>
  {
    [t.identity, t.toolGuidelines, t.codingGuidelines, t.taskManagement, t.gitGuidelines, t.outputStyle]
  }

  /** The chosen sections, in the fixed order identity, tools, coding, tasks, git, output style. */
  function Sections(o: Options, t: Templates): (r: seq<string>)
    ensures r == Picked(Flags(o), Texts(t))
    ensures |r| == Count(o.includeIdentity) + Count(o.includeToolGuidelines) + Count(o.includeCodingGuidelines)
                   + Count(o.includeTaskManagement) + Count(o.includeGitGuidelines) + Count(o.includeOutputStyle)
    ensures o.includeIdentity ==> |r| > 0 && r[0] == t.identity
  {
    SectionsPicked(o, t);
    If(o.includeIdentity, t.identity) + (If(o.includeToolGuidelines, t.toolGuidelines)
    + (If(o.includeCodingGuidelines, t.codingGuidelines) + (If(o.includeTaskManagement, t.taskManagement)
    + (If(o.includeGitGuidelines, t.gitGuidelines) + (If(o.includeOutputStyle, t.outputStyle) + [])))))
  }

  /** Picking from position `k` on: the text at `k` when its flag is set, then the rest. */
  lemma PickedStep(flags: seq<bool>, texts: seq<string>, k: nat)
    requires |flags| == |texts| && k < |flags|
    ensures Picked(flags[k..], texts[k..]) == If(flags[k], texts[k]) + Picked(flags[k + 1..], texts[k + 1..])
  {
    assert flags[k..][1..] == flags[k + 1..];
    assert texts[k..][1..] == texts[k + 1..];
  }

  lemma SectionsPicked(o: Options, t: Templates)
    ensures Picked(Flags(o), Texts(t))
         == If(o.includeIdentity, t.identity) + (If(o.includeToolGuidelines, t.toolGuidelines)
            + (If(o.includeCodingGuidelines, t.codingGuidelines) + (If(o.includeTaskManagement, t.taskManagement)
            + (If(o.includeGitGuidelines, t.gitGuidelines) + (If(o.includeOutputStyle, t.outputStyle) + [])))))
  {
    var f := Flags(o);
    var x := Texts(t);
    assert f[0..] == f && x[0..] == x;
    PickedStep(f, x, 0);
    PickedStep(f, x, 1);
    PickedStep(f, x, 2);
    PickedLastThree(f, x);
  }

  /** Picking from the fourth of six positions on. */
  lemma PickedLastThree(f: seq<bool>, x: seq<string>)
    requires |f| == |x| == 6
    ensures Picked(f[3..], x[3..]) == If(f[3], x[3]) + (If(f[4], x[4]) + (If(f[5], x[5]) + []))
  {
    PickedStep(f, x, 3);
    PickedStep(f, x, 4);
    PickedStep(f, x, 5);
    assert Picked(f[6..], x[6..]) == [];
  }

  /** A section is in the prompt's list exactly when its flag is set (given distinct texts, once each). */
  lemma SectionChosenIff(o: Options, t: Templates, i: nat)
    requires i < 6
    ensures Flags(o)[i] ==> Texts(t)[i] in Sections(o, t)
    ensures Texts(t)[i] in Sections(o, t) ==> exists j :: 0 <= j < 6 && Flags(o)[j] && Texts(t)[j] == Texts(t)[i]
  {
    PickedMembers(Flags(o), Texts(t), Texts(t)[i]);
  }

  const EnvHeading := "# 环境信息\n\n"
  const CustomHeading := "\n\n# 附加指令\n\n"

  /** The environment block: date, operating system, and the working directory when there is one. */
  function EnvironmentInfo(o: Options, date: string, os: string): (r: string)
    ensures StartsWith(r, EnvHeading)
    ensures o.workingDir.Some? ==> EndsWith(r, "- 工作目录: " + o.workingDir.value + "\n")
    ensures o.workingDir.None? ==> EndsWith(r, "- 操作系统: " + os + "\n")
  {
    var tail := "- 当前日期: " + date + "\n" + "- 操作系统: " + os + "\n";
    var dirLine := if o.workingDir.Some? then "- 工作目录: " + o.workingDir.value + "\n" else "";
    var r := EnvHeading + tail + dirLine;
    PrefixOfConcat(EnvHeading, tail + dirLine);
    assert r == EnvHeading + (tail + dirLine);
    SuffixOfConcat(EnvHeading + tail, dirLine);
    SuffixOfConcat(EnvHeading + "- 当前日期: " + date + "\n", "- 操作系统: " + os + "\n");
    r
  }

  lemma PrefixOfConcat(a: string, b: string)
    ensures StartsWith(a + b, a)
  {
    assert (a + b)[..|a|] == a;
  }

  lemma SuffixOfConcat(a: string, b: string)
    ensures EndsWith(a + b, b)
  {
    assert (a + b)[|a + b| - |b|..] == b;
  }

  /**
   * `build`: the chosen sections joined by blank lines, then the environment
   * block (which is never empty, so always present), then the instructions
   * under their heading.
   */
  function Build(o: Options, t: Templates, date: string, os: string): (r: string)
    ensures Contains(r, EnvHeading)
    ensures StartsWith(r, Join(Sections(o, t), "\n\n") + "\n\n" + EnvironmentInfo(o, date, os))
    ensures StartsWith(r, Join(Sections(o, t), "\n\n") + "\n\n" + EnvHeading)
    ensures o.customInstructions.None? ==> r == Join(Sections(o, t), "\n\n") + "\n\n" + EnvironmentInfo(o, date, os)
    ensures o.customInstructions.Some? ==> EndsWith(r, CustomHeading + o.customInstructions.value)
  {
    var a := Join(Sections(o, t), "\n\n") + "\n\n";
    var env := EnvironmentInfo(o, date, os);
    var custom := CustomBlock(o);
    StartInMiddle(a, env, custom, EnvHeading);
    SuffixOfConcat(a + env, custom);
    PrefixOfConcat(a + env, custom);
    EnvPrefix(a, env, custom);
    a + env + custom
  }

  /** The instructions under their heading, or nothing. */
  function CustomBlock(o: Options): string
  {
    if o.customInstructions.Some? then CustomHeading + o.customInstructions.value else ""
  }

  lemma BuildParts(o: Options, t: Templates, date: string, os: string)
    ensures Build(o, t, date, os) == (Join(Sections(o, t), "\n\n") + "\n\n") + EnvironmentInfo(o, date, os) + CustomBlock(o)
  {
  }

  /** A block that opens with the environment heading keeps that heading right after what precedes it. */
  lemma EnvPrefix(a: string, env: string, custom: string)
    requires StartsWith(env, EnvHeading)
    ensures StartsWith(a + env + custom, a + EnvHeading)
  {
    assert (a + env + custom)[..|a + EnvHeading|] == a + env[..|EnvHeading|];
  }

  lemma ContainsMiddle(pre: string, p: string, post: string)
    ensures Contains(pre + p + post, p)
  {
    assert OccursAt(pre + p + post, p, |pre|);
  }

  lemma StartInMiddle(a: string, m: string, c: string, p: string)
    requires StartsWith(m, p)
    ensures Contains(a + m + c, p)
  {
    assert (a + m + c)[|a|..|a| + |p|] == m[..|p|];
    assert OccursAt(a + m + c, p, |a|);
  }

  lemma ContainedInMiddle(a: string, m: string, c: string, p: string)
    requires Contains(m, p)
    ensures Contains(a + m + c, p)
  {
    var i :| 0 <= i <= |m| - |p| && OccursAt(m, p, i);
    assert (a + m + c)[|a| + i..|a| + i + |p|] == m[i..i + |p|];
    assert OccursAt(a + m + c, p, |a| + i);
  }

  lemma ContainedInSuffix(s: string, suffix: string, p: string)
    requires EndsWith(s, suffix) && Contains(suffix, p)
    ensures Contains(s, p)
  {
    var pre := s[..|s| - |suffix|];
    assert s == pre + suffix + "";
    ContainedInMiddle(pre, suffix, "", p);
  }

  /** The prefix and suffix around one element of a joined list. */
  lemma {:induction false} JoinAround(parts: seq<string>, sep: string, k: nat) returns (pre: string, post: string)
    requires k < |parts|
    ensures Join(parts, sep) == pre + parts[k] + post
    decreases |parts|
  {
    if |parts| == 1 {
      pre, post := "", "";
    } else if k == 0 {
      pre, post := "", sep + Join(parts[1..], sep);
    } else {
      var p, q := JoinAround(parts[1..], sep, k - 1);
      pre, post := parts[0] + sep + p, q;
    }
  }

  /** Every element of a joined list appears in the joined text. */
  lemma ElementInJoin(parts: seq<string>, sep: string, k: nat)
    requires k < |parts|
    ensures Contains(Join(parts, sep), parts[k])
  {
    var pre, post := JoinAround(parts, sep, k);
    ContainsMiddle(pre, parts[k], post);
  }

  /** Every chosen section's text appears in the prompt. */
  lemma ChosenSectionsAppear(o: Options, t: Templates, date: string, os: string, k: nat)
    requires k < |Sections(o, t)|
    ensures Contains(Build(o, t, date, os), Sections(o, t)[k])
  {
    var s := Sections(o, t);
    ElementInJoin(s, "\n\n", k);
    ContainedInPrefix(Build(o, t, date, os), Join(s, "\n\n"), "\n\n", EnvHeading, s[k]);
  }

  lemma ContainedInPrefix(x: string, a: string, b: string, c: string, p: string)
    requires StartsWith(x, a + b + c) && Contains(a, p)
    ensures Contains(x, p)
  {
    var i :| 0 <= i <= |a| - |p| && OccursAt(a, p, i);
    var w := a + b + c;
    forall j | i <= j < i + |p|
      ensures x[j] == a[j]
    {
      assert x[..|w|][j] == w[j];
    }
    assert x[i..i + |p|] == a[i..i + |p|];
    assert OccursAt(x, p, i);
  }

  /** `default_all` chooses all six sections in their fixed order, and the prompt opens with the identity section. */
  lemma DefaultAllSections(t: Templates, date: string, os: string)
    ensures Sections(DefaultAll(), t)
         == [t.identity, t.toolGuidelines, t.codingGuidelines, t.taskManagement, t.gitGuidelines, t.outputStyle]
    ensures StartsWith(Build(DefaultAll(), t, date, os), t.identity + "\n\n" + t.toolGuidelines)
  {
    var s := Sections(DefaultAll(), t);
    assert s == [t.identity, t.toolGuidelines, t.codingGuidelines, t.taskManagement, t.gitGuidelines, t.outputStyle];
    assert s[1..][1..] == s[2..];
    var rest := Join(s[2..], "\n\n");
    assert Join(s, "\n\n") == (t.identity + "\n\n" + t.toolGuidelines) + ("\n\n" + rest);
    BuildParts(DefaultAll(), t, date, os);
    var p := t.identity + "\n\n" + t.toolGuidelines;
    PrefixOfConcat(p, "\n\n" + rest + "\n\n" + EnvironmentInfo(DefaultAll(), date, os) + CustomBlock(DefaultAll()));
  }

  /** A working directory set on the builder appears in the prompt. */
  lemma WorkingDirAppears(o: Options, t: Templates, dir: string, date: string, os: string)
    ensures Contains(Build(WithWorkingDir(o, dir), t, date, os), dir)
  {
    var o2 := WithWorkingDir(o, dir);
    var env := EnvironmentInfo(o2, date, os);
    ContainsMiddle("- 工作目录: ", dir, "\n");
    ContainedInSuffix(env, "- 工作目录: " + dir + "\n", dir);
    BuildParts(o2, t, date, os);
    ContainedInMiddle(Join(Sections(o2, t), "\n\n") + "\n\n", env, CustomBlock(o2), dir);
  }

  /** Custom instructions set on the builder appear in the prompt. */
  lemma CustomInstructionsAppear(o: Options, t: Templates, text: string, date: string, os: string)
    ensures Contains(Build(WithCustomInstructions(o, text), t, date, os), text)
  {
    var b := Build(WithCustomInstructions(o, text), t, date, os);
    ContainsMiddle(CustomHeading, text, "");
    assert CustomHeading + text + "" == CustomHeading + text;
    ContainedInSuffix(b, CustomHeading + text, text);
  }

  /** With no section chosen the prompt opens with a blank line before the environment block. */
  lemma NoSectionsLeadingBlank(t: Templates, date: string, os: string)
    ensures StartsWith(Build(DefaultOptions(), t, date, os), "\n\n" + EnvHeading)
  {
    var b := Build(DefaultOptions(), t, date, os);
    var env := EnvironmentInfo(DefaultOptions(), date, os);
    assert Sections(DefaultOptions(), t) == [];
    assert b == "\n\n" + env;
    assert b[..|"\n\n" + EnvHeading|] == "\n\n" + EnvHeading;
  }
}

=== FILE: provider_auth.dfy ===
/**
 * What the OAuth providers (Qwen, Gemini) share: when a cached access token
 * still counts as valid, and the steps of refreshing it against the token
 * endpoint. Times are milliseconds since the Unix epoch, read from a clock
 * the caller passes in.
 */
module ProviderAuth {
  import opened Wrappers
  import opened Json

  /**
   * `is_token_valid`: no token is never valid; a token without an expiry
   * always is; otherwise the expiry must lie more than `marginMs` ahead.
   */
  function TokenValid(accessToken: Option<string>, expiryMs: Option<int>, nowMs: int, marginMs: nat): (r: bool)
    ensures accessToken.None? ==> !r
    ensures accessToken.Some? && expiryMs.None? ==> r
    ensures accessToken.Some? && expiryMs.Some? ==> (r <==> expiryMs.value > nowMs + marginMs)
  {
    if accessToken.None? then false
    else match expiryMs
      case Some(expiry) => expiry > nowMs + marginMs
      case None => true
  }

  /** A wider safety margin never makes more tokens valid. */
  lemma WiderMarginStricter(accessToken: Option<string>, expiryMs: Option<int>, nowMs: int, m1: nat, m2: nat)
    requires m1 <= m2
    ensures TokenValid(accessToken, expiryMs, nowMs, m2) ==> TokenValid(accessToken, expiryMs, nowMs, m1)
  {
  }

  /** A token that is valid now was valid at every earlier instant. */
  lemma ValidityOnlyLapses(accessToken: Option<string>, expiryMs: Option<int>, t0: int, t1: int, margin: nat)
    requires t0 <= t1
    ensures TokenValid(accessToken, expiryMs, t1, margin) ==> TokenValid(accessToken, expiryMs, t0, margin)
  {
  }

  /** An HTTP response: its status code and body text. */
  datatype HttpReply = HttpReply(status: nat, body: string)

  /** `StatusCode::is_success`: the 2xx range. */
  predicate IsSuccess(status: nat)
  {
    200 <= status < 300
  }

  /** Why a refresh failed. */
  datatype RefreshError =
    | NoRefreshToken          // "No refresh token available"
    | MissingSetting(name: string)  // "<NAME> not set"
    | Transport(reason: string)
    | HttpFailure(status: nat, body: string)  // "Token refresh failed: <status> - <body>"
    | InvalidJson
    | NoAccessToken           // "No access token in response"
    | SaveFailed(reason: string)

  /** The instant a token expires that was issued at `nowMs` to last `expiresInSecs`. */
  function ExpiryAfter(nowMs: int, expiresInSecs: int): int
  {
    nowMs + expiresInSecs * 1000
  }

  /**
   * The part of a refresh after the request went out: a transport failure,
   * a non-2xx status, an unparsable body or a body without an access token
   * each end the refresh with an error; otherwise the parsed reply and its
   * new access token.
   */
  function ReadTokenReply(reply: Result<HttpReply, string>, parse: string -> Option<Json>): (r: Result<(Json, string), RefreshError>)
    ensures reply.Err? ==> r == Err(Transport(reply.error))
    ensures reply.Ok? && !IsSuccess(reply.value.status) ==>
              r == Err(HttpFailure(reply.value.status, reply.value.body))
    ensures reply.Ok? && IsSuccess(reply.value.status) && parse(reply.value.body).None? ==> r == Err(InvalidJson)
    ensures r.Ok? ==> reply.Ok? && IsSuccess(reply.value.status)
                      && parse(reply.value.body) == Some(r.value.0)
                      && AsStr(Index(r.value.0, "access_token")) == Some(r.value.1)
    ensures (reply.Ok? && IsSuccess(reply.value.status) && parse(reply.value.body).Some?
             && AsStr(Index(parse(reply.value.body).value, "access_token")).Some?) ==> r.Ok?
    ensures (reply.Ok? && IsSuccess(reply.value.status) && parse(reply.value.body).Some?
             && AsStr(Index(parse(reply.value.body).value, "access_token")).None?) ==> r == Err(NoAccessToken)
  {
    match reply
    case Err(e) => Err(Transport(e))
    case Ok(HttpReply(status, body)) =>
      if !IsSuccess(status) then Err(HttpFailure(status, body))
      else match parse(body)
        case None => Err(InvalidJson)
        case Some(data) =>
          match AsStr(Index(data, "access_token"))
          case None => Err(NoAccessToken)
          case Some(token) => Ok((data, token))
  }
}

=== FILE: provider_type.dfy ===
/**
 * The provider kinds of the application, their display names and the
 * case-insensitive parser that reads them back.
 */
module ProviderTypes {
  import opened Wrappers
  import opened Text

  datatype ProviderType =
    | Kiro | Gemini | Qwen | OpenAI | Claude | Antigravity | Vertex | GeminiApiKey
    | Codex | ClaudeOAuth | IFlow | Anthropic | AzureOpenai | AwsBedrock | Ollama

  /** The `Display` text of a provider kind. */
  function ProviderName(p: ProviderType): (r: string)
    ensures Lower(r) == r
    ensures r == SerdeName(p)
  {
    DisplayIsSerde(p);
    SerdeIsLower(p);
    DisplayText(p)
  }

  function DisplayText(p: ProviderType): string
  {
    match p
    case Kiro => "kiro"
    case Gemini => "gemini"
    case Qwen => "qwen"
    case OpenAI => "openai"
    case Claude => "claude"
    case Antigravity => "antigravity"
    case Vertex => "vertex"
    case GeminiApiKey => "gemini_api_key"
    case Codex => "codex"
    case ClaudeOAuth => "claude_oauth"
    case IFlow => "iflow"
    case Anthropic => "anthropic"
    case AzureOpenai => "azure_openai"
    case AwsBedrock => "aws_bedrock"
    case Ollama => "ollama"
  }

  /** The variants without a rename whose identifier is a single word. */
  predicate PlainVariant(p: ProviderType)
  {
    p.Kiro? || p.Gemini? || p.Qwen? || p.Claude? || p.Antigravity?
  }

  /** The display text is the serialised name. */
  lemma DisplayIsSerde(p: ProviderType)
    ensures DisplayText(p) == SerdeName(p)
  {
    if PlainVariant(p) {
      PlainDisplayIsSerde(p);
    } else if p.Vertex? || p.Codex? || p.Anthropic? || p.Ollama? {
      OtherDisplayIsSerde(p);
    }
  }

  lemma PlainDisplayIsSerde(p: ProviderType)
    requires PlainVariant(p)
    ensures DisplayText(p) == SerdeName(p)
  {
    assert Lower(VariantIdent(p)) == DisplayText(p);
  }

  lemma OtherDisplayIsSerde(p: ProviderType)
    requires p.Vertex? || p.Codex? || p.Anthropic? || p.Ollama?
    ensures DisplayText(p) == SerdeName(p)
  {
    assert Lower(VariantIdent(p)) == DisplayText(p);
  }

  /** Every serialised name is in lower case. */
  lemma SerdeIsLower(p: ProviderType)
    ensures Lower(SerdeName(p)) == SerdeName(p)
  {
    if p.OpenAI? || p.GeminiApiKey? || p.ClaudeOAuth? {
      RenamesLowerFirst();
    } else if p.IFlow? || p.AzureOpenai? || p.AwsBedrock? {
      RenamesLowerSecond();
    } else {
      LowerIdempotent(VariantIdent(p));
    }
  }

  /** The first three explicit renames are already in lower case. */
  lemma RenamesLowerFirst()
    ensures Lower("openai") == "openai"
    ensures Lower("gemini_api_key") == "gemini_api_key"
    ensures Lower("claude_oauth") == "claude_oauth"
  {
    LowerKeeps("openai", 0, 6);
    LowerKeeps("gemini_api_key", 0, 14);
    LowerKeeps("claude_oauth", 0, 12);
  }

  /** The other three explicit renames are already in lower case. */
  lemma RenamesLowerSecond()
    ensures Lower("iflow") == "iflow"
    ensures Lower("azure_openai") == "azure_openai"
    ensures Lower("aws_bedrock") == "aws_bedrock"
  {
    LowerKeeps("iflow", 0, 5);
    LowerKeeps("azure_openai", 0, 12);
    LowerKeeps("aws_bedrock", 0, 11);
  }

  /** The variant's identifier as declared. */
  function VariantIdent(p: ProviderType): string
  {
    match p
    case Kiro => "Kiro"
    case Gemini => "Gemini"
    case Qwen => "Qwen"
    case OpenAI => "OpenAI"
    case Claude => "Claude"
    case Antigravity => "Antigravity"
    case Vertex => "Vertex"
    case GeminiApiKey => "GeminiApiKey"
    case Codex => "Codex"
    case ClaudeOAuth => "ClaudeOAuth"
    case IFlow => "IFlow"
    case Anthropic => "Anthropic"
    case AzureOpenai => "AzureOpenai"
    case AwsBedrock => "AwsBedrock"
    case Ollama => "Ollama"
  }

  /**
   * The serialised name: the variant's identifier lower-cased, except for the
   * variants that carry an explicit rename.
   */
  function SerdeName(p: ProviderType): string
  {
    match p
    case OpenAI => "openai"
    case GeminiApiKey => "gemini_api_key"
    case ClaudeOAuth => "claude_oauth"
    case IFlow => "iflow"
    case AzureOpenai => "azure_openai"
    case AwsBedrock => "aws_bedrock"
    case _ => Lower(VariantIdent(p))
  }

  /** The lower-case spellings the parser accepts for a provider kind. */
  function Spellings(p: ProviderType): set<string>
  {
    match p
    case AzureOpenai => {"azure_openai", "azure-openai"}
    case AwsBedrock => {"aws_bedrock", "aws-bedrock"}
    case _ => {DisplayText(p)}
  }

  /** The provider kind a lower-case spelling names. */
  function KindOfSpelling(l: string): (r: Option<ProviderType>)
    ensures r.Some? ==> l in Spellings(r.value)
    ensures r.None? <==> forall p: ProviderType :: l !in Spellings(p)
  {
    if l == "kiro" then Some(Kiro)
    else if l == "gemini" then Some(Gemini)
    else if l == "qwen" then Some(Qwen)
    else if l == "openai" then Some(OpenAI)
    else if l == "claude" then Some(Claude)
    else if l == "antigravity" then Some(Antigravity)
    else if l == "vertex" then Some(Vertex)
    else if l == "gemini_api_key" then Some(GeminiApiKey)
    else if l == "codex" then Some(Codex)
    else if l == "claude_oauth" then Some(ClaudeOAuth)
    else if l == "iflow" then Some(IFlow)
    else if l == "anthropic" then Some(Anthropic)
    else if l == "azure_openai" || l == "azure-openai" then Some(AzureOpenai)
    else if l == "aws_bedrock" || l == "aws-bedrock" then Some(AwsBedrock)
    else if l == "ollama" then Some(Ollama)
    else NoSpelling(l); None
  }

  lemma NoSpelling(l: string)
    requires l != "kiro" && l != "gemini" && l != "qwen" && l != "openai" && l != "claude"
    requires l != "antigravity" && l != "vertex" && l != "gemini_api_key" && l != "codex"
    requires l != "claude_oauth" && l != "iflow" && l != "anthropic" && l != "azure_openai"
    requires l != "azure-openai" && l != "aws_bedrock" && l != "aws-bedrock" && l != "ollama"
    ensures forall p: ProviderType :: l !in Spellings(p)
  {
    forall p: ProviderType ensures l !in Spellings(p) {
      match p
      case AzureOpenai =>
      case AwsBedrock =>
      case _ => assert Spellings(p) == {DisplayText(p)};
    }
  }

  /**
   * Parses a provider kind after ASCII lower-casing, accepting the hyphenated
   * aliases of the Azure and Bedrock kinds; anything else is an error that
   * quotes the input as given.
   */
  function ParseProvider(s: string): (r: Result<ProviderType, string>)
    ensures r.Ok? ==> Lower(s) in Spellings(r.value)
    ensures r.Err? <==> forall p: ProviderType :: Lower(s) !in Spellings(p)
    ensures r.Err? ==> r.error == "Invalid provider: " + s
  {
    match KindOfSpelling(Lower(s))
    case Some(p) => Ok(p)
    case None => Err("Invalid provider: " + s)
  }

  /** No spelling is shared by two provider kinds. */
  lemma SpellingsDisjoint(p: ProviderType, q: ProviderType, s: string)
    requires s in Spellings(p) && s in Spellings(q)
    ensures p == q
  {
    SpellingNamesKind(p, s);
    SpellingNamesKind(q, s);
  }

  /** Each accepted spelling is read back as its own kind. */
  lemma SpellingNamesKind(p: ProviderType, s: string)
    requires s in Spellings(p)
    ensures KindOfSpelling(s) == Some(p)
  {
    match p
    case AzureOpenai =>
    case AwsBedrock =>
    case _ => assert s == DisplayText(p);
  }

  /** Distinct provider kinds display differently. */
  lemma ProviderNameInjective(p: ProviderType, q: ProviderType)
    requires ProviderName(p) == ProviderName(q)
    ensures p == q
  {
    SpellingsDisjoint(p, q, ProviderName(p));
  }

  /** Parsing the display name of a provider kind gives it back. */
  lemma ProviderRoundTrip(p: ProviderType)
    ensures ParseProvider(ProviderName(p)) == Ok(p)
  {
    var r := ParseProvider(ProviderName(p));
    assert ProviderName(p) in Spellings(p);
    if r.Ok? {
      SpellingsDisjoint(r.value, p, ProviderName(p));
    }
  }

  /** Parsing ignores ASCII letter case. */
  lemma ParseIgnoresCase(s: string)
    ensures ParseProvider(s).Ok? <==> ParseProvider(Lower(s)).Ok?
    ensures ParseProvider(s).Ok? ==> ParseProvider(s) == ParseProvider(Lower(s))
  {
    LowerIdempotent(s);
  }

  /** The hyphenated aliases. */
  lemma HyphenAliases()
    ensures ParseProvider("azure-openai") == Ok(AzureOpenai)
    ensures ParseProvider("aws-bedrock") == Ok(AwsBedrock)
  {
    AzureAliasLower();
    BedrockAliasLower();
  }

  lemma AzureAliasLower()
    ensures Lower("azure-openai") == "azure-openai"
  {
    assert Lower("azure-openai") == "azure-openai";
  }

  lemma BedrockAliasLower()
    ensures Lower("aws-bedrock") == "aws-bedrock"
  {
    assert Lower("aws-bedrock") == "aws-bedrock";
  }

  /** Any spelling whose lower-casing is a display name parses to that kind. */
  lemma ParseByName(s: string, p: ProviderType)
    requires Lower(s) == ProviderName(p)
    ensures ParseProvider(s) == Ok(p)
  {
    ProviderRoundTrip(p);
    assert Lower(ProviderName(p)) == ProviderName(p);
  }

  /** Examples of the source's unit tests: upper- and mixed-case names parse. */
  lemma ParseExamples()
    ensures ParseProvider("KIRO") == Ok(Kiro)
    ensures ParseProvider("Gemini") == Ok(Gemini)
    ensures ParseProvider("VERTEX") == Ok(Vertex)
  {
    LowerExample("KIRO", "kiro");
    ParseByName("KIRO", Kiro);
    LowerExample("Gemini", "gemini");
    ParseByName("Gemini", Gemini);
    LowerExample("VERTEX", "vertex");
    ParseByName("VERTEX", Vertex);
  }

  lemma LowerExample(s: string, l: string)
    requires |s| == |l| && forall i :: 0 <= i < |s| ==> LowerChar(s[i]) == l[i]
    ensures Lower(s) == l
  {
  }

  /** The source's unit test of a rejected name. */
  lemma ParseRejectsExample()
    ensures ParseProvider("invalid") == Err("Invalid provider: " + "invalid")
  {
    LowerExample("invalid", "invalid");
    NoSpelling("invalid");
  }
}

=== FILE: qwen.dfy ===
/**
 * The Qwen OAuth provider: its stored credentials, token validity, the API
 * base URL derived from the credentials' resource URL, the model check of
 * outgoing chat requests, and how a token refresh updates the credentials.
 */
module QwenProvider {
  import opened Wrappers
  import opened Text
  import opened Json
  import opened ProviderAuth

  const QwenBaseUrl := "https://portal.qwen.ai/v1"
  const QwenModels: seq<string> := ["qwen3-coder-plus", "qwen3-coder-flash"]
  /** Seconds of margin a token must have left: 30 000 ms. */
  const ValidityMarginMs: nat := 30000

  /** The credentials file (the expiry is an `i64` in milliseconds). */
  datatype Credentials = Credentials(
    accessToken: Option<string>,
    refreshToken: Option<string>,
    tokenType: Option<string>,
    resourceUrl: Option<string>,
    expiryDate: Option<int>)

  /** `QwenCredentials::default()`: a bearer token type and nothing else. */
  function DefaultCredentials(): (r: Credentials)
    ensures r.tokenType == Some("Bearer")
    ensures r.accessToken.None? && r.refreshToken.None? && r.resourceUrl.None? && r.expiryDate.None?
  {
    Credentials(None, None, Some("Bearer"), None, None)
  }

  /** `is_token_valid` at instant `nowMs`. */
  function IsTokenValid(c: Credentials, nowMs: int): (r: bool)
    ensures c.accessToken.None? ==> !r
    ensures c.accessToken.Some? && c.expiryDate.None? ==> r
    ensures c.accessToken.Some? && c.expiryDate.Some? ==> (r <==> c.expiryDate.value > nowMs + 30000)
  {
    TokenValid(c.accessToken, c.expiryDate, nowMs, ValidityMarginMs)
  }

  /** A resource URL with a scheme: kept when it starts with "http", otherwise `https://` is put in front. */
  function Absolute(url: string): (r: string)
    ensures StartsWith(r, "http")
    ensures StartsWith(r, url) || r == "https://" + url
  {
    if StartsWith(url, "http") then url
    else
      var r := "https://" + url;
      assert r[..4] == "https://"[..4];
      r
  }

  /**
   * A resource URL made absolute and ending in "/v1": the suffix is appended
   * exactly when the absolute URL does not already end with it.
   */
  function NormalizeResourceUrl(url: string): (r: string)
    ensures EndsWith(r, "/v1")
    ensures StartsWith(url, "http") ==> StartsWith(r, url)
    ensures !StartsWith(url, "http") ==> StartsWith(r, "https://" + url)
    ensures StartsWith(url, "http") && EndsWith(url, "/v1") ==> r == url
    ensures |url| <= |r| <= |url| + 11
    ensures StartsWith(r, Absolute(url))
    ensures |r| == |Absolute(url)| <==> EndsWith(Absolute(url), "/v1")
    ensures |r| <= |Absolute(url)| + 3
    ensures r == Absolute(url) || r == Absolute(url) + "/v1"
  {
    var normalized := Absolute(url);
    assert StartsWith(normalized, normalized);
    if EndsWith(normalized, "/v1") then normalized
    else
      var r := normalized + "/v1";
      assert r[|r| - 3..] == "/v1";
      assert r[..|normalized|] == normalized;
      r
  }

  /** `get_base_url`: the normalised resource URL, or the public portal. */
  function BaseUrl(c: Credentials): (r: string)
    ensures c.resourceUrl.None? ==> r == "https://portal.qwen.ai/v1"
    ensures c.resourceUrl.Some? ==> r == NormalizeResourceUrl(c.resourceUrl.value)
    ensures EndsWith(r, "/v1")
  {
    match c.resourceUrl
    case None =>
      assert QwenBaseUrl[|QwenBaseUrl| - 3..] == "/v1";
      QwenBaseUrl
    case Some(url) => NormalizeResourceUrl(url)
  }

  /** Normalising is idempotent: a base URL fed back as the resource URL is kept as is. */
  lemma NormalizeIdempotent(url: string)
    ensures NormalizeResourceUrl(NormalizeResourceUrl(url)) == NormalizeResourceUrl(url)
  {
    var n := NormalizeResourceUrl(url);
    var normalized := Absolute(url);
    assert StartsWith(n, normalized);
    assert n[..4] == normalized[..4];
    assert StartsWith(n, "http");
  }

  /** A host without a scheme gets both the scheme and the version suffix. */
  lemma BaseUrlExample()
    ensures BaseUrl(DefaultCredentials().(resourceUrl := Some("portal.qwen.ai"))) == "https://portal.qwen.ai/v1"
  {
    var u := "portal.qwen.ai";
    assert u[..4][0] == 'p';
    assert !StartsWith(u, "http");
    var n := "https://" + u;
    assert n[|n| - 3..][2] == 'i';
    assert !EndsWith(n, "/v1");
    assert n + "/v1" == "https://portal.qwen.ai/v1";
  }

  /**
   * The model check of `chat_completions`: a string model not among the
   * supported ones is replaced by the first supported model; anything else
   * is sent unchanged.
   */
  function CheckModel(request: Json): (r: Json)
    ensures AsStr(Index(request, "model")).None? ==> r == request
    ensures AsStr(Index(request, "model")).Some? && AsStr(Index(request, "model")).value in QwenModels ==> r == request
    ensures AsStr(Index(request, "model")).Some? && AsStr(Index(request, "model")).value !in QwenModels ==>
              r.Obj? && r.fields == request.fields["model" := Str(QwenModels[0])]
  {
    match AsStr(Index(request, "model"))
    case Some(model) =>
      if model in QwenModels then request
      else Obj(request.fields["model" := Str(QwenModels[0])])
    case None => request
  }

  /** After the check, a request that names its model as a string names a supported one. */
  lemma CheckedModelSupported(request: Json)
    requires AsStr(Index(request, "model")).Some?
    ensures AsStr(Index(CheckModel(request), "model")).Some?
    ensures AsStr(Index(CheckModel(request), "model")).value in QwenModels
  {
  }

  /** Checking twice changes nothing more. */
  lemma CheckModelIdempotent(request: Json)
    ensures CheckModel(CheckModel(request)) == CheckModel(request)
  {
  }

  /** What `chat_completions` sends: the URL, the bearer header value and the checked body. */
  datatype ChatRequest = ChatRequest(url: string, authorization: string, body: Json)

  function ChatCompletions(c: Credentials, request: Json): (r: Result<ChatRequest, string>)
    ensures c.accessToken.None? ==> r == Err("No access token")
    ensures c.accessToken.Some? ==>
              r == Ok(ChatRequest(BaseUrl(c) + "/chat/completions", "Bearer " + c.accessToken.value, CheckModel(request)))
  {
    match c.accessToken
    case None => Err("No access token")
    case Some(token) => Ok(ChatRequest(BaseUrl(c) + "/chat/completions", "Bearer " + token, CheckModel(request)))
  }

  /**
   * `refresh_token` with the token endpoint's reply, the JSON parser, the
   * clock and the outcome of saving the file as inputs. Without a refresh
   * token nothing is sent and nothing changes. A failed reply leaves the
   * credentials alone. A good reply installs the new access token and, when
   * present, the new refresh token, resource URL and expiry; the result is
   * the new token unless saving fails, in which case the in-memory update
   * has still happened.
   */
  function RefreshToken(c: Credentials, reply: Result<HttpReply, string>, parse: string -> Option<Json>,
                        nowMs: int, saved: Result<(), string>): (r: (Result<string, RefreshError>, Credentials))
    ensures c.refreshToken.None? ==> r == (Err(NoRefreshToken), c)
    ensures c.refreshToken.Some? && ReadTokenReply(reply, parse).Err? ==> r == (Err(ReadTokenReply(reply, parse).error), c)
    ensures c.refreshToken.Some? && ReadTokenReply(reply, parse).Ok? ==>
              var (data, token) := ReadTokenReply(reply, parse).value;
              r.1.accessToken == Some(token)
              && r.1.tokenType == c.tokenType
              && r.1.refreshToken == (if AsStr(Index(data, "refresh_token")).Some? then AsStr(Index(data, "refresh_token")) else c.refreshToken)
              && r.1.resourceUrl == (if AsStr(Index(data, "resource_url")).Some? then AsStr(Index(data, "resource_url")) else c.resourceUrl)
              && r.1.expiryDate == (match AsInt(Index(data, "expires_in"))
                                    case Some(secs) => Some(ExpiryAfter(nowMs, secs))
                                    case None => c.expiryDate)
              && r.0 == (if saved.Ok? then Ok(token) else Err(SaveFailed(saved.error)))
  {
    if c.refreshToken.None? then (Err(NoRefreshToken), c)
    else match ReadTokenReply(reply, parse)
      case Err(e) => (Err(e), c)
      case Ok((data, token)) =>
        var c1 := c.(accessToken := Some(token));
        var c2 := match AsStr(Index(data, "refresh_token")) case Some(rt) => c1.(refreshToken := Some(rt)) case None => c1;
        var c3 := match AsStr(Index(data, "resource_url")) case Some(u) => c2.(resourceUrl := Some(u)) case None => c2;
        var c4 := match AsInt(Index(data, "expires_in")) case Some(secs) => c3.(expiryDate := Some(ExpiryAfter(nowMs, secs))) case None => c3;
        (if saved.Ok? then Ok(token) else Err(SaveFailed(saved.error)), c4)
  }

  /** A refresh whose reply carries an expiry leaves a token valid until shortly before it. */
  lemma RefreshedTokenValid(c: Credentials, reply: Result<HttpReply, string>, parse: string -> Option<Json>,
                            nowMs: int, saved: Result<(), string>, later: int)
    requires c.refreshToken.Some? && ReadTokenReply(reply, parse).Ok?
    requires AsInt(Index(ReadTokenReply(reply, parse).value.0, "expires_in")).Some?
    requires later + 30000 < ExpiryAfter(nowMs, AsInt(Index(ReadTokenReply(reply, parse).value.0, "expires_in")).value)
    ensures IsTokenValid(RefreshToken(c, reply, parse, nowMs, saved).1, later)
  {
  }
}

=== FILE: qwen_commands.dfy ===
/**
 * The legacy Qwen credential commands: the status summary, the environment
 * variables shown to the user, and the reload triggered by a change of the
 * credentials file's hash. The file, its hash function and the loader are
 * parameters.
 */
module QwenCommands {
  import opened Wrappers
  import opened Encoding
  import opened AppUtils
  import opened Decimal
  import opened QwenProvider

  /** `QwenCredentialStatus`. */
  datatype Status = Status(
    loaded: bool,
    hasAccessToken: bool,
    hasRefreshToken: bool,
    expiryDate: Option<int>,
    isValid: bool,
    credsPath: string)

  /** `get_qwen_credentials`: loaded means some token is present. */
  function CredentialStatus(c: Credentials, nowMs: int, credsPath: string): (r: Status)
    ensures r.loaded <==> r.hasAccessToken || r.hasRefreshToken
    ensures r.hasAccessToken <==> c.accessToken.Some?
    ensures r.hasRefreshToken <==> c.refreshToken.Some?
    ensures r.expiryDate == c.expiryDate && r.credsPath == credsPath
    ensures r.isValid ==> r.hasAccessToken
    ensures r.isValid <==> IsTokenValid(c, nowMs)
  {
    Status(c.accessToken.Some? || c.refreshToken.Some?, c.accessToken.Some?, c.refreshToken.Some?,
           c.expiryDate, IsTokenValid(c, nowMs), credsPath)
  }

  /** An environment variable shown to the user, with the text displayed in place of its value. */
  datatype EnvVariable = EnvVariable(key: string, value: string, masked: string)

  function TokenVar(key: string, token: Option<string>): seq<EnvVariable>
  {
    if token.Some? then [EnvVariable(key, token.value, MaskToken(token.value))] else []
  }

  function PlainVar(key: string, value: Option<string>): seq<EnvVariable>
  {
    if value.Some? then [EnvVariable(key, value.value, value.value)] else []
  }

  /**
   * `get_qwen_env_variables`: one variable per present field, in the order
   * access token, refresh token, resource URL, expiry; only the tokens are masked.
   */
  function EnvVariables(c: Credentials): (r: seq<EnvVariable>)
    ensures |r| == Count(c.accessToken.Some?) + Count(c.refreshToken.Some?)
                   + Count(c.resourceUrl.Some?) + Count(c.expiryDate.Some?)
    ensures forall k :: 0 <= k < |r| ==> Shown(r[k])
    ensures forall i, j :: 0 <= i < j < |r| ==> Rank(r[i].key) < Rank(r[j].key)
  {
    var a := TokenVar(AccessKey, c.accessToken);
    var b := TokenVar(RefreshKey, c.refreshToken);
    var u := PlainVar(ResourceKey, c.resourceUrl);
    var e := PlainVar(ExpiryKey, ExpiryText(c));
    EnvGroups(c, a, b, u, e);
    a + b + u + e
  }

  lemma EnvGroups(c: Credentials, a: seq<EnvVariable>, b: seq<EnvVariable>, u: seq<EnvVariable>, e: seq<EnvVariable>)
    requires a == TokenVar(AccessKey, c.accessToken) && b == TokenVar(RefreshKey, c.refreshToken)
    requires u == PlainVar(ResourceKey, c.resourceUrl) && e == PlainVar(ExpiryKey, ExpiryText(c))
    ensures |a + b + u + e| == Count(c.accessToken.Some?) + Count(c.refreshToken.Some?)
                               + Count(c.resourceUrl.Some?) + Count(c.expiryDate.Some?)
    ensures AllShown(a + b + u + e) && InKeyOrder(a + b + u + e)
  {
    KeyRanks();
    GroupFacts(a, AccessKey, c.accessToken, 0);
    GroupFacts(b, RefreshKey, c.refreshToken, 1);
    GroupFacts(u, ResourceKey, c.resourceUrl, 2);
    GroupFacts(e, ExpiryKey, ExpiryText(c), 3);
    GroupsShown(a, b, u, e);
    GroupsInKeyOrder(a, b, u, e);
  }

  /** The four keys hold the ranks 0 to 3 in display order. */
  lemma KeyRanks()
    ensures Rank(AccessKey) == 0 && Rank(RefreshKey) == 1 && Rank(ResourceKey) == 2 && Rank(ExpiryKey) == 3
  {
    KeysDistinct();
  }

  /**
   * A group holds at most one variable, under its key, shown as that key
   * requires: masked for the two tokens, as is otherwise.
   */
  lemma GroupFacts(g: seq<EnvVariable>, k: string, v: Option<string>, n: nat)
    requires || (g == TokenVar(k, v) && (k == AccessKey || k == RefreshKey))
             || (g == PlainVar(k, v) && (k == ResourceKey || k == ExpiryKey))
    requires Rank(k) == n
    ensures |g| == Count(v.Some?) && |g| <= 1
    ensures AllShown(g)
    ensures forall i :: 0 <= i < |g| ==> Rank(g[i].key) == n
  {
  }

  lemma GroupsShown(a: seq<EnvVariable>, b: seq<EnvVariable>, u: seq<EnvVariable>, e: seq<EnvVariable>)
    requires AllShown(a) && AllShown(b) && AllShown(u) && AllShown(e)
    ensures AllShown(a + b + u + e)
  {
    AllShownAppend(a, b);
    AllShownAppend(a + b, u);
    AllShownAppend(a + b + u, e);
  }

  /** The four groups, each holding at most the variable of its key, come out in key order. */
  lemma GroupsInKeyOrder(a: seq<EnvVariable>, b: seq<EnvVariable>, u: seq<EnvVariable>, e: seq<EnvVariable>)
    requires |a| <= 1 && |b| <= 1 && |u| <= 1 && |e| <= 1
    requires forall k :: 0 <= k < |a| ==> Rank(a[k].key) == 0
    requires forall k :: 0 <= k < |b| ==> Rank(b[k].key) == 1
    requires forall k :: 0 <= k < |u| ==> Rank(u[k].key) == 2
    requires forall k :: 0 <= k < |e| ==> Rank(e[k].key) == 3
    ensures InKeyOrder(a + b + u + e)
  {
    InKeyOrderAppend(a, b, 1);
    InKeyOrderAppend(a + b, u, 2);
    InKeyOrderAppend(a + b + u, e, 3);
  }

  /** The position of a key in the order the list shows the variables. */
  function Rank(key: string): nat
  {
    if key == AccessKey then 0
    else if key == RefreshKey then 1
    else if key == ResourceKey then 2
    else 3
  }

  /** The variables come in the order of their keys, each key at most once. */
  predicate InKeyOrder(vs: seq<EnvVariable>)
  {
    forall i, j :: 0 <= i < j < |vs| ==> Rank(vs[i].key) < Rank(vs[j].key)
  }

  /** Two ordered lists whose keys are split by rank `m` stay ordered when joined. */
  lemma InKeyOrderAppend(a: seq<EnvVariable>, b: seq<EnvVariable>, m: nat)
    requires InKeyOrder(a) && InKeyOrder(b)
    requires forall k :: 0 <= k < |a| ==> Rank(a[k].key) < m
    requires forall k :: 0 <= k < |b| ==> m <= Rank(b[k].key)
    ensures InKeyOrder(a + b)
  {
    forall i, j | 0 <= i < j < |a + b| ensures Rank((a + b)[i].key) < Rank((a + b)[j].key) {
      if j < |a| {
        assert (a + b)[i] == a[i] && (a + b)[j] == a[j];
      } else if i < |a| {
        assert (a + b)[i] == a[i] && (a + b)[j] == b[j - |a|];
      } else {
        assert (a + b)[i] == b[i - |a|] && (a + b)[j] == b[j - |a|];
      }
    }
  }

  /**
   * A variable as the list shows it: one of the four keys, a token masked,
   * the resource URL and the expiry shown as they are.
   */
  predicate Shown(v: EnvVariable)
  {
    && v.key in VarKeys
    && ((v.key == AccessKey || v.key == RefreshKey) ==> v.masked == MaskToken(v.value))
    && ((v.key == ResourceKey || v.key == ExpiryKey) ==> v.masked == v.value)
  }

  predicate AllShown(vs: seq<EnvVariable>)
  {
    forall k :: 0 <= k < |vs| ==> Shown(vs[k])
  }

  lemma AllShownAppend(a: seq<EnvVariable>, b: seq<EnvVariable>)
    requires AllShown(a) && AllShown(b)
    ensures AllShown(a + b)
  {
    forall k | 0 <= k < |a + b| ensures Shown((a + b)[k]) {
      if k < |a| { assert (a + b)[k] == a[k]; } else { assert (a + b)[k] == b[k - |a|]; }
    }
  }

  const AccessKey := "QWEN_ACCESS_TOKEN"
  const RefreshKey := "QWEN_REFRESH_TOKEN"
  const ResourceKey := "QWEN_RESOURCE_URL"
  const ExpiryKey := "QWEN_EXPIRY_DATE"
  const VarKeys: seq<string> := [AccessKey, RefreshKey, ResourceKey, ExpiryKey]

  function Count(b: bool): nat
  {
    if b then 1 else 0
  }

  /** The value of a variable. */
  function Lookup(vars: seq<EnvVariable>, key: string): Option<string>
  {
    if |vars| == 0 then None
    else if vars[0].key == key then Some(vars[0].value)
    else Lookup(vars[1..], key)
  }

  /** The variables give the credentials back: each field is the value of its variable. */
  lemma EnvVariablesRecoverCredentials(c: Credentials)
    ensures Lookup(EnvVariables(c), AccessKey) == c.accessToken
    ensures Lookup(EnvVariables(c), RefreshKey) == c.refreshToken
    ensures Lookup(EnvVariables(c), ResourceKey) == c.resourceUrl
    ensures Lookup(EnvVariables(c), ExpiryKey) == ExpiryText(c)
  {
    var a := TokenVar(AccessKey, c.accessToken);
    var b := TokenVar(RefreshKey, c.refreshToken);
    var u := PlainVar(ResourceKey, c.resourceUrl);
    var e := PlainVar(ExpiryKey, ExpiryText(c));
    assert EnvVariables(c) == a + (b + (u + e));
    KeysDistinct();
    GroupLookup(a, AccessKey, c.accessToken);
    GroupLookup(b, RefreshKey, c.refreshToken);
    GroupLookup(u, ResourceKey, c.resourceUrl);
    GroupLookup(e, ExpiryKey, ExpiryText(c));
    LookupFour(a, b, u, e, AccessKey);
    LookupFour(a, b, u, e, RefreshKey);
    LookupFour(a, b, u, e, ResourceKey);
    LookupFour(a, b, u, e, ExpiryKey);
  }

  /** The expiry as the variable shows it: its decimal text. */
  function ExpiryText(c: Credentials): (r: Option<string>)
    ensures r.None? <==> c.expiryDate.None?
    ensures r.Some? ==> IsIntText(r.value) && ParseInt(r.value) == c.expiryDate.value
  {
    if c.expiryDate.Some? then
      IntRoundTrip(c.expiryDate.value);
      Some(IntToString(c.expiryDate.value))
    else None
  }

  lemma LookupFour(a: seq<EnvVariable>, b: seq<EnvVariable>, u: seq<EnvVariable>, e: seq<EnvVariable>, key: string)
    ensures Lookup(a + (b + (u + e)), key) == LookupIn4(a, b, u, e, key)
  {
    LookupAppend(a, b + (u + e), key);
    LookupAppend(b, u + e, key);
    LookupAppend(u, e, key);
  }

  /** Looking a key up in four groups of variables. */
  function LookupIn4(a: seq<EnvVariable>, b: seq<EnvVariable>, u: seq<EnvVariable>, e: seq<EnvVariable>, key: string): Option<string>
  {
    if Lookup(a, key).Some? then Lookup(a, key)
    else if Lookup(b, key).Some? then Lookup(b, key)
    else if Lookup(u, key).Some? then Lookup(u, key)
    else Lookup(e, key)
  }

  /** A group holds at most the one variable of its key. */
  lemma GroupLookup(g: seq<EnvVariable>, k: string, v: Option<string>)
    requires g == TokenVar(k, v) || g == PlainVar(k, v)
    ensures forall key :: Lookup(g, key) == (if key == k then v else None)
  {
    if v.Some? { assert g[1..] == []; }
  }

  lemma KeysDistinct()
    ensures AccessKey != RefreshKey && AccessKey != ResourceKey && AccessKey != ExpiryKey
    ensures RefreshKey != ResourceKey && RefreshKey != ExpiryKey && ResourceKey != ExpiryKey
  {
    assert AccessKey[5] == 'A' && RefreshKey[5] == 'R' && ResourceKey[5] == 'R' && ExpiryKey[5] == 'E';
    assert RefreshKey[7] == 'F' && ResourceKey[7] == 'S';
  }

  lemma {:induction false} LookupAppend(a: seq<EnvVariable>, b: seq<EnvVariable>, key: string)
    ensures Lookup(a + b, key) == if Lookup(a, key).Some? then Lookup(a, key) else Lookup(b, key)
    decreases |a|
  {
    if |a| == 0 {
      assert a + b == b;
    } else {
      assert (a + b)[1..] == a[1..] + b;
      LookupAppend(a[1..], b, key);
    }
  }

  // ------------------------------------------------------------ reload on change

  /** `CheckResult`. */
  datatype CheckResult = CheckResult(changed: bool, newHash: string, reloaded: bool)

  /** The credentials file: missing, unreadable, or its bytes. */
  datatype CredsFile = Missing | Unreadable(err: string) | Present(content: seq<byte>)

  /** `get_qwen_token_file_hash`: the hash of the file, or "" when there is none. */
  function TokenFileHash(file: CredsFile, hash: seq<byte> -> string): (r: Result<string, string>)
    ensures file.Missing? ==> r == Ok("")
    ensures file.Unreadable? ==> r == Err(file.err)
    ensures file.Present? ==> r == Ok(hash(file.content))
  {
    match file
    case Missing => Ok("")
    case Unreadable(e) => Err(e)
    case Present(content) => Ok(hash(content))
  }

  /**
   * `check_and_reload_qwen_credentials`: the credentials are reloaded when
   * the caller had a hash and the file's hash differs from it; a failed load
   * is reported as changed but not reloaded and keeps the old credentials.
   */
  function CheckAndReload(c: Credentials, lastHash: string, file: CredsFile, hash: seq<byte> -> string,
                          load: Result<Credentials, string>): (r: (Result<CheckResult, string>, Credentials))
    ensures file.Missing? ==> r == (Ok(CheckResult(false, "", false)), c)
    ensures file.Unreadable? ==> r == (Err(file.err), c)
    ensures file.Present? ==> r.0.Ok? && r.0.value.newHash == hash(file.content)
    ensures r.0.Ok? ==> (r.0.value.changed <==> file.Present? && lastHash != "" && hash(file.content) != lastHash)
    ensures r.0.Ok? ==> (r.0.value.reloaded <==> r.0.value.changed && load.Ok?)
    ensures r.0.Ok? && r.0.value.reloaded ==> r.1 == load.value
    ensures !(r.0.Ok? && r.0.value.reloaded) ==> r.1 == c
  {
    match file
    case Missing => (Ok(CheckResult(false, "", false)), c)
    case Unreadable(e) => (Err(e), c)
    case Present(content) =>
      var h := hash(content);
      if lastHash != "" && h != lastHash then
        match load
        case Ok(n) => (Ok(CheckResult(true, h, true)), n)
        case Err(_) => (Ok(CheckResult(true, h, false)), c)
      else (Ok(CheckResult(false, h, false)), c)
  }

  /** Checking again with the hash just returned reports no change and reloads nothing. */
  lemma SecondCheckQuiet(c: Credentials, lastHash: string, file: CredsFile, hash: seq<byte> -> string,
                         load: Result<Credentials, string>, load2: Result<Credentials, string>)
    requires CheckAndReload(c, lastHash, file, hash, load).0.Ok?
    ensures var first := CheckAndReload(c, lastHash, file, hash, load);
            var second := CheckAndReload(first.1, first.0.value.newHash, file, hash, load2);
            second.0.Ok? && !second.0.value.changed && second.1 == first.1
  {
  }

  /** The first check (no previous hash) only records the hash. */
  lemma FirstCheckRecordsOnly(c: Credentials, content: seq<byte>, hash: seq<byte> -> string, load: Result<Credentials, string>)
    ensures CheckAndReload(c, "", Present(content), hash, load) == (Ok(CheckResult(false, hash(content), false)), c)
  {
  }
}

=== FILE: rate_limit.dfy ===
/**
 * The sliding-window rate limiter of the HTTP server: for each client, the
 * instants of its requests admitted within the current window.
 */
module RateLimit {
  import opened Clock

  datatype Config = Config(enabled: bool, requestsPerMinute: nat, windowSecs: nat)

  /** `RateLimitConfig::default()`: disabled, 60 requests per 60-second window. */
  function DefaultConfig(): (r: Config)
    ensures !r.enabled && r.requestsPerMinute == 60 && r.windowSecs == 60
  {
    Config(false, 60, 60)
  }

  /** The answer of a check; the retry delay is a duration in nanoseconds. */
  datatype Decision = Allowed | Limited(retryAfter: nat)

  datatype Limiter = Limiter(config: Config, requests: map<string, seq<Instant>>)

  function NewLimiter(config: Config): (r: Limiter)
    ensures r.config == config && |r.requests| == 0
  {
    Limiter(config, map[])
  }

  function Window(l: Limiter): nat
  {
    Secs(l.config.windowSecs)
  }

  /** Still inside the window ending at `now`. */
  predicate InWindow(now: Instant, window: nat, t: Instant)
  {
    Since(now, t) < window
  }

  predicate Ascending(ts: seq<Instant>)
  {
    forall i, j :: 0 <= i < j < |ts| ==> ts[i] <= ts[j]
  }

  /** The instants of `ts` still inside the window, in their original order. */
  function Prune(ts: seq<Instant>, now: Instant, window: nat): (r: seq<Instant>)
    ensures |r| <= |ts|
    ensures forall t :: t in r <==> t in ts && InWindow(now, window, t)
    ensures Ascending(ts) ==> Ascending(r)
    ensures (forall i :: 0 <= i < |ts| ==> InWindow(now, window, ts[i])) ==> r == ts
  {
    if |ts| == 0 then []
    else
      var rest := Prune(ts[1..], now, window);
      assert forall t :: t in ts <==> t == ts[0] || t in ts[1..];
      AscendingTail(ts);
      if InWindow(now, window, ts[0]) then
        PrependAscending(ts, rest);
        [ts[0]] + rest
      else rest
  }

  lemma AscendingTail(ts: seq<Instant>)
    requires |ts| > 0
    ensures Ascending(ts) ==> Ascending(ts[1..]) && forall t :: t in ts[1..] ==> ts[0] <= t
  {
    if Ascending(ts) {
      forall t | t in ts[1..] ensures ts[0] <= t {
        var j :| 0 <= j < |ts[1..]| && ts[1..][j] == t;
        assert ts[1..][j] == ts[j + 1];
      }
      forall i, j | 0 <= i < j < |ts[1..]| ensures ts[1..][i] <= ts[1..][j] {
        assert ts[1..][i] == ts[i + 1] && ts[1..][j] == ts[j + 1];
      }
    }
  }

  lemma PrependAscending(ts: seq<Instant>, rest: seq<Instant>)
    requires |ts| > 0
    requires Ascending(ts) ==> Ascending(rest) && forall t :: t in rest ==> ts[0] <= t
    ensures Ascending(ts) ==> Ascending([ts[0]] + rest)
  {
    if Ascending(ts) {
      var l := [ts[0]] + rest;
      forall i, j | 0 <= i < j < |l| ensures l[i] <= l[j] {
        assert l[j] == rest[j - 1];
        assert rest[j - 1] in rest;
        if i > 0 {
          assert l[i] == rest[i - 1];
        }
      }
    }
  }

  /** The instants a client has on record (`entry(..).or_default()`). */
  function Recorded(l: Limiter, client: string): seq<Instant>
  {
    if client in l.requests then l.requests[client] else []
  }

  /**
   * `check_rate_limit`: a disabled limiter admits everything and records
   * nothing. Otherwise the client's record is first pruned to the window;
   * the request is admitted, and `now` appended, iff fewer than the limit
   * remain; a refused request is told to wait until the oldest remaining
   * instant leaves the window (the whole window when none remains).
   */
  function CheckRateLimit(l: Limiter, client: string, now: Instant): (r: (Decision, Limiter))
    ensures r.1.config == l.config
    ensures !l.config.enabled ==> r == (Allowed, l)
    ensures l.config.enabled ==> client in r.1.requests
    ensures l.config.enabled ==>
              var kept := Prune(Recorded(l, client), now, Window(l));
              (r.0 == Allowed <==> |kept| < l.config.requestsPerMinute)
              && (r.0 == Allowed ==> r.1.requests[client] == kept + [now])
              && (r.0.Limited? ==> r.1.requests[client] == kept)
              && (r.0.Limited? && |kept| == 0 ==> r.0.retryAfter == Window(l))
              && (r.0.Limited? && |kept| > 0 ==>
                    r.0.retryAfter == SaturatingSub(Window(l), Since(now, kept[0])))
    ensures r.0.Limited? ==> r.0.retryAfter <= Window(l)
    ensures forall c :: c != client ==> (c in r.1.requests <==> c in l.requests)
    ensures forall c :: c != client && c in l.requests ==> r.1.requests[c] == l.requests[c]
  {
    if !l.config.enabled then (Allowed, l)
    else
      var window := Window(l);
      var kept := Prune(Recorded(l, client), now, window);
      if |kept| >= l.config.requestsPerMinute then
        var retry := if |kept| > 0 then SaturatingSub(window, Since(now, kept[0])) else window;
        (Limited(retry), l.(requests := l.requests[client := kept]))
      else
        (Allowed, l.(requests := l.requests[client := kept + [now]]))
  }

  /** `cleanup`: prunes every client and forgets those left with nothing. */
  function Cleanup(l: Limiter, now: Instant): (r: Limiter)
    ensures r.config == l.config
    ensures forall c :: c in r.requests <==>
              c in l.requests && |Prune(l.requests[c], now, Window(l))| > 0
    ensures forall c :: c in r.requests ==> r.requests[c] == Prune(l.requests[c], now, Window(l))
  {
    var window := Window(l);
    l.(requests := map c | c in l.requests && |Prune(l.requests[c], now, window)| > 0
                     :: Prune(l.requests[c], now, window))
  }

  // ------------------------------------------------------------ invariants

  /**
   * What every reachable limiter satisfies at instant `now`: no client holds
   * more than the limit, each record is in time order, and no instant lies in
   * the future.
   */
  predicate Valid(l: Limiter, now: Instant)
  {
    forall c :: c in l.requests ==>
      |l.requests[c]| <= l.config.requestsPerMinute
      && Ascending(l.requests[c])
      && forall i :: 0 <= i < |l.requests[c]| ==> l.requests[c][i] <= now
  }

  lemma PruneBounded(ts: seq<Instant>, now: Instant, window: nat)
    requires forall i :: 0 <= i < |ts| ==> ts[i] <= now
    ensures forall i :: 0 <= i < |Prune(ts, now, window)| ==> Prune(ts, now, window)[i] <= now
  {
    var r := Prune(ts, now, window);
    forall i | 0 <= i < |r| ensures r[i] <= now {
      assert r[i] in ts;
    }
  }

  /** A check at a later instant keeps the limiter valid. */
  lemma CheckPreservesValid(l: Limiter, client: string, t0: Instant, now: Instant)
    requires Valid(l, t0) && t0 <= now
    ensures Valid(CheckRateLimit(l, client, now).1, now)
  {
    var r := CheckRateLimit(l, client, now).1;
    if l.config.enabled {
      var old_ := Recorded(l, client);
      var kept := Prune(old_, now, Window(l));
      PruneBounded(old_, now, Window(l));
      forall c | c in r.requests
        ensures |r.requests[c]| <= r.config.requestsPerMinute
        ensures Ascending(r.requests[c])
        ensures forall i :: 0 <= i < |r.requests[c]| ==> r.requests[c][i] <= now
      {
        if c != client {
          assert r.requests[c] == l.requests[c];
        }
      }
    }
  }

  /** Cleaning up at a later instant keeps the limiter valid. */
  lemma CleanupPreservesValid(l: Limiter, t0: Instant, now: Instant)
    requires Valid(l, t0) && t0 <= now
    ensures Valid(Cleanup(l, now), now)
  {
    var r := Cleanup(l, now);
    forall c | c in r.requests
      ensures |r.requests[c]| <= r.config.requestsPerMinute
      ensures Ascending(r.requests[c])
      ensures forall i :: 0 <= i < |r.requests[c]| ==> r.requests[c][i] <= now
    {
      PruneBounded(l.requests[c], now, Window(l));
    }
  }

  /**
   * In a valid limiter a refused client waits a positive time no longer than
   * the window: until its oldest admitted request leaves the window.
   */
  lemma RetryAfterPositive(l: Limiter, client: string, now: Instant)
    requires Valid(l, now) && l.config.enabled && l.config.requestsPerMinute > 0
    requires CheckRateLimit(l, client, now).0.Limited?
    ensures 0 < CheckRateLimit(l, client, now).0.retryAfter <= Window(l)
  {
    var kept := Prune(Recorded(l, client), now, Window(l));
    assert kept[0] in kept;
  }

  /** Once every recorded instant has left the window, a client with a positive limit is admitted. */
  lemma AdmittedAfterWindow(l: Limiter, client: string, now: Instant)
    requires l.config.enabled && l.config.requestsPerMinute > 0
    requires forall i :: 0 <= i < |Recorded(l, client)| ==>
               !InWindow(now, Window(l), Recorded(l, client)[i])
    ensures CheckRateLimit(l, client, now).0 == Allowed
  {
    var kept := Prune(Recorded(l, client), now, Window(l));
    if |kept| > 0 {
      assert kept[0] in Recorded(l, client);
    }
  }

  /** One admission of a client whose record holds only `now`, below the limit. */
  lemma AdmitAtSameInstant(p: Limiter, client: string, now: Instant, n: nat)
    requires p.config.enabled && 0 < p.config.windowSecs
    requires Recorded(p, client) == seq(n, _ => now) && n < p.config.requestsPerMinute
    ensures CheckRateLimit(p, client, now).0 == Allowed
    ensures Recorded(CheckRateLimit(p, client, now).1, client) == seq(n + 1, _ => now)
  {
    assert Prune(Recorded(p, client), now, Window(p)) == Recorded(p, client);
    assert seq(n, _ => now) + [now] == seq(n + 1, _ => now);
  }

  /** A limit of n admits n requests in a row at one instant. */
  lemma {:induction false} FillsUpToLimit(l: Limiter, client: string, now: Instant, n: nat)
    requires l.config.enabled && 0 < l.config.windowSecs
    requires n <= l.config.requestsPerMinute
    requires client !in l.requests
    ensures Recorded(Repeat(l, client, now, n).1, client) == seq(n, _ => now)
    ensures forall i :: 0 <= i < n ==> Repeat(l, client, now, n).0[i] == Allowed
  {
    if n > 0 {
      FillsUpToLimit(l, client, now, n - 1);
      AdmitAtSameInstant(Repeat(l, client, now, n - 1).1, client, now, n - 1);
    }
  }

  /** `n` checks of one client at one instant, with their decisions. */
  function Repeat(l: Limiter, client: string, now: Instant, n: nat): (r: (seq<Decision>, Limiter))
    ensures |r.0| == n
    ensures r.1.config == l.config
  {
    if n == 0 then ([], l)
    else
      var (ds, l1) := Repeat(l, client, now, n - 1);
      var (d, l2) := CheckRateLimit(l1, client, now);
      (ds + [d], l2)
  }

  /** Once full, the next check at the same instant is refused. */
  lemma RefusedWhenFull(l: Limiter, client: string, now: Instant)
    requires l.config.enabled && 0 < l.config.windowSecs
    requires client !in l.requests
    ensures CheckRateLimit(Repeat(l, client, now, l.config.requestsPerMinute).1, client, now).0.Limited?
  {
    var n := l.config.requestsPerMinute;
    FillsUpToLimit(l, client, now, n);
    var p := Repeat(l, client, now, n).1;
    assert Prune(Recorded(p, client), now, Window(l)) == Recorded(p, client);
  }

  /** Nothing survives pruning when every instant has left the window. */
  lemma {:induction false} PruneAllOld(ts: seq<Instant>, now: Instant, window: nat)
    requires forall i :: 0 <= i < |ts| ==> !InWindow(now, window, ts[i])
    ensures Prune(ts, now, window) == []
  {
    if |ts| > 0 {
      PruneAllOld(ts[1..], now, window);
    }
  }

  /** After the window passes, cleanup empties a limiter whose records are all older. */
  lemma CleanupEmpties(l: Limiter, now: Instant)
    requires forall c :: c in l.requests ==>
               forall i :: 0 <= i < |l.requests[c]| ==> !InWindow(now, Window(l), l.requests[c][i])
    ensures |Cleanup(l, now).requests| == 0
  {
    var r := Cleanup(l, now);
    forall c | c in l.requests ensures |Prune(l.requests[c], now, Window(l))| == 0 {
      PruneAllOld(l.requests[c], now, Window(l));
    }
    assert r.requests.Keys == {};
  }
}

=== FILE: sdk_rpc.dfy ===
/**
 * The JSON-RPC 2.0 side of the plugin SDK: request and response shapes,
 * the decoding of each method's parameter struct (serde's rules for a
 * struct read from a JSON object or a JSON array), and the dispatcher that
 * maps a request to a response.
 */
module SdkRpc {
  import opened Wrappers
  import opened Text
  import opened Json
  import opened PluginSdk
  import Encoding

  datatype Request = Request(jsonrpc: string, methodName: string, params: Json, id: Json)

  datatype RpcError = RpcError(code: int, message: string, data: Option<Json>)

  datatype Response = Response(jsonrpc: string, result: Option<Json>, error: Option<RpcError>, id: Json)

  const MethodNotFound: int := -32601
  const InvalidParams: int := -32602
  const ServerError: int := -32000

  /** `JsonRpcResponse::success`. */
  function Success(id: Json, result: Json): (r: Response)
    ensures r.jsonrpc == "2.0" && r.id == id
    ensures r.result == Some(result) && r.error.None?
  {
    Response("2.0", Some(result), None, id)
  }

  /** `JsonRpcResponse::error`: no result, an error without data. */
  function Failure(id: Json, code: int, message: string): (r: Response)
    ensures r.jsonrpc == "2.0" && r.id == id
    ensures r.result.None? && r.error == Some(RpcError(code, message, None))
  {
    Response("2.0", None, Some(RpcError(code, message, None)), id)
  }

  predicate WellFormed(r: Response)
  {
    r.jsonrpc == "2.0" && (r.result.Some? <==> r.error.None?)
  }

  // ------------------------------------------------------ parameter structs

  /** The Rust types the parameter structs' fields have. */
  datatype FieldType =
    | TString      // String
    | TValue       // serde_json::Value
    | TValueList   // Vec<serde_json::Value>
    | TStringMap   // HashMap<String, String>
    | TOptString   // Option<String>
    | TU64         // u64
    | TOptions     // HttpRequestOptions

  /** A struct field: its name, its type and whether it carries `#[serde(default)]`. */
  datatype FieldSpec = FieldSpec(name: string, ty: FieldType, hasDefault: bool)

  const U64Limit: int := 0x1_0000_0000_0000_0000

  /** Whether a JSON value deserialises into a field of a type other than `HttpRequestOptions`. */
  predicate FlatOk(ty: FieldType, v: Json)
  {
    match ty
    case TString => v.Str?
    case TValue => true
    case TValueList => v.Arr?
    case TStringMap => v.Obj? && forall k :: k in v.fields ==> v.fields[k].Str?
    case TOptString => v.Null? || v.Str?
    case TU64 => v.Num? && 0 <= v.n < U64Limit
    case TOptions => false
  }

  /**
   * One field read from an object: present and well-typed, or absent and
   * defaulted (`Some(None)`); absent without a default, or ill-typed, fails.
   */
  function FieldFromObject(f: FieldSpec, m: map<string, Json>, check: (FieldType, Json) -> bool): (r: Option<Option<Json>>)
    ensures r.Some? && r.value.Some? ==> f.name in m && r.value.value == m[f.name]
    ensures r.Some? && r.value.None? ==> f.name !in m && f.hasDefault
    ensures r.Some? && r.value.Some? ==> check(f.ty, r.value.value)
  {
    if f.name in m then (if check(f.ty, m[f.name]) then Some(Some(m[f.name])) else None)
    else if f.hasDefault then Some(None)
    else None
  }

  /** Every decoded field passed its type check, and every absent one has a default. */
  predicate Conforms(specs: seq<FieldSpec>, vals: seq<Option<Json>>, check: (FieldType, Json) -> bool)
  {
    |vals| == |specs|
    && (forall i :: 0 <= i < |vals| && vals[i].Some? ==> check(specs[i].ty, vals[i].value))
    && (forall i :: 0 <= i < |vals| && vals[i].None? ==> specs[i].hasDefault)
  }

  /** Reading by name: every field present and well-typed, or absent with a default. */
  function FromObject(specs: seq<FieldSpec>, m: map<string, Json>, check: (FieldType, Json) -> bool): (r: Option<seq<Option<Json>>>)
    ensures r.Some? <==> forall i :: 0 <= i < |specs| ==>
                           (specs[i].name in m ==> check(specs[i].ty, m[specs[i].name]))
                           && (specs[i].name !in m ==> specs[i].hasDefault)
    ensures r.Some? ==> |r.value| == |specs|
    ensures r.Some? ==> forall i :: 0 <= i < |specs| ==>
                          r.value[i] == if specs[i].name in m then Some(m[specs[i].name]) else None
    ensures r.Some? ==> Conforms(specs, r.value, check)
    decreases |specs|
  {
    if specs == [] then Some([])
    else
      var head :- FieldFromObject(specs[0], m, check);
      var tail :- FromObject(specs[1..], m, check);
      assert forall i :: 1 <= i < |specs| ==> specs[i] == specs[1..][i - 1];
      Some([head] + tail)
  }

  /** Fields read positionally from an array; missing trailing elements fall back to defaults. */
  function FromArray(specs: seq<FieldSpec>, items: seq<Json>, check: (FieldType, Json) -> bool): (r: Option<seq<Option<Json>>>)
    ensures r.Some? <==> forall i :: 0 <= i < |specs| ==>
                           (i < |items| ==> check(specs[i].ty, items[i]))
                           && (i >= |items| ==> specs[i].hasDefault)
    ensures r.Some? ==> |r.value| == |specs|
    ensures r.Some? ==> forall i :: 0 <= i < |specs| ==>
                          r.value[i] == if i < |items| then Some(items[i]) else None
    ensures r.Some? ==> Conforms(specs, r.value, check)
    decreases |specs|
  {
    if specs == [] then Some([])
    else
      var head :- FieldAt(specs[0], items, check);
      var rest := if items != [] then items[1..] else [];
      var tail :- FromArray(specs[1..], rest, check);
      assert forall i :: 1 <= i < |specs| ==> specs[i] == specs[1..][i - 1];
      assert forall i :: 1 <= i < |items| ==> items[i] == rest[i - 1];
      Some([head] + tail)
  }

  /** The first field read from an array: its first element when there is one, else the field's default. */
  function FieldAt(f: FieldSpec, items: seq<Json>, check: (FieldType, Json) -> bool): (r: Option<Option<Json>>)
    ensures r.Some? <==> (items != [] ==> check(f.ty, items[0])) && (items == [] ==> f.hasDefault)
    ensures r.Some? ==> r.value == if items != [] then Some(items[0]) else None
  {
    if items != [] then (if check(f.ty, items[0]) then Some(Some(items[0])) else None)
    else if f.hasDefault then Some(None)
    else None
  }

  /**
   * `serde_json::from_value` into a derived struct: an object is read by
   * field name (unknown members ignored), an array positionally (more
   * elements than fields is an error), anything else is an error.
   */
  function DecodeFields(specs: seq<FieldSpec>, j: Json, check: (FieldType, Json) -> bool): (r: Option<seq<Option<Json>>>)
    ensures r.Some? ==> Conforms(specs, r.value, check)
  {
    match j
    case Obj(m) => FromObject(specs, m, check)
    case Arr(items) => if |items| > |specs| then None else FromArray(specs, items, check)
    case _ => None
  }

  const OptionFields: seq<FieldSpec> := [
    FieldSpec("method", TString, true),
    FieldSpec("headers", TStringMap, true),
    FieldSpec("body", TOptString, true),
    FieldSpec("timeout_ms", TU64, true)]

  function StringMapOf(v: Json): map<string, string>
  {
    if v.Obj? then map k | k in v.fields :: if v.fields[k].Str? then v.fields[k].s else "" else map[]
  }

  /** `HttpRequestOptions` from JSON; an absent member takes its field default (`GET`, no headers, no body, 30000 ms). */
  function DecodeOptions(v: Json): Option<HttpRequestOptions>
  {
    var vals :- DecodeFields(OptionFields, v, FlatOk);
    Some(HttpRequestOptions(
      if vals[0].Some? then vals[0].value.s else DefaultMethod,
      if vals[1].Some? then StringMapOf(vals[1].value) else map[],
      if vals[2].Some? && vals[2].value.Str? then Some(vals[2].value.s) else None,
      if vals[3].Some? && vals[3].value.Num? && vals[3].value.n >= 0 then vals[3].value.n else DefaultTimeoutMs))
  }

  predicate ParamOk(ty: FieldType, v: Json)
  {
    if ty.TOptions? then DecodeOptions(v).Some? else FlatOk(ty, v)
  }

  // ------------------------------------------------------------- methods

  /** A decoded SDK call: one per JSON-RPC method. */
  datatype SdkCall =
    | Query(sql: string, args: seq<Json>)
    | Execute(sql: string, args: seq<Json>)
    | Http(url: string, options: HttpRequestOptions)
    | Encrypt(data: string)
    | Decrypt(data: string)
    | Notify(level: string, message: string)
    | Emit(event: string, payload: Json)
    | StorageGet(key: string)
    | StorageSet(key: string, value: string)
    | StorageDelete(key: string)

  const KnownMethods: seq<string> := [
    "database.query", "database.execute", "http.request",
    "crypto.encrypt", "crypto.decrypt",
    "notification.success", "notification.error", "notification.info",
    "event.emit", "storage.get", "storage.set", "storage.delete"]

  /** The method names the examples use are among the known ones. */
  lemma KnownNames()
    ensures "http.request" in KnownMethods
    ensures "crypto.encrypt" in KnownMethods && "crypto.decrypt" in KnownMethods
  {
    assert KnownMethods[2] == "http.request";
    assert KnownMethods[3] == "crypto.encrypt" && KnownMethods[4] == "crypto.decrypt";
  }

  /** The parameter struct of each method. */
  function ParamSpecs(name: string): seq<FieldSpec>
  {
    match name
    case "database.query" => [FieldSpec("sql", TString, false), FieldSpec("params", TValueList, true)]
    case "database.execute" => [FieldSpec("sql", TString, false), FieldSpec("params", TValueList, true)]
    case "http.request" => [FieldSpec("url", TString, false), FieldSpec("options", TOptions, true)]
    case "crypto.encrypt" => [FieldSpec("data", TString, false)]
    case "crypto.decrypt" => [FieldSpec("data", TString, false)]
    case "event.emit" => [FieldSpec("event", TString, false), FieldSpec("data", TValue, false)]
    case "storage.set" => [FieldSpec("key", TString, false), FieldSpec("value", TString, false)]
    case "storage.get" => [FieldSpec("key", TString, false)]
    case "storage.delete" => [FieldSpec("key", TString, false)]
    case _ => [FieldSpec("message", TString, false)]
  }

  /**
   * The parameters of a known method as an `SdkCall`. `absentOptions` is what
   * `http.request` uses when its `options` member is missing.
   */
  function DecodeCall(name: string, params: Json, absentOptions: HttpRequestOptions): (r: Option<SdkCall>)
    requires name in KnownMethods
  {
    var v :- DecodeFields(ParamSpecs(name), params, ParamOk);
    match name
    case "database.query" => Some(Query(v[0].value.s, if v[1].Some? then v[1].value.items else []))
    case "database.execute" => Some(Execute(v[0].value.s, if v[1].Some? then v[1].value.items else []))
    case "http.request" =>
      Some(Http(v[0].value.s, if v[1].Some? && DecodeOptions(v[1].value).Some? then DecodeOptions(v[1].value).value else absentOptions))
    case "crypto.encrypt" => Some(Encrypt(v[0].value.s))
    case "crypto.decrypt" => Some(Decrypt(v[0].value.s))
    case "notification.success" => Some(Notify("success", v[0].value.s))
    case "notification.error" => Some(Notify("error", v[0].value.s))
    case "notification.info" => Some(Notify("info", v[0].value.s))
    case "event.emit" => Some(Emit(v[0].value.s, v[1].value))
    case "storage.get" => Some(StorageGet(v[0].value.s))
    case "storage.set" => Some(StorageSet(v[0].value.s, v[1].value.s))
    case _ => Some(StorageDelete(v[0].value.s))
  }

  /** The permission each call needs. */
  function RequiredPermission(call: SdkCall): Permission
  {
    match call
    case Query(_, _) => DatabaseRead
    case Execute(_, _) => DatabaseWrite
    case Http(_, _) => HttpRequest
    case Encrypt(_) => CryptoEncrypt
    case Decrypt(_) => CryptoDecrypt
    case Notify(_, _) => Notification
    case Emit(_, _) => EventEmit
    case StorageGet(_) => DatabaseRead
    case StorageSet(_, _) => DatabaseWrite
    case StorageDelete(_) => DatabaseWrite
  }

  function StringsJson(xs: seq<string>): Json
  {
    Arr(seq(|xs|, i requires 0 <= i < |xs| => Str(xs[i])))
  }

  function QueryJson(q: QueryResult): Json
  {
    Obj(map["columns" := StringsJson(q.columns),
            "rows" := Arr(seq(|q.rows|, i requires 0 <= i < |q.rows| => Arr(q.rows[i])))])
  }

  function HeadersJson(h: map<string, string>): Json
  {
    Obj(map k | k in h :: Str(h[k]))
  }

  function HttpResponseJson(resp: HttpResponse): Json
  {
    Obj(map["status" := Num(resp.status), "headers" := HeadersJson(resp.headers), "body" := Str(resp.body)])
  }

  /** `r` answers an operation's outcome: its error unchanged, or its value rendered by `f`. */
  predicate Answers<T>(r: Result<Json, SdkError>, outcome: Result<T, SdkError>, f: T -> Json)
  {
    match outcome
    case Ok(v) => r == Ok(f(v))
    case Err(e) => r == Err(e)
  }

  /** Runs a decoded call against the context and builds the success payload. */
  function Perform(c: Context, call: SdkCall, send: Transport): (r: Result<Json, SdkError>)
    ensures RequiredPermission(call) !in c.permissions ==> r.Err? && r.error.PermissionDenied?
    ensures call.Query? ==> Answers(r, DatabaseQuery(c, call.sql, call.args), QueryJson)
    ensures call.Execute? ==> Answers(r, DatabaseExecute(c, call.sql, call.args), n => Single("affected", Num(n)))
    ensures call.Http? ==> Answers(r, HttpRequestOp(c, call.url, call.options, send), HttpResponseJson)
    ensures call.Encrypt? ==> Answers(r, CryptoEncryptOp(c, call.data), e => Single("encrypted", Str(e)))
    ensures call.Decrypt? ==> Answers(r, CryptoDecryptOp(c, call.data), d => Single("decrypted", Str(d)))
    ensures call.Notify? || call.Emit? || call.StorageSet? || call.StorageDelete?
            ==> (r.Ok? <==> RequiredPermission(call) in c.permissions) && (r.Ok? ==> r.value == EmptyObject)
    ensures call.StorageGet? ==> (r.Ok? <==> RequiredPermission(call) in c.permissions)
                                 && (r.Ok? ==> r.value == Single("value", Null))
  {
    if IsDataCall(call) then PerformData(c, call, send) else PerformHost(c, call)
  }

  /** The calls that reach the database, the network or the cipher. */
  predicate IsDataCall(call: SdkCall)
  {
    call.Query? || call.Execute? || call.Http? || call.Encrypt? || call.Decrypt?
  }

  /** The database, HTTP and crypto handlers. */
  function PerformData(c: Context, call: SdkCall, send: Transport): (r: Result<Json, SdkError>)
    requires IsDataCall(call)
    ensures RequiredPermission(call) !in c.permissions ==> r.Err? && r.error.PermissionDenied?
    ensures call.Query? ==> Answers(r, DatabaseQuery(c, call.sql, call.args), QueryJson)
    ensures call.Execute? ==> Answers(r, DatabaseExecute(c, call.sql, call.args), n => Single("affected", Num(n)))
    ensures call.Http? ==> Answers(r, HttpRequestOp(c, call.url, call.options, send), HttpResponseJson)
    ensures call.Encrypt? ==> Answers(r, CryptoEncryptOp(c, call.data), e => Single("encrypted", Str(e)))
    ensures call.Decrypt? ==> Answers(r, CryptoDecryptOp(c, call.data), d => Single("decrypted", Str(d)))
  {
    match call
    case Query(sql, args) =>
      var q :- DatabaseQuery(c, sql, args);
      Ok(QueryJson(q))
    case Execute(sql, args) =>
      var n :- DatabaseExecute(c, sql, args);
      Ok(Single("affected", Num(n)))
    case Http(url, options) =>
      var resp :- HttpRequestOp(c, url, options, send);
      Ok(HttpResponseJson(resp))
    case Encrypt(data) =>
      var e :- CryptoEncryptOp(c, data);
      Ok(Single("encrypted", Str(e)))
    case Decrypt(data) =>
      var d :- CryptoDecryptOp(c, data);
      Ok(Single("decrypted", Str(d)))
  }

  /** The notification, event and storage handlers. */
  function PerformHost(c: Context, call: SdkCall): (r: Result<Json, SdkError>)
    requires !IsDataCall(call)
    ensures RequiredPermission(call) !in c.permissions ==> r.Err? && r.error.PermissionDenied?
    ensures call.Notify? || call.Emit? || call.StorageSet? || call.StorageDelete?
            ==> (r.Ok? <==> RequiredPermission(call) in c.permissions) && (r.Ok? ==> r.value == EmptyObject)
    ensures call.StorageGet? ==> (r.Ok? <==> RequiredPermission(call) in c.permissions)
                                 && (r.Ok? ==> r.value == Single("value", Null))
  {
    match call
    case Notify(_, message) =>
      var _ :- NotificationOp(c, message);
      Ok(EmptyObject)
    case Emit(event, payload) =>
      var _ :- EventEmitOp(c, event, payload);
      Ok(EmptyObject)
    case StorageGet(key) =>
      // the stored value is always absent, which serialises as null
      var _ :- StorageGetOp(c, key);
      Ok(Single("value", Null))
    case StorageSet(key, value) =>
      var _ :- StorageSetOp(c, key, value);
      Ok(EmptyObject)
    case StorageDelete(key) =>
      var _ :- StorageDeleteOp(c, key);
      Ok(EmptyObject)
  }

  /** The query payload lists every column name and every row, in order. */
  lemma QueryJsonContents(q: QueryResult)
    ensures var j := QueryJson(q);
            j.Obj? && "columns" in j.fields && "rows" in j.fields
            && j.fields["columns"].Arr? && |j.fields["columns"].items| == |q.columns|
            && (forall i :: 0 <= i < |q.columns| ==> j.fields["columns"].items[i] == Str(q.columns[i]))
            && j.fields["rows"].Arr? && |j.fields["rows"].items| == |q.rows|
            && (forall i :: 0 <= i < |q.rows| ==> j.fields["rows"].items[i] == Arr(q.rows[i]))
  {
  }

  /** A permitted SELECT on an allowed table answers with the payload of exactly the rows the database returned. */
  lemma PermittedQueryAnswersRows(c: Context, db: DatabaseCallback, sql: string, args: seq<Json>, send: Transport, q: QueryResult)
    requires c.database == Some(db) && db(sql, args) == Ok(q)
    requires DatabaseRead in c.permissions && IsSelect(sql) && IsAllowedTable(c, sql)
    ensures Perform(c, Query(sql, args), send) == Ok(QueryJson(q))
  {
    PermittedQueryReturns(c, db, sql, args, q);
  }

  /** The operation under a permitted query hands back the database's rows unchanged. */
  lemma PermittedQueryReturns(c: Context, db: DatabaseCallback, sql: string, args: seq<Json>, q: QueryResult)
    requires c.database == Some(db) && db(sql, args) == Ok(q)
    requires DatabaseRead in c.permissions && IsSelect(sql) && IsAllowedTable(c, sql)
    ensures DatabaseQuery(c, sql, args) == Ok(q)
  {
  }

  /** A refused query never reaches the database: the answer is the refusal. */
  lemma RefusedQueryAnswersRefusal(c: Context, sql: string, args: seq<Json>, send: Transport)
    requires DatabaseRead in c.permissions && c.database.Some?
    requires !IsSelect(sql) || !IsAllowedTable(c, sql)
    ensures Perform(c, Query(sql, args), send).Err?
    ensures Perform(c, Query(sql, args), send).error.PermissionDenied?
  {
  }

  const ParamsErrorDetail: string := "parameters do not match the method's parameter struct"

  /**
   * `SdkMethodHandler::handle`, for a given treatment of a missing
   * `options` member: unknown method, undecodable parameters and a failing
   * operation map to the three JSON-RPC error codes; the id is echoed.
   */
  function Dispatch(c: Context, req: Request, send: Transport, absentOptions: HttpRequestOptions): (r: Response)
    ensures WellFormed(r) && r.id == req.id
    ensures r.error.Some? ==> r.error.value.data.None?
    ensures r.error.Some? && r.error.value.code == MethodNotFound
            <==> req.methodName !in KnownMethods
    ensures req.methodName !in KnownMethods ==> r.error.value.message == "Method not found: " + req.methodName
    ensures r.error.Some? && r.error.value.code == InvalidParams
            <==> req.methodName in KnownMethods && DecodeCall(req.methodName, req.params, absentOptions).None?
    ensures r.error.Some? && r.error.value.code == InvalidParams ==> StartsWith(r.error.value.message, "Invalid params: ")
    ensures r.result.Some?
            <==> req.methodName in KnownMethods && DecodeCall(req.methodName, req.params, absentOptions).Some?
                 && Perform(c, DecodeCall(req.methodName, req.params, absentOptions).value, send).Ok?
    ensures r.error.Some? ==> r.error.value.code in {MethodNotFound, InvalidParams, ServerError}
  {
    if req.methodName !in KnownMethods then Failure(req.id, MethodNotFound, "Method not found: " + req.methodName)
    else
      match DecodeCall(req.methodName, req.params, absentOptions)
      case None => Failure(req.id, InvalidParams, "Invalid params: " + ParamsErrorDetail)
      case Some(call) =>
        match Perform(c, call, send)
        case Ok(v) => Success(req.id, v)
        case Err(e) => Failure(req.id, ServerError, ErrorText(e))
  }

  /**
   * The handler as written: a missing `options` member becomes
   * `HttpRequestOptions::default()`, whose method is the empty string.
   */
  function HandleAsWritten(c: Context, req: Request, send: Transport): (r: Response)
    ensures WellFormed(r) && r.id == req.id
  {
    Dispatch(c, req, send, DerivedDefaultOptions)
  }

  /** The handler with a missing `options` member read as an empty options object (`GET`, 30000 ms). */
  function Handle(c: Context, req: Request, send: Transport): (r: Response)
    ensures WellFormed(r) && r.id == req.id
  {
    Dispatch(c, req, send, FieldDefaultOptions)
  }

  /** The two handlers differ only for `http.request` calls that leave `options` out. */
  lemma HandlersAgreeWithOptions(c: Context, req: Request, send: Transport)
    requires req.methodName != "http.request" || (req.params.Obj? && "options" in req.params.fields)
    ensures Handle(c, req, send) == HandleAsWritten(c, req, send)
  {
    if req.methodName in KnownMethods {
      DecodeAgreesWithOptions(req.methodName, req.params);
    }
  }

  /** Only the decoding of `http.request` without `options` reads the absent-options value. */
  lemma DecodeAgreesWithOptions(name: string, params: Json)
    requires name in KnownMethods
    requires name != "http.request" || (params.Obj? && "options" in params.fields)
    ensures DecodeCall(name, params, FieldDefaultOptions) == DecodeCall(name, params, DerivedDefaultOptions)
  {
  }

  function BareUrlRequest(url: string, id: Json): Request
  {
    Request("2.0", "http.request", Single("url", Str(url)), id)
  }

  lemma BareUrlDecodes(url: string)
    ensures DecodeFields(ParamSpecs("http.request"), Single("url", Str(url)), ParamOk) == Some([Some(Str(url)), None])
  {
    var specs := ParamSpecs("http.request");
    var m := map["url" := Str(url)];
    assert specs[0].name in m && ParamOk(specs[0].ty, m["url"]);
    assert specs[1].name !in m && specs[1].hasDefault;
    var r := FromObject(specs, m, ParamOk);
    assert r.Some?;
    assert r.value == [Some(Str(url)), None];
  }

  /** A request with only a URL decodes to an HTTP call with the absent-options value. */
  lemma BareUrlCall(url: string, absentOptions: HttpRequestOptions)
    ensures DecodeCall("http.request", Single("url", Str(url)), absentOptions) == Some(Http(url, absentOptions))
  {
    BareUrlDecodes(url);
  }

  lemma DataDecodes(name: string, data: string)
    requires name == "crypto.encrypt" || name == "crypto.decrypt"
    ensures DecodeFields(ParamSpecs(name), Single("data", Str(data)), ParamOk) == Some([Some(Str(data))])
  {
    var specs := ParamSpecs(name);
    var m := map["data" := Str(data)];
    assert specs[0].name in m && ParamOk(specs[0].ty, m["data"]);
    var r := FromObject(specs, m, ParamOk);
    assert r.Some?;
    assert r.value == [Some(Str(data))];
  }

  lemma DispatchOutcome(c: Context, req: Request, send: Transport, absentOptions: HttpRequestOptions, call: SdkCall)
    requires req.methodName in KnownMethods
    requires DecodeCall(req.methodName, req.params, absentOptions) == Some(call)
    ensures Perform(c, call, send).Ok? ==> Dispatch(c, req, send, absentOptions) == Success(req.id, Perform(c, call, send).value)
    ensures Perform(c, call, send).Err? ==> Dispatch(c, req, send, absentOptions) == Failure(req.id, ServerError, ErrorText(Perform(c, call, send).error))
  {
  }

  lemma EmptyMethodRejected(c: Context, url: string, send: Transport)
    requires HttpRequest in c.permissions
    ensures Perform(c, Http(url, DerivedDefaultOptions), send) == Err(InvalidArgument("Unsupported HTTP method: "))
  {
    assert Upper(DerivedDefaultOptions.httpMethod) == "";
    assert "" !in SupportedMethods;
    assert "Unsupported HTTP method: " + "" == "Unsupported HTTP method: ";
  }

  /** As written, `http.request` with only a URL is refused as an unsupported (empty) method. */
  lemma BareUrlRejectedAsWritten(c: Context, url: string, id: Json, send: Transport)
    requires HttpRequest in c.permissions
    ensures HandleAsWritten(c, BareUrlRequest(url, id), send).error
            == Some(RpcError(ServerError, "Invalid argument: " + "Unsupported HTTP method: ", None))
  {
    BareUrlFailsAsWritten(c, url, id, send);
    InvalidArgumentText("Unsupported HTTP method: ");
  }

  /** As written, a bare URL reaches the HTTP handler, whose refusal becomes the server error. */
  lemma BareUrlFailsAsWritten(c: Context, url: string, id: Json, send: Transport)
    requires HttpRequest in c.permissions
    ensures HandleAsWritten(c, BareUrlRequest(url, id), send).error
            == Some(RpcError(ServerError, ErrorText(InvalidArgument("Unsupported HTTP method: ")), None))
  {
    var req := BareUrlRequest(url, id);
    var call := Http(url, DerivedDefaultOptions);
    assert req.methodName == "http.request" && req.params == Single("url", Str(url));
    BareUrlCall(url, DerivedDefaultOptions);
    EmptyMethodRejected(c, url, send);
    KnownNames();
    AsWrittenFailure(c, req, send, call, InvalidArgument("Unsupported HTTP method: "));
  }

  /** A decoded call whose operation fails answers, as written, a server error with the error's text. */
  lemma AsWrittenFailure(c: Context, req: Request, send: Transport, call: SdkCall, e: SdkError)
    requires req.methodName in KnownMethods
    requires DecodeCall(req.methodName, req.params, DerivedDefaultOptions) == Some(call)
    requires Perform(c, call, send) == Err(e)
    ensures HandleAsWritten(c, req, send).error == Some(RpcError(ServerError, ErrorText(e), None))
  {
    DispatchOutcome(c, req, send, DerivedDefaultOptions, call);
  }

  /** Corrected, `http.request` with only a URL sends a GET with the 30-second timeout. */
  lemma BareUrlSendsGet(c: Context, url: string, id: Json, send: Transport)
    requires HttpRequest in c.permissions
    ensures var call := HttpCall("GET", url, map[], None, 30000);
            var r := Handle(c, BareUrlRequest(url, id), send);
            (send(call).Ok? ==> r.result == Some(HttpResponseJson(send(call).value)))
            && (send(call).Err? ==> r.error == Some(RpcError(ServerError, "HTTP error: " + send(call).error, None)))
  {
    var call := Http(url, FieldDefaultOptions);
    BareUrlCall(url, FieldDefaultOptions);
    DefaultOptionsSendGet(c, url, send);
    KnownNames();
    DispatchOutcome(c, BareUrlRequest(url, id), send, FieldDefaultOptions, call);
  }

  /** With the field defaults, an HTTP call is sent as a GET with the 30-second timeout. */
  lemma DefaultOptionsSendGet(c: Context, url: string, send: Transport)
    requires HttpRequest in c.permissions
    ensures var call := HttpCall("GET", url, map[], None, 30000);
            var r := Perform(c, Http(url, FieldDefaultOptions), send);
            (send(call).Ok? ==> r == Ok(HttpResponseJson(send(call).value)))
            && (send(call).Err? ==> r == Err(HttpError(send(call).error)))
  {
    assert Upper("GET") == "GET";
  }

  /** A known method whose permission is missing always answers a server error saying permission was denied. */
  lemma MissingPermissionDenied(c: Context, req: Request, send: Transport, absentOptions: HttpRequestOptions)
    requires req.methodName in KnownMethods
    requires DecodeCall(req.methodName, req.params, absentOptions).Some?
    requires RequiredPermission(DecodeCall(req.methodName, req.params, absentOptions).value) !in c.permissions
    ensures var r := Dispatch(c, req, send, absentOptions);
            r.error.Some? && r.error.value.code == ServerError
            && StartsWith(r.error.value.message, "Permission denied: ")
  {
    var call := DecodeCall(req.methodName, req.params, absentOptions).value;
    var e := Perform(c, call, send).error;
    assert ErrorText(e) == "Permission denied: " + e.msg;
  }

  lemma EncryptAnswer(c: Context, data: string, id: Json, send: Transport)
    requires CryptoEncrypt in c.permissions
    ensures Handle(c, Request("2.0", "crypto.encrypt", Single("data", Str(data)), id), send)
            == Success(id, Single("encrypted", Str(CryptoEncryptOp(c, data).value)))
  {
    DataDecodes("crypto.encrypt", data);
    assert DecodeCall("crypto.encrypt", Single("data", Str(data)), FieldDefaultOptions) == Some(Encrypt(data));
    KnownNames();
    DispatchOutcome(c, Request("2.0", "crypto.encrypt", Single("data", Str(data)), id), send, FieldDefaultOptions, Encrypt(data));
  }

  lemma DecryptAnswer(c: Context, data: string, id: Json, send: Transport)
    requires CryptoDecryptOp(c, data).Ok?
    ensures Handle(c, Request("2.0", "crypto.decrypt", Single("data", Str(data)), id), send)
            == Success(id, Single("decrypted", Str(CryptoDecryptOp(c, data).value)))
  {
    DataDecodes("crypto.decrypt", data);
    assert DecodeCall("crypto.decrypt", Single("data", Str(data)), FieldDefaultOptions) == Some(Decrypt(data));
    KnownNames();
    DispatchOutcome(c, Request("2.0", "crypto.decrypt", Single("data", Str(data)), id), send, FieldDefaultOptions, Decrypt(data));
  }

  /** What the handler answers to `crypto.encrypt`, sent back through `crypto.decrypt`, is the original text. */
  lemma HandlerCryptoRoundTrip(c: Context, data: string, id1: Json, id2: Json, send: Transport)
    requires CryptoEncrypt in c.permissions && CryptoDecrypt in c.permissions
    ensures var e := Handle(c, Request("2.0", "crypto.encrypt", Single("data", Str(data)), id1), send);
            e.result.Some? && GetStr(e.result.value, "encrypted").Some?
            && Handle(c, Request("2.0", "crypto.decrypt", Single("data", Str(GetStr(e.result.value, "encrypted").value)), id2), send).result
               == Some(Single("decrypted", Str(data)))
  {
    EncryptAnswer(c, data, id1, send);
    var enc := CryptoEncryptOp(c, data).value;
    CryptoRoundTrip(c, data);
    DecryptAnswer(c, enc, id2, send);
  }
}

=== FILE: skill_loader.dfy ===
/**
 * Reading a skill definition (`SKILL.md`): the optional `---` frontmatter
 * block, its "key: value" lines, and the defaults a loaded skill falls back
 * to.
 */
module SkillLoader {
  import opened Wrappers
  import opened Text

  /** The frontmatter fields; every one is optional. */
  datatype Frontmatter = Frontmatter(
    name: Option<string>,
    description: Option<string>,
    allowedTools: Option<string>,
    argumentHint: Option<string>,
    whenToUse: Option<string>,
    version: Option<string>,
    model: Option<string>,
    provider: Option<string>,
    disableModelInvocation: Option<string>,
    executionMode: Option<string>)

  const EmptyFrontmatter: Frontmatter :=
    Frontmatter(None, None, None, None, None, None, None, None, None, None)

  datatype Field =
    | Name | Description | AllowedTools | ArgumentHint | WhenToUse
    | Version | Model | Provider | DisableModelInvocation | ExecutionMode

  function GetField(fm: Frontmatter, f: Field): Option<string>
  {
    match f
    case Name => fm.name
    case Description => fm.description
    case AllowedTools => fm.allowedTools
    case ArgumentHint => fm.argumentHint
    case WhenToUse => fm.whenToUse
    case Version => fm.version
    case Model => fm.model
    case Provider => fm.provider
    case DisableModelInvocation => fm.disableModelInvocation
    case ExecutionMode => fm.executionMode
  }

  /** Sets one field and leaves the others alone. */
  function SetField(fm: Frontmatter, f: Field, v: string): (r: Frontmatter)
    ensures GetField(r, f) == Some(v)
    ensures forall g :: g != f ==> GetField(r, g) == GetField(fm, g)
  {
    match f
    case Name => fm.(name := Some(v))
    case Description => fm.(description := Some(v))
    case AllowedTools => fm.(allowedTools := Some(v))
    case ArgumentHint => fm.(argumentHint := Some(v))
    case WhenToUse => fm.(whenToUse := Some(v))
    case Version => fm.(version := Some(v))
    case Model => fm.(model := Some(v))
    case Provider => fm.(provider := Some(v))
    case DisableModelInvocation => fm.(disableModelInvocation := Some(v))
    case ExecutionMode => fm.(executionMode := Some(v))
  }

  /** The field a key names; the when-to-use field has two spellings. */
  function FieldOfKey(key: string): Option<Field>
  {
    if key == "name" then Some(Name)
    else if key == "description" then Some(Description)
    else if key == "allowed-tools" then Some(AllowedTools)
    else if key == "argument-hint" then Some(ArgumentHint)
    else if key == "when-to-use" || key == "when_to_use" then Some(WhenToUse)
    else if key == "version" then Some(Version)
    else if key == "model" then Some(Model)
    else if key == "provider" then Some(Provider)
    else if key == "disable-model-invocation" then Some(DisableModelInvocation)
    else if key == "execution-mode" then Some(ExecutionMode)
    else None
  }

  /** A value with surrounding whitespace, then double quotes, then single quotes removed. */
  function CleanValue(raw: string): (r: string)
    ensures |r| <= |raw|
    ensures r == [] || r[|r| - 1] != '\''
  {
    var unquoted := StripQuote(Trimmed(raw), '"');
    StripQuote(unquoted, '\'')
  }

  /** `trim`, seen only as a shortening. */
  function Trimmed(s: string): (r: string)
    ensures |r| <= |s|
  {
    Trim(s)
  }

  /** `trim_start_matches(c).trim_end_matches(c)`. */
  function StripQuote(s: string, c: char): (r: string)
    ensures |r| <= |s|
    ensures r == [] || r[|r| - 1] != c
  {
    TrimEndMatches(TrimStartMatches(s, c), c)
  }

  /**
   * What one frontmatter line sets: the text before its first colon, trimmed,
   * names the field, and the cleaned text after it is the value. Lines
   * without a colon or with an unknown key set nothing.
   */
  function LineSetting(line: string): (r: Option<(Field, string)>)
    ensures ':' !in line ==> r.None?
    ensures r.Some? ==> var i := IndexOf(line, ':').value;
                        FieldOfKey(Trim(line[..i])) == Some(r.value.0)
                        && r.value.1 == CleanValue(line[i + 1..])
  {
    match IndexOf(line, ':')
    case None => None
    case Some(i) => SettingAfter(line, i)
  }

  function SettingAfter(line: string, i: nat): (r: Option<(Field, string)>)
    requires i < |line|
    ensures r.Some? ==> FieldOfKey(Trim(line[..i])) == Some(r.value.0) && r.value.1 == CleanValue(line[i + 1..])
  {
    var key := Trim(line[..i]);
    var f := FieldOfKey(key);
    if f.None? then None else Some((f.value, CleanValue(line[i + 1..])))
  }

  function ApplyLine(fm: Frontmatter, line: string): Frontmatter
  {
    match LineSetting(line)
    case None => fm
    case Some((f, v)) => SetField(fm, f, v)
  }

  /** The lines applied in order, as the parsing loop does. */
  function ApplyLines(fm: Frontmatter, lines: seq<string>): Frontmatter
    decreases |lines|
  {
    if |lines| == 0 then fm else ApplyLines(ApplyLine(fm, lines[0]), lines[1..])
  }

  /** The value the last line setting `f` gives it, if any line does. */
  function LastSetting(lines: seq<string>, f: Field): Option<string>
    decreases |lines|
  {
    if |lines| == 0 then None
    else
      var l := lines[|lines| - 1];
      if LineSetting(l).Some? && LineSetting(l).value.0 == f then Some(LineSetting(l).value.1)
      else LastSetting(lines[..|lines| - 1], f)
  }

  lemma {:induction false} ApplyLinesSnoc(fm: Frontmatter, lines: seq<string>, l: string)
    ensures ApplyLines(fm, lines + [l]) == ApplyLine(ApplyLines(fm, lines), l)
    decreases |lines|
  {
    if |lines| > 0 {
      assert (lines + [l])[1..] == lines[1..] + [l];
      ApplyLinesSnoc(ApplyLine(fm, lines[0]), lines[1..], l);
    }
  }

  /** One line sets the field it names and leaves every other field as it was. */
  lemma ApplyLineField(fm: Frontmatter, l: string, f: Field)
    ensures GetField(ApplyLine(fm, l), f)
            == (if LineSetting(l).Some? && LineSetting(l).value.0 == f then Some(LineSetting(l).value.1) else GetField(fm, f))
  {
  }

  /** Later lines win: each field holds the value of the last line that sets it. */
  lemma {:induction false} LastLineWins(fm: Frontmatter, lines: seq<string>, f: Field)
    ensures GetField(ApplyLines(fm, lines), f)
            == (match LastSetting(lines, f) case Some(v) => Some(v) case None => GetField(fm, f))
    decreases |lines|
  {
    if |lines| > 0 {
      var init := lines[..|lines| - 1];
      var l := lines[|lines| - 1];
      assert lines == init + [l];
      ApplyLinesSnoc(fm, init, l);
      ApplyLineField(ApplyLines(fm, init), l, f);
      LastLineWins(fm, init, f);
    }
  }

  /** In "key:value" with a colon-free key, the first colon is the one after the key. */
  lemma FirstColonAfterKey(key: string, v: string)
    requires ':' !in key
    ensures IndexOf(key + ":" + v, ':') == Some(|key|)
  {
    var line := key + ":" + v;
    assert line[|key|] == ':';
    assert line[..|key|] == key;
  }

  /** A line "key:value" whose key has no colon and no surrounding space sets the key's field. */
  lemma KeyLine(key: string, v: string)
    requires ':' !in key
    requires key == [] || (!IsWhitespace(key[0]) && !IsWhitespace(key[|key| - 1]))
    ensures LineSetting(key + ":" + v)
            == (match FieldOfKey(key) case Some(f) => Some((f, CleanValue(v))) case None => None)
  {
    var line := key + ":" + v;
    FirstColonAfterKey(key, v);
    assert line[..|key|] == key;
    assert line[|key| + 1..] == v;
    TrimUntouched(key);
  }

  /** Both spellings of the when-to-use key set the same field. */
  lemma WhenToUseSpellings(v: string)
    ensures LineSetting("when-to-use" + ":" + v) == Some((WhenToUse, CleanValue(v)))
    ensures LineSetting("when_to_use" + ":" + v) == Some((WhenToUse, CleanValue(v)))
  {
    WhenToUseLine("when-to-use", v);
    WhenToUseLine("when_to_use", v);
  }

  lemma WhenToUseLine(key: string, v: string)
    requires key == "when-to-use" || key == "when_to_use"
    ensures LineSetting(key + ":" + v) == Some((WhenToUse, CleanValue(v)))
  {
    assert FieldOfKey(key) == Some(WhenToUse);
    KeyLine(key, v);
  }

  // ------------------------------------------------------------ the block

  /** Where the frontmatter pattern matches: the captured text and the end of the match. */
  datatype Block = Block(textStart: nat, textEnd: nat, matchEnd: nat)

  /**
   * The match of the pattern `^---\s*\n([\s\S]*?)---\s*\n?` at the start of
   * `content`. After the opening dashes, the greedy `\s*\n` ends at the last
   * newline of the whitespace run; the lazy capture stops at the first
   * following `---`; the closing `\s*` takes the whole whitespace run after
   * it, so the optional newline matches nothing.
   */
  function FindBlock(content: string): (r: Option<Block>)
    ensures r.Some? ==> StartsWith(content, "---")
    ensures r.Some? ==>
              var b := r.value;
              3 < b.textStart <= b.textEnd && b.textEnd + 3 <= b.matchEnd <= |content|
              && content[b.textStart - 1] == '\n'
              && (forall j :: 3 <= j < b.textStart ==> IsWhitespace(content[j]))
              && OccursAt(content, "---", b.textEnd)
              && (forall j :: b.textStart <= j < b.textEnd ==> !OccursAt(content, "---", j))
              && (forall j :: b.textEnd + 3 <= j < b.matchEnd ==> IsWhitespace(content[j]))
              && (b.matchEnd == |content| || !IsWhitespace(content[b.matchEnd]))
    ensures !StartsWith(content, "---") ==> r.None?
  {
    if !StartsWith(content, "---") then None
    else
      var w := WhitespaceEnd(content, 3);
      match LastIndexIn(content, '\n', 3, w)
      case None => None
      case Some(nl) =>
        match FindFrom(content, "---", nl + 1)
        case None => None
        case Some(k) =>
          Some(Block(nl + 1, k, WhitespaceEnd(content, k + 3)))
  }

  /** A leading opening line with no closing dashes after it is not a block. */
  lemma UnclosedIsNoBlock(content: string)
    requires StartsWith(content, "---")
    requires forall j :: 3 <= j ==> !OccursAt(content, "---", j)
    ensures FindBlock(content).None?
  {
  }

  /**
   * `parse_skill_frontmatter`: without a block, the empty frontmatter and the
   * whole content; with one, the fields its lines set and the text after the
   * match as the body.
   */
  function ParseFrontmatter(content: string): (r: (Frontmatter, string))
    ensures FindBlock(content).None? ==> r == (EmptyFrontmatter, content)
    ensures FindBlock(content).Some? ==>
              var b := FindBlock(content).value;
              r.1 == content[b.matchEnd..]
              && forall f :: GetField(r.0, f) == LastSetting(Lines(content[b.textStart..b.textEnd]), f)
  {
    match FindBlock(content)
    case None => (EmptyFrontmatter, content)
    case Some(b) =>
      var lines := Lines(content[b.textStart..b.textEnd]);
      var fm := ApplyLines(EmptyFrontmatter, lines);
      forall f ensures GetField(fm, f) == LastSetting(lines, f) {
        LastLineWins(EmptyFrontmatter, lines, f);
      }
      (fm, content[b.matchEnd..])
  }

  /** A small document: the body is the text after the closing dashes and their newline. */
  lemma ParseExample()
    ensures var doc := "---\n" + "name: x" + "\n---\n" + "Body";
            ParseFrontmatter(doc).1 == "Body"
  {
    var doc := "---\n" + "name: x" + "\n---\n" + "Body";
    assert doc == "---\nname: x\n---\nBody";
    ExampleBlock(doc);
    assert doc[16..] == "Body";
  }

  /** The block of the small document: the text runs from 4 to 12 and the match ends at 16. */
  lemma ExampleBlock(doc: string)
    requires doc == "---\nname: x\n---\nBody"
    ensures FindBlock(doc) == Some(Block(4, 12, 16))
  {
    assert WhitespaceEnd(doc, 3) == 4;
    assert LastIndexIn(doc, '\n', 3, 4) == Some(3);
    ExampleClosing(doc);
    assert WhitespaceEnd(doc, 15) == 16;
  }

  /** The closing dashes of the small document are the first ones after its opening line. */
  lemma ExampleClosing(doc: string)
    requires doc == "---\nname: x\n---\nBody"
    ensures FindFrom(doc, "---", 4) == Some(12)
  {
    forall j | 4 <= j < 12 ensures !OccursAt(doc, "---", j) {
      assert doc[j] != '-';
    }
    assert doc[12] == '-' && doc[13] == '-' && doc[14] == '-';
    assert doc[12..15] == "---";
    assert OccursAt(doc, "---", 12);
  }

  // ------------------------------------------------------------ field values

  /**
   * `parse_allowed_tools`: absent or empty is no list; a value with commas
   * is split on them, pieces trimmed and empty pieces dropped; any other
   * value is the single trimmed piece, which may be empty.
   */
  function ParseAllowedTools(value: Option<string>): (r: Option<seq<string>>)
    ensures value.None? || value == Some("") ==> r.None?
    ensures value.Some? && value.value != "" && ',' !in value.value ==> r == Some([Trim(value.value)])
    ensures value.Some? && ',' in value.value ==> r == Some(NonEmptyTrimmed(Split(value.value, ',')))
  {
    match value
    case None => None
    case Some(v) =>
      if v == "" then None
      else if ',' in v then Some(NonEmptyTrimmed(Split(v, ',')))
      else Some([Trim(v)])
  }

  /** The trimmed pieces, empty ones dropped, in order. */
  function NonEmptyTrimmed(pieces: seq<string>): (r: seq<string>)
    ensures forall x :: x in r <==> x != "" && x in TrimAll(pieces)
    ensures |r| <= |pieces|
  {
    DropEmpty(TrimAll(pieces))
  }

  function TrimAll(pieces: seq<string>): (r: seq<string>)
    ensures |r| == |pieces|
    ensures forall i :: 0 <= i < |r| ==> r[i] == Trim(pieces[i])
  {
    seq(|pieces|, i requires 0 <= i < |pieces| => Trim(pieces[i]))
  }

  function DropEmpty(s: seq<string>): (r: seq<string>)
    ensures forall x :: x in r <==> x != "" && x in s
    ensures |r| <= |s|
  {
    if |s| == 0 then []
    else if s[0] == "" then DropEmpty(s[1..])
    else [s[0]] + DropEmpty(s[1..])
  }

  /** A value of blanks without a comma still gives one piece, the empty one. */
  lemma BlankToolsExample()
    ensures ParseAllowedTools(Some("  ")) == Some([""])
  {
    assert ',' !in "  ";
    assert Trim("  ") == "" by {
      assert TrimStart("  ") == TrimStart(" ");
      assert " "[1..] == "";
    }
  }

  /** The words that read as true, after lower-casing. */
  predicate IsTrueWord(lower: string)
  {
    lower == "true" || lower == "1" || lower == "yes"
  }

  /** `parse_boolean`: a present value is true iff it is a true word in any case; absence gives the default. */
  function ParseBoolean(value: Option<string>, default: bool): (r: bool)
    ensures value.None? ==> r == default
    ensures value.Some? ==> (r <==> IsTrueWord(Lower(value.value)))
  {
    match value
    case None => default
    case Some(v) => IsTrueWord(Lower(v))
  }

  /** A present value decides by itself: the default matters only when the value is absent. */
  lemma BooleanIgnoresDefaultWhenPresent(v: string)
    ensures ParseBoolean(Some(v), true) == ParseBoolean(Some(v), false)
    ensures ParseBoolean(Some("YES"), false) && !ParseBoolean(Some("no"), true)
  {
    assert Lower("YES") == "yes";
    assert Lower("no") == "no";
  }

  // ------------------------------------------------------------ loading

  /** A loaded skill. */
  datatype SkillDefinition = SkillDefinition(
    skillName: string,
    displayName: string,
    description: string,
    markdownContent: string,
    allowedTools: Option<seq<string>>,
    argumentHint: Option<string>,
    whenToUse: Option<string>,
    model: Option<string>,
    provider: Option<string>,
    disableModelInvocation: bool,
    executionMode: string)

  const DefaultExecutionMode := "prompt"

  /**
   * `load_skill_from_file` given the file's contents, or the reason it could
   * not be read: the display name defaults to the skill name, the
   * description to "", model invocation to enabled and the execution mode
   * to "prompt".
   */
  function LoadSkill(skillName: string, file: Result<string, string>): (r: Result<SkillDefinition, string>)
    ensures file.Err? ==> r == Err("读取 Skill 文件失败: " + file.error)
    ensures file.Ok? ==> r.Ok? && r.value.skillName == skillName
    ensures file.Ok? ==>
              var (fm, body) := ParseFrontmatter(file.value);
              var d := r.value;
              d.markdownContent == body
              && d.displayName == fm.name.UnwrapOr(skillName)
              && d.description == fm.description.UnwrapOr("")
              && d.allowedTools == ParseAllowedTools(fm.allowedTools)
              && d.disableModelInvocation == ParseBoolean(fm.disableModelInvocation, false)
              && d.executionMode == fm.executionMode.UnwrapOr(DefaultExecutionMode)
              && d.argumentHint == fm.argumentHint && d.whenToUse == fm.whenToUse
              && d.model == fm.model && d.provider == fm.provider
  {
    match file
    case Err(e) => Err("读取 Skill 文件失败: " + e)
    case Ok(content) =>
      var (fm, body) := ParseFrontmatter(content);
      Ok(SkillDefinition(
        skillName,
        fm.name.UnwrapOr(skillName),
        fm.description.UnwrapOr(""),
        body,
        ParseAllowedTools(fm.allowedTools),
        fm.argumentHint,
        fm.whenToUse,
        fm.model,
        fm.provider,
        ParseBoolean(fm.disableModelInvocation, false),
        fm.executionMode.UnwrapOr(DefaultExecutionMode)))
  }

  /** A file without frontmatter loads with every default and its whole text as the body. */
  lemma PlainFileDefaults(skillName: string, content: string)
    requires !StartsWith(content, "---")
    ensures var d := LoadSkill(skillName, Ok(content)).value;
            d.displayName == skillName && d.description == "" && d.markdownContent == content
            && d.allowedTools.None? && !d.disableModelInvocation && d.executionMode == "prompt"
  {
  }
}

=== FILE: text.dfy ===
/**
 * The handful of Rust `str` operations the modelled code relies on, over
 * strings as sequences of Unicode scalar values (which is what a Rust
 * `chars()` iteration yields).
 */
module Text {
  import opened Wrappers

  /** Rust's `char::is_whitespace`: the Unicode White_Space property (regex `\s` uses the same set). */
  predicate IsWhitespace(c: char)
  {
    ('\t' <= c <= '\r') || c == ' ' || c == '\U{85}' || c == '\U{A0}' || c == '\U{1680}'
    || ('\U{2000}' <= c <= '\U{200A}') || c == '\U{2028}' || c == '\U{2029}'
    || c == '\U{202F}' || c == '\U{205F}' || c == '\U{3000}'
  }

  predicate AllWhitespace(s: string)
  {
    forall i :: 0 <= i < |s| ==> IsWhitespace(s[i])
  }

  /** Rust's `trim_start`. */
  function TrimStart(s: string): (r: string)
    ensures |r| <= |s| && r == s[|s| - |r|..]
    ensures forall i :: 0 <= i < |s| - |r| ==> IsWhitespace(s[i])
    ensures r == [] || !IsWhitespace(r[0])
    decreases |s|
  {
    if s != [] && IsWhitespace(s[0]) then TrimStart(s[1..]) else s
  }

  /** Rust's `trim_end`. */
  function TrimEnd(s: string): (r: string)
    ensures |r| <= |s| && r == s[..|r|]
    ensures forall i :: |r| <= i < |s| ==> IsWhitespace(s[i])
    ensures r == [] || !IsWhitespace(r[|r| - 1])
    decreases |s|
  {
    if s != [] && IsWhitespace(s[|s| - 1]) then TrimEnd(s[..|s| - 1]) else s
  }

  /** `r` is `s` with some White_Space removed from each end, and `r` has none left at either end. */
  predicate TrimmedFrom(s: string, r: string)
  {
    && |r| <= |s|
    && (exists k :: 0 <= k <= |s| - |r| && r == s[k..k + |r|] && AllWhitespace(s[..k]) && AllWhitespace(s[k + |r|..]))
    && (r == [] || (!IsWhitespace(r[0]) && !IsWhitespace(r[|r| - 1])))
  }

  /** Rust's `trim`: no leading or trailing White_Space, and only White_Space was removed. */
  function Trim(s: string): (r: string)
    ensures TrimmedFrom(s, r)
  {
    var a := TrimStart(s);
    var r := TrimEnd(a);
    TrimBothEnds(s, a, r);
    r
  }

  lemma TrimBothEnds(s: string, a: string, r: string)
    requires |a| <= |s| && a == s[|s| - |a|..] && forall i :: 0 <= i < |s| - |a| ==> IsWhitespace(s[i])
    requires a == [] || !IsWhitespace(a[0])
    requires |r| <= |a| && r == a[..|r|] && forall i :: |r| <= i < |a| ==> IsWhitespace(a[i])
    requires r == [] || !IsWhitespace(r[|r| - 1])
    ensures TrimmedFrom(s, r)
  {
    var k := |s| - |a|;
    assert s[k..k + |r|] == a[..|r|];
    var pre := s[..k];
    forall i | 0 <= i < |pre| ensures IsWhitespace(pre[i]) {
      assert pre[i] == s[i];
    }
    var post := s[k + |r|..];
    forall i | 0 <= i < |post| ensures IsWhitespace(post[i]) {
      assert post[i] == a[|r| + i];
    }
    assert AllWhitespace(pre) && AllWhitespace(post);
    if r != [] {
      assert r[0] == a[0];
    }
  }

  /** Trimming only removes characters. */
  lemma TrimKeepsChars(s: string)
    ensures forall ch :: ch in Trim(s) ==> ch in s
  {
    TrimmedKeepsChars(s, Trim(s));
  }

  lemma TrimmedKeepsChars(s: string, r: string)
    requires TrimmedFrom(s, r)
    ensures forall ch :: ch in r ==> ch in s
  {
    var k :| 0 <= k <= |s| - |r| && r == s[k..k + |r|] && AllWhitespace(s[..k]) && AllWhitespace(s[k + |r|..]);
    forall ch | ch in r ensures ch in s {
      var i :| 0 <= i < |r| && r[i] == ch;
      assert s[k + i] == ch;
    }
  }

  /** A string that neither begins nor ends with White_Space is its own trim. */
  lemma TrimUntouched(s: string)
    requires s == [] || (!IsWhitespace(s[0]) && !IsWhitespace(s[|s| - 1]))
    ensures Trim(s) == s
  {
    assert TrimStart(s) == s;
    assert TrimEnd(s) == s;
  }

  /** Rust's `trim_start_matches(c)` for a single character pattern. */
  function TrimStartMatches(s: string, c: char): (r: string)
    ensures |r| <= |s| && r == s[|s| - |r|..]
    ensures forall i :: 0 <= i < |s| - |r| ==> s[i] == c
    ensures r == [] || r[0] != c
    decreases |s|
  {
    if s != [] && s[0] == c then TrimStartMatches(s[1..], c) else s
  }

  /** Rust's `trim_end_matches(c)` for a single character pattern. */
  function TrimEndMatches(s: string, c: char): (r: string)
    ensures |r| <= |s| && r == s[..|r|]
    ensures forall i :: |r| <= i < |s| ==> s[i] == c
    ensures r == [] || r[|r| - 1] != c
    decreases |s|
  {
    if s != [] && s[|s| - 1] == c then TrimEndMatches(s[..|s| - 1], c) else s
  }

  /** Rust's `trim_matches(c)`. */
  function TrimMatches(s: string, c: char): (r: string)
    ensures |r| <= |s|
    ensures r == [] || (r[0] != c && r[|r| - 1] != c)
    ensures forall ch :: ch in r ==> ch in s
  {
    TrimEndMatches(TrimStartMatches(s, c), c)
  }

  /** Only the character itself is trimmed away: every other character of the text is kept. */
  lemma TrimMatchesKeeps(s: string, c: char)
    ensures forall i :: 0 <= i < |s| ==> s[i] == c || s[i] in TrimMatches(s, c)
  {
    var a := TrimStartMatches(s, c);
    var r := TrimEndMatches(a, c);
    assert TrimMatches(s, c) == r;
    var k := |s| - |a|;
    forall i | 0 <= i < |s| ensures s[i] == c || s[i] in r {
      if i < k {
        assert s[i] == c;
      } else if i - k < |r| {
        assert s[i] == a[i - k] == r[i - k];
      } else {
        assert s[i] == a[i - k] == c;
      }
    }
  }

  /** `trim_start_matches` on a text preceded by at most one character removes exactly that character when it matches. */
  lemma TrimStartWrapped(pre: string, t: string, post: string, c: char)
    requires t != [] && t[0] != c && |pre| <= 1
    ensures TrimStartMatches(pre + t + post, c) == (if pre == [c] then [] else pre) + t + post
  {
    var s := pre + t + post;
    if pre == [c] {
      assert s[1..] == t + post;
      assert (t + post)[0] != c;
    } else {
      assert s[0] != c;
    }
  }

  /** `trim_end_matches` on a text followed by at most one character removes exactly that character when it matches. */
  lemma TrimEndWrapped(pre: string, t: string, post: string, c: char)
    requires t != [] && t[|t| - 1] != c && |post| <= 1
    ensures TrimEndMatches(pre + t + post, c) == pre + t + (if post == [c] then [] else post)
  {
    var s := pre + t + post;
    if post == [c] {
      assert s[..|s| - 1] == pre + t;
      assert (pre + t)[|pre + t| - 1] != c;
    } else {
      assert s[|s| - 1] != c;
    }
  }

  /** A text that neither begins nor ends with the character is its own `trim_matches`. */
  lemma TrimMatchesUntouched(s: string, c: char)
    requires s == [] || (s[0] != c && s[|s| - 1] != c)
    ensures TrimMatches(s, c) == s
  {
    assert TrimStartMatches(s, c) == s;
  }

  /** `trim_matches` on a text wrapped in at most one character on each side. */
  lemma TrimMatchesWrapped(pre: string, t: string, post: string, c: char)
    requires t != [] && t[0] != c && t[|t| - 1] != c && |pre| <= 1 && |post| <= 1
    ensures TrimMatches(pre + t + post, c)
            == (if pre == [c] then [] else pre) + t + (if post == [c] then [] else post)
  {
    TrimStartWrapped(pre, t, post, c);
    TrimEndWrapped(if pre == [c] then [] else pre, t, post, c);
  }

  /** ASCII case mapping: `A`-`Z` to `a`-`z`, every other character unchanged. */
  function LowerChar(c: char): char
  {
    if 'A' <= c <= 'Z' then (c as int + 32) as char else c
  }

  function UpperChar(c: char): char
  {
    if 'a' <= c <= 'z' then (c as int - 32) as char else c
  }

  /** `to_lowercase` restricted to ASCII letters. */
  function Lower(s: string): (r: string)
    ensures |r| == |s|
    ensures forall i :: 0 <= i < |s| ==> r[i] == LowerChar(s[i])
  {
    seq(|s|, i requires 0 <= i < |s| => LowerChar(s[i]))
  }

  /** Lower-casing leaves a stretch without upper-case ASCII letters as it was. */
  lemma LowerKeeps(s: string, lo: nat, hi: nat)
    requires lo <= hi <= |s|
    requires forall i :: lo <= i < hi ==> !('A' <= s[i] <= 'Z')
    ensures Lower(s)[lo..hi] == s[lo..hi]
  {
    assert forall i :: 0 <= i < hi - lo ==> Lower(s)[lo..hi][i] == s[lo + i];
  }

  /** Lower-casing works character by character, so it distributes over concatenation. */
  lemma LowerAppend(a: string, b: string)
    ensures Lower(a + b) == Lower(a) + Lower(b)
  {
    assert forall i :: 0 <= i < |a + b| ==> Lower(a + b)[i] == (Lower(a) + Lower(b))[i];
  }

  /** A lower-case letter appears in the lower-cased text only where it or its capital appeared. */
  lemma LowerAvoids(s: string, c: char)
    requires 'a' <= c <= 'z' && c !in s && UpperChar(c) !in s
    ensures c !in Lower(s)
  {
    forall i | 0 <= i < |s| ensures Lower(s)[i] != c {
      assert s[i] in s;
    }
  }

  /** Lower-casing twice is lower-casing once. */
  lemma LowerIdempotent(s: string)
    ensures Lower(Lower(s)) == Lower(s)
  {
    assert forall i :: 0 <= i < |s| ==> Lower(Lower(s))[i] == Lower(s)[i];
  }

  /** `to_uppercase` restricted to ASCII letters. */
  function Upper(s: string): (r: string)
    ensures |r| == |s|
    ensures forall i :: 0 <= i < |s| ==> r[i] == UpperChar(s[i])
  {
    seq(|s|, i requires 0 <= i < |s| => UpperChar(s[i]))
  }

  predicate StartsWith(s: string, p: string)
  {
    |p| <= |s| && s[..|p|] == p
  }

  predicate EndsWith(s: string, p: string)
  {
    |p| <= |s| && s[|s| - |p|..] == p
  }

  predicate OccursAt(s: string, p: string, i: int)
  {
    0 <= i && i + |p| <= |s| && s[i..i + |p|] == p
  }

  /** Rust's `contains` for a string pattern. */
  predicate Contains(s: string, p: string)
  {
    exists i :: 0 <= i <= |s| - |p| && OccursAt(s, p, i)
  }

  /** A text placed between two others occurs right after the first. */
  lemma OccursInMiddle(a: string, p: string, b: string)
    ensures OccursAt(a + p + b, p, |a|)
  {
    assert (a + p + b)[|a|..|a| + |p|] == p;
  }

  /** A pattern holding a character the text lacks does not occur in it. */
  lemma AbsentCharNotContained(s: string, p: string, j: nat)
    requires j < |p| && p[j] !in s
    ensures !Contains(s, p)
  {
    forall i | 0 <= i <= |s| - |p| ensures !OccursAt(s, p, i) {
      assert s[i + j] in s;
      assert s[i..i + |p|][j] == s[i + j];
    }
  }

  /** A pattern longer than the tail of a text whose head lacks its first character does not occur in it. */
  lemma NotContainedPastHead(h: string, tail: string, p: string)
    requires p != [] && |p| > |tail| && p[0] !in h
    ensures !Contains(h + tail, p)
  {
    var s := h + tail;
    forall i | 0 <= i <= |s| - |p| ensures !OccursAt(s, p, i) {
      assert s[i] == h[i] && h[i] in h;
      assert s[i..i + |p|][0] == s[i];
    }
  }

  /** The first position at or after `i` where `p` occurs (`s[i..].find(p)` shifted by `i`). */
  function FindFrom(s: string, p: string, i: nat): (r: Option<nat>)
    requires |p| > 0
    ensures r.Some? ==> i <= r.value && OccursAt(s, p, r.value)
    ensures r.Some? ==> forall j :: i <= j < r.value ==> !OccursAt(s, p, j)
    ensures r.None? ==> forall j :: i <= j ==> !OccursAt(s, p, j)
    decreases |s| - i
  {
    if i + |p| > |s| then None
    else if OccursAt(s, p, i) then Some(i)
    else FindFrom(s, p, i + 1)
  }

  /** The end of the run of White_Space that starts at `i`. */
  function WhitespaceEnd(s: string, i: nat): (r: nat)
    requires i <= |s|
    ensures i <= r <= |s|
    ensures forall j :: i <= j < r ==> IsWhitespace(s[j])
    ensures r == |s| || !IsWhitespace(s[r])
    decreases |s| - i
  {
    if i < |s| && IsWhitespace(s[i]) then WhitespaceEnd(s, i + 1) else i
  }

  /** The last position in `[lo, hi)` holding `c`. */
  function LastIndexIn(s: string, c: char, lo: nat, hi: nat): (r: Option<nat>)
    requires lo <= hi <= |s|
    ensures r.Some? ==> lo <= r.value < hi && s[r.value] == c
    ensures r.Some? ==> forall j :: r.value < j < hi ==> s[j] != c
    ensures r.None? ==> forall j :: lo <= j < hi ==> s[j] != c
    decreases hi - lo
  {
    if hi == lo then None
    else if s[hi - 1] == c then Some(hi - 1)
    else LastIndexIn(s, c, lo, hi - 1)
  }

  /** Rust's `find(c)` for a character: the first position holding `c`. */
  function IndexOf(s: string, c: char): (r: Option<nat>)
    ensures r.None? <==> c !in s
    ensures r.Some? ==> r.value < |s| && s[r.value] == c && c !in s[..r.value]
    decreases |s|
  {
    if s == [] then None
    else if s[0] == c then Some(0)
    else
      match IndexOf(s[1..], c)
      case None => None
      case Some(i) =>
        assert s[..i + 1] == [s[0]] + s[1..][..i];
        Some(i + 1)
  }

  /** Rust's `split(c)`: the pieces between occurrences of `c`, empty pieces included. */
  function Split(s: string, sep: char): (r: seq<string>)
    ensures |r| >= 1
    ensures forall i :: 0 <= i < |r| ==> sep !in r[i]
    decreases |s|
  {
    match IndexOf(s, sep)
    case None => [s]
    case Some(i) => [s[..i]] + Split(s[i + 1..], sep)
  }

  /** `join(sep)` over a sequence of strings. */
  function Join(parts: seq<string>, sep: string): string
    decreases |parts|
  {
    if |parts| == 0 then ""
    else if |parts| == 1 then parts[0]
    else parts[0] + sep + Join(parts[1..], sep)
  }

  /** Splitting on a character and joining with it gives the original string back. */
  lemma {:induction false} SplitJoin(s: string, sep: char)
    ensures Join(Split(s, sep), [sep]) == s
    decreases |s|
  {
    match IndexOf(s, sep)
    case None =>
    case Some(i) =>
      var rest := Split(s[i + 1..], sep);
      SplitJoin(s[i + 1..], sep);
      assert Split(s, sep) == [s[..i]] + rest;
      assert ([s[..i]] + rest)[1..] == rest;
      assert Join(Split(s, sep), [sep]) == s[..i] + [sep] + Join(rest, [sep]);
      assert s == s[..i] + [sep] + s[i + 1..];
  }

  /** Removes one carriage return at the end of a line, as `lines()` does after a newline. */
  function StripCr(l: string): (r: string)
    ensures r == l || (l == r + "\r")
  {
    if |l| > 0 && l[|l| - 1] == '\r' then l[..|l| - 1] else l
  }

  /**
   * Rust's `lines()`: split at `\n`, drop a `\r` that precedes a `\n`, and do not
   * report an empty line after a final `\n` (so the empty string has no lines).
   */
  function Lines(s: string): (r: seq<string>)
    ensures r == [] <==> s == []
    ensures forall i :: 0 <= i < |r| ==> '\n' !in r[i]
    decreases |s|
  {
    if s == [] then []
    else
      match IndexOf(s, '\n')
      case None => [s]
      case Some(i) => [StripCr(s[..i])] + Lines(s[i + 1..])
  }

  lemma NotInSlice(s: string, c: char, lo: nat, hi: nat)
    requires lo <= hi <= |s| && c !in s
    ensures c !in s[lo..hi]
  {
  }

  lemma EndsWithChar(s: string, c: char)
    requires |s| > 0
    ensures EndsWith(s, [c]) <==> s[|s| - 1] == c
  {
    assert s[|s| - 1..] == [s[|s| - 1]];
  }

  lemma JoinCons(h: string, rest: seq<string>, sep: string)
    requires |rest| > 0
    ensures Join([h] + rest, sep) == h + sep + Join(rest, sep)
  {
    assert ([h] + rest)[1..] == rest;
  }

  /** The newline a text ends with, if any. */
  function FinalNewline(s: string): (r: string)
    ensures r == "\n" <==> EndsWith(s, "\n")
    ensures r == "" <==> !EndsWith(s, "\n")
  {
    if EndsWith(s, "\n") then "\n" else ""
  }

  /** Without carriage returns, joining the lines with newlines restores the text (up to its final newline). */
  lemma {:induction false} LinesJoin(s: string)
    requires '\r' !in s
    ensures Join(Lines(s), "\n") + FinalNewline(s) == s
    decreases |s|
  {
    if s != [] {
      match IndexOf(s, '\n')
      case None =>
        EndsWithChar(s, '\n');
        assert Lines(s) == [s];
      case Some(i) =>
        var head := s[..i];
        var rest := s[i + 1..];
        NotInSlice(s, '\r', 0, i);
        NotInSlice(s, '\r', i + 1, |s|);
        assert Lines(s) == [head] + Lines(rest);
        assert s == head + "\n" + rest;
        if rest == [] {
          EndsWithChar(s, '\n');
          assert Lines(rest) == [];
          assert Join(Lines(s), "\n") == head;
        } else {
          LinesJoin(rest);
          SameFinalNewline(head, rest);
          JoinCons(head, Lines(rest), "\n");
          JoinStep(head, Join(Lines(rest), "\n"), FinalNewline(rest), rest);
        }
    }
  }

  lemma SameFinalNewline(head: string, rest: string)
    requires rest != []
    ensures FinalNewline(head + "\n" + rest) == FinalNewline(rest)
  {
    var s := head + "\n" + rest;
    EndsWithChar(s, '\n');
    EndsWithChar(rest, '\n');
    assert s[|s| - 1] == rest[|rest| - 1];
  }

  lemma JoinStep(head: string, joined: string, nl: string, rest: string)
    requires joined + nl == rest
    ensures head + "\n" + joined + nl == head + "\n" + rest
  {
  }

  /** Rust's `replace(a, b)` for single characters. */
  function ReplaceChar(s: string, a: char, b: char): (r: string)
    ensures |r| == |s|
    ensures forall i :: 0 <= i < |s| ==> r[i] == (if s[i] == a then b else s[i])
  {
    seq(|s|, i requires 0 <= i < |s| => if s[i] == a then b else s[i])
  }

  /** `chars().take(n)`: the first `n` characters, or all of them. */
  function Take(s: string, n: nat): (r: string)
    ensures |r| == if |s| <= n then |s| else n
    ensures StartsWith(s, r)
  {
    if |s| <= n then s else s[..n]
  }
}

=== FILE: tool_converter.dfy ===
/**
 * Conversion of MCP tool definitions into the tool formats of the OpenAI,
 * Anthropic and Gemini APIs, and of the providers' tool calls back into MCP
 * calls.
 */
module ToolConverter {
  import opened Wrappers
  import opened Json

  /** An MCP tool as a server lists it. */
  datatype ToolDefinition = ToolDefinition(name: string, description: string, inputSchema: Json, serverName: string)

  /** An MCP tool invocation. */
  datatype ToolCall = ToolCall(name: string, arguments: Json)

  datatype OpenAIFunction = OpenAIFunction(name: string, description: string, parameters: Json)
  datatype OpenAITool = OpenAITool(toolType: string, fn: OpenAIFunction)
  datatype OpenAIFunctionCall = OpenAIFunctionCall(name: string, arguments: string)
  datatype OpenAIToolCall = OpenAIToolCall(id: string, callType: string, fn: OpenAIFunctionCall)

  datatype AnthropicTool = AnthropicTool(name: string, description: string, inputSchema: Json)
  datatype AnthropicToolUse = AnthropicToolUse(id: string, name: string, input: Json)

  datatype GeminiParameters = GeminiParameters(paramType: string, properties: Json, required: seq<string>)
  datatype GeminiFunctionDeclaration = GeminiFunctionDeclaration(name: string, description: string, parameters: GeminiParameters)

  /** `to_openai`: one function tool per definition, in order, with the schema as its parameters. */
  function ToOpenAI(tools: seq<ToolDefinition>): (r: seq<OpenAITool>)
    ensures |r| == |tools|
    ensures forall i :: 0 <= i < |r| ==>
              r[i].toolType == "function"
              && r[i].fn == OpenAIFunction(tools[i].name, tools[i].description, tools[i].inputSchema)
  {
    seq(|tools|, i requires 0 <= i < |tools| =>
      OpenAITool("function", OpenAIFunction(tools[i].name, tools[i].description, tools[i].inputSchema)))
  }

  /** `to_anthropic`: one tool per definition, in order, fields copied. */
  function ToAnthropic(tools: seq<ToolDefinition>): (r: seq<AnthropicTool>)
    ensures |r| == |tools|
    ensures forall i :: 0 <= i < |r| ==>
              r[i] == AnthropicTool(tools[i].name, tools[i].description, tools[i].inputSchema)
  {
    seq(|tools|, i requires 0 <= i < |tools| =>
      AnthropicTool(tools[i].name, tools[i].description, tools[i].inputSchema))
  }

  /** The string elements of a JSON array, in order; other elements are skipped. */
  function Strings(items: seq<Json>): (r: seq<string>)
    ensures |r| <= |items|
    ensures forall x :: x in r <==> Str(x) in items
    decreases |items|
  {
    if |items| == 0 then []
    else
      var rest := Strings(items[1..]);
      assert forall j :: j in items <==> j == items[0] || j in items[1..];
      if items[0].Str? then [items[0].s] + rest else rest
  }

  /** Taking the strings commutes with concatenation, so their order is kept. */
  lemma {:induction false} StringsAppend(a: seq<Json>, b: seq<Json>)
    ensures Strings(a + b) == Strings(a) + Strings(b)
    decreases |a|
  {
    if |a| == 0 {
      assert a + b == b;
    } else {
      assert (a + b)[0] == a[0];
      assert (a + b)[1..] == a[1..] + b;
      StringsAppend(a[1..], b);
    }
  }

  /** The schema's `properties`, or the empty object. */
  function SchemaProperties(schema: Json): (r: Json)
    ensures Get(schema, "properties").Some? ==> r == schema.fields["properties"]
    ensures Get(schema, "properties").None? ==> r == EmptyObject
  {
    Get(schema, "properties").UnwrapOr(EmptyObject)
  }

  /** The string names of the schema's `required` array; none when absent or not an array. */
  function SchemaRequired(schema: Json): (r: seq<string>)
    ensures (Get(schema, "required").None? || !schema.fields["required"].Arr?) ==> r == []
    ensures Get(schema, "required").Some? && schema.fields["required"].Arr? ==>
              r == Strings(schema.fields["required"].items)
  {
    match Get(schema, "required")
    case Some(Arr(items)) => Strings(items)
    case _ => []
  }

  /** `to_gemini`: one declaration per definition, in order, with an object parameter block. */
  function ToGemini(tools: seq<ToolDefinition>): (r: seq<GeminiFunctionDeclaration>)
    ensures |r| == |tools|
    ensures forall i :: 0 <= i < |r| ==>
              r[i].name == tools[i].name && r[i].description == tools[i].description
              && r[i].parameters.paramType == "object"
              && r[i].parameters.properties == SchemaProperties(tools[i].inputSchema)
              && r[i].parameters.required == SchemaRequired(tools[i].inputSchema)
  {
    seq(|tools|, i requires 0 <= i < |tools| =>
      GeminiFunctionDeclaration(tools[i].name, tools[i].description,
        GeminiParameters("object", SchemaProperties(tools[i].inputSchema), SchemaRequired(tools[i].inputSchema))))
  }

  /** A JSON parser (`serde_json::from_str`): `None` when the text is not valid JSON. */
  type JsonParser = string -> Option<Json>

  /** `from_openai_call`: the name, and the parsed arguments or the empty object. */
  function FromOpenAICall(call: OpenAIToolCall, parse: JsonParser): (r: ToolCall)
    ensures r.name == call.fn.name
    ensures parse(call.fn.arguments).Some? ==> r.arguments == parse(call.fn.arguments).value
    ensures parse(call.fn.arguments).None? ==> r.arguments == EmptyObject
  {
    ToolCall(call.fn.name, parse(call.fn.arguments).UnwrapOr(EmptyObject))
  }

  /** `from_anthropic_use`: name and input copied. */
  function FromAnthropicUse(u: AnthropicToolUse): (r: ToolCall)
    ensures r.name == u.name && r.arguments == u.input
  {
    ToolCall(u.name, u.input)
  }

  /** The OpenAI and Anthropic forms of a tool list carry the same tools. */
  lemma OpenAIAgreesWithAnthropic(tools: seq<ToolDefinition>)
    ensures |ToOpenAI(tools)| == |ToAnthropic(tools)|
    ensures forall i :: 0 <= i < |tools| ==>
              ToOpenAI(tools)[i].fn.name == ToAnthropic(tools)[i].name
              && ToOpenAI(tools)[i].fn.description == ToAnthropic(tools)[i].description
              && ToOpenAI(tools)[i].fn.parameters == ToAnthropic(tools)[i].inputSchema
  {
  }

  /**
   * An Anthropic tool use of a listed tool comes back as an MCP call of that
   * tool; an OpenAI call comes back the same way when its arguments parse.
   */
  lemma CallsComeBack(tools: seq<ToolDefinition>, i: nat, id: string, input: Json,
                      arguments: string, parse: JsonParser)
    requires i < |tools| && parse(arguments) == Some(input)
    ensures FromAnthropicUse(AnthropicToolUse(id, ToAnthropic(tools)[i].name, input)) == ToolCall(tools[i].name, input)
    ensures FromOpenAICall(OpenAIToolCall(id, "function", OpenAIFunctionCall(ToOpenAI(tools)[i].fn.name, arguments)), parse)
            == ToolCall(tools[i].name, input)
  {
  }

  /** A schema in the usual shape: its properties, and the required names with the non-strings dropped. */
  lemma GeminiExample(props: Json)
    ensures var schema := Obj(map["type" := Str("object"), "properties" := props,
                                  "required" := Arr([Str("path"), Num(1), Str("mode")])]);
            var d := ToGemini([ToolDefinition("read", "Read a file", schema, "fs")])[0];
            d.parameters.properties == props && d.parameters.required == ["path", "mode"]
  {
    var items := [Str("path"), Num(1), Str("mode")];
    var schema := Obj(map["type" := Str("object"), "properties" := props, "required" := Arr(items)]);
    ExampleStrings();
    assert schema.fields["properties"] == props && schema.fields["required"] == Arr(items);
  }

  lemma ExampleStrings()
    ensures Strings([Str("path"), Num(1), Str("mode")]) == ["path", "mode"]
  {
    assert Strings([Str("mode")]) == ["mode"];
    assert [Str("path"), Num(1), Str("mode")][1..] == [Num(1), Str("mode")];
    assert [Num(1), Str("mode")][1..] == [Str("mode")];
  }
}

=== FILE: unified.dfy ===
/**
 * The unified credential manager: credential selection with a cooldown
 * check, success and failure reports, manual cooldown clearing and the
 * import of the orchestrator's credentials into the credential pools.
 *
 * The load balancer and the risk controller are collaborators whose
 * behaviour is not part of this model. What the manager asks of them is
 * given as inputs (their answers), and what it tells them is returned as
 * the sequence of calls it makes, in order.
 */
module UnifiedCredentials {
  import opened Wrappers
  import opened Text
  import opened ProviderTypes

  /** The manager's own state: whether risk control is on. */
  datatype Manager = Manager(riskControlEnabled: bool)

  /** A new manager has risk control enabled. */
  function NewManager(): (r: Manager)
    ensures IsRiskControlEnabled(r)
  {
    Manager(true)
  }

  function SetRiskControlEnabled(m: Manager, enabled: bool): (r: Manager)
    ensures IsRiskControlEnabled(r) == enabled
  {
    m.(riskControlEnabled := enabled)
  }

  predicate IsRiskControlEnabled(m: Manager)
  {
    m.riskControlEnabled
  }

  /** The flag reads back the last value written. */
  lemma RiskToggle(m: Manager, a: bool, b: bool)
    ensures IsRiskControlEnabled(SetRiskControlEnabled(SetRiskControlEnabled(m, a), b)) == b
  {
  }

  // ------------------------------------------------------------ collaborator protocol

  /** A credential chosen by the balancer. */
  datatype Selection = Selection(credentialId: string)

  /** The balancer's selection error (its variants are not part of this model). */
  datatype PoolError = PoolError(reason: string)

  /** What the manager records about a rate-limited request. */
  datatype RateLimitEvent = RateLimitEvent(
    credentialId: string,
    statusCode: Option<nat>,
    errorMessage: Option<string>,
    retryAfterSecs: Option<nat>)

  /** One call the manager makes on the balancer or the risk controller. */
  datatype Call =
    | BalancerReport(provider: ProviderType, credentialId: string, success: bool, latencyMs: nat)
    | BalancerMarkCooldown(provider: ProviderType, credentialId: string, secs: nat)
    | BalancerMarkActive(provider: ProviderType, credentialId: string)
    | RiskRecordSuccess(credentialId: string)
    | RiskRecordRateLimit(event: RateLimitEvent)
    | RiskClearCooldown(credentialId: string)

  /**
   * The risk controller's answers: whether a status and body denote a rate
   * limit, how a Retry-After value parses, and how long the cooldown for a
   * recorded event is.
   */
  datatype RiskOracle = RiskOracle(
    isRateLimitError: (nat, Option<string>) -> bool,
    parseRetryAfter: string -> Option<nat>,
    cooldownSecs: RateLimitEvent -> nat)

  // ------------------------------------------------------------ selection

  /**
   * Selects a credential: the balancer's primary choice, unless risk control
   * is on and that credential is cooling down, in which case the balancer's
   * failover choice. A failing primary selection fails.
   */
  function SelectCredential(m: Manager, primary: Result<Selection, PoolError>,
                            inCooldown: string -> bool,
                            failover: Result<Selection, PoolError>): (r: Result<Selection, PoolError>)
    ensures primary.Err? ==> r == primary
    ensures primary.Ok? && !(IsRiskControlEnabled(m) && inCooldown(primary.value.credentialId)) ==> r == primary
    ensures primary.Ok? && IsRiskControlEnabled(m) && inCooldown(primary.value.credentialId) ==> r == failover
  {
    var selection :- primary;
    if IsRiskControlEnabled(m) && inCooldown(selection.credentialId) then failover
    else Ok(selection)
  }

  /** With risk control off the cooldown state is never consulted. */
  lemma SelectionIgnoresCooldownWhenOff(m: Manager, primary: Result<Selection, PoolError>,
                                        c1: string -> bool, c2: string -> bool,
                                        failover: Result<Selection, PoolError>)
    requires !IsRiskControlEnabled(m)
    ensures SelectCredential(m, primary, c1, failover) == SelectCredential(m, primary, c2, failover) == primary
  {
  }

  // ------------------------------------------------------------ reports

  /** A success: a successful use with its latency, then a recorded success, for the same credential. */
  function ReportSuccess(provider: ProviderType, credentialId: string, latencyMs: nat): (calls: seq<Call>)
    ensures |calls| == 2
    ensures calls[0] == BalancerReport(provider, credentialId, true, latencyMs)
    ensures calls[1] == RiskRecordSuccess(credentialId)
  {
    [BalancerReport(provider, credentialId, true, latencyMs), RiskRecordSuccess(credentialId)]
  }

  /** The event recorded for a rate-limited request. */
  function RateLimitEventOf(credentialId: string, statusCode: Option<nat>, errorBody: Option<string>,
                            retryAfterSecs: Option<nat>): (e: RateLimitEvent)
    ensures e.credentialId == credentialId && e.statusCode == statusCode
    ensures e.errorMessage == errorBody && e.retryAfterSecs == retryAfterSecs
  {
    RateLimitEvent(credentialId, statusCode, errorBody, retryAfterSecs)
  }

  /**
   * A failure: always a failed use (latency 0). When the status is classified
   * as a rate limit, the event is recorded and the credential is put into
   * cooldown in the balancer for the seconds the risk controller chose, which
   * are also returned.
   */
  function ReportFailure(risk: RiskOracle, provider: ProviderType, credentialId: string,
                         statusCode: Option<nat>, errorBody: Option<string>,
                         retryAfter: Option<string>): (r: (Option<nat>, seq<Call>))
    ensures |r.1| >= 1 && r.1[0] == BalancerReport(provider, credentialId, false, 0)
    ensures r.0.None? <==> statusCode.None? || !risk.isRateLimitError(statusCode.value, errorBody)
    ensures r.0.None? ==> |r.1| == 1
    ensures r.0.Some? ==> |r.1| == 3
                          && r.1[1].RiskRecordRateLimit?
                          && r.1[1].event.credentialId == credentialId
                          && r.1[1].event.statusCode == statusCode
                          && r.1[1].event.errorMessage == errorBody
                          && r.0.value == risk.cooldownSecs(r.1[1].event)
                          && r.1[2] == BalancerMarkCooldown(provider, credentialId, r.0.value)
    ensures r.0.Some? && retryAfter.None? ==> r.1[1].event.retryAfterSecs.None?
  {
    var failed := [BalancerReport(provider, credentialId, false, 0)];
    var isRateLimit := statusCode.Some? && risk.isRateLimitError(statusCode.value, errorBody);
    if !isRateLimit then (None, failed)
    else
      var retrySecs := match retryAfter case Some(v) => risk.parseRetryAfter(v) case None => None;
      var event := RateLimitEventOf(credentialId, statusCode, errorBody, retrySecs);
      var secs := risk.cooldownSecs(event);
      (Some(secs), failed + [RiskRecordRateLimit(event), BalancerMarkCooldown(provider, credentialId, secs)])
  }

  /** Clearing a cooldown clears it in the risk controller, then reactivates the credential in the balancer. */
  function ClearCooldown(provider: ProviderType, credentialId: string): (calls: seq<Call>)
    ensures |calls| == 2
    ensures calls[0] == RiskClearCooldown(credentialId)
    ensures calls[1] == BalancerMarkActive(provider, credentialId)
  {
    [RiskClearCooldown(credentialId), BalancerMarkActive(provider, credentialId)]
  }

  // ------------------------------------------------------------ orchestrator import

  /**
   * The credential-pool provider kind of an orchestrator provider name,
   * compared without ASCII letter case; unknown names go to Kiro.
   */
  function MapOrchestratorProvider(name: string): (r: ProviderType)
    ensures Lower(name) == "anthropic" ==> r == ClaudeOAuth
    ensures Lower(name) == "openai" ==> r == Codex
    ensures Lower(name) == "google" || Lower(name) == "gemini" ==> r == Gemini
    ensures r in {ClaudeOAuth, Codex, Gemini, Kiro}
    ensures Lower(name) !in {"anthropic", "openai", "google", "gemini"} ==> r == Kiro
  {
    var l := Lower(name);
    if l == "anthropic" then ClaudeOAuth
    else if l == "openai" then Codex
    else if l == "google" || l == "gemini" then Gemini
    else Kiro
  }

  /** The mapping ignores ASCII letter case. */
  lemma MapIgnoresCase(name: string)
    ensures MapOrchestratorProvider(name) == MapOrchestratorProvider(Lower(name))
  {
    LowerIdempotent(name);
  }

  /** A model the orchestrator offers: its provider name and the credential backing it. */
  datatype OrchestratorModel = OrchestratorModel(providerType: string, credentialId: string)

  /** An API-key credential in a pool. */
  datatype PoolCredential = PoolCredential(id: string, provider: ProviderType, key: string, baseUrl: Option<string>)

  /** The key of a credential in the pools: its provider kind and id. */
  type PoolKey = (ProviderType, string)

  /** The credential pools: the registered provider kinds and every pooled credential. */
  datatype Pools = Pools(registered: set<ProviderType>, creds: map<PoolKey, PoolCredential>)

  function KeyOf(m: OrchestratorModel): PoolKey
  {
    (MapOrchestratorProvider(m.providerType), m.credentialId)
  }

  /** The placeholder credential created for an imported id. */
  function SyncedCredential(k: PoolKey): (c: PoolCredential)
    ensures c.id == k.1 && c.provider == k.0
    ensures StartsWith(c.key, "synced-") && c.key[7..] == k.1
    ensures c.baseUrl.None?
  {
    PoolCredential(k.1, k.0, "synced-" + k.1, None)
  }

  /**
   * The pool's answer to adding a credential (the pool is not part of this
   * model): whether it accepts the credential with this key.
   */
  type AddOracle = PoolKey -> bool

  /** The pool key of each model, in order. */
  function ModelKeys(models: seq<OrchestratorModel>): (r: seq<PoolKey>)
    ensures |r| == |models|
    ensures forall i :: 0 <= i < |models| ==> r[i] == KeyOf(models[i])
  {
    seq(|models|, i requires 0 <= i < |models| => KeyOf(models[i]))
  }

  /**
   * Imports one key: its provider's pool is registered, and the placeholder
   * credential is added when the id is new and the pool accepts it.
   */
  function SyncStep(pools: Pools, k: PoolKey, accepts: AddOracle): (r: Pools)
    ensures r.registered == pools.registered + {k.0}
    ensures forall x :: x in r.creds <==> x in pools.creds || (x == k && accepts(k))
    ensures forall x :: x in pools.creds ==> r.creds[x] == pools.creds[x]
    ensures k in r.creds && k !in pools.creds ==> r.creds[k] == SyncedCredential(k)
    ensures |r.creds| == |pools.creds| + (if k !in pools.creds && accepts(k) then 1 else 0)
  {
    var registered := pools.registered + {k.0};
    if k !in pools.creds && accepts(k) then Pools(registered, pools.creds[k := SyncedCredential(k)])
    else Pools(registered, pools.creds)
  }

  /**
   * Imports the credential with each key in turn: the provider's pool is
   * created when missing, and an id already pooled is left alone. Returns
   * the new pools and the number of credentials added.
   */
  function SyncKeys(pools: Pools, keys: seq<PoolKey>, accepts: AddOracle): (r: (Pools, nat))
    ensures pools.registered <= r.0.registered
    ensures pools.creds.Keys <= r.0.creds.Keys
    ensures forall k :: k in pools.creds ==> r.0.creds[k] == pools.creds[k]
    ensures forall k :: k in r.0.creds && k !in pools.creds ==> accepts(k) && r.0.creds[k] == SyncedCredential(k)
    ensures r.1 == |r.0.creds| - |pools.creds|
    decreases |keys|
  {
    if |keys| == 0 then (pools, 0)
    else
      var step := SyncStep(pools, keys[0], accepts);
      var added: nat := if keys[0] !in pools.creds && accepts(keys[0]) then 1 else 0;
      var rest := SyncKeys(step, keys[1..], accepts);
      (rest.0, added + rest.1)
  }

  /**
   * After the key import every key's provider is registered, and a key is
   * pooled exactly when it was already or the pool accepted it.
   */
  lemma {:induction false} SyncKeysCovers(pools: Pools, keys: seq<PoolKey>, accepts: AddOracle)
    ensures forall i :: 0 <= i < |keys| ==> keys[i].0 in SyncKeys(pools, keys, accepts).0.registered
    ensures forall i :: 0 <= i < |keys| ==>
              (keys[i] in SyncKeys(pools, keys, accepts).0.creds <==> keys[i] in pools.creds || accepts(keys[i]))
    decreases |keys|
  {
    if |keys| > 0 {
      var step := SyncStep(pools, keys[0], accepts);
      var rest := SyncKeys(step, keys[1..], accepts).0;
      assert SyncKeys(pools, keys, accepts).0 == rest;
      SyncKeysCovers(step, keys[1..], accepts);
      forall i | 0 <= i < |keys|
        ensures keys[i].0 in rest.registered
        ensures keys[i] in rest.creds <==> keys[i] in pools.creds || accepts(keys[i])
      {
        if i == 0 {
          assert keys[0] in rest.creds && keys[0] !in step.creds ==> accepts(keys[0]);
        } else {
          assert keys[i] == keys[1..][i - 1];
        }
      }
    }
  }

  /**
   * Imports each model's credential in turn (`sync_from_orchestrator`'s
   * loop over the orchestrator's models).
   */
  function SyncModels(pools: Pools, models: seq<OrchestratorModel>, accepts: AddOracle): (r: (Pools, nat))
    ensures pools.registered <= r.0.registered
    ensures forall i :: 0 <= i < |models| ==> KeyOf(models[i]).0 in r.0.registered
    ensures pools.creds.Keys <= r.0.creds.Keys
    ensures forall k :: k in pools.creds ==> r.0.creds[k] == pools.creds[k]
    ensures forall k :: k in r.0.creds && k !in pools.creds ==> accepts(k) && r.0.creds[k] == SyncedCredential(k)
    ensures forall i :: 0 <= i < |models| ==>
              (KeyOf(models[i]) in r.0.creds <==> KeyOf(models[i]) in pools.creds || accepts(KeyOf(models[i])))
    ensures r.1 == |r.0.creds| - |pools.creds|
  {
    SyncKeysCovers(pools, ModelKeys(models), accepts);
    SyncKeys(pools, ModelKeys(models), accepts)
  }

  /** Every credential the key import adds has one of the keys. */
  lemma {:induction false} SyncKeysAddsOnly(pools: Pools, keys: seq<PoolKey>, accepts: AddOracle, k: PoolKey)
    requires k in SyncKeys(pools, keys, accepts).0.creds && k !in pools.creds
    ensures k in keys
    decreases |keys|
  {
    var step := SyncStep(pools, keys[0], accepts);
    assert SyncKeys(pools, keys, accepts).0 == SyncKeys(step, keys[1..], accepts).0;
    if k !in step.creds {
      SyncKeysAddsOnly(step, keys[1..], accepts, k);
    }
  }

  /** Every credential the import adds belongs to one of the models. */
  lemma SyncAddsOnlyModelKeys(pools: Pools, models: seq<OrchestratorModel>, accepts: AddOracle, k: PoolKey)
    requires k in SyncModels(pools, models, accepts).0.creds && k !in pools.creds
    ensures exists i :: 0 <= i < |models| && KeyOf(models[i]) == k
  {
    var keys := ModelKeys(models);
    SyncModelsByKeys(pools, models, accepts);
    SyncKeysAddsOnly(pools, keys, accepts, k);
    var i :| 0 <= i < |keys| && keys[i] == k;
    assert KeyOf(models[i]) == k;
  }

  lemma SyncModelsByKeys(pools: Pools, models: seq<OrchestratorModel>, accepts: AddOracle)
    ensures SyncModels(pools, models, accepts) == SyncKeys(pools, ModelKeys(models), accepts)
  {
  }

  /**
   * `sync_from_orchestrator`: fails when there is no orchestrator, otherwise
   * imports every model's credential and returns the count added.
   */
  function SyncFromOrchestrator(pools: Pools, orchestrator: Option<seq<OrchestratorModel>>,
                                accepts: AddOracle): (r: Result<(Pools, nat), string>)
    ensures orchestrator.None? ==> r == Err("编排器未初始化")
    ensures r.Ok? ==> r.value.1 == |r.value.0.creds| - |pools.creds| && pools.creds.Keys <= r.value.0.creds.Keys
  {
    match orchestrator
    case None => Err("编排器未初始化")
    case Some(models) => Ok(SyncModels(pools, models, accepts))
  }

  /** Pools already holding, or refusing, every model's credential, with every provider registered. */
  predicate Settled(pools: Pools, models: seq<OrchestratorModel>, accepts: AddOracle)
  {
    forall i :: 0 <= i < |models| ==>
      KeyOf(models[i]).0 in pools.registered && (KeyOf(models[i]) in pools.creds || !accepts(KeyOf(models[i])))
  }

  /** Pools already holding, or refusing, the credential of every key, with every provider registered. */
  predicate SettledKeys(pools: Pools, keys: seq<PoolKey>, accepts: AddOracle)
  {
    forall i :: 0 <= i < |keys| ==> keys[i].0 in pools.registered && (keys[i] in pools.creds || !accepts(keys[i]))
  }

  /** Importing settled keys changes nothing and adds nothing. */
  lemma {:induction false} SyncKeysSettled(pools: Pools, keys: seq<PoolKey>, accepts: AddOracle)
    requires SettledKeys(pools, keys, accepts)
    ensures SyncKeys(pools, keys, accepts) == (pools, 0)
    decreases |keys|
  {
    if |keys| > 0 {
      assert pools.registered + {keys[0].0} == pools.registered;
      assert SettledKeys(pools, keys[1..], accepts) by {
        forall i | 0 <= i < |keys[1..]|
          ensures keys[1..][i].0 in pools.registered
          ensures keys[1..][i] in pools.creds || !accepts(keys[1..][i])
        {
          assert keys[1..][i] == keys[i + 1];
        }
      }
      SyncKeysSettled(pools, keys[1..], accepts);
    }
  }

  /** Importing into settled pools changes nothing and adds nothing. */
  lemma SyncSettled(pools: Pools, models: seq<OrchestratorModel>, accepts: AddOracle)
    requires Settled(pools, models, accepts)
    ensures SyncModels(pools, models, accepts) == (pools, 0)
  {
    SyncKeysSettled(pools, ModelKeys(models), accepts);
  }

  /** Importing the same models twice: the second run adds nothing and leaves the pools as they were. */
  lemma SyncIdempotent(pools: Pools, models: seq<OrchestratorModel>, accepts: AddOracle)
    ensures var first := SyncModels(pools, models, accepts).0;
            SyncModels(first, models, accepts) == (first, 0)
  {
    SyncSettled(SyncModels(pools, models, accepts).0, models, accepts);
  }
}

=== FILE: utils.dfy ===
/** Small helpers of the application: token masking and the loopback test. */
module AppUtils {
  import opened Wrappers

  /**
   * `mask_token`: tokens of at most 12 characters are hidden entirely;
   * longer ones keep their first 6 and last 4 characters around "****".
   * Lengths count characters, not bytes.
   */
  function MaskToken(token: string): (r: string)
    ensures |token| <= 12 ==> r == "****"
    ensures |token| > 12 ==> |r| == 14
    ensures |token| > 12 ==> r[..6] == token[..6] && r[6..10] == "****" && r[10..] == token[|token| - 4..]
  {
    if |token| <= 12 then "****"
    else token[..6] + "****" + token[|token| - 4..]
  }

  /** The mask reveals nothing of a token beyond its first 6 and last 4 characters. */
  lemma MaskRevealsOnlyEnds(a: string, b: string)
    requires |a| > 12 && |b| > 12
    requires a[..6] == b[..6] && a[|a| - 4..] == b[|b| - 4..]
    ensures MaskToken(a) == MaskToken(b)
  {
  }

  /** Short tokens all look alike. */
  lemma ShortTokensIndistinguishable(a: string, b: string)
    requires |a| <= 12 && |b| <= 12
    ensures MaskToken(a) == MaskToken(b)
  {
  }

  /** The examples of the source's unit test. */
  lemma MaskExamples()
    ensures MaskToken("short") == "****"
    ensures MaskToken("abcdefghijklmnop") == "abcdef****mnop"
  {
    assert "abcdefghijklmnop"[..6] == "abcdef";
    assert "abcdefghijklmnop"[12..] == "mnop";
  }

  /**
   * The outcome of parsing a host as an IP address: `None` when it is not an
   * address, otherwise whether the address is a loopback address.
   */
  type IpLoopback = string -> Option<bool>

  /** `is_loopback_host`: "localhost", or an IP address that is a loopback address. */
  function IsLoopbackHost(host: string, parseIp: IpLoopback): (r: bool)
    ensures host == "localhost" ==> r
    ensures host != "localhost" ==> (r <==> parseIp(host) == Some(true))
  {
    if host == "localhost" then true
    else match parseIp(host)
      case Some(loopback) => loopback
      case None => false
  }

  /** A host that is neither "localhost" nor an address is never loopback, whatever the parser. */
  lemma NonAddressNotLoopback(host: string, parseIp: IpLoopback)
    requires host != "localhost" && parseIp(host).None?
    ensures !IsLoopbackHost(host, parseIp)
  {
  }
}

=== FILE: voice_types.dfy ===
/**
 * The voice-input value types: 16-bit PCM audio and its little-endian byte
 * form, the Whisper model files, and the output mode.
 */
module VoiceTypes {
  import opened Encoding

  /** A signed 16-bit sample (`i16`). */
  newtype i16 = x: int | -32768 <= x < 32768

  /**
   * Audio as the recorder delivers it (the rate is a `u32`, the channel
   * count a `u16`). The floating-point duration is not modelled.
   */
  datatype AudioData = AudioData(samples: seq<i16>, sampleRate: nat, channels: nat)

  /** `i16::from_le_bytes([lo, hi])`: two's complement of `lo + 256 * hi`. */
  function SampleOfBytes(lo: byte, hi: byte): (r: i16)
    ensures (r as int) % 65536 == lo as int + 256 * hi as int
  {
    var u := lo as int + 256 * hi as int;
    if u >= 32768 then (u - 65536) as i16 else u as i16
  }

  /** `i16::to_le_bytes`: the low byte, then the high byte, of the two's complement. */
  function BytesOfSample(s: i16): (r: seq<byte>)
    ensures |r| == 2
    ensures r[0] as int + 256 * r[1] as int == (s as int) % 65536
  {
    var u := (s as int) % 65536;
    [(u % 256) as byte, (u / 256) as byte]
  }

  lemma SampleBytesRoundTrip(s: i16)
    ensures SampleOfBytes(BytesOfSample(s)[0], BytesOfSample(s)[1]) == s
  {
  }

  lemma BytesSampleRoundTrip(lo: byte, hi: byte)
    ensures BytesOfSample(SampleOfBytes(lo, hi)) == [lo, hi]
  {
  }

  /**
   * `from_pcm16le_bytes`: one sample per whole pair of bytes, a trailing odd
   * byte ignored; the rate and channel count are kept as given.
   */
  function FromPcm16le(bytes: seq<byte>, sampleRate: nat, channels: nat): (r: AudioData)
    ensures |r.samples| == |bytes| / 2
    ensures forall i :: 0 <= i < |r.samples| ==> r.samples[i] == SampleOfBytes(bytes[2 * i], bytes[2 * i + 1])
    ensures r.sampleRate == sampleRate && r.channels == channels
  {
    AudioData(seq(|bytes| / 2, i requires 0 <= i < |bytes| / 2 => SampleOfBytes(bytes[2 * i], bytes[2 * i + 1])),
              sampleRate, channels)
  }

  /** `to_pcm16le_bytes`: each sample as two little-endian bytes, in order. */
  function ToPcm16le(a: AudioData): (r: seq<byte>)
    ensures |r| == 2 * |a.samples|
    ensures forall i :: 0 <= i < |a.samples| ==>
              r[2 * i] == BytesOfSample(a.samples[i])[0] && r[2 * i + 1] == BytesOfSample(a.samples[i])[1]
  {
    var r := seq(2 * |a.samples|, k requires 0 <= k < 2 * |a.samples| => BytesOfSample(a.samples[k / 2])[k % 2]);
    forall i | 0 <= i < |a.samples|
      ensures r[2 * i] == BytesOfSample(a.samples[i])[0] && r[2 * i + 1] == BytesOfSample(a.samples[i])[1]
    {
      assert (2 * i) / 2 == i && (2 * i) % 2 == 0;
      assert (2 * i + 1) / 2 == i && (2 * i + 1) % 2 == 1;
    }
    r
  }

  /** Encoding then decoding gives the samples back. */
  lemma DecodeEncode(a: AudioData)
    ensures FromPcm16le(ToPcm16le(a), a.sampleRate, a.channels) == a
  {
    var bytes := ToPcm16le(a);
    var d := FromPcm16le(bytes, a.sampleRate, a.channels);
    forall i | 0 <= i < |a.samples| ensures d.samples[i] == a.samples[i] {
      SampleBytesRoundTrip(a.samples[i]);
    }
    assert d.samples == a.samples;
  }

  /** Decoding then encoding an even number of bytes gives the bytes back. */
  lemma EncodeDecode(bytes: seq<byte>, sampleRate: nat, channels: nat)
    requires |bytes| % 2 == 0
    ensures ToPcm16le(FromPcm16le(bytes, sampleRate, channels)) == bytes
  {
    var a := FromPcm16le(bytes, sampleRate, channels);
    var r := ToPcm16le(a);
    assert |r| == |bytes|;
    forall i | 0 <= i < |a.samples| ensures r[2 * i] == bytes[2 * i] && r[2 * i + 1] == bytes[2 * i + 1] {
      BytesSampleRoundTrip(bytes[2 * i], bytes[2 * i + 1]);
    }
    forall k | 0 <= k < |bytes| ensures r[k] == bytes[k] {
      var i := HalfOf(k);
    }
  }

  /** Every index is the first or the second of a pair. */
  lemma HalfOf(k: nat) returns (i: nat)
    ensures k == 2 * i || k == 2 * i + 1
  {
    i := k / 2;
  }

  /** An odd trailing byte is dropped. */
  lemma OddByteDropped(bytes: seq<byte>, last: byte, sampleRate: nat, channels: nat)
    requires |bytes| % 2 == 0
    ensures FromPcm16le(bytes + [last], sampleRate, channels) == FromPcm16le(bytes, sampleRate, channels)
  {
    var a := FromPcm16le(bytes + [last], sampleRate, channels);
    var b := FromPcm16le(bytes, sampleRate, channels);
    assert |a.samples| == |b.samples|;
    forall i | 0 <= i < |a.samples| ensures a.samples[i] == b.samples[i] {
      assert (bytes + [last])[2 * i] == bytes[2 * i];
      assert (bytes + [last])[2 * i + 1] == bytes[2 * i + 1];
    }
  }

  // ------------------------------------------------------------ engines and models

  /** The recognition engines. */
  datatype AsrEngine = WhisperLocal | Xunfei | Baidu | OpenAI

  datatype WhisperModel = Tiny | Base | Small | Medium | Large

  /** The serialised (snake_case) name of a model size. */
  function ModelSize(m: WhisperModel): string
  {
    match m
    case Tiny => "tiny"
    case Base => "base"
    case Small => "small"
    case Medium => "medium"
    case Large => "large"
  }

  /** `WhisperModel::filename`: "ggml-<size>.bin". */
  function ModelFilename(m: WhisperModel): (r: string)
    ensures r == "ggml-" + ModelSize(m) + ".bin"
  {
    match m
    case Tiny => "ggml-tiny.bin"
    case Base => "ggml-base.bin"
    case Small => "ggml-small.bin"
    case Medium => "ggml-medium.bin"
    case Large => "ggml-large.bin"
  }

  /** Every model size has its own file. */
  lemma FilenameInjective(m: WhisperModel, n: WhisperModel)
    requires ModelFilename(m) == ModelFilename(n)
    ensures m == n
  {
    var a := ModelFilename(m);
    var b := ModelFilename(n);
    assert a[5] == b[5];
    assert |a| == |b|;
  }

  datatype OutputMode = Type | Clipboard | Both

  /** `OutputMode::default()`. */
  const DefaultOutputMode: OutputMode := Type
}

=== FILE: wrappers.dfy ===
/** Option and Result, the two wrappers the Rust code returns everywhere. */
module Wrappers {

  datatype Option<+T> = None | Some(value: T)
  {
    predicate IsFailure() { None? }

    function PropagateFailure<U>(): Option<U>
      requires None?
    {
      None
    }

    function Extract(): T
      requires Some?
    {
      value
    }

    /** Rust's `unwrap_or`. */
    function UnwrapOr(default: T): T
    {
      match this
      case Some(v) => v
      case None => default
    }
  }

  datatype Result<+R, +E> = Ok(value: R) | Err(error: E)
  {
    predicate IsFailure() { Err? }

    function PropagateFailure<U>(): Result<U, E>
      requires Err?
    {
      Err(error)
    }

    function Extract(): R
      requires Ok?
    {
      value
    }
  }
}
